=== FILE: README.md ===
# OMPTR task-graph analysis and the simulator's arbitration, in Dafny

This project models the core of a toolchain for bounding the worst-case
response time (WCRT) of OpenMP task programs on a simulated multicore.

- **omptr** instruments a program. It splits every task into basic blocks,
  records task creation and `taskwait` edges, and writes the blocks as JSON.
- The **memory probe** in the simulator collects, per basic block and cache
  line, how often each access hit the local L1, a remote L1, the L2 or memory.
  It also records each block's execution cycles.
- The **analyzer** does several things:
  - rebuilds the task graph and computes reachability between blocks;
  - decides which accesses are shared between blocks that may run in parallel;
  - weights every block under four cache configurations;
  - bounds the WCRT with Graham's bound over the critical path and the volume.
- The **checker** compares an isolated run with a co-run.
- Three simulator components serve the partitioned configurations:
  - the **partitioned replacement policy** (per-partition way tables with an
    owner table);
  - the **set sequencer** (oldest-request ordering per address);
  - the **switch** arbitration rules (TDM request bus, oldest-request
    response bus, vnet and port order).

Every module is a set of pure functions over datatypes and sequences. A few
methods have loops: the DFS topological sort, the per-vertex reachability
search, the switch's drain loop and its wakeup order.

| file | module | models |
|---|---|---|
| common.dfy | Common | `Option`, `Result`, sums, division facts |
| graphs.dfy | Graphs | adjacency-list DAG, paths, descendants, reverse topological order |
| topo_sort.dfy | TopoSort | the topological sort the analyzer takes from its graph library |
| reachability.dfy | Reachability | `connected_components` as written, and the corrected fold |
| dag_parser.dfy | DagParser | `parse_dag`: sorting, grouping by task, edges, root and exit |
| omptr.dfy | Omptr | `omptr_init`, `omptr_task`, `omptr_task_wait` |
| omptr_json.dfy | OmptrJson | the block file `omptr_print` writes, and the reader |
| mem_stats.dfy | MemStats | the analyzer's `parse_mem_stats` |
| sharing.dfy | Sharing | `analyze_shared_access` |
| cost_model.dfy | CostModel | `populate_vertex_weight` |
| schedule.dfy | Schedule | `compute_WCRTs` |
| report.dfy | Report | `collect_statistics` counters |
| checker.dfy | Checker | the checker's parse, sharing, cost and verdict |
| mem_probe.dfy | MemProbe | `CustomMemProbe` aggregation, scopes and output |
| par_rp.dfy | ParRp | the `Par` replacement policy |
| set_sequencer.dfy | SetSequencer | `SetSequencer` |
| perfect_switch.dfy | PerfectSwitch | `PerfectSwitch` arbitration |

Assertions in the source that abort the program become `Err` values of a
`Result`. Index bounds that the source assumes but does not check (a
partition id below the number of partitions, a way below the number of ways)
are preconditions. Unsigned 64-bit counters are unbounded `nat`s.

## Model

| member | source | states |
|---|---|---|
| TopoSort.TopologicalSort | omptr/analyzer/analyzer.cc:166-174 | Returns an order iff the graph is acyclic. The order is a reverse topological order: every edge points to a vertex listed earlier. On a non-empty graph the order starts at the sink reached from vertex 0 by first out-edges and ends at the last tree root, the largest vertex no smaller vertex reaches; these pin both ends of the order. |
| TopoSort.StartAt | omptr/analyzer/analyzer.cc:166-174 | One step of the outer loop keeps the search invariant: an unfinished vertex starts a new tree, and a cycle found there means the graph is cyclic. |
| TopoSort.FirstSinkUnique | omptr/analyzer/analyzer.cc:170 | Following first out-edges from a vertex leads to at most one sink. |
| TopoSort.LastTreeRootUnique | omptr/analyzer/analyzer.cc:169 | There is at most one last tree root. |
| TopoSort.Visit | omptr/analyzer/analyzer.cc:166-174 | A DFS visit either keeps the search invariant and finishes its start vertex, or exhibits a cycle. |
| TopoSort.FinishOrderIsRevTopo | omptr/analyzer/analyzer.cc:168 | A finish order that lists every vertex once, each after all its successors, is a reverse topological order. |
| Reachability.Step | omptr/analyzer/analyzer.cc:37-85 | One iteration of the explicit-stack traversal. It keeps the state well formed and grows the discovered and done sets. It finalises at most the top vertex. An unfinished top vertex is finalised exactly when all its successors were already done. Every vertex it pushes was undiscovered, is now discovered, and is pushed once. It preserves the stack bookkeeping: stack entries are distinct, discovered and unfinished, and every finished vertex is discovered. So no vertex is finalised twice. |
| Reachability.StuckWhenTargetPending | omptr/analyzer/analyzer.cc:45-84 | When the top vertex has a successor that is discovered but not done and not on top, an iteration changes nothing. |
| Reachability.StuckForever | omptr/analyzer/analyzer.cc:37-85 | A state an iteration does not change never empties its stack, whatever the fuel. |
| Reachability.AsWrittenDiverges | omptr/analyzer/analyzer.cc:37-85 | On the acyclic graph 0→1, 0→2, 2→1 the traversal as written never terminates. |
| Reachability.ConnectedComponents | omptr/analyzer/analyzer.cc:15-86 | Folding over a reverse topological order gives every vertex its exact set of proper descendants, C(u) = ⋃ over successors v of ({v} ∪ C(v)). |
| Reachability.RowUnionIsSuccDesc | omptr/analyzer/analyzer.cc:60-72 | A vertex's row, the union of its successors and their rows, is the set of vertices reachable through its successors. |
| Reachability.RootAndExitConnectedMeaning | omptr/analyzer/analyzer.cc:232-241 | The analyzer's connectivity check holds iff every vertex other than the root is reachable from the root and every vertex other than the exit reaches the exit. |
| Reachability.Descendants | omptr/analyzer/analyzer.cc:88-102 | The per-vertex search returns exactly the vertices reachable from its start by a path of at least one edge. |
| Reachability.ConnectedComponentsSlow | omptr/analyzer/analyzer.cc:88-102 | The slow version aborts iff the graph has a cycle, since a search that meets a back edge fails its assertion. Otherwise row u marks exactly the vertices reachable from u other than u itself. |
| Reachability.MeetsBackEdge | omptr/analyzer/analyzer.hh:96-98 | The search from u meets a back edge iff it reaches a vertex, possibly u itself, that lies on a cycle. |
| Reachability.SlowAgreesOnDag | omptr/analyzer/analyzer.cc:15-102 | On an acyclic graph both versions compute the same map. |
| DagParser.SortBlocks | omptr/analyzer/analyzer.hh:63-69 | The records come out sorted by (task, node) and are a permutation of the input. |
| DagParser.GroupByTask | omptr/analyzer/analyzer.cc:124-138 | There are three outcomes. An empty input fails as `Empty`. A first task other than 0 fails as `FirstNotTask0`. Otherwise it succeeds iff task ids run 0, 1, … without a gap, and the groups then hold the records of each task in order. |
| DagParser.JoinEdgesSpec | omptr/analyzer/analyzer.cc:152-156 | Synchronisation edges succeed iff every waited-for task exists. Each adds an edge from that task's last block. |
| DagParser.BlockEdgesSpec | omptr/analyzer/analyzer.cc:141-157 | A block's edges are the control edge from its predecessor node, the creation edge to the created task's first block, and the synchronisation edges. It fails iff a reference is undefined. |
| DagParser.AllEdgesSpec | omptr/analyzer/analyzer.cc:140-158 | The edge list over all blocks is the union of the per-block edges. It fails iff some block has an undefined reference. |
| DagParser.AddEdge | omptr/analyzer/analyzer.cc:145 | Adding an edge grows the vertex set to cover both ends and adds exactly that edge. |
| DagParser.ParseDag | omptr/analyzer/analyzer.cc:104-177 | Grouping errors (`Empty`, `FirstNotTask0`, `NonContiguous`) come back exactly when grouping the sorted records fails. `UndefinedReference` comes back exactly when grouping succeeds and edge collection fails. `NotADag` comes back iff both succeed and the graph is cyclic. The result is `Ok` iff the graph is also acyclic, non-empty, its first-edge sink from vertex 0 is the exit and its last tree root is the root; every other acyclic case is `ShapeMismatch`. A result holds that graph, task 0's first and last blocks, and the task count. |
| DagParser.ShapeCheck | omptr/analyzer/analyzer.cc:167-170 | For the order the sort returns, "ends at the root and starts at the exit" holds iff the graph's last tree root is the root and its first-edge sink from vertex 0 is the exit. |
| DagParser.Build | omptr/analyzer/analyzer.cc:120-158 | Succeeds iff grouping and edge collection both succeed, and passes their errors through unchanged. A result holds the groups and the graph of exactly the collected edges. |
| DagParser.ParsedEdges | omptr/analyzer/analyzer.cc:140-158 | The parsed graph's edges are exactly the control, creation and synchronisation edges of the sorted records. |
| Omptr.Init | omptr/omptr.h:36-63 | The tracer starts valid, with both counters 0, every block entry set to task 0, node 0, no spawn and no waits, and every child list empty. |
| Omptr.Task | omptr/omptr.h:72-122 | This is the corrected operation: both bounds are checked before any write. It succeeds iff the next task id and both new block ids fit. On success the child's first block belongs to the new task, the continuation is the next node of the current task, and the current block records the child. Nothing else changes. |
| Omptr.TaskAsWrittenAgrees | omptr/omptr.h:72-122 | Whenever both new block ids fit in the table, the as-written order of writes and checks gives the same result as the corrected operation. |
| Omptr.AsWrittenOverrunsBlockTable | omptr/omptr.h:91-104 | With 9999 blocks used, the child's block id 10000 is written before any bound check, one past the table. The corrected operation reports `TooManyBlocks` instead. |
| Omptr.TaskWait | omptr/omptr.h:124-149 | It fails iff the block table is full. Otherwise the new block is the next node of the same task and waits for the current task's children, and the child list is cleared. |
| Omptr.TaskKeepsNumbering | omptr/omptr.h:72-122 | Spawning keeps every task's blocks numbered 0, 1, … by node. |
| Omptr.WaitKeepsNumbering | omptr/omptr.h:124-149 | A task wait keeps every task's blocks numbered 0, 1, … by node. |
| OmptrJson.ParseNatPrinted | omptr/omptr.h:151-167 | Reading back a printed natural number gives the number and the rest of the text. |
| OmptrJson.ParseIntPrinted | omptr/omptr.h:151-167 | Reading back a printed integer, negative or not, gives the integer and the rest of the text. |
| OmptrJson.ParseListPrinted | omptr/omptr.h:160-164 | The printed `waitFor` list reads back as the same list. |
| OmptrJson.ParseBlockPrinted | omptr/omptr.h:151-167 | One printed block object reads back as the record with the same id, task, node, created task, wait count and wait list. |
| OmptrJson.DecodePrint | omptr/omptr.h:169-189 | Decoding the whole printed file gives the records of blocks 0 through the block counter, in order. |
| MemStats.InsertRecord | omptr/analyzer/analyzer.cc:211-213 | Inserting into a block's address map keeps the keys increasing, adds exactly the record and adds exactly its line. |
| MemStats.IngestPrefix | omptr/analyzer/analyzer.cc:185-217 | Reading the trace succeeds iff the first block id is 0, each later id equals the previous one or exceeds it by exactly 1, and no line repeats within a block. Otherwise the error is `OutOfOrder` or `Duplicate`. A result holds exactly the trace's records. |
| MemStats.Ingest | omptr/analyzer/analyzer.cc:179-222 | Ingestion succeeds iff the prefix conditions hold and the number of metadata messages equals the number of blocks. Only the counts are compared, so a block may carry two metadata messages if another carries none. A result has as many cycle counts as address maps. |
| Sharing.ParallelFrom | omptr/analyzer/analyzer.cc:256-261 | Exactly the blocks from `v` on that are neither `u`, nor in `u`'s row, nor have `u` in their own row, in ascending order. |
| Sharing.ParallelMeaning | omptr/analyzer/analyzer.cc:256-261 | Two blocks are parallel iff they differ and neither reaches the other. |
| Sharing.Scan | omptr/analyzer/analyzer.cc:292-320 | It finds a listed block holding the line in a conflicting way: an instruction fetch, or a data access from another thread. It is `None` iff no listed block does. |
| Sharing.ClassifyAccess | omptr/analyzer/analyzer.cc:279-323 | One access ends shared iff it was shared or some parallel block holds its line in a conflicting way. Other records of the block are unchanged. A record of another block is newly marked only if that block is parallel and holds the same line. Shared flags only rise. |
| Sharing.ClassifyAll | omptr/analyzer/analyzer.cc:249-327 | It fails iff some examined block's records name another block or more than one thread. The error names the first such block. On success shared flags only rise. |
| Sharing.SharedComplete | omptr/analyzer/analyzer.cc:224-334 | Every record whose line a parallel block holds in a conflicting way ends shared. |
| Sharing.SharedSound | omptr/analyzer/analyzer.cc:224-334 | Every record that ends shared was shared already or has its line in a parallel block. |
| Sharing.SharedExact | omptr/analyzer/analyzer.cc:224-334 | When nothing starts shared and every line carries one ifetch flag across all blocks, a record ends shared iff some parallel block holds its line in a conflicting way. |
| Sharing.ClassifyIdempotent | omptr/analyzer/analyzer.cc:224-334 | Classifying the classified maps again gives them back unchanged. |
| Sharing.AnalyzeSharedAccess | omptr/analyzer/analyzer.cc:224-248 | It fails as `SizeMismatch` iff the statistics do not have one map per vertex. It fails as `NotConnected` iff some vertex is not reachable from the root or does not reach the exit. Otherwise it classifies with the graph's descendant map. |
| CostModel.WorstCaseLatencies | omptr/analyzer/analyzer.cc:345-360 | L1 hits cost 1, and an LLC hit never costs more than a memory access. |
| CostModel.RecordCostOrdered | omptr/analyzer/analyzer.cc:369-402 | One record's cost is ordered SHARE ≥ COLOR ≥ COLOR_PRIVATE_INST ≥ PAR ≥ its access count. |
| CostModel.BlockCostOrdered | omptr/analyzer/analyzer.cc:362-405 | The same order holds for a whole block. |
| CostModel.ShareCostIsFlat | omptr/analyzer/analyzer.cc:374-376 | Under SHARE every access costs a memory access. |
| CostModel.UnsharedCostsAgree | omptr/analyzer/analyzer.cc:377-402 | In a block without shared records, COLOR, COLOR_PRIVATE_INST and PAR cost the same. |
| CostModel.BlockWeights | omptr/analyzer/analyzer.cc:362-410 | A block's weight in each configuration is its execution cycles plus its access cost there. |
| CostModel.PopulateVertexWeight | omptr/analyzer/analyzer.cc:336-412 | One weight row per block, with the weights of `BlockWeights`. |
| Schedule.LongestPaths | omptr/analyzer/analyzer.cc:423-429 | The relaxation over reverse topological order satisfies the longest-path equations from the given start values. |
| Schedule.CriticalPathIsHeaviestPath | omptr/analyzer/analyzer.cc:423-431 | This is the corrected critical path, where a vertex starts from its own weight. It is the weight of the heaviest path from the vertex, and that path exists. |
| Schedule.AsWrittenDropsLastVertex | omptr/analyzer/analyzer.cc:423-431 | As written, the path starts at 0, so on the chain 10→5→10 the critical path is 15 although the heaviest path weighs 25. |
| Schedule.CriticalPathWithinVolume | omptr/analyzer/analyzer.cc:434-440 | The critical path never exceeds the volume. |
| Schedule.GrahamBound | omptr/analyzer/analyzer.cc:442-444 | The bound lies between the critical path and the volume. It equals the volume on one core and is at least volume / cores. |
| Schedule.GrahamBoundAntitone | omptr/analyzer/analyzer.cc:442-444 | More cores never raise the bound. |
| Schedule.ComputeWcrts | omptr/analyzer/analyzer.cc:414-447 | It fails as `Cyclic` iff the graph is cyclic. It succeeds iff the graph is acyclic, there is a core, and no configuration's critical path is 0. A `ZeroCriticalPath` error names the first such configuration. On success each configuration's critical path is the heaviest path from vertex 0, its volume is the sum of its weights, and its bound is the Graham bound. A flag selects the as-written or the corrected path weight. |
| Report.BucketOf | omptr/analyzer/analyzer.cc:460-487 | The report classifies each record by shared or private, instruction or data, and data region. |
| Report.BucketsPartition | omptr/analyzer/analyzer.cc:460-491 | The buckets' counts add up to the total number of accesses. |
| Report.CollectStatistics | omptr/analyzer/analyzer.cc:449-533 | Every counter equals the accesses of its bucket over all blocks. |
| Checker.ParseMemStats | omptr/analyzer/checker.cc:6-45 | Reading succeeds iff the first block id is 0 and each later id equals the previous one or exceeds it by exactly 1. The result merges each block's records by line. |
| Checker.MarkShared | omptr/analyzer/checker.cc:47-59 | It fails on an empty trace. A block-0 record is marked shared iff another block touches its line, and the other blocks are unchanged. |
| Checker.ComputeWcrt | omptr/analyzer/checker.cc:61-102 | It fails as `NoStats` iff there are no statistics and as `RemoteHit` iff block 0 has a remote L1 hit. Otherwise it gives block 0's cost under the partitioned or unpartitioned latency. |
| Checker.PartitionNeverWorse | omptr/analyzer/checker.cc:61-102 | The partitioned cost never exceeds the unpartitioned cost. |
| Checker.CompareTraces | omptr/analyzer/checker.cc:114-135 | It reports nothing iff both runs touch the same lines with the same counts. A different number of lines is reported as such. |
| Checker.IsolationPass | omptr/analyzer/checker.cc:137-170 | The pass's flags say whether every private line and every shared line keep their isolated counts, and whether such lines exist. |
| Checker.Check | omptr/analyzer/checker.cc:104-184 | Each verdict holds exactly when its condition does. An empty run gives an empty trace. Differing traces, a missing private line and a missing shared line come next. Otherwise isolation and the partitioning flag decide between pass, unexpected pass, unexpected violation and failure. |
| MemProbe.CastRegion | src/mem/ruby/system/CustomMemProbe.hh:28-32 | Each probe region maps to the analyzer region of the same name. |
| MemProbe.GetDataRegion | src/mem/ruby/system/CustomMemProbe.cc:78-96 | An address is stack iff it lies between the stack limit and the stack base. It is heap iff it lies from the program break up to the stack limit. Otherwise it is global. |
| MemProbe.Record | src/mem/ruby/system/CustomMemProbe.hh:65-80 | Exactly the counter for the hit status goes up by one, and the total goes up by one. |
| MemProbe.Upsert | src/mem/ruby/system/CustomMemProbe.cc:142-196 | Updating the key-ordered map adds the key to its key set. It keeps the map ordered and one entry per line. |
| MemProbe.UpsertLookup | src/mem/ruby/system/CustomMemProbe.cc:142-196 | After an update the key's entry is the old or blank entry with the update applied, and other keys are unchanged. |
| MemProbe.Aggregate | src/mem/ruby/system/CustomMemProbe.cc:142-227 | The aggregated map is ordered by (block, address), one entry per key. |
| MemProbe.AggregateEntry | src/mem/ruby/system/CustomMemProbe.cc:142-227 | Each key's entry is the closed form over the events: the creator's fields, per-status hit counts, and the last recorded cycles. |
| MemProbe.EntryCountsAccesses | src/mem/ruby/system/CustomMemProbe.cc:142-196 | An entry's counter total is the number of accesses to its key. |
| MemProbe.AggregateNoNegativeBlock | src/mem/ruby/system/CustomMemProbe.cc:142-227 | When every event that lands in the map names a block numbered from 0, so does every entry of the aggregated map. |
| MemProbe.ReplayNoNegativeBlock | src/mem/ruby/system/CustomMemProbe.cc:41-75 | When every started block is numbered from 0, and with the traffic generator every thread id is at least -1, a run only sends events on blocks numbered from 0. Its map then satisfies the precondition of `CloseStreams`. |
| MemProbe.CloseStreams | src/mem/ruby/system/CustomMemProbe.cc:230-252 | One message per entry, in key order. So block ids never decrease and no line repeats within a block. |
| MemProbe.EndScope | src/mem/ruby/system/CustomMemProbe.cc:58-75 | Ending a scope fails iff the thread has no open block or that block already ended. Otherwise the block is marked done and the thread leaves it. |
| MemProbe.EachBlockEndsOnce | src/mem/ruby/system/CustomMemProbe.cc:41-75 | Over a run, blocks end at most once each, and the done set is exactly the ended blocks. |
| MemProbe.EndedBlockHasMetadata | src/mem/ruby/system/CustomMemProbe.cc:199-227 | Every ended block has a metadata entry in the aggregated map. |
| ParRp.MakePar | src/mem/cache/replacement_policies/par_rp.cc:34-39 | Construction succeeds iff the partition sizes add up to the number of ways. |
| ParRp.FreshTables | src/mem/cache/replacement_policies/par_rp.cc:359-377 | New tables satisfy the link invariant, and no partition has an entry in use. |
| ParRp.InstantiateEntry | src/mem/cache/replacement_policies/par_rp.cc:355-384 | The way is the counter modulo the number of ways, and the counter goes up by one. |
| ParRp.InstancesShareBySet | src/mem/cache/replacement_policies/par_rp.cc:355-384 | Entry i gets way i mod numWay and the tables of set i / numWay, so the ways of one set share tables and different sets never do. |
| ParRp.GetReplacementData | src/mem/cache/replacement_policies/par_rp.hh:94-103 | The partition's entry naming the way, present iff some entry names it. |
| ParRp.GetOwners | src/mem/cache/replacement_policies/par_rp.hh:105-113 | Exactly the partitions whose bit for the way is set, ascending. |
| ParRp.Touch | src/mem/cache/replacement_policies/par_rp.cc:150-201 | On a held way nothing changes. Otherwise it fails iff the partition has no entry to spare. On success the way is written into the partition's first vacant entry and its owner bit for the way is set. No other entry, owner bit or partition changes, and the link invariant holds. |
| ParRp.Fill | src/mem/cache/replacement_policies/par_rp.cc:183-195 | It fails iff the partition has no vacant entry. Otherwise the way goes into the first vacant entry and the owner bit is set, and nothing else changes. |
| ParRp.Reset | src/mem/cache/replacement_policies/par_rp.cc:203-239 | It succeeds iff no partition holds the way and the partition has a vacant entry. The partition then becomes the way's only owner. The way is written into its first vacant entry and the owner bit is set; no other entry, owner bit or partition changes. |
| ParRp.Invalidate | src/mem/cache/replacement_policies/par_rp.cc:118-148 | It succeeds iff the partition holds the way. The first entry naming the way becomes vacant and the owner bit is cleared. No other entry, owner bit or partition changes, so the partition neither holds nor names the way any more. |
| ParRp.InvalidateUnowned | src/mem/cache/replacement_policies/par_rp.cc:42-62 | The check passes iff no partition holds the way. It fails as `StillOwned` otherwise. |
| ParRp.ParAvail | src/mem/cache/replacement_policies/par_rp.cc:305-328 | The in-use count never exceeds the partition. The answer is whether a vacant entry exists. |
| ParRp.ParHit | src/mem/cache/replacement_policies/par_rp.cc:330-347 | True iff the partition's table names the way. The source reads the owner bit, which the link invariant keeps equal. |
| ParRp.GetVictim | src/mem/cache/replacement_policies/par_rp.cc:76-116 | The first candidate whose way no partition holds. It fails iff every candidate's way is held. |
| ParRp.GetVictimIn | src/mem/cache/replacement_policies/par_rp.cc:244-303 | It succeeds iff there are candidates and they hold exactly as many of the partition's ways as it has entries. The victim is the first candidate carrying the way the inner policy picks among those held, and the partition owns that way. |
| SetSequencer.AddPendingRequest | src/mem/ruby/structures/SetSequencer.hh:25-34 | The ID joins the address's pending set, which is created if absent. Other addresses are unchanged. |
| SetSequencer.GetOldestReq | src/mem/ruby/structures/SetSequencer.hh:36-44 | The smallest pending ID, or 0 when none is pending. |
| SetSequencer.CanRetire | src/mem/ruby/structures/SetSequencer.hh:46-54 | True iff nothing is pending on the address or the ID is its smallest pending ID. |
| SetSequencer.FinishRequest | src/mem/ruby/structures/SetSequencer.hh:56-64 | It succeeds iff the address has pending IDs and the ID may retire. The ID leaves the set, an emptied set is erased, and other addresses are unchanged. |
| SetSequencer.AddIdempotent | src/mem/ruby/structures/SetSequencer.hh:25-34 | Re-adding a pending ID changes nothing. |
| SetSequencer.AddThenFinish | src/mem/ruby/structures/SetSequencer.hh:25-64 | On an idle address, adding and then finishing a request restores the sequencer. |
| SetSequencer.FinishThenAdd | src/mem/ruby/structures/SetSequencer.hh:25-64 | Finishing the oldest request and adding it again restores the sequencer. |
| PerfectSwitch.InsertByPriority | src/mem/ruby/network/simple/PerfectSwitch.cc:120-124 | The vnet's list stays sorted by routing priority and gains exactly the buffer. |
| PerfectSwitch.GroupsFlatten | src/mem/ruby/network/simple/PerfectSwitch.cc:126-134 | Concatenating the groups gives the list back in order. |
| PerfectSwitch.GroupsShape | src/mem/ruby/network/simple/PerfectSwitch.cc:126-134 | Group 0 holds the minimum-priority buffers. Every later buffer is alone in its group, even when priorities repeat, because `cur_prio` is never updated. |
| PerfectSwitch.UpdatePriorityGroups | src/mem/ruby/network/simple/PerfectSwitch.cc:113-135 | The tables grow to cover the vnet, whose list gains the buffer and is regrouped. Group 0 is the leading run of buffers with the first (minimum) priority, and every later buffer forms a group of its own. Other vnets are unchanged. |
| PerfectSwitch.Regroup | src/mem/ruby/network/simple/PerfectSwitch.cc:124-135 | The groups of a sorted list concatenate back to the list, with the leading minimum-priority run as group 0 and every later buffer alone. |
| PerfectSwitch.StartPort | src/mem/ruby/network/simple/PerfectSwitch.cc:176-187 | The port with the strictly smallest ready time below MaxTick, the first of equals, or port 0 when none is below MaxTick. |
| PerfectSwitch.RotateSplice | src/mem/ruby/network/simple/PerfectSwitch.cc:192-197 | Visiting (i + start) mod n for i < n is the suffix from `start` followed by the prefix before it. |
| PerfectSwitch.RotateVisitsEachOnce | src/mem/ruby/network/simple/PerfectSwitch.cc:192-197 | Every port of a group is visited exactly once. |
| PerfectSwitch.GroupVisits | src/mem/ruby/network/simple/PerfectSwitch.cc:176-197 | A group is visited once per port, starting at the port with the oldest ready message: the ports from that start to the end, then those before it. |
| PerfectSwitch.AllGroupVisits | src/mem/ruby/network/simple/PerfectSwitch.cc:169-199 | The groups are visited in order: group k's visits occupy the positions of group k's ports in the flattened list. |
| PerfectSwitch.VnetVisits | src/mem/ruby/network/simple/PerfectSwitch.cc:169-199 | No visits when nothing is pending. Otherwise the visits are exactly the vnet's buffers, group by group, each group in its rotated order. |
| PerfectSwitch.DrainStops | src/mem/ruby/network/simple/PerfectSwitch.cc:212-247 | The drain stops at a head that is not ready or has an output link without a free slot. |
| PerfectSwitch.DrainUsesSlots | src/mem/ruby/network/simple/PerfectSwitch.cc:226-288 | Each dequeued message takes one slot per naming on each of its output links. |
| PerfectSwitch.OperateMessageBuffer | src/mem/ruby/network/simple/PerfectSwitch.cc:202-290 | The loop computes the reference drain: a prefix of the queue is sent, and the pending count drops by exactly the number sent. Each sent message was ready and found a free slot on every output link after the earlier messages took theirs. The loop stops at a head that is not ready or lacks a slot. |
| PerfectSwitch.Drain | src/mem/ruby/network/simple/PerfectSwitch.cc:212-247 | Each message the reference drain sends was ready by now and, counting the slots the messages before it took, found a free slot on every one of its output links. |
| PerfectSwitch.SendOnce | src/mem/ruby/network/simple/PerfectSwitch.cc:427-522 | Exactly one message is sent iff the drain would send one. It fails otherwise. |
| PerfectSwitch.Wakeup | src/mem/ruby/network/simple/PerfectSwitch.cc:293-325 | The vnets are visited in descending order. On the wakeup where the counter passes 128 the order is ascending and the counter resets to 0. |
| PerfectSwitch.OrderVisitsEachOnce | src/mem/ruby/network/simple/PerfectSwitch.cc:309-324 | Either order visits every vnet exactly once. |
| PerfectSwitch.ArbiterOf | src/mem/ruby/network/simple/PerfectSwitch.cc:313-323 | Switch 0 arbitrates vnet 0 by TDM and vnet 2 by oldest request. |
| PerfectSwitch.IsStartOfSlot | src/mem/ruby/network/simple/PerfectSwitch.cc:351-354 | A cycle starts a slot iff it is a whole multiple of the width. |
| PerfectSwitch.NextSlotStartCycle | src/mem/ruby/network/simple/PerfectSwitch.cc:356-360 | The next slot start lies after the cycle and at most one width later. |
| PerfectSwitch.NextSlotStartIsLeast | src/mem/ruby/network/simple/PerfectSwitch.cc:351-360 | It is a slot start, and no cycle strictly between the current one and it is a slot start. |
| PerfectSwitch.FirstReadyIsNearest | src/mem/ruby/network/simple/PerfectSwitch.cc:381-391 | The round-robin scan finds a port iff some port is ready. The port found is the ready port fewest steps from the owner. |
| PerfectSwitch.OperateTdm | src/mem/ruby/network/simple/PerfectSwitch.cc:363-422 | The arbitration decision. A port is picked to send only at a slot start on a free bus. The picked port is the nearest ready port from the owner, and ownership passes to the port after it. Otherwise ownership stays. A free bus with a ready port is booked until the next slot start. |
| PerfectSwitch.OperateTdmSend | src/mem/ruby/network/simple/PerfectSwitch.cc:363-422 | The arbitration followed by its send. It fails as `NothingSent` exactly when a port is picked and its head finds some output link full; this is the failed sanity check after the send. Otherwise the arbitration's result stands. Without a pick, queues, slots and the pending count are unchanged. With a pick, that port's head message leaves its queue and takes one slot per naming on each of its links, and the pending count drops by one. |
| PerfectSwitch.MinReady | src/mem/ruby/network/simple/PerfectSwitch.cc:548-564 | The smallest request ID among a queue's ready responses, present iff one is ready. |
| PerfectSwitch.SelectOldest | src/mem/ruby/network/simple/PerfectSwitch.cc:541-569 | This is the lowest ready request ID over all ports. Its port is the first port holding a ready response with that ID. It is present iff some response is ready. |
| PerfectSwitch.OperateOa | src/mem/ruby/network/simple/PerfectSwitch.cc:525-569 | The arbitration decision. A busy bus grants nothing. A free bus grants the selected response and is then busy until cycle + slot width. |
| PerfectSwitch.SendGranted | src/mem/ruby/network/simple/PerfectSwitch.cc:571-593 | The send on the granted port. A failed rotation is reported as `NotRotated` with its cause. After a rotation, it fails iff the head is not ready or some output link is full. On success the sent response is the rotated head; it carries the granted ID and was ready. The rest of the queue is the rotated queue after its head, and together they keep the queue's messages. One slot per naming is taken on each link, and the pending count drops by one. |
| PerfectSwitch.OperateOaSend | src/mem/ruby/network/simple/PerfectSwitch.cc:525-599 | The arbitration followed by its send. Without a grant nothing changes. With a grant, the send's failure is the result; on success the granted port's queue becomes what the send leaves, and slots and the pending count follow the send. |
| PerfectSwitch.BringToFront | src/mem/ruby/network/simple/PerfectSwitch.cc:571-590 | A success has the granted ID at the front and keeps the queue's messages. |
| PerfectSwitch.BringToFrontFinds | src/mem/ruby/network/simple/PerfectSwitch.cc:571-590 | When the ID sits behind ready heads, the loop finds it and the queue is rotated to start at it. |

## Left out

- JSON parsing beyond the block layout omptr prints, and protobuf streams. File opening, reading and writing, CSV and `printf` output, and the command-line `main`s of the analyzer and checker are out too. All of this is I/O. Records enter the model as sequences.
- The graph library is not used. `TopoSort` stands in for its topological sort, and the graph is an adjacency list with out-edges in insertion order.
- Floating point. The Graham bound's `double` is integer division, which the truncating cast yields for these non-negative values. Report percentages, the progress bar and its clock, and the probe's not-idle fraction times cycles are left out.
- The atomic captures in omptr. The counters increment sequentially; concurrency is out of scope.
- 64-bit wrap-around of `size_t`, `uint64_t` and tick arithmetic. Counters and cycles are unbounded, so `NextSlotStartCycle` does not wrap near 2^64.
- The probe's raw-trace mode, its CPU and statistics objects, and `check()`. Execution cycles enter as parameters of block-end events.
- The replacement policy wrapped by `Par`, with its per-entry data, shared-pointer ownership and entry allocation. Its victim choice is the `pick` parameter of `ParRp.GetVictimIn`. `touch` and `reset` without a partition only abort, so they are not modelled.
- ParRp.Touch, ParRp.Reset, ParRp.Invalidate: a partition id below the number of partitions is a precondition rather than an error. The source asserts it; a negative id is undefined behaviour.
- ParRp.GetVictim, ParRp.GetVictimIn: candidates are way indices of one set. The source's check that all candidates share the set's tables holds by construction here.
- `std::sort` does not fix the order of equal routing priorities. `PerfectSwitch.InsertByPriority` puts a new buffer after those of equal priority.
- Message cloning, enqueue latency, `route()`, `scheduleEvent`, `DPRINTF` and the retiming done by `delayHead`. `PerfectSwitch.BringToFront` moves a delayed head to the back without changing its time. Routes are given per message as output-link lists. For the response bus, the route of the granted response is the `links` parameter of `PerfectSwitch.SendGranted` and `PerfectSwitch.OperateOaSend`.
- The TDM bus's rewrite of a request's destination to its requestor (PerfectSwitch.cc:398-406) only feeds `route()`, which is not modelled.
- Sharing.SharedExact: when one line is an instruction fetch in one block and data in a parallel block, the source marks the partner shared using the scanning record's flag (analyzer.cc:309-316). The exact characterisation is therefore proved only when every line has one ifetch flag across blocks. Completeness and soundness (`Sharing.SharedComplete`, `Sharing.SharedSound`) hold without that condition.
- PerfectSwitch.OperateMessageBuffer: the pending message count is an `int` and is not checked for underflow.
- Schedule.ComputeWcrts: `Err(NoCores)` stands in for dividing the volume by a core count of zero or less (analyzer.cc:443-444), which is undefined behaviour or a meaningless bound in the source rather than a reported error.
- DagParser.ParseDag: `Err(UndefinedReference)` stands in for indexing `basic_blocks_2d` out of range (analyzer.cc:144, 149, 154), which is undefined behaviour in the source rather than a reported error. A program with no edges builds an empty graph; the source then reads `back()` of an empty order, and the model reports `ShapeMismatch` instead.
- The traffic generator, simulator configuration scripts and benchmark programs.
- The SNOOPING_BUS constructor and `init` only size and zero counters.

## Findings

| source | as written | input that shows it | evidently intended | confidence | as-written member | corrected member |
|---|---|---|---|---|---|---|
| omptr/analyzer/analyzer.cc:37-85 | A vertex is finalised only when all its successors are done. A successor that is discovered but not done, and not on top of the stack, is never pushed again. | The acyclic graph 0→1, 0→2, 2→1, with 0's out-edges in the order 1, 2. | Every vertex's row is the union of its successors and their rows, computed for all vertices. | high, not executed | Reachability.AsWrittenDiverges | Reachability.ConnectedComponents |
| omptr/analyzer/analyzer.cc:423-431 | Longest paths start at 0 and add a vertex's weight only when it has an out-edge, so the last vertex of a path is never counted. | The chain 10→5→10: the critical path is 15. | The heaviest path's weight, 25, counting every vertex on it. | medium, not executed | Schedule.AsWrittenDropsLastVertex | Schedule.CriticalPathIsHeaviestPath |
| omptr/omptr.h:91-104 | The child's block id is written into the block table before any bound check. Only the continuation's id is checked. | `omptr_task` when the block counter is 9999: block 10000 is written. | Check both new block ids before writing. | high, not executed | Omptr.AsWrittenOverrunsBlockTable | Omptr.Task |

=== FILE: checker.dfy ===
/**
 * The isolation checker (omptr/analyzer/checker.cc).
 *
 * The checker reads two traces of the same program: one recorded with the
 * core under analysis running alone and one recorded with co-runners.
 * Block `c` of a trace holds the lines core `c` touched, and block 0 is the
 * core under analysis. Unlike the analyzer, repeated messages for a line
 * are added up instead of rejected, and no message is singled out as
 * metadata. A line of core 0 is shared when another core touched it too.
 * The verdict then compares the two runs line by line. Shared lines must
 * have the same number of memory accesses. Private lines must have the
 * same numbers of L1 and L2 hits. Reading the protobuf stream and printing
 * are not modelled. An `assert` or `exit` of the source becomes a verdict
 * or error value.
 */
module Checker {
  import opened Common
  import opened MemStats
  import opened CostModel

  // -----------------------------------------------------------------------
  // parse_mem_stats (checker.cc:6-45)

  const NoCounts := Counters(0, 0, 0, 0)

  function Plus(a: Counters, b: Counters): (c: Counters)
    ensures c.Total() == a.Total() + b.Total()
    ensures c.localL1 == a.localL1 + b.localL1 && c.remoteL1 == a.remoteL1 + b.remoteL1
    ensures c.l2 == a.l2 + b.l2 && c.mem == a.mem + b.mem
  {
    Counters(a.localL1 + b.localL1, a.remoteL1 + b.remoteL1, a.l2 + b.l2, a.mem + b.mem)
  }

  /** The lines the messages of block `b` name. */
  function LinesOf(msgs: seq<TraceMsg>, b: nat): set<nat>
  {
    set j | 0 <= j < |msgs| && msgs[j].bbId == b :: msgs[j].lineAddress
  }

  /** The counters of every message of block `b` for `line`, added up. */
  function MsgCounts(msgs: seq<TraceMsg>, b: nat, line: nat): Counters
  {
    if msgs == [] then NoCounts
    else
      var m := msgs[|msgs| - 1];
      var c := MsgCounts(msgs[..|msgs| - 1], b, line);
      if m.bbId == b && m.lineAddress == line then Plus(c, m.counts) else c
  }

  /** Block count, every message's block present, and every map ordered by line. */
  ghost predicate MergedShape(msgs: seq<TraceMsg>, maps: seq<AddrMap>)
  {
    && |maps| == NumBlocks(msgs)
    && (forall j | 0 <= j < |msgs| :: msgs[j].bbId < |maps|)
    && (forall b | 0 <= b < |maps| :: KeysIncreasing(maps[b]))
  }

  /** Each block's map holds exactly the lines its messages name. */
  ghost predicate MergedKeys(msgs: seq<TraceMsg>, maps: seq<AddrMap>)
  {
    forall b | 0 <= b < |maps| :: Keys(maps[b]) == LinesOf(msgs, b)
  }

  /** Each record carries its block, is not yet shared, and holds the sum of its line's counters. */
  ghost predicate MergedCounts(msgs: seq<TraceMsg>, maps: seq<AddrMap>)
  {
    forall b, k | 0 <= b < |maps| && 0 <= k < |maps[b]| ::
      maps[b][k].bbId == b && !maps[b][k].isShared
      && maps[b][k].counts == MsgCounts(msgs, b, maps[b][k].lineAddress)
  }

  ghost predicate Merged(msgs: seq<TraceMsg>, maps: seq<AddrMap>)
  {
    MergedShape(msgs, maps) && MergedKeys(msgs, maps) && MergedCounts(msgs, maps)
  }

  /** Adds `c` into the counters of the entry at `pos`. */
  function Accumulate(m: AddrMap, pos: nat, c: Counters): (r: AddrMap)
    requires pos < |m|
    ensures |r| == |m| && r[pos].counts == Plus(m[pos].counts, c)
    ensures forall k | 0 <= k < |m| && k != pos :: r[k] == m[k]
    ensures forall k | 0 <= k < |m| :: r[k] == m[k].(counts := r[k].counts)
  {
    m[pos := m[pos].(counts := Plus(m[pos].counts, c))]
  }

  /** Merges a message into its block's map: counters added to its line's entry, or a new entry. */
  function MergeInto(m: AddrMap, msg: TraceMsg): (r: AddrMap)
    requires KeysIncreasing(m)
    ensures KeysIncreasing(r) && Keys(r) == Keys(m) + {msg.lineAddress}
  {
    match Find(m, msg.lineAddress)
    case Some(pos) =>
      var r := Accumulate(m, pos, msg.counts);
      assert forall k | 0 <= k < |m| :: r[k].lineAddress == m[k].lineAddress;
      assert Keys(r) == Keys(m);
      r
    case None => InsertRecord(m, ToRecord(msg))
  }

  /** One iteration of the read loop: open the next block if named, then merge the message into its block. */
  function MergeStep(maps: seq<AddrMap>, msg: TraceMsg): (r: Result<seq<AddrMap>, nat>)
    requires forall b | 0 <= b < |maps| :: KeysIncreasing(maps[b])
  {
    var maps' := if msg.bbId == |maps| then maps + [[]] else maps;
    if msg.bbId != |maps'| - 1 then Err(msg.bbId)
    else Ok(maps'[msg.bbId := MergeInto(maps'[msg.bbId], msg)])
  }

  /**
   * parse_mem_stats: accepted exactly when block ids start at 0 and never
   * skip or go back; then every block's map holds exactly its lines, each
   * with the sum of its messages' counters.
   */
  function ParseMemStats(msgs: seq<TraceMsg>): (r: Result<seq<AddrMap>, nat>)
    ensures r.Ok? <==> BlocksInOrder(msgs)
    ensures r.Ok? ==> Merged(msgs, r.value)
  {
    if msgs == [] then Ok([])
    else
      var prefix := msgs[..|msgs| - 1];
      var m := msgs[|msgs| - 1];
      assert msgs == prefix + [m];
      var prev := ParseMemStats(prefix);
      if prev.Err? then
        PrefixConditions(msgs);
        prev
      else
        MergeOrder(prefix, prev.value, m);
        var r := MergeStep(prev.value, m);
        if r.Ok? then
          MergeContent(prefix, prev.value, m);
          r
        else
          r
  }

  lemma {:induction false} MsgCountsAbsent(msgs: seq<TraceMsg>, b: nat, line: nat)
    requires line !in LinesOf(msgs, b)
    ensures MsgCounts(msgs, b, line) == NoCounts
    decreases |msgs|
  {
    if msgs != [] {
      var p := msgs[..|msgs| - 1];
      assert forall j | 0 <= j < |p| :: p[j] == msgs[j];
      assert LinesOf(p, b) <= LinesOf(msgs, b);
      MsgCountsAbsent(p, b, line);
      assert msgs[|msgs| - 1].bbId == b ==> msgs[|msgs| - 1].lineAddress in LinesOf(msgs, b);
    }
  }

  lemma LinesOfSnoc(prefix: seq<TraceMsg>, m: TraceMsg, b: nat)
    ensures LinesOf(prefix + [m], b) == LinesOf(prefix, b) + (if m.bbId == b then {m.lineAddress} else {})
  {
    var msgs := prefix + [m];
    assert forall j | 0 <= j < |prefix| :: msgs[j] == prefix[j];
    assert msgs[|prefix|] == m;
    forall l | l in LinesOf(msgs, b)
      ensures l in LinesOf(prefix, b) + (if m.bbId == b then {m.lineAddress} else {})
    {
      var j :| 0 <= j < |msgs| && msgs[j].bbId == b && msgs[j].lineAddress == l;
      if j < |prefix| {
        assert prefix[j].lineAddress == l;
      }
    }
  }

  lemma MsgCountsSnoc(prefix: seq<TraceMsg>, m: TraceMsg, b: nat, line: nat)
    ensures MsgCounts(prefix + [m], b, line)
      == if m.bbId == b && m.lineAddress == line then Plus(MsgCounts(prefix, b, line), m.counts)
         else MsgCounts(prefix, b, line)
  {
    assert (prefix + [m])[..|prefix|] == prefix;
  }

  /** Block ids in order never decrease, so every one is at most the last. */
  lemma {:induction false} InOrderBelowLast(msgs: seq<TraceMsg>)
    requires BlocksInOrder(msgs)
    ensures forall j | 0 <= j < |msgs| :: msgs[j].bbId < NumBlocks(msgs)
    decreases |msgs|
  {
    if msgs != [] {
      var p := msgs[..|msgs| - 1];
      assert forall j | 0 <= j < |p| :: p[j] == msgs[j];
      InOrderBelowLast(p);
    }
  }

  lemma MergeOrder(prefix: seq<TraceMsg>, maps: seq<AddrMap>, m: TraceMsg)
    requires BlocksInOrder(prefix) && Merged(prefix, maps)
    ensures MergeStep(maps, m).Ok? <==> BlocksInOrder(prefix + [m])
  {
    var msgs := prefix + [m];
    var n := |prefix|;
    assert forall k | 0 <= k < n :: msgs[k] == prefix[k];
    assert msgs[n] == m;
    if n > 0 {
      assert |maps| == prefix[n - 1].bbId + 1 == msgs[n - 1].bbId + 1;
      assert BlocksInOrder(msgs) <==> (m.bbId == msgs[n - 1].bbId || m.bbId == msgs[n - 1].bbId + 1);
    } else {
      assert BlocksInOrder(msgs) <==> m.bbId == 0;
    }
  }

  /** Merging the next message keeps `Merged`. */
  lemma MergeContent(prefix: seq<TraceMsg>, maps: seq<AddrMap>, m: TraceMsg)
    requires BlocksInOrder(prefix + [m]) && Merged(prefix, maps) && MergeStep(maps, m).Ok?
    ensures Merged(prefix + [m], MergeStep(maps, m).value)
  {
    var msgs := prefix + [m];
    var maps' := if m.bbId == |maps| then maps + [[]] else maps;
    var b := m.bbId;
    var r: seq<AddrMap> := MergeStep(maps, m).value;
    InOrderBelowLast(msgs);
    assert NumBlocks(msgs) == b + 1;
    assert |r| == |maps'| == b + 1;
    forall c | 0 <= c < |r|
      ensures KeysIncreasing(r[c]) && Keys(r[c]) == LinesOf(msgs, c)
    {
      LinesOfSnoc(prefix, m, c);
      if c == |maps| {
        assert LinesOf(prefix, c) == {} by {
          assert forall j | 0 <= j < |prefix| :: prefix[j].bbId < |maps|;
        }
      }
    }
    forall c, k | 0 <= c < |r| && 0 <= k < |r[c]|
      ensures r[c][k].bbId == c && !r[c][k].isShared
      ensures r[c][k].counts == MsgCounts(msgs, c, r[c][k].lineAddress)
    {
      MergeRecord(prefix, maps, m, c, k);
    }
  }

  /** The per-record half of `MergeContent`. */
  lemma MergeRecord(prefix: seq<TraceMsg>, maps: seq<AddrMap>, m: TraceMsg, c: nat, k: nat)
    requires BlocksInOrder(prefix + [m]) && Merged(prefix, maps) && MergeStep(maps, m).Ok?
    requires c < |MergeStep(maps, m).value| && k < |MergeStep(maps, m).value[c]|
    ensures var x := MergeStep(maps, m).value[c][k];
      x.bbId == c && !x.isShared && x.counts == MsgCounts(prefix + [m], c, x.lineAddress)
  {
    var maps' := if m.bbId == |maps| then maps + [[]] else maps;
    var b := m.bbId;
    var r: seq<AddrMap> := MergeStep(maps, m).value;
    var x: AccessRecord := r[c][k];
    MsgCountsSnoc(prefix, m, c, x.lineAddress);
    if c != b {
      assert x == maps[c][k];
    } else if b == |maps| {
      assert LinesOf(prefix, b) == {} by {
        assert forall j | 0 <= j < |prefix| :: prefix[j].bbId < |maps|;
      }
      BlockAfterMerge(prefix, [], m, k);
    } else {
      BlockAfterMerge(prefix, maps[b], m, k);
    }
  }

  /** A block's map after merging a message of that block keeps every entry's meaning. */
  lemma BlockAfterMerge(prefix: seq<TraceMsg>, before: AddrMap, m: TraceMsg, k: nat)
    requires KeysIncreasing(before) && Keys(before) == LinesOf(prefix, m.bbId)
    requires forall i | 0 <= i < |before| ::
      before[i].bbId == m.bbId && !before[i].isShared && before[i].counts == MsgCounts(prefix, m.bbId, before[i].lineAddress)
    requires k < |MergeInto(before, m)|
    ensures var x := MergeInto(before, m)[k];
      x.bbId == m.bbId && !x.isShared && x.counts == MsgCounts(prefix + [m], m.bbId, x.lineAddress)
  {
    match Find(before, m.lineAddress)
    case Some(pos) => MergeHitEntry(prefix, before, m, pos, k);
    case None => MergeNewEntry(prefix, before, m, k);
  }

  /** The line was already in the map: only its entry's counters change. */
  lemma MergeHitEntry(prefix: seq<TraceMsg>, before: AddrMap, m: TraceMsg, pos: nat, k: nat)
    requires KeysIncreasing(before) && Find(before, m.lineAddress) == Some(pos)
    requires forall i | 0 <= i < |before| ::
      before[i].bbId == m.bbId && !before[i].isShared && before[i].counts == MsgCounts(prefix, m.bbId, before[i].lineAddress)
    requires k < |before|
    ensures var x := Accumulate(before, pos, m.counts)[k];
      x.bbId == m.bbId && !x.isShared && x.counts == MsgCounts(prefix + [m], m.bbId, x.lineAddress)
  {
    var x := Accumulate(before, pos, m.counts)[k];
    MsgCountsSnoc(prefix, m, m.bbId, x.lineAddress);
    assert x == before[k].(counts := x.counts);
    if k != pos {
      assert before[k].lineAddress != before[pos].lineAddress;
    }
  }

  /** The line was new: the inserted entry holds the message's counters, the rest are as before. */
  lemma MergeNewEntry(prefix: seq<TraceMsg>, before: AddrMap, m: TraceMsg, k: nat)
    requires KeysIncreasing(before) && Keys(before) == LinesOf(prefix, m.bbId)
    requires Find(before, m.lineAddress).None?
    requires forall i | 0 <= i < |before| ::
      before[i].bbId == m.bbId && !before[i].isShared && before[i].counts == MsgCounts(prefix, m.bbId, before[i].lineAddress)
    requires k < |InsertRecord(before, ToRecord(m))|
    ensures var x := InsertRecord(before, ToRecord(m))[k];
      x.bbId == m.bbId && !x.isShared && x.counts == MsgCounts(prefix + [m], m.bbId, x.lineAddress)
  {
    var r := InsertRecord(before, ToRecord(m));
    var x := r[k];
    assert x in multiset(r);
    assert x in multiset(before) + multiset{ToRecord(m)};
    if x == ToRecord(m) {
      MergeNewRecord(prefix, m);
    } else {
      assert x in multiset(before);
      var i :| 0 <= i < |before| && before[i] == x;
      MergeOldRecord(prefix, before, m, i);
    }
  }

  /** The entry created for a new line holds exactly the message's counters. */
  lemma MergeNewRecord(prefix: seq<TraceMsg>, m: TraceMsg)
    requires m.lineAddress !in LinesOf(prefix, m.bbId)
    ensures MsgCounts(prefix + [m], m.bbId, m.lineAddress) == m.counts
  {
    var c := MsgCounts(prefix, m.bbId, m.lineAddress);
    assert c == NoCounts by {
      MsgCountsAbsent(prefix, m.bbId, m.lineAddress);
    }
    assert MsgCounts(prefix + [m], m.bbId, m.lineAddress) == Plus(c, m.counts) by {
      MsgCountsSnoc(prefix, m, m.bbId, m.lineAddress);
    }
  }

  /** An entry for another line is not touched by the message. */
  lemma MergeOldRecord(prefix: seq<TraceMsg>, before: AddrMap, m: TraceMsg, i: nat)
    requires i < |before| && m.lineAddress !in Keys(before)
    ensures MsgCounts(prefix + [m], m.bbId, before[i].lineAddress) == MsgCounts(prefix, m.bbId, before[i].lineAddress)
  {
    assert before[i].lineAddress in Keys(before);
    MsgCountsSnoc(prefix, m, m.bbId, before[i].lineAddress);
  }

  // -----------------------------------------------------------------------
  // analyze_shared_access (checker.cc:47-59)

  datatype CheckError = NoTrace

  /** Some core other than core 0 touched `line`. */
  function TouchedElsewhere(maps: seq<AddrMap>, line: nat): (r: bool)
    ensures r <==> exists c | 1 <= c < |maps| :: line in Keys(maps[c])
  {
    if |maps| <= 1 then false
    else if line in Keys(maps[|maps| - 1]) then true
    else
      var r := TouchedElsewhere(maps[..|maps| - 1], line);
      assert forall c | 1 <= c < |maps| - 1 :: maps[..|maps| - 1][c] == maps[c];
      r
  }

  /**
   * Marks a line of core 0 shared when another core touched it; every
   * other core's map and every counter stay as they are.
   */
  function MarkShared(maps: seq<AddrMap>): (r: Result<seq<AddrMap>, CheckError>)
    ensures r.Err? <==> maps == []
    ensures r.Ok? ==> |r.value| == |maps| && r.value[1..] == maps[1..] && |r.value[0]| == |maps[0]|
    ensures r.Ok? ==> forall k | 0 <= k < |maps[0]| ::
      && r.value[0][k] == maps[0][k].(isShared := r.value[0][k].isShared)
      && (r.value[0][k].isShared <==>
          maps[0][k].isShared || exists c | 1 <= c < |maps| :: maps[0][k].lineAddress in Keys(maps[c]))
  {
    if maps == [] then Err(NoTrace)
    else
      var m := maps[0];
      Ok([MarkLines(maps, m)] + maps[1..])
  }

  /** Each record of `m` marked shared when another core touched its line. */
  function MarkLines(maps: seq<AddrMap>, m: AddrMap): (r: AddrMap)
    ensures |r| == |m|
    ensures forall k | 0 <= k < |m| ::
      r[k] == m[k].(isShared := m[k].isShared || TouchedElsewhere(maps, m[k].lineAddress))
  {
    if m == [] then []
    else [m[0].(isShared := m[0].isShared || TouchedElsewhere(maps, m[0].lineAddress))] + MarkLines(maps, m[1..])
  }

  // -----------------------------------------------------------------------
  // compute_wcrt (checker.cc:61-102)

  /** The checker fixes the core count at 8, so the latencies are those of the fallback row. */
  const CheckerCores := 8

  /** What one record of core 0 adds: partitioned or not, shared or not. */
  function CheckerRecordCost(r: AccessRecord, partition: bool, lat: Latencies): nat
  {
    if !partition then Flat(r.counts, lat)
    else if r.isShared then PartitionedShared(r.counts, lat)
    else Tiered(r.counts, lat)
  }

  function CheckerCost(m: AddrMap, partition: bool, lat: Latencies): nat
  {
    if m == [] then 0 else CheckerRecordCost(m[0], partition, lat) + CheckerCost(m[1..], partition, lat)
  }

  predicate NoRemoteHits(m: AddrMap)
  {
    forall k | 0 <= k < |m| :: m[k].counts.remoteL1 == 0
  }

  datatype WcrtError = NoStats | RemoteHit(lineAddress: nat)

  /**
   * compute_wcrt: the sum over core 0's lines, after the assertion that no
   * line was served by a remote L1.
   */
  method ComputeWcrt(maps: seq<AddrMap>, partition: bool) returns (r: Result<nat, WcrtError>)
    ensures r == Err(NoStats) <==> maps == []
    ensures r.Err? && r.error.RemoteHit? ==> maps != [] && !NoRemoteHits(maps[0])
    ensures r.Ok? <==> maps != [] && NoRemoteHits(maps[0])
    ensures r.Ok? ==> r.value == CheckerCost(maps[0], partition, WorstCaseLatencies(CheckerCores))
  {
    if maps == [] {
      return Err(NoStats);
    }
    var lat := WorstCaseLatencies(CheckerCores);
    var m := maps[0];
    var wcrt := 0;
    var i := 0;
    while i < |m|
      invariant 0 <= i <= |m| && NoRemoteHits(m[..i])
      invariant wcrt + CheckerCost(m[i..], partition, lat) == CheckerCost(m, partition, lat)
    {
      if m[i].counts.remoteL1 != 0 {
        return Err(RemoteHit(m[i].lineAddress));
      }
      assert m[i..][1..] == m[i + 1..];
      wcrt := wcrt + CheckerRecordCost(m[i], partition, lat);
      i := i + 1;
      assert forall k | 0 <= k < i :: m[..i][k] == m[k];
    }
    assert m[..i] == m;
    return Ok(wcrt);
  }

  /** Without partitioning the checker charges what the analyzer's Share configuration charges. */
  lemma {:induction false} UnpartitionedIsShare(m: AddrMap, lat: Latencies)
    ensures CheckerCost(m, false, lat) == BlockCost(Share, m, lat)
    decreases |m|
  {
    if m != [] {
      UnpartitionedIsShare(m[1..], lat);
    }
  }

  /**
   * With partitioning the checker charges what the analyzer's Par
   * configuration charges, as long as no instruction fetch is shared (the
   * checker treats shared instructions like shared data; the analyzer
   * does not).
   */
  lemma {:induction false} PartitionedIsPar(m: AddrMap, lat: Latencies)
    requires forall k | 0 <= k < |m| :: !(m[k].isShared && m[k].isIfetch)
    ensures CheckerCost(m, true, lat) == BlockCost(Par, m, lat)
    decreases |m|
  {
    if m != [] {
      assert forall k | 0 <= k < |m[1..]| :: m[1..][k] == m[k + 1];
      PartitionedIsPar(m[1..], lat);
    }
  }

  /** Partitioning never raises the checker's bound. */
  lemma {:induction false} PartitionNeverWorse(m: AddrMap, lat: Latencies)
    requires lat.l1 == 1 && lat.l1 <= lat.llc <= lat.mem
    ensures CheckerCost(m, true, lat) <= CheckerCost(m, false, lat)
    decreases |m|
  {
    if m != [] {
      TieredLePartitioned(m[0].counts, lat);
      PartitionedLeFlat(m[0].counts, lat);
      PartitionNeverWorse(m[1..], lat);
    }
  }

  // -----------------------------------------------------------------------
  // check (checker.cc:104-184)

  datatype Difference = CountOfLines | LineMissing | AccessCount

  datatype Verdict =
    | Passed                                          // no violation, partitioned LLC: as expected
    | Failed(privateDiffers: bool, sharedDiffers: bool) // violation, shared LLC: as expected
    | TracesDiffer(why: Difference)                   // the two runs did not execute the same accesses
    | NoPrivateLine                                   // assertion: some line of core 0 is private
    | NoSharedLine                                    // assertion: some line of core 0 is shared
    | UnexpectedPass                                  // no violation observed with a shared LLC
    | UnexpectedViolation                             // a violation observed with a partitioned LLC
    | EmptyTrace                                      // assertion: both traces hold core 0

  /** The loaded run's entry for the line of `x`, if it has one. */
  function Partner(cua: AddrMap, x: AccessRecord): (p: Option<AccessRecord>)
    ensures p.Some? <==> x.lineAddress in Keys(cua)
    ensures p.Some? ==> p.value in cua && p.value.lineAddress == x.lineAddress
  {
    match Find(cua, x.lineAddress)
    case Some(k) => Some(cua[k])
    case None => None
  }

  predicate SameCount(cua: AddrMap, x: AccessRecord)
  {
    Partner(cua, x).Some? && Partner(cua, x).value.counts.Total() == x.counts.Total()
  }

  /** Core 0 touched the same lines the same number of times in both runs. */
  predicate SameTrace(iso: AddrMap, cua: AddrMap)
  {
    Keys(iso) == Keys(cua) && forall i | 0 <= i < |iso| :: SameCount(cua, iso[i])
  }

  predicate SharedPartner(cua: AddrMap, x: AccessRecord)
  {
    Partner(cua, x).Some? && Partner(cua, x).value.isShared
  }

  predicate PrivatePartner(cua: AddrMap, x: AccessRecord)
  {
    Partner(cua, x).Some? && !Partner(cua, x).value.isShared
  }

  /** A shared line saw as many memory accesses in the loaded run as alone. */
  predicate SharedLineOk(cua: AddrMap, x: AccessRecord)
  {
    SharedPartner(cua, x) ==> Partner(cua, x).value.counts.mem == x.counts.mem
  }

  /** A private line saw as many L1 and L2 hits in the loaded run as alone. */
  predicate PrivateLineOk(cua: AddrMap, x: AccessRecord)
  {
    PrivatePartner(cua, x) ==>
      Partner(cua, x).value.counts.localL1 == x.counts.localL1 && Partner(cua, x).value.counts.l2 == x.counts.l2
  }

  predicate SharedIsolated(iso: AddrMap, cua: AddrMap)
  {
    forall i | 0 <= i < |iso| :: SharedLineOk(cua, iso[i])
  }

  predicate PrivateIsolated(iso: AddrMap, cua: AddrMap)
  {
    forall i | 0 <= i < |iso| :: PrivateLineOk(cua, iso[i])
  }

  predicate HasShared(m: AddrMap) { exists k | 0 <= k < |m| :: m[k].isShared }
  predicate HasPrivate(m: AddrMap) { exists k | 0 <= k < |m| :: !m[k].isShared }

  /** Ordered keys are distinct, so a map has as many keys as entries. */
  lemma {:induction false} KeysCard(m: AddrMap)
    requires KeysIncreasing(m)
    ensures |Keys(m)| == |m|
    decreases |m|
  {
    if m != [] {
      KeysCons(m[0], m[1..]);
      assert [m[0]] + m[1..] == m;
      KeysCard(m[1..]);
      assert m[0].lineAddress !in Keys(m[1..]);
    }
  }

  lemma SubsetSameSize(a: set<nat>, b: set<nat>)
    requires a <= b && |a| == |b|
    ensures a == b
  {
    var d := b - a;
    assert |b| == |a| + |d|;
  }

  /** The first pass: the size test, then every line of the isolated run looked up in order. */
  method CompareTraces(iso: AddrMap, cua: AddrMap) returns (r: Option<Difference>)
    requires KeysIncreasing(iso) && KeysIncreasing(cua)
    ensures r.None? <==> SameTrace(iso, cua)
    ensures r == Some(CountOfLines) <==> |iso| != |cua|
  {
    KeysCard(iso);
    KeysCard(cua);
    if |cua| != |iso| {
      return Some(CountOfLines);
    }
    var i := 0;
    while i < |iso|
      invariant 0 <= i <= |iso|
      invariant forall j | 0 <= j < i :: SameCount(cua, iso[j])
    {
      var p := Partner(cua, iso[i]);
      if p.None? {
        return Some(LineMissing);
      }
      if p.value.counts.Total() != iso[i].counts.Total() {
        return Some(AccessCount);
      }
      i := i + 1;
    }
    assert Keys(iso) <= Keys(cua) by {
      forall l | l in Keys(iso)
        ensures l in Keys(cua)
      {
        var j :| 0 <= j < |iso| && iso[j].lineAddress == l;
        assert SameCount(cua, iso[j]);
      }
    }
    SubsetSameSize(Keys(iso), Keys(cua));
    return None;
  }

  /** The second pass: which kinds of line were seen and which isolation test failed. */
  method IsolationPass(iso: AddrMap, cua: AddrMap) returns (privateSeen: bool, privateOk: bool, sharedSeen: bool, sharedOk: bool)
    ensures privateOk <==> PrivateIsolated(iso, cua)
    ensures sharedOk <==> SharedIsolated(iso, cua)
    ensures privateSeen <==> exists j | 0 <= j < |iso| :: PrivatePartner(cua, iso[j])
    ensures sharedSeen <==> exists j | 0 <= j < |iso| :: SharedPartner(cua, iso[j])
  {
    privateSeen, privateOk, sharedSeen, sharedOk := false, true, false, true;
    var i := 0;
    while i < |iso|
      invariant 0 <= i <= |iso|
      invariant privateOk <==> forall j | 0 <= j < i :: PrivateLineOk(cua, iso[j])
      invariant sharedOk <==> forall j | 0 <= j < i :: SharedLineOk(cua, iso[j])
      invariant privateSeen <==> exists j | 0 <= j < i :: PrivatePartner(cua, iso[j])
      invariant sharedSeen <==> exists j | 0 <= j < i :: SharedPartner(cua, iso[j])
    {
      sharedSeen := sharedSeen || SharedPartner(cua, iso[i]);
      privateSeen := privateSeen || PrivatePartner(cua, iso[i]);
      sharedOk := sharedOk && SharedLineOk(cua, iso[i]);
      privateOk := privateOk && PrivateLineOk(cua, iso[i]);
      i := i + 1;
    }
  }

  /** With the same lines, every entry of the loaded run is the partner of some line of the isolated run. */
  lemma SameTraceCovers(iso: AddrMap, cua: AddrMap)
    requires KeysIncreasing(cua) && SameTrace(iso, cua)
    ensures HasPrivate(cua) <==> exists j | 0 <= j < |iso| :: PrivatePartner(cua, iso[j])
    ensures HasShared(cua) <==> exists j | 0 <= j < |iso| :: SharedPartner(cua, iso[j])
  {
    if HasPrivate(cua) {
      var k :| 0 <= k < |cua| && !cua[k].isShared;
      var j := PartnerOf(iso, cua, k);
      assert PrivatePartner(cua, iso[j]);
    }
    if HasShared(cua) {
      var k :| 0 <= k < |cua| && cua[k].isShared;
      var j := PartnerOf(iso, cua, k);
      assert SharedPartner(cua, iso[j]);
    }
    if exists j | 0 <= j < |iso| :: Partner(cua, iso[j]).Some? {
      var j :| 0 <= j < |iso| && Partner(cua, iso[j]).Some?;
      var p := Partner(cua, iso[j]).value;
      var k :| 0 <= k < |cua| && cua[k] == p;
      assert p.isShared ==> HasShared(cua);
      assert !p.isShared ==> HasPrivate(cua);
    }
  }

  /** Every entry of the loaded run is the partner of a line of the isolated run with the same keys. */
  lemma PartnerOf(iso: AddrMap, cua: AddrMap, k: nat) returns (j: nat)
    requires KeysIncreasing(cua) && Keys(iso) == Keys(cua) && k < |cua|
    ensures j < |iso| && Partner(cua, iso[j]) == Some(cua[k])
  {
    assert cua[k].lineAddress in Keys(cua);
    j :| 0 <= j < |iso| && iso[j].lineAddress == cua[k].lineAddress;
    FindUnique(cua, k);
  }

  lemma FindUnique(m: AddrMap, k: nat)
    requires KeysIncreasing(m) && k < |m|
    ensures Find(m, m[k].lineAddress) == Some(k)
  {
    assert m[k].lineAddress in Keys(m);
  }

  /**
   * check: the verdict on two parsed traces, core 0 of the loaded run
   * already marked. Passing is expected with a partitioned LLC and failing
   * with a shared one; the other outcomes are the source's error exits and
   * assertions.
   */
  method Check(iso: seq<AddrMap>, loaded: seq<AddrMap>, partition: bool) returns (v: Verdict)
    requires forall b | 0 <= b < |iso| :: KeysIncreasing(iso[b])
    requires forall b | 0 <= b < |loaded| :: KeysIncreasing(loaded[b])
    ensures v == EmptyTrace <==> iso == [] || loaded == []
    ensures v.TracesDiffer? <==> iso != [] && loaded != [] && !SameTrace(iso[0], loaded[0])
    ensures v == NoPrivateLine <==>
      iso != [] && loaded != [] && SameTrace(iso[0], loaded[0]) && !HasPrivate(loaded[0])
    ensures v == NoSharedLine <==>
      iso != [] && loaded != [] && SameTrace(iso[0], loaded[0]) && HasPrivate(loaded[0]) && !HasShared(loaded[0])
    ensures v == Passed <==> Ready(iso, loaded) && Isolated(iso[0], loaded[0]) && partition
    ensures v == UnexpectedPass <==> Ready(iso, loaded) && Isolated(iso[0], loaded[0]) && !partition
    ensures v == UnexpectedViolation <==> Ready(iso, loaded) && !Isolated(iso[0], loaded[0]) && partition
    ensures v.Failed? <==> Ready(iso, loaded) && !Isolated(iso[0], loaded[0]) && !partition
    ensures v.Failed? ==>
      (v.privateDiffers <==> !PrivateIsolated(iso[0], loaded[0]))
      && (v.sharedDiffers <==> !SharedIsolated(iso[0], loaded[0]))
  {
    if loaded == [] || iso == [] {
      return EmptyTrace;
    }
    var cua, isoCua := loaded[0], iso[0];
    var diff := CompareTraces(isoCua, cua);
    if diff.Some? {
      return TracesDiffer(diff.value);
    }
    var privateSeen, privateOk, sharedSeen, sharedOk := IsolationPass(isoCua, cua);
    SameTraceCovers(isoCua, cua);
    if !privateSeen {
      return NoPrivateLine;
    }
    if !sharedSeen {
      return NoSharedLine;
    }
    if privateOk && sharedOk {
      if !partition {
        return UnexpectedPass;
      }
      return Passed;
    }
    if partition {
      return UnexpectedViolation;
    }
    return Failed(!privateOk, !sharedOk);
  }

  /** Both traces hold core 0, the runs agree, and core 0 has both private and shared lines. */
  predicate Ready(iso: seq<AddrMap>, loaded: seq<AddrMap>)
  {
    iso != [] && loaded != [] && SameTrace(iso[0], loaded[0]) && HasPrivate(loaded[0]) && HasShared(loaded[0])
  }

  predicate Isolated(iso: AddrMap, cua: AddrMap)
  {
    PrivateIsolated(iso, cua) && SharedIsolated(iso, cua)
  }
}

=== FILE: common.dfy ===
/** Small shared vocabulary: optional values, results, and sums over sequences. */
module Common {

  datatype Option<T> = None | Some(value: T)

  datatype Result<T, E> = Ok(value: T) | Err(error: E) {
    predicate IsFailure() { Err? }
    function PropagateFailure<U>(): Result<U, E>
      requires Err?
    {
      Err(error)
    }
    function Extract(): T
      requires Ok?
    {
      value
    }
  }

  /** Sum of a sequence of naturals, folded from the left. */
  function Sum(s: seq<nat>): nat
  {
    if s == [] then 0 else Sum(s[..|s| - 1]) + s[|s| - 1]
  }

  /** Sum of `w` taken at every index listed in `idx`. */
  function SumAt(w: seq<nat>, idx: seq<nat>): nat
    requires forall k | 0 <= k < |idx| :: idx[k] < |w|
  {
    if idx == [] then 0 else SumAt(w, idx[..|idx| - 1]) + w[idx[|idx| - 1]]
  }

  /** The indices 0, 1, ..., n-1 in ascending order. */
  function Range(n: nat): (r: seq<nat>)
    ensures |r| == n
    ensures forall k | 0 <= k < n :: r[k] == k
  {
    if n == 0 then [] else Range(n - 1) + [n - 1]
  }

  /** The sequences of `gs` one after another. */
  function Flatten<T>(gs: seq<seq<T>>): seq<T>
  {
    if gs == [] then [] else Flatten(gs[..|gs| - 1]) + gs[|gs| - 1]
  }

  lemma FlattenSnoc<T>(gs: seq<seq<T>>, g: seq<T>)
    ensures Flatten(gs + [g]) == Flatten(gs) + g
  {
    assert (gs + [g])[..|gs|] == gs;
  }

  /** Flattening a prefix of the sequences gives a prefix of the whole. */
  lemma {:induction false} FlattenPrefix<T>(gs: seq<seq<T>>, k: nat)
    requires k <= |gs|
    ensures Flatten(gs[..k]) <= Flatten(gs)
    decreases |gs|
  {
    if k < |gs| {
      var init := gs[..|gs| - 1];
      assert init[..k] == gs[..k];
      FlattenPrefix(init, k);
    } else {
      assert gs[..k] == gs;
    }
  }

  /** Where the `k`-th sequence of `gs` starts once `gs` is flattened. */
  function FlatOffset<T>(gs: seq<seq<T>>, k: nat): nat
    requires k <= |gs|
  {
    |Flatten(gs[..k])|
  }

  lemma SliceOfAppend<T>(a: seq<T>, b: seq<T>, lo: nat, hi: nat)
    requires lo <= hi <= |a|
    ensures (a + b)[lo..hi] == a[lo..hi]
  {
  }

  /** `vs[k]` sits in flattened `vs` where `gs[k]` sits in flattened `gs`. */
  ghost predicate SliceAt<A, B>(gs: seq<seq<A>>, vs: seq<seq<B>>, k: nat)
    requires k < |gs| && k < |vs|
  {
    && FlatOffset(gs, k) + |gs[k]| <= |Flatten(vs)|
    && Flatten(vs)[FlatOffset(gs, k)..FlatOffset(gs, k) + |gs[k]|] == vs[k]
  }

  /**
   * If `vs` has one sequence per sequence of `gs`, of the same length, then
   * flattening `vs` puts `vs[k]` exactly where `gs[k]` lands when `gs` is
   * flattened.
   */
  lemma {:induction false} FlattenSlices<A, B>(gs: seq<seq<A>>, vs: seq<seq<B>>)
    requires |gs| == |vs| && forall k | 0 <= k < |gs| :: |vs[k]| == |gs[k]|
    ensures |Flatten(vs)| == |Flatten(gs)|
    ensures forall k | 0 <= k < |gs| :: SliceAt(gs, vs, k)
    decreases |gs|
  {
    if gs != [] {
      var n := |gs| - 1;
      FlattenSlices(gs[..n], vs[..n]);
      forall k | 0 <= k < |gs|
        ensures SliceAt(gs, vs, k)
      {
        SliceSnoc(gs, vs, k);
      }
      SliceSnoc(gs, vs, n);
    }
  }

  /** The step of `FlattenSlices`: adding the last pair of sequences. */
  lemma SliceSnoc<A, B>(gs: seq<seq<A>>, vs: seq<seq<B>>, k: nat)
    requires |gs| == |vs| && k < |gs| && forall i | 0 <= i < |gs| :: |vs[i]| == |gs[i]|
    requires var n := |gs| - 1; |Flatten(vs[..n])| == |Flatten(gs[..n])|
    requires var n := |gs| - 1; k < n ==> SliceAt(gs[..n], vs[..n], k)
    ensures SliceAt(gs, vs, k)
    ensures |Flatten(vs)| == |Flatten(gs)|
  {
    var n := |gs| - 1;
    var gs0, vs0 := gs[..n], vs[..n];
    assert Flatten(vs) == Flatten(vs0) + vs[n];
    assert Flatten(gs) == Flatten(gs0) + gs[n];
    if k < n {
      var lo := FlatOffset(gs0, k);
      assert gs[..k] == gs0[..k];
      assert SliceAt(gs0, vs0, k);
      SliceOfAppend(Flatten(vs0), vs[n], lo, lo + |gs0[k]|);
    } else {
      assert gs[..k] == gs0;
    }
  }

  predicate Distinct<T(==)>(s: seq<T>)
  {
    forall i, j | 0 <= i < j < |s| :: s[i] != s[j]
  }

  lemma {:induction false} SumAtAppend(w: seq<nat>, a: seq<nat>, b: seq<nat>)
    requires forall k | 0 <= k < |a| :: a[k] < |w|
    requires forall k | 0 <= k < |b| :: b[k] < |w|
    ensures SumAt(w, a + b) == SumAt(w, a) + SumAt(w, b)
    decreases |b|
  {
    if b == [] {
      assert a + b == a;
    } else {
      assert (a + b)[..|a + b| - 1] == a + b[..|b| - 1];
      SumAtAppend(w, a, b[..|b| - 1]);
    }
  }

  /** Removing one occurrence of `x` at position `i` subtracts exactly `w[x]`. */
  lemma {:induction false} SumAtRemove(w: seq<nat>, s: seq<nat>, i: nat)
    requires i < |s|
    requires forall k | 0 <= k < |s| :: s[k] < |w|
    ensures SumAt(w, s) == SumAt(w, s[..i] + s[i + 1..]) + w[s[i]]
  {
    var a, x, b := s[..i], s[i], s[i + 1..];
    assert s == (a + [x]) + b;
    SumAtAppend(w, a + [x], b);
    assert (a + [x])[..|a + [x]| - 1] == a;
    assert SumAt(w, a + [x]) == SumAt(w, a) + w[x];
    SumAtAppend(w, a, b);
  }

  lemma MultisetRemoveAt<T>(s: seq<T>, i: nat)
    requires i < |s|
    ensures multiset(s[..i] + s[i + 1..]) == multiset(s) - multiset{s[i]}
  {
    assert s == s[..i] + [s[i]] + s[i + 1..];
  }

  lemma BoundsByMultiset(n: nat, a: seq<nat>, b: seq<nat>)
    requires multiset(a) == multiset(b)
    requires forall k | 0 <= k < |a| :: a[k] < n
    ensures forall k | 0 <= k < |b| :: b[k] < n
  {
    forall k | 0 <= k < |b|
      ensures b[k] < n
    {
      assert b[k] in multiset(a);
    }
  }

  /** A position of `b` holding `a`'s last element; removing both leaves equal multisets. */
  lemma MatchLast(a: seq<nat>, b: seq<nat>) returns (i: nat)
    requires a != [] && multiset(a) == multiset(b)
    ensures i < |b| && b[i] == a[|a| - 1]
    ensures multiset(a[..|a| - 1]) == multiset(b[..i] + b[i + 1..])
  {
    var x := a[|a| - 1];
    MultisetRemoveAt(a, |a| - 1);
    assert a[..|a| - 1] == a[..|a| - 1] + a[|a|..];
    assert x in multiset(b) by {
      assert x in multiset(a);
    }
    i :| 0 <= i < |b| && b[i] == x;
    MultisetRemoveAt(b, i);
  }

  /** `SumAt` depends only on the multiset of indices. */
  lemma {:induction false} SumAtPermutation(w: seq<nat>, a: seq<nat>, b: seq<nat>)
    requires multiset(a) == multiset(b)
    requires forall k | 0 <= k < |a| :: a[k] < |w|
    requires forall k | 0 <= k < |b| :: b[k] < |w|
    ensures SumAt(w, a) == SumAt(w, b)
    decreases |a|
  {
    if a == [] {
      assert |multiset(b)| == 0;
      assert b == [];
    } else {
      var a' := a[..|a| - 1];
      assert SumAt(w, a) == SumAt(w, a') + w[a[|a| - 1]];
      var i := MatchLast(a, b);
      var b' := b[..i] + b[i + 1..];
      assert forall k | 0 <= k < |b'| :: b'[k] < |w| by {
        assert forall k | 0 <= k < |b'| :: b'[k] in multiset(b);
      }
      SumAtPermutation(w, a', b');
      SumAtRemove(w, b, i);
    }
  }

  /** Summing a seq of weights over the indices 0..n-1 is the plain sum. */
  lemma {:induction false} SumAtRange(w: seq<nat>)
    ensures SumAt(w, Range(|w|)) == Sum(w)
    decreases |w|
  {
    if w != [] {
      var w' := w[..|w| - 1];
      assert Range(|w|) == Range(|w'|) + [|w'|];
      assert Range(|w|)[..|w|-1] == Range(|w'|);
      SumAtRange(w');
      SumAtPrefix(w', w, Range(|w'|));
    }
  }

  /** Extending the weight vector does not change sums over indices it already covers. */
  lemma {:induction false} SumAtPrefix(w: seq<nat>, w2: seq<nat>, idx: seq<nat>)
    requires w <= w2
    requires forall k | 0 <= k < |idx| :: idx[k] < |w|
    ensures SumAt(w, idx) == SumAt(w2, idx)
    decreases |idx|
  {
    if idx != [] {
      SumAtPrefix(w, w2, idx[..|idx| - 1]);
    }
  }

  /** Summing over distinct indices never exceeds the whole sum. */
  lemma {:induction false} SumAtDistinctLe(w: seq<nat>, idx: seq<nat>)
    requires Distinct(idx)
    requires forall k | 0 <= k < |idx| :: idx[k] < |w|
    ensures SumAt(w, idx) <= Sum(w)
    decreases |w|
  {
    if w == [] {
      assert idx == [];
    } else {
      var n := |w| - 1;
      var w' := w[..n];
      if i :| 0 <= i < |idx| && idx[i] == n {
        var rest := idx[..i] + idx[i + 1..];
        SumAtRemove(w, idx, i);
        assert forall k | 0 <= k < |rest| :: rest[k] == (if k < i then idx[k] else idx[k + 1]);
        assert forall k | 0 <= k < |rest| :: rest[k] < n;
        SumAtPrefix(w', w, rest);
        SumAtDistinctLe(w', rest);
      } else {
        assert forall k | 0 <= k < |idx| :: idx[k] < n;
        SumAtPrefix(w', w, idx);
        SumAtDistinctLe(w', idx);
      }
    }
  }

  /** Division is determined by quotient and remainder. */
  lemma DivUnique(a: int, w: int, q: int, r: int)
    requires w > 0 && 0 <= r < w && a == q * w + r
    ensures a / w == q && a % w == r
  {
    var d := q - a / w;
    assert a == (a / w) * w + a % w;
    assert d * w == q * w - (a / w) * w;
    MulSmall(d, w);
  }

  lemma MulSmall(k: int, w: int)
    requires w > 0 && -w < k * w < w
    ensures k == 0
  {
    if k > 0 {
      MulAtLeast(k, w);
    } else if k < 0 {
      MulAtLeast(-k, w);
    }
  }

  lemma MulAtLeast(k: int, w: int)
    requires k >= 1 && w > 0
    ensures k * w >= w
  {
  }
}

=== FILE: cost_model.dfy ===
/**
 * Worst-case memory latency of each basic block under four cache
 * configurations (omptr/analyzer/analyzer.cc:336-412).
 *
 * Every access record contributes its hit/miss counts weighted by
 * worst-case latencies; which latencies apply depends on the configuration
 * and on whether the access is shared and whether it is an instruction
 * fetch. A block's weight in a configuration is that sum plus the block's
 * execution cycles. Arithmetic is on unbounded naturals.
 */
module CostModel {
  import opened MemStats

  /** The four configurations, in the order of their weight columns (analyzer.hh:29-34). */
  datatype Config = Share | Color | Par | ColorPrivateInst

  const NumConfigs: nat := 4

  function ConfigIndex(c: Config): (i: nat)
    ensures i < NumConfigs
  {
    match c
    case Share => 0
    case Color => 1
    case Par => 2
    case ColorPrivateInst => 3
  }

  function ConfigAt(i: nat): (c: Config)
    requires i < NumConfigs
    ensures ConfigIndex(c) == i
  {
    if i == 0 then Share else if i == 1 then Color else if i == 2 then Par else ColorPrivateInst
  }

  datatype Latencies = Latencies(l1: nat, llc: nat, mem: nat)

  /** Worst-case latencies of an L1 hit, an LLC hit and a memory access for a core count (analyzer.cc:345-360). */
  function WorstCaseLatencies(numCores: int): (lat: Latencies)
    ensures lat.l1 == 1 && lat.l1 <= lat.llc <= lat.mem
  {
    if numCores == 2 then Latencies(1, 87, 568)
    else if numCores == 4 then Latencies(1, 175, 1063)
    else Latencies(1, 431, 2065)
  }

  /** Two cores is the cheapest table and any count other than 2 or 4 falls back to the costliest one. */
  lemma LatencyTablesOrdered(n: int)
    ensures WorstCaseLatencies(2).llc <= WorstCaseLatencies(4).llc <= WorstCaseLatencies(n).llc || n == 2
    ensures WorstCaseLatencies(2).mem <= WorstCaseLatencies(4).mem <= WorstCaseLatencies(n).mem || n == 2
    ensures WorstCaseLatencies(2).llc <= WorstCaseLatencies(n).llc && WorstCaseLatencies(2).mem <= WorstCaseLatencies(n).mem
  {
  }

  function LlcHits(c: Counters): nat { c.remoteL1 + c.l2 }

  /** Every access charged at its own level's latency. */
  function Tiered(c: Counters, lat: Latencies): nat
  {
    c.localL1 * lat.l1 + LlcHits(c) * lat.llc + c.mem * lat.mem
  }

  /** Every access charged as a memory access. */
  function Flat(c: Counters, lat: Latencies): nat
  {
    c.Total() * lat.mem
  }

  /** Shared data under partitioning: L1 hits are charged as LLC hits. */
  function PartitionedShared(c: Counters, lat: Latencies): nat
  {
    (c.localL1 + LlcHits(c)) * lat.llc + c.mem * lat.mem
  }

  /** What one record adds to its block's weight (analyzer.cc:369-402). */
  function RecordCost(cfg: Config, r: AccessRecord, lat: Latencies): nat
  {
    var sharedData := r.isShared && !r.isIfetch;
    match cfg
    case Share => Flat(r.counts, lat)
    case Color => if r.isShared then Flat(r.counts, lat) else Tiered(r.counts, lat)
    case Par => if sharedData then PartitionedShared(r.counts, lat) else Tiered(r.counts, lat)
    case ColorPrivateInst => if sharedData then Flat(r.counts, lat) else Tiered(r.counts, lat)
  }

  function BlockCost(cfg: Config, m: AddrMap, lat: Latencies): nat
  {
    if m == [] then 0 else RecordCost(cfg, m[0], lat) + BlockCost(cfg, m[1..], lat)
  }

  /** Total number of accesses of a block, all levels together. */
  function Accesses(m: AddrMap): nat
  {
    if m == [] then 0 else m[0].counts.Total() + Accesses(m[1..])
  }

  lemma MulLe(a: nat, x: nat, y: nat)
    requires x <= y
    ensures a * x <= a * y
  {
  }

  lemma TotalLeTiered(c: Counters, lat: Latencies)
    requires lat.l1 == 1 && lat.l1 <= lat.llc <= lat.mem
    ensures c.Total() <= Tiered(c, lat)
  {
    MulLe(LlcHits(c), 1, lat.llc);
    MulLe(c.mem, 1, lat.mem);
  }

  lemma TieredLePartitioned(c: Counters, lat: Latencies)
    requires lat.l1 == 1 && lat.l1 <= lat.llc <= lat.mem
    ensures Tiered(c, lat) <= PartitionedShared(c, lat)
  {
    MulLe(c.localL1, lat.l1, lat.llc);
    assert (c.localL1 + LlcHits(c)) * lat.llc == c.localL1 * lat.llc + LlcHits(c) * lat.llc;
  }

  lemma PartitionedLeFlat(c: Counters, lat: Latencies)
    requires lat.l1 == 1 && lat.l1 <= lat.llc <= lat.mem
    ensures PartitionedShared(c, lat) <= Flat(c, lat)
  {
    MulLe(c.localL1 + LlcHits(c), lat.llc, lat.mem);
    assert c.Total() * lat.mem == (c.localL1 + LlcHits(c)) * lat.mem + c.mem * lat.mem;
  }

  /** Per record: Share >= Color >= ColorPrivateInst >= Par >= the access count. */
  lemma RecordCostOrdered(r: AccessRecord, lat: Latencies)
    requires lat.l1 == 1 && lat.l1 <= lat.llc <= lat.mem
    ensures RecordCost(Share, r, lat) >= RecordCost(Color, r, lat)
    ensures RecordCost(Color, r, lat) >= RecordCost(ColorPrivateInst, r, lat)
    ensures RecordCost(ColorPrivateInst, r, lat) >= RecordCost(Par, r, lat)
    ensures RecordCost(Par, r, lat) >= r.counts.Total()
  {
    TotalLeTiered(r.counts, lat);
    TieredLePartitioned(r.counts, lat);
    PartitionedLeFlat(r.counts, lat);
  }

  lemma {:induction false} BlockCostOrdered(m: AddrMap, lat: Latencies)
    requires lat.l1 == 1 && lat.l1 <= lat.llc <= lat.mem
    ensures BlockCost(Share, m, lat) >= BlockCost(Color, m, lat)
    ensures BlockCost(Color, m, lat) >= BlockCost(ColorPrivateInst, m, lat)
    ensures BlockCost(ColorPrivateInst, m, lat) >= BlockCost(Par, m, lat)
    ensures BlockCost(Par, m, lat) >= Accesses(m)
  {
    if m != [] {
      RecordCostOrdered(m[0], lat);
      BlockCostOrdered(m[1..], lat);
    }
  }

  /** Under Share every access costs a memory access: the weight is a product. */
  lemma {:induction false} ShareCostIsFlat(m: AddrMap, lat: Latencies)
    ensures BlockCost(Share, m, lat) == Accesses(m) * lat.mem
  {
    if m != [] {
      ShareCostIsFlat(m[1..], lat);
      assert Accesses(m) * lat.mem == m[0].counts.Total() * lat.mem + Accesses(m[1..]) * lat.mem;
    }
  }

  /** With no shared access, the three sharing-aware configurations cost the same. */
  lemma {:induction false} UnsharedCostsAgree(m: AddrMap, lat: Latencies)
    requires forall k | 0 <= k < |m| :: !m[k].isShared
    ensures BlockCost(Color, m, lat) == BlockCost(Par, m, lat) == BlockCost(ColorPrivateInst, m, lat)
  {
    if m != [] {
      assert !m[0].isShared;
      assert forall k | 0 <= k < |m[1..]| :: m[1..][k] == m[k + 1];
      UnsharedCostsAgree(m[1..], lat);
    }
  }

  /** One row of the weight map: the block's cost in each configuration plus its execution cycles. */
  function BlockWeights(m: AddrMap, exec: nat, lat: Latencies): (w: seq<nat>)
    requires lat.l1 == 1 && lat.l1 <= lat.llc <= lat.mem
    ensures |w| == NumConfigs
    ensures forall i | 0 <= i < NumConfigs :: w[i] == exec + BlockCost(ConfigAt(i), m, lat)
    ensures w[ConfigIndex(Share)] >= w[ConfigIndex(Color)] >= w[ConfigIndex(ColorPrivateInst)]
              >= w[ConfigIndex(Par)] >= exec + Accesses(m)
  {
    BlockCostOrdered(m, lat);
    seq(NumConfigs, i requires 0 <= i < NumConfigs => exec + BlockCost(ConfigAt(i), m, lat))
  }

  /**
   * populate_vertex_weight: one row per block, from its statistics and its
   * execution cycles, with the latencies of the core count.
   */
  function PopulateVertexWeight(maps: seq<AddrMap>, cycles: seq<nat>, numCores: int): (w: seq<seq<nat>>)
    requires |cycles| == |maps|
    ensures |w| == |maps|
    ensures forall b | 0 <= b < |maps| ::
      |w[b]| == NumConfigs && w[b] == BlockWeights(maps[b], cycles[b], WorstCaseLatencies(numCores))
    ensures forall b | 0 <= b < |maps| ::
      && w[b][ConfigIndex(Share)] >= w[b][ConfigIndex(Color)]
      && w[b][ConfigIndex(Color)] >= w[b][ConfigIndex(ColorPrivateInst)]
      && w[b][ConfigIndex(ColorPrivateInst)] >= w[b][ConfigIndex(Par)]
      && w[b][ConfigIndex(Par)] >= cycles[b] + Accesses(maps[b])
  {
    var lat := WorstCaseLatencies(numCores);
    seq(|maps|, b requires 0 <= b < |maps| => BlockWeights(maps[b], cycles[b], lat))
  }

  /** A block's Share weight is its cycles plus the memory latency for every access. */
  lemma ShareWeightClosedForm(maps: seq<AddrMap>, cycles: seq<nat>, numCores: int, b: nat)
    requires |cycles| == |maps| && b < |maps|
    ensures PopulateVertexWeight(maps, cycles, numCores)[b][ConfigIndex(Share)]
      == cycles[b] + Accesses(maps[b]) * WorstCaseLatencies(numCores).mem
  {
    ShareCostIsFlat(maps[b], WorstCaseLatencies(numCores));
  }
}

=== FILE: dag_parser.dfy ===
/**
 * Building the task graph from the basic-block records omptr emits
 * (omptr/analyzer/analyzer.cc:104-177, record layout analyzer.hh:54-70).
 *
 * The records are sorted by (task, node), grouped into one run per task
 * (tasks must be numbered 0, 1, 2, ... without gaps), and three kinds of
 * edges are added for every block: the control edge from the previous block
 * of the same task, the spawn edge to the first block of the task it
 * created, and a join edge from the last block of every task it waits for.
 * The input is the decoded records; OmptrJson reads them from the layout
 * omptr prints.
 */
module DagParser {
  import opened Common
  import opened Graphs
  import TopoSort

  /** One basic block record; `taskCreated` is -1 when the block spawns nothing. */
  datatype BasicBlock = BasicBlock(
    id: nat,
    taskId: int,
    nodeId: int,
    taskCreated: int,
    numTasksWaitingFor: int,
    waitFor: seq<int>)

  datatype DagError =
    | Empty                      // no records (the assertion at analyzer.cc:126)
    | FirstNotTask0              // the smallest task id is not 0 (analyzer.cc:128)
    | NonContiguous(taskId: int) // a task id is skipped (analyzer.cc:133)
    | UndefinedReference(id: nat) // a block names a task or node that does not exist (analyzer.cc:144, 149, 154)
    | NotADag                    // the sort meets a back edge (analyzer.cc:171-174)
    | ShapeMismatch              // the order does not end at the root and start at the exit (analyzer.cc:169-170)

  datatype Dag = Dag(g: Graph, root: Vertex, exit: Vertex, numTasks: nat)

  /** The record order of analyzer.hh:63-69: by task, then by node. */
  predicate Less(a: BasicBlock, b: BasicBlock)
  {
    if a.taskId == b.taskId then a.nodeId < b.nodeId else a.taskId < b.taskId
  }

  predicate Sorted(s: seq<BasicBlock>)
  {
    forall i, j | 0 <= i < j < |s| :: !Less(s[j], s[i])
  }

  // -----------------------------------------------------------------------
  // Sorting

  /** Inserts `x` after every element of `s` that does not exceed it. */
  function Insert(x: BasicBlock, s: seq<BasicBlock>): (r: seq<BasicBlock>)
    requires Sorted(s)
    ensures Sorted(r) && multiset(r) == multiset(s) + multiset{x}
  {
    if s == [] then [x]
    else if Less(x, s[0]) then
      FrontSorted(x, s);
      [x] + s
    else
      TailSorted(s);
      var rest := Insert(x, s[1..]);
      InsertTailStep(x, s, rest);
      [s[0]] + rest
  }

  lemma TailSorted(s: seq<BasicBlock>)
    requires s != [] && Sorted(s)
    ensures Sorted(s[1..])
  {
    forall i, j | 0 <= i < j < |s[1..]|
      ensures !Less(s[1..][j], s[1..][i])
    {
      assert s[1..][i] == s[i + 1] && s[1..][j] == s[j + 1];
    }
  }

  /** Putting in front an element below the first keeps a sorted sequence sorted. */
  lemma FrontSorted(x: BasicBlock, s: seq<BasicBlock>)
    requires s != [] && Sorted(s) && Less(x, s[0])
    ensures Sorted([x] + s)
  {
    var r := [x] + s;
    forall i, j | 0 <= i < j < |r|
      ensures !Less(r[j], r[i])
    {
      assert r[j] == s[j - 1];
      if i > 0 {
        assert r[i] == s[i - 1];
      }
    }
  }

  /** The recursive case of `Insert`: the head stays in front of the extended tail. */
  lemma InsertTailStep(x: BasicBlock, s: seq<BasicBlock>, rest: seq<BasicBlock>)
    requires s != [] && Sorted(s) && !Less(x, s[0])
    requires Sorted(rest) && multiset(rest) == multiset(s[1..]) + multiset{x}
    ensures Sorted([s[0]] + rest) && multiset([s[0]] + rest) == multiset(s) + multiset{x}
  {
    assert s == [s[0]] + s[1..];
    var r := [s[0]] + rest;
    forall k | 0 <= k < |rest|
      ensures !Less(rest[k], s[0])
    {
      assert rest[k] in multiset(rest);
      if rest[k] != x {
        assert rest[k] in multiset(s[1..]);
        var j :| 0 <= j < |s[1..]| && s[1..][j] == rest[k];
        assert s[1..][j] == s[j + 1];
      }
    }
    forall i, j | 0 <= i < j < |r|
      ensures !Less(r[j], r[i])
    {
      assert r[j] == rest[j - 1];
      if i > 0 {
        assert r[i] == rest[i - 1];
      }
    }
  }

  function SortBlocks(s: seq<BasicBlock>): (r: seq<BasicBlock>)
    ensures Sorted(r) && multiset(r) == multiset(s)
  {
    if s == [] then []
    else
      assert s == s[..|s| - 1] + [s[|s| - 1]];
      Insert(s[|s| - 1], SortBlocks(s[..|s| - 1]))
  }

  // -----------------------------------------------------------------------
  // Grouping by task

  function Last(s: seq<BasicBlock>): BasicBlock
    requires s != []
  {
    s[|s| - 1]
  }

  /** `gs` splits `s` into non-empty runs, run `t` holding exactly the blocks of task `t`. */
  ghost predicate Grouping(s: seq<BasicBlock>, gs: seq<seq<BasicBlock>>)
  {
    && Flatten(gs) == s
    && (forall t | 0 <= t < |gs| :: gs[t] != [])
    && (forall t, k | 0 <= t < |gs| && 0 <= k < |gs[t]| :: gs[t][k].taskId == t)
  }

  /** From position `i` on, consecutive task ids stay equal or go up by one. */
  predicate ContiguousFrom(s: seq<BasicBlock>, i: nat)
  {
    forall k | i <= k < |s| && 1 <= k :: s[k].taskId == s[k - 1].taskId || s[k].taskId == s[k - 1].taskId + 1
  }

  predicate Contiguous(s: seq<BasicBlock>)
  {
    s != [] && s[0].taskId == 0 && ContiguousFrom(s, 1)
  }

  /**
   * The grouping loop of analyzer.cc:124-138 from position `i`, with `bbs`
   * the run of the current task and `gs` the finished runs.
   */
  function GroupFrom(s: seq<BasicBlock>, i: nat, bbs: seq<BasicBlock>, gs: seq<seq<BasicBlock>>)
    : (r: Result<seq<seq<BasicBlock>>, DagError>)
    requires 1 <= i <= |s| && bbs != []
    requires Grouping(s[..i], gs + [bbs])
    requires bbs[|bbs| - 1] == s[i - 1]
    ensures r.Ok? <==> ContiguousFrom(s, i)
    ensures r.Ok? ==> Grouping(s, r.value)
    ensures r.Err? ==> r.error.NonContiguous?
    decreases |s| - i
  {
    if i == |s| then
      assert s[..i] == s;
      Ok(gs + [bbs])
    else
      var cur := |gs|;
      assert s[i - 1].taskId == cur by {
        assert (gs + [bbs])[cur] == bbs;
      }
      if s[i].taskId != cur then
        if s[i].taskId != cur + 1 then
          Err(NonContiguous(s[i].taskId))
        else
          GroupingNextTask(s, i, bbs, gs);
          GroupFrom(s, i + 1, [s[i]], gs + [bbs])
      else
        GroupingSameTask(s, i, bbs, gs);
        GroupFrom(s, i + 1, bbs + [s[i]], gs)
  }

  lemma GroupingSameTask(s: seq<BasicBlock>, i: nat, bbs: seq<BasicBlock>, gs: seq<seq<BasicBlock>>)
    requires 1 <= i < |s| && bbs != []
    requires Grouping(s[..i], gs + [bbs]) && s[i].taskId == |gs|
    ensures Grouping(s[..i + 1], gs + [bbs + [s[i]]])
  {
    var run := bbs + [s[i]];
    var gs': seq<seq<BasicBlock>> := gs + [run];
    calc {
      Flatten(gs');
      { FlattenSnoc(gs, run); }
      Flatten(gs) + run;
      (Flatten(gs) + bbs) + [s[i]];
      { FlattenSnoc(gs, bbs); }
      s[..i] + [s[i]];
      { assert s[..i + 1] == s[..i] + [s[i]]; }
      s[..i + 1];
    }
    assert forall t | 0 <= t < |gs| :: gs'[t] == gs[t] == (gs + [bbs])[t];
    assert forall k | 0 <= k < |bbs| :: run[k] == bbs[k] && (gs + [bbs])[|gs|] == bbs;
  }

  lemma GroupingNextTask(s: seq<BasicBlock>, i: nat, bbs: seq<BasicBlock>, gs: seq<seq<BasicBlock>>)
    requires 1 <= i < |s| && bbs != []
    requires Grouping(s[..i], gs + [bbs]) && s[i].taskId == |gs| + 1
    ensures Grouping(s[..i + 1], (gs + [bbs]) + [[s[i]]])
  {
    FlattenSnoc(gs + [bbs], [s[i]]);
    assert s[..i + 1] == s[..i] + [s[i]];
  }

  function GroupByTask(s: seq<BasicBlock>): (r: Result<seq<seq<BasicBlock>>, DagError>)
    ensures r == Err(Empty) <==> s == []
    ensures r == Err(FirstNotTask0) <==> s != [] && s[0].taskId != 0
    ensures r.Ok? <==> Contiguous(s)
    ensures r.Ok? ==> Grouping(s, r.value)
  {
    if s == [] then Err(Empty)
    else if s[0].taskId != 0 then Err(FirstNotTask0)
    else
      assert Flatten([[s[0]]]) == [s[0]] == s[..1];
      GroupFrom(s, 1, [s[0]], [])
  }

  // -----------------------------------------------------------------------
  // Edges (analyzer.cc:140-158)

  type EdgeList = seq<(Vertex, Vertex)>

  /** The control edge into `b` from the previous block of its task, if any. */
  function ControlEdges(gs: seq<seq<BasicBlock>>, b: BasicBlock): Result<EdgeList, DagError>
  {
    if b.nodeId < 1 then Ok([])
    else if 0 <= b.taskId < |gs| && b.nodeId - 1 < |gs[b.taskId]| then
      Ok([(gs[b.taskId][b.nodeId - 1].id, b.id)])
    else Err(UndefinedReference(b.id))
  }

  /** The spawn edge from `b` to the first block of the task it created, if any. */
  function SpawnEdges(gs: seq<seq<BasicBlock>>, b: BasicBlock): Result<EdgeList, DagError>
  {
    if b.taskCreated == -1 then Ok([])
    else if 0 <= b.taskCreated < |gs| && gs[b.taskCreated] != [] then
      Ok([(b.id, gs[b.taskCreated][0].id)])
    else Err(UndefinedReference(b.id))
  }

  /** The join edges into `b` from the last block of each task in `ws`, in order. */
  function JoinEdges(gs: seq<seq<BasicBlock>>, b: BasicBlock, ws: seq<int>): (r: Result<EdgeList, DagError>)
    ensures r.Err? ==> r.error == UndefinedReference(b.id)
  {
    if ws == [] then Ok([])
    else if 0 <= ws[0] < |gs| && gs[ws[0]] != [] then
      var rest :- JoinEdges(gs, b, ws[1..]);
      Ok([(Last(gs[ws[0]]).id, b.id)] + rest)
    else Err(UndefinedReference(b.id))
  }

  function BlockEdges(gs: seq<seq<BasicBlock>>, b: BasicBlock): (r: Result<EdgeList, DagError>)
    ensures r.Err? ==> r.error == UndefinedReference(b.id)
  {
    var c :- ControlEdges(gs, b);
    var sp :- SpawnEdges(gs, b);
    var j :- JoinEdges(gs, b, b.waitFor);
    Ok(c + sp + j)
  }

  /** The edges of every block of `bs`, block by block, in insertion order. */
  function AllEdges(gs: seq<seq<BasicBlock>>, bs: seq<BasicBlock>): (r: Result<EdgeList, DagError>)
    ensures r.Err? ==> r.error.UndefinedReference?
  {
    if bs == [] then Ok([])
    else
      var e :- BlockEdges(gs, bs[0]);
      var rest :- AllEdges(gs, bs[1..]);
      Ok(e + rest)
  }

  /** Every task, node and spawned or awaited task that `b` names exists. */
  predicate RefsOk(gs: seq<seq<BasicBlock>>, b: BasicBlock)
  {
    && (b.nodeId >= 1 ==> 0 <= b.taskId < |gs| && b.nodeId - 1 < |gs[b.taskId]|)
    && (b.taskCreated != -1 ==> 0 <= b.taskCreated < |gs| && gs[b.taskCreated] != [])
    && (forall j | 0 <= j < |b.waitFor| :: 0 <= b.waitFor[j] < |gs| && gs[b.waitFor[j]] != [])
  }

  /** The edges `b` contributes, stated directly from the three rules. */
  predicate IsBlockEdge(gs: seq<seq<BasicBlock>>, b: BasicBlock, u: Vertex, v: Vertex)
    requires RefsOk(gs, b)
  {
    || (b.nodeId >= 1 && u == gs[b.taskId][b.nodeId - 1].id && v == b.id)
    || (b.taskCreated != -1 && u == b.id && v == gs[b.taskCreated][0].id)
    || (exists j | 0 <= j < |b.waitFor| :: u == Last(gs[b.waitFor[j]]).id && v == b.id)
  }

  lemma {:induction false} JoinEdgesSpec(gs: seq<seq<BasicBlock>>, b: BasicBlock, ws: seq<int>)
    ensures JoinEdges(gs, b, ws).Ok? <==> forall j | 0 <= j < |ws| :: 0 <= ws[j] < |gs| && gs[ws[j]] != []
    ensures JoinEdges(gs, b, ws).Ok? ==> forall u: Vertex, v: Vertex ::
      (u, v) in JoinEdges(gs, b, ws).value <==>
      exists j | 0 <= j < |ws| :: u == Last(gs[ws[j]]).id && v == b.id
    decreases |ws|
  {
    if ws != [] {
      JoinEdgesSpec(gs, b, ws[1..]);
      assert forall j | 1 <= j < |ws| :: ws[j] == ws[1..][j - 1];
      if JoinEdges(gs, b, ws).Ok? {
        forall u: Vertex, v: Vertex | (exists j | 0 <= j < |ws| :: u == Last(gs[ws[j]]).id && v == b.id)
          ensures (u, v) in JoinEdges(gs, b, ws).value
        {
          var j :| 0 <= j < |ws| && u == Last(gs[ws[j]]).id && v == b.id;
          if j > 0 {
            assert ws[1..][j - 1] == ws[j];
          }
        }
      }
    }
  }

  lemma BlockEdgesSpec(gs: seq<seq<BasicBlock>>, b: BasicBlock)
    ensures BlockEdges(gs, b).Ok? <==> RefsOk(gs, b)
    ensures BlockEdges(gs, b).Ok? ==> forall u: Vertex, v: Vertex ::
      (u, v) in BlockEdges(gs, b).value <==> IsBlockEdge(gs, b, u, v)
  {
    JoinEdgesSpec(gs, b, b.waitFor);
  }

  /**
   * Edge collection succeeds exactly when every block's references exist,
   * and then lists exactly the edges the three rules call for.
   */
  lemma {:induction false} AllEdgesSpec(gs: seq<seq<BasicBlock>>, bs: seq<BasicBlock>)
    ensures AllEdges(gs, bs).Ok? <==> forall k | 0 <= k < |bs| :: RefsOk(gs, bs[k])
    ensures AllEdges(gs, bs).Ok? ==> forall u: Vertex, v: Vertex ::
      (u, v) in AllEdges(gs, bs).value <==>
      exists k | 0 <= k < |bs| :: RefsOk(gs, bs[k]) && IsBlockEdge(gs, bs[k], u, v)
    decreases |bs|
  {
    if bs != [] {
      BlockEdgesSpec(gs, bs[0]);
      AllEdgesSpec(gs, bs[1..]);
      assert forall k | 1 <= k < |bs| :: bs[k] == bs[1..][k - 1];
      if AllEdges(gs, bs).Ok? {
        forall u: Vertex, v: Vertex | exists k | 0 <= k < |bs| :: RefsOk(gs, bs[k]) && IsBlockEdge(gs, bs[k], u, v)
          ensures (u, v) in AllEdges(gs, bs).value
        {
          var k :| 0 <= k < |bs| && RefsOk(gs, bs[k]) && IsBlockEdge(gs, bs[k], u, v);
          if k > 0 {
            assert bs[1..][k - 1] == bs[k];
          }
        }
      }
    }
  }

  // -----------------------------------------------------------------------
  // The adjacency list that `add_edge` grows (vertex storage grows to cover both ends)

  function AddEdge(g: Graph, u: Vertex, v: Vertex): (r: Graph)
    ensures r.Size() == if g.Size() > u && g.Size() > v then g.Size() else if u < v then v + 1 else u + 1
    ensures forall x: Vertex, y: Vertex :: r.Edge(x, y) <==> g.Edge(x, y) || (x, y) == (u, v)
    ensures g.Valid() ==> r.Valid()
  {
    var n := if g.Size() > u && g.Size() > v then g.Size() else if u < v then v + 1 else u + 1;
    var succ := g.succ + seq(n - g.Size(), _ => []);
    Graph(succ[u := succ[u] + [v]])
  }

  function FromEdges(es: EdgeList): (r: Graph)
    ensures r.Valid()
    ensures forall x: Vertex, y: Vertex :: r.Edge(x, y) <==> (x, y) in es
    ensures forall k | 0 <= k < |es| :: es[k].0 < r.Size() && es[k].1 < r.Size()
    ensures es == [] ==> r.Size() == 0
    ensures r.Size() > 0 ==> exists k | 0 <= k < |es| :: es[k].0 == r.Size() - 1 || es[k].1 == r.Size() - 1
  {
    if es == [] then Graph([])
    else
      var g := FromEdges(es[..|es| - 1]);
      var e := es[|es| - 1];
      FromEdgesStep(es, g);
      AddEdge(g, e.0, e.1)
  }

  /** Adding the last edge to the graph of the others gives the graph of all of them. */
  lemma FromEdgesStep(es: EdgeList, g: Graph)
    requires es != []
    requires g.Valid()
    requires forall x: Vertex, y: Vertex :: g.Edge(x, y) <==> (x, y) in es[..|es| - 1]
    requires forall k | 0 <= k < |es| - 1 :: es[k].0 < g.Size() && es[k].1 < g.Size()
    requires g.Size() > 0 ==> exists k | 0 <= k < |es| - 1 :: es[k].0 == g.Size() - 1 || es[k].1 == g.Size() - 1
    ensures var r := AddEdge(g, es[|es| - 1].0, es[|es| - 1].1);
      && r.Valid()
      && (forall x: Vertex, y: Vertex :: r.Edge(x, y) <==> (x, y) in es)
      && (forall k | 0 <= k < |es| :: es[k].0 < r.Size() && es[k].1 < r.Size())
      && (r.Size() > 0 ==> exists k | 0 <= k < |es| :: es[k].0 == r.Size() - 1 || es[k].1 == r.Size() - 1)
  {
    var e := es[|es| - 1];
    var r := AddEdge(g, e.0, e.1);
    assert es == es[..|es| - 1] + [e];
    if g.Size() > e.0 && g.Size() > e.1 {
      var k :| 0 <= k < |es| - 1 && (es[k].0 == g.Size() - 1 || es[k].1 == g.Size() - 1);
    } else {
      assert es[|es| - 1].0 == r.Size() - 1 || es[|es| - 1].1 == r.Size() - 1;
    }
  }

  // -----------------------------------------------------------------------
  // The whole parse

  /** Sorting, grouping and edge collection all succeed. */
  ghost predicate Builds(blocks: seq<BasicBlock>)
  {
    var s := SortBlocks(blocks);
    GroupByTask(s).Ok? && AllEdges(GroupByTask(s).value, s).Ok?
  }

  /** The runs of blocks per task. */
  ghost function Groups(blocks: seq<BasicBlock>): seq<seq<BasicBlock>>
    requires Builds(blocks)
  {
    GroupByTask(SortBlocks(blocks)).value
  }

  /** The graph of every edge the blocks call for. */
  ghost function BuiltGraph(blocks: seq<BasicBlock>): Graph
    requires Builds(blocks)
  {
    FromEdges(AllEdges(Groups(blocks), SortBlocks(blocks)).value)
  }

  /** The root is the first block of task 0, the exit its last block. */
  ghost function RootOf(blocks: seq<BasicBlock>): Vertex
    requires Builds(blocks)
  {
    var gs := Groups(blocks);
    assert Flatten(gs) == SortBlocks(blocks) != [];
    gs[0][0].id
  }

  ghost function ExitOf(blocks: seq<BasicBlock>): Vertex
    requires Builds(blocks)
  {
    var gs := Groups(blocks);
    assert Flatten(gs) == SortBlocks(blocks) != [];
    Last(gs[0]).id
  }

  /**
   * The shape the topological sort must confirm: the sort's first vertex
   * (the sink reached from vertex 0 by first out-edges) is the exit, and
   * its last (the last tree root) is the root.
   */
  ghost predicate WellShaped(blocks: seq<BasicBlock>)
    requires Builds(blocks)
  {
    var g := BuiltGraph(blocks);
    g.Size() > 0 && TopoSort.FirstSink(g, 0, ExitOf(blocks)) && TopoSort.LastTreeRoot(g, RootOf(blocks))
  }

  /**
   * Sort, group, add edges, pick the root (first block of task 0) and exit
   * (last block of task 0), then validate with a topological sort whose
   * order must end at the root and start at the exit.
   */
  method ParseDag(blocks: seq<BasicBlock>) returns (r: Result<Dag, DagError>)
    ensures r == Err(Empty) <==> blocks == []
    ensures GroupByTask(SortBlocks(blocks)).Err? ==> r == Err(GroupByTask(SortBlocks(blocks)).error)
    ensures var s := SortBlocks(blocks);
      GroupByTask(s).Ok? && AllEdges(GroupByTask(s).value, s).Err? ==>
      r == Err(AllEdges(GroupByTask(s).value, s).error)
    ensures r == Err(NotADag) <==> Builds(blocks) && !Acyclic(BuiltGraph(blocks))
    ensures r == Err(ShapeMismatch) ==> Builds(blocks) && Acyclic(BuiltGraph(blocks))
    ensures r.Ok? <==> Builds(blocks) && Acyclic(BuiltGraph(blocks)) && WellShaped(blocks)
    ensures r.Ok? ==>
      r.value == Dag(BuiltGraph(blocks), RootOf(blocks), ExitOf(blocks), |Groups(blocks)|)
    ensures r.Ok? ==> r.value.g.Valid() && Grouping(SortBlocks(blocks), Groups(blocks))
    ensures r.Ok? ==> exists order ::
      && IsReverseTopoOrder(r.value.g, order) && order != []
      && order[|order| - 1] == r.value.root && order[0] == r.value.exit
  {
    var built := Build(blocks);
    if built.Err? {
      return Err(built.error);
    }
    var gs: seq<seq<BasicBlock>>, g: Graph := built.value.0, built.value.1;
    var root, exit := gs[0][0].id, Last(gs[0]).id;
    var order := TopoSort.TopologicalSort(g);
    if order.None? {
      return Err(NotADag);
    }
    var o := order.value;
    ShapeCheck(g, o, root, exit);
    if o == [] || o[|o| - 1] != root || o[0] != exit {
      return Err(ShapeMismatch);
    }
    return Ok(Dag(g, root, exit, |gs|));
  }

  /**
   * With the order the sort returns, the check that it ends at `root` and
   * starts at `exit` passes exactly when the graph has the shape the two
   * vertices demand.
   */
  lemma ShapeCheck(g: Graph, o: seq<Vertex>, root: Vertex, exit: Vertex)
    requires IsReverseTopoOrder(g, o)
    requires g.Size() > 0 ==> TopoSort.FirstSink(g, 0, o[0]) && TopoSort.LastTreeRoot(g, o[|o| - 1])
    ensures (o != [] && o[|o| - 1] == root && o[0] == exit) <==>
      g.Size() > 0 && TopoSort.FirstSink(g, 0, exit) && TopoSort.LastTreeRoot(g, root)
  {
    if g.Size() > 0 && TopoSort.FirstSink(g, 0, exit) && TopoSort.LastTreeRoot(g, root) {
      TopoSort.FirstSinkUnique(g, 0, o[0], exit);
      TopoSort.LastTreeRootUnique(g, o[|o| - 1], root);
    }
  }

  /** The steps before the topological sort: sort, group and add the edges. */
  method Build(blocks: seq<BasicBlock>) returns (r: Result<(seq<seq<BasicBlock>>, Graph), DagError>)
    ensures r == Err(Empty) <==> blocks == []
    ensures r.Ok? <==> Builds(blocks)
    ensures GroupByTask(SortBlocks(blocks)).Err? ==> r == Err(GroupByTask(SortBlocks(blocks)).error)
    ensures var s := SortBlocks(blocks);
      GroupByTask(s).Ok? && AllEdges(GroupByTask(s).value, s).Err? ==>
      r == Err(AllEdges(GroupByTask(s).value, s).error)
    ensures r.Err? ==> r.error != NotADag && r.error != ShapeMismatch
    ensures r.Ok? ==>
      && r.value == (Groups(blocks), BuiltGraph(blocks))
      && Grouping(SortBlocks(blocks), Groups(blocks))
      && r.value.0 != [] && r.value.0[0] != [] && r.value.1.Valid()
  {
    var s := SortBlocks(blocks);
    if blocks == [] {
      assert s == [];
      return Err(Empty);
    }
    assert s != [];
    var grouped := GroupByTask(s);
    if grouped.Err? {
      return Err(grouped.error);
    }
    var gs := grouped.value;
    var edges := AllEdges(gs, s);
    if edges.Err? {
      return Err(edges.error);
    }
    return Ok((gs, FromEdges(edges.value)));
  }

  /** In a parsed graph, u -> v is an edge exactly when some block's rules call for it. */
  lemma ParsedEdges(blocks: seq<BasicBlock>, u: Vertex, v: Vertex)
    requires var s := SortBlocks(blocks);
      GroupByTask(s).Ok? && AllEdges(GroupByTask(s).value, s).Ok?
    ensures var s := SortBlocks(blocks);
      var gs := GroupByTask(s).value;
      FromEdges(AllEdges(gs, s).value).Edge(u, v) <==>
        exists k | 0 <= k < |s| :: RefsOk(gs, s[k]) && IsBlockEdge(gs, s[k], u, v)
  {
    var s := SortBlocks(blocks);
    AllEdgesSpec(GroupByTask(s).value, s);
  }
}

=== FILE: graphs.dfy ===
/**
 * The task graph as an adjacency list, and the reachability vocabulary every
 * other component is specified against: paths, "u reaches v by a non-empty
 * path", descendant sets, acyclicity and reverse topological orders.
 *
 * This stands in for the Boost `adjacency_list<vecS, vecS, directedS>` of
 * omptr/analyzer/analyzer.hh: out-edges are kept in insertion order and
 * parallel edges are allowed.
 */
module Graphs {
  import opened Common

  type Vertex = nat

  /** `succ[u]` lists the targets of u's out-edges in insertion order. */
  datatype Graph = Graph(succ: seq<seq<Vertex>>) {
    function Size(): nat { |succ| }

    predicate Valid()
    {
      forall u, k | 0 <= u < |succ| && 0 <= k < |succ[u]| :: succ[u][k] < |succ|
    }

    predicate Edge(u: Vertex, v: Vertex)
    {
      u < |succ| && v in succ[u]
    }
  }

  ghost predicate IsPath(g: Graph, p: seq<Vertex>)
  {
    && |p| >= 1
    && (forall k | 0 <= k < |p| :: p[k] < g.Size())
    && (forall k | 0 <= k < |p| - 1 :: g.Edge(p[k], p[k + 1]))
  }

  /** `v` can be reached from `u` along a path of at least one edge. */
  ghost predicate Reaches(g: Graph, u: Vertex, v: Vertex)
  {
    exists p :: IsPath(g, p) && |p| >= 2 && p[0] == u && p[|p| - 1] == v
  }

  /** The descendants of `u`: every vertex reachable from `u` by a non-empty path. */
  ghost function Desc(g: Graph, u: Vertex): set<Vertex>
  {
    set v | 0 <= v < g.Size() && Reaches(g, u, v)
  }

  ghost predicate Acyclic(g: Graph)
  {
    forall u | 0 <= u < g.Size() :: !Reaches(g, u, u)
  }

  /**
   * A reverse topological order lists every vertex exactly once, each
   * vertex after all of its successors (sinks first, sources last): no edge
   * goes from a position to the same or a later position.
   */
  predicate IsReverseTopoOrder(g: Graph, order: seq<Vertex>)
  {
    && |order| == g.Size()
    && Distinct(order)
    && (forall k | 0 <= k < |order| :: order[k] < g.Size())
    && (forall v | 0 <= v < g.Size() :: v in order)
    && (forall i, j | 0 <= i <= j < |order| :: !g.Edge(order[i], order[j]))
  }

  /** Every successor of a member of `s` is a member of `s`. */
  ghost predicate SuccClosed(g: Graph, s: set<Vertex>)
  {
    forall x, k | x in s && 0 <= x < |g.succ| && 0 <= k < |g.succ[x]| :: g.succ[x][k] in s
  }

  /** The union over the listed successors `t` of `{t}` and the descendants of `t`. */
  ghost function SuccDesc(g: Graph, ts: seq<Vertex>): set<Vertex>
  {
    if ts == [] then {} else ({ts[0]} + Desc(g, ts[0])) + SuccDesc(g, ts[1..])
  }

  // ---------------------------------------------------------------------
  // Paths

  lemma EdgeReaches(g: Graph, u: Vertex, v: Vertex)
    requires g.Valid() && g.Edge(u, v)
    ensures Reaches(g, u, v)
  {
    var k :| 0 <= k < |g.succ[u]| && g.succ[u][k] == v;
    assert IsPath(g, [u, v]);
  }

  lemma ReachesTrans(g: Graph, u: Vertex, v: Vertex, w: Vertex)
    requires Reaches(g, u, v) && Reaches(g, v, w)
    ensures Reaches(g, u, w)
  {
    var p :| IsPath(g, p) && |p| >= 2 && p[0] == u && p[|p| - 1] == v;
    var q :| IsPath(g, q) && |q| >= 2 && q[0] == v && q[|q| - 1] == w;
    var r := p + q[1..];
    forall k | 0 <= k < |r| - 1
      ensures g.Edge(r[k], r[k + 1])
    {
      if k < |p| - 1 {
        assert r[k] == p[k] && r[k + 1] == p[k + 1];
      } else {
        assert r[k] == q[k - |p| + 1] && r[k + 1] == q[k - |p| + 2];
      }
    }
    assert IsPath(g, r);
  }

  lemma SubPath(g: Graph, p: seq<Vertex>, i: nat, j: nat)
    requires IsPath(g, p) && i < j < |p|
    ensures Reaches(g, p[i], p[j])
  {
    var q := p[i..j + 1];
    forall k | 0 <= k < |q| - 1
      ensures g.Edge(q[k], q[k + 1])
    {
      assert q[k] == p[i + k] && q[k + 1] == p[i + k + 1];
    }
    assert IsPath(g, q);
  }

  /** In an acyclic graph a path never visits a vertex twice. */
  lemma PathDistinct(g: Graph, p: seq<Vertex>)
    requires Acyclic(g) && IsPath(g, p)
    ensures Distinct(p)
  {
    forall i, j | 0 <= i < j < |p|
      ensures p[i] != p[j]
    {
      SubPath(g, p, i, j);
    }
  }

  /** A non-empty path leaves `u` through one of its out-edges. */
  lemma ReachesFirstStep(g: Graph, u: Vertex, w: Vertex) returns (t: Vertex)
    requires Reaches(g, u, w)
    ensures g.Edge(u, t)
    ensures t == w || Reaches(g, t, w)
  {
    var p :| IsPath(g, p) && |p| >= 2 && p[0] == u && p[|p| - 1] == w;
    t := p[1];
    if |p| > 2 {
      SubPath(g, p, 1, |p| - 1);
    }
  }

  /** A set closed under successors contains everything its members reach. */
  lemma {:induction false} PathStaysIn(g: Graph, s: set<Vertex>, p: seq<Vertex>)
    requires IsPath(g, p) && SuccClosed(g, s) && p[0] in s
    ensures forall k | 0 <= k < |p| :: p[k] in s
    decreases |p|
  {
    if |p| > 1 {
      var p' := p[..|p| - 1];
      assert IsPath(g, p');
      PathStaysIn(g, s, p');
      var x := p[|p| - 2];
      assert g.Edge(x, p[|p| - 1]);
      var k :| 0 <= k < |g.succ[x]| && g.succ[x][k] == p[|p| - 1];
      assert p[|p| - 2] == p'[|p| - 2];
    }
  }

  lemma ClosedContainsReached(g: Graph, s: set<Vertex>, u: Vertex, v: Vertex)
    requires SuccClosed(g, s) && u in s && Reaches(g, u, v)
    ensures v in s
  {
    var p :| IsPath(g, p) && |p| >= 2 && p[0] == u && p[|p| - 1] == v;
    PathStaysIn(g, s, p);
  }

  // ---------------------------------------------------------------------
  // Descendant sets

  lemma {:induction false} SuccDescMembers(g: Graph, ts: seq<Vertex>, v: Vertex)
    ensures v in SuccDesc(g, ts) <==>
      exists k | 0 <= k < |ts| :: v == ts[k] || v in Desc(g, ts[k])
    decreases |ts|
  {
    if ts != [] {
      SuccDescMembers(g, ts[1..], v);
      if v in SuccDesc(g, ts[1..]) {
        var k :| 0 <= k < |ts[1..]| && (v == ts[1..][k] || v in Desc(g, ts[1..][k]));
        assert ts[k + 1] == ts[1..][k];
      }
      if exists k | 0 <= k < |ts| :: v == ts[k] || v in Desc(g, ts[k]) {
        var k :| 0 <= k < |ts| && (v == ts[k] || v in Desc(g, ts[k]));
        if k > 0 {
          assert ts[1..][k - 1] == ts[k];
        }
      }
    }
  }

  /**
   * The recurrence the bottom-up reachability relies on: the descendants of
   * `u` are its direct successors together with their descendants.
   */
  lemma DescUnfold(g: Graph, u: Vertex)
    requires g.Valid() && u < g.Size()
    ensures Desc(g, u) == SuccDesc(g, g.succ[u])
  {
    forall v | v in Desc(g, u)
      ensures v in SuccDesc(g, g.succ[u])
    {
      var t := ReachesFirstStep(g, u, v);
      var k :| 0 <= k < |g.succ[u]| && g.succ[u][k] == t;
      SuccDescMembers(g, g.succ[u], v);
    }
    forall v | v in SuccDesc(g, g.succ[u])
      ensures v in Desc(g, u)
    {
      SuccDescMembers(g, g.succ[u], v);
      var k :| 0 <= k < |g.succ[u]| && (v == g.succ[u][k] || v in Desc(g, g.succ[u][k]));
      var t := g.succ[u][k];
      EdgeReaches(g, u, t);
      if v != t {
        ReachesTrans(g, u, t, v);
      }
    }
  }

  // ---------------------------------------------------------------------
  // Topological orders

  ghost function IndexOf(order: seq<Vertex>, v: Vertex): (k: nat)
    requires v in order
    ensures k < |order| && order[k] == v
  {
    var k :| 0 <= k < |order| && order[k] == v; k
  }

  /** Along any path, positions in a reverse topological order strictly decrease. */
  lemma {:induction false} PathDescendsInOrder(g: Graph, order: seq<Vertex>, p: seq<Vertex>)
    requires IsReverseTopoOrder(g, order)
    requires IsPath(g, p) && |p| >= 2
    ensures IndexOf(order, p[|p| - 1]) < IndexOf(order, p[0])
    decreases |p|
  {
    var n := |p|;
    var i, j := IndexOf(order, p[n - 2]), IndexOf(order, p[n - 1]);
    assert g.Edge(order[i], order[j]);
    if n > 2 {
      var p' := p[..n - 1];
      assert IsPath(g, p');
      PathDescendsInOrder(g, order, p');
    }
  }

  /** A graph that has a reverse topological order has no cycle. */
  lemma RevTopoAcyclic(g: Graph, order: seq<Vertex>)
    requires IsReverseTopoOrder(g, order)
    ensures Acyclic(g)
  {
    forall u | 0 <= u < g.Size()
      ensures !Reaches(g, u, u)
    {
      if Reaches(g, u, u) {
        var p :| IsPath(g, p) && |p| >= 2 && p[0] == u && p[|p| - 1] == u;
        PathDescendsInOrder(g, order, p);
      }
    }
  }

  /** In a reverse topological order every successor of a vertex comes before it. */
  lemma SuccEarlierInOrder(g: Graph, order: seq<Vertex>, i: nat, t: Vertex)
    requires g.Valid() && IsReverseTopoOrder(g, order) && i < |order|
    requires t in g.succ[order[i]]
    ensures t in order[..i]
  {
    var j := IndexOf(order, t);
    assert g.Edge(order[i], order[j]);
    assert order[..i][j] == t;
  }

  // ---------------------------------------------------------------------
  // Counting

  lemma {:induction false} DistinctCard<T>(s: seq<T>)
    requires Distinct(s)
    ensures |set k | 0 <= k < |s| :: s[k]| == |s|
    decreases |s|
  {
    if s != [] {
      var s' := s[..|s| - 1];
      DistinctCard(s');
      var last := s[|s| - 1];
      assert (set k | 0 <= k < |s| :: s[k]) == (set k | 0 <= k < |s'| :: s'[k]) + {last};
      assert last !in (set k | 0 <= k < |s'| :: s'[k]);
    }
  }

  lemma {:induction false} DistinctMultiset<T>(s: seq<T>, x: T)
    requires Distinct(s)
    ensures multiset(s)[x] == if x in s then 1 else 0
    decreases |s|
  {
    if s != [] {
      var s' := s[..|s| - 1];
      assert s == s' + [s[|s| - 1]];
      DistinctMultiset(s', x);
    }
  }

  /**
   * A duplicate-free sequence of vertices below `n` that mentions every
   * vertex below `n` is a permutation of 0..n-1, so it has length `n`.
   */
  lemma DistinctCoverPermutation(order: seq<Vertex>, n: nat)
    requires Distinct(order)
    requires forall k | 0 <= k < |order| :: order[k] < n
    requires forall v | 0 <= v < n :: v in order
    ensures multiset(order) == multiset(Range(n))
    ensures |order| == n
  {
    var r := Range(n);
    forall x: nat
      ensures multiset(order)[x] == multiset(r)[x]
    {
      DistinctMultiset(order, x);
      DistinctMultiset(r, x);
      if x in order {
        var k :| 0 <= k < |order| && order[k] == x;
        assert r[x] == x;
      }
      if x in r {
        var k :| 0 <= k < |r| && r[k] == x;
      }
    }
    assert multiset(order) == multiset(r);
    assert |order| == |multiset(order)| == |multiset(r)| == |r|;
  }

  /** A reverse topological order is a permutation of the vertex range. */
  lemma RevTopoPermutation(g: Graph, order: seq<Vertex>)
    requires IsReverseTopoOrder(g, order)
    ensures multiset(order) == multiset(Range(g.Size()))
  {
    DistinctCoverPermutation(order, g.Size());
  }
}

=== FILE: mem_probe.dfy ===
/**
 * The memory probe that turns the simulator's per-access events into the
 * statistics trace the analyzer reads
 * (src/mem/ruby/system/CustomMemProbe.cc:40-252, CustomMemProbe.hh:24-97).
 *
 * In aggregate mode every access is charged to the basic block its thread
 * is running. The entry for (block, line) counts one hit status per
 * access. When a block ends, its execution cycles are stored under the
 * key (block, 0) as a metadata entry. At exit the entries are written in
 * key order.
 *
 * Outside this model:
 * - the raw-trace mode;
 * - the CPU and statistics objects that supply the cycle counts (these
 *   arrive as parameters);
 * - the protobuf encoding.
 */
module MemProbe {
  import opened Common
  import MemStats

  // -----------------------------------------------------------------------
  // Trace vocabulary

  datatype AccessType = Ifetch | Read | Write
  datatype Region = Global | Stack | Heap
  datatype HitStatus = LocalL1 | RemoteL1 | L2Hit | Memory

  /** One access as the cache controllers report it; its block is resolved separately. */
  datatype Trace = Trace(
    address: nat, lineAddress: nat, accessType: AccessType,
    hitStatus: HitStatus, region: Region, threadId: int)

  /** The region enum's position: the probe writes the position and the analyzer casts it back. */
  function RegionCode(r: Region): nat
  {
    match r
    case Global => 0
    case Stack => 1
    case Heap => 2
  }

  /** The analyzer's region enum read at a position (analyzer.hh:23-27). */
  function AnalyzerRegion(code: nat): MemStats.DataRegion
  {
    if code == 0 then MemStats.Global else if code == 1 then MemStats.Stack else MemStats.Heap
  }

  /** The probe's region, as the analyzer sees it after the cast: the same name on both sides. */
  function CastRegion(r: Region): (a: MemStats.DataRegion)
    ensures a.Global? <==> r.Global?
    ensures a.Stack? <==> r.Stack?
    ensures a.Heap? <==> r.Heap?
  {
    AnalyzerRegion(RegionCode(r))
  }

  // -----------------------------------------------------------------------
  // Data region of an address

  /** The process's memory bounds; the stack grows down from `stackBase` to `stackMin`. */
  datatype Layout = Layout(stackMin: nat, stackBase: nat, brkPoint: nat, startBrkPoint: nat)

  /** The ordering getDataRegion asserts. */
  predicate LayoutOk(l: Layout)
  {
    l.startBrkPoint <= l.brkPoint <= l.stackMin <= l.stackBase
  }

  /**
   * getDataRegion: the stack is [stackMin, stackBase], the heap is
   * [brkPoint, stackMin) (the shared bound belongs to the stack), and
   * every other address is global.
   */
  function GetDataRegion(v: nat, l: Layout): (r: Region)
    requires LayoutOk(l)
    ensures r == Stack <==> l.stackMin <= v <= l.stackBase
    ensures r == Heap <==> l.brkPoint <= v < l.stackMin
    ensures r == Global <==> v < l.brkPoint || l.stackBase < v
  {
    if l.stackMin <= v && v <= l.stackBase then Stack
    else if l.brkPoint <= v && v <= l.stackMin then Heap
    else Global
  }

  // -----------------------------------------------------------------------
  // Counters

  /** The counter a hit status is recorded in. */
  function CounterOf(c: MemStats.Counters, h: HitStatus): nat
  {
    match h
    case LocalL1 => c.localL1
    case RemoteL1 => c.remoteL1
    case L2Hit => c.l2
    case Memory => c.mem
  }

  const NoCounts := MemStats.Counters(0, 0, 0, 0)

  /**
   * AddrAccessStats::record: one more access with status `h`, and nothing
   * else changes. Each status has a counter of its own, so recording two
   * different statuses never gives the same counters.
   */
  function Record(c: MemStats.Counters, h: HitStatus): (r: MemStats.Counters)
    ensures CounterOf(r, h) == CounterOf(c, h) + 1
    ensures forall h' | h' != h :: CounterOf(r, h') == CounterOf(c, h')
    ensures r.Total() == c.Total() + 1
  {
    match h
    case LocalL1 => c.(localL1 := c.localL1 + 1)
    case RemoteL1 => c.(remoteL1 := c.remoteL1 + 1)
    case L2Hit => c.(l2 := c.l2 + 1)
    case Memory => c.(mem := c.mem + 1)
  }

  // -----------------------------------------------------------------------
  // Keys and entries

  datatype Key = Key(bbId: int, address: nat)

  /** AddrAccessKey::operator<: by block, then by address. */
  predicate KeyLess(a: Key, b: Key)
  {
    if a.bbId < b.bbId then true
    else if a.bbId > b.bbId then false
    else a.address < b.address
  }

  /** The key order is a strict total order whose equivalence is equality of both fields. */
  lemma KeyOrderStrictTotal(a: Key, b: Key, c: Key)
    ensures !KeyLess(a, a)
    ensures KeyLess(a, b) ==> !KeyLess(b, a)
    ensures KeyLess(a, b) && KeyLess(b, c) ==> KeyLess(a, c)
    ensures !KeyLess(a, b) && !KeyLess(b, a) <==> a == b
  {
  }

  /** AddrAccessStats on the probe side. */
  datatype Entry = Entry(
    bbId: int, threadId: int, address: nat, lineAddress: nat, isIfetch: bool,
    counts: MemStats.Counters, region: Region, isMetadata: bool, execCycles: nat)

  function KeyOf(e: Entry): Key { Key(e.bbId, e.address) }

  /** `m_addr_stats`: a map ordered by key, as its entries in ascending key order. */
  type StatsMap = seq<Entry>

  predicate Ordered(m: StatsMap)
  {
    forall i, j | 0 <= i < j < |m| :: KeyLess(KeyOf(m[i]), KeyOf(m[j]))
  }

  /** Every entry is keyed by its line: the address field always holds the line address. */
  predicate ByLine(m: StatsMap)
  {
    forall i | 0 <= i < |m| :: m[i].address == m[i].lineAddress
  }

  /** The entry stored under `k`, if any. */
  function Lookup(m: StatsMap, k: Key): (r: Option<Entry>)
    ensures r.Some? <==> exists i | 0 <= i < |m| :: KeyOf(m[i]) == k
    ensures r.Some? ==> KeyOf(r.value) == k && r.value in m
  {
    if m == [] then None
    else if KeyOf(m[0]) == k then Some(m[0])
    else
      var r := Lookup(m[1..], k);
      assert forall i | 1 <= i < |m| :: m[i] == m[1..][i - 1];
      r
  }

  /** The two ways an entry is touched: an access with its hit status, or a block's cycles. */
  datatype Update = Hit(status: HitStatus) | Cycles(cycles: nat)

  /** What an update does to an entry that already exists; its key fields stay. */
  function Apply(e: Entry, u: Update): (r: Entry)
    ensures KeyOf(r) == KeyOf(e) && r.lineAddress == e.lineAddress
    ensures r.threadId == e.threadId && r.isIfetch == e.isIfetch && r.region == e.region
  {
    match u
    case Hit(h) => e.(counts := Record(e.counts, h))
    case Cycles(n) => e.(isMetadata := true, execCycles := n)
  }

  function KeySet(m: StatsMap): set<Key>
  {
    set e | e in m :: KeyOf(e)
  }

  /**
   * Find-or-emplace: the entry under the key of `blank` gets the update;
   * when there is none, `blank` is inserted in key order with the update
   * applied. The keys are the old ones plus that key, still in order.
   */
  function Upsert(m: StatsMap, blank: Entry, u: Update): (r: StatsMap)
    ensures KeySet(r) == KeySet(m) + {KeyOf(blank)}
    ensures Ordered(m) ==> Ordered(r)
    ensures ByLine(m) && blank.address == blank.lineAddress ==> ByLine(r)
  {
    var k := KeyOf(blank);
    var y := Apply(blank, u);
    if m == [] then
      InsertFacts(y, m);
      [y]
    else if KeyOf(m[0]) == k then
      ReplaceFacts(m, Apply(m[0], u));
      [Apply(m[0], u)] + m[1..]
    else if KeyLess(k, KeyOf(m[0])) then
      InsertFacts(y, m);
      [y] + m
    else
      var rest := Upsert(m[1..], blank, u);
      TailFacts(m, rest, k);
      [m[0]] + rest
  }

  /** The three facts of `Upsert` when `y` goes in front of `m`. */
  lemma InsertFacts(y: Entry, m: StatsMap)
    requires m == [] || KeyLess(KeyOf(y), KeyOf(m[0]))
    ensures KeySet([y] + m) == KeySet(m) + {KeyOf(y)}
    ensures Ordered(m) ==> Ordered([y] + m)
    ensures ByLine(m) && y.address == y.lineAddress ==> ByLine([y] + m)
  {
    KeySetCons(y, m);
    if m != [] {
      InsertHeadOrdered(y, m);
    }
    var r := [y] + m;
    assert forall i | 1 <= i < |r| :: r[i] == m[i - 1];
  }

  /** The three facts of `Upsert` when the head entry is replaced by `y` with the same key. */
  lemma ReplaceFacts(m: StatsMap, y: Entry)
    requires m != [] && KeyOf(y) == KeyOf(m[0])
    ensures KeySet([y] + m[1..]) == KeySet(m) + {KeyOf(y)}
    ensures Ordered(m) ==> Ordered([y] + m[1..])
    ensures ByLine(m) && y.address == y.lineAddress ==> ByLine([y] + m[1..])
  {
    KeySetCons(y, m[1..]);
    KeySetCons(m[0], m[1..]);
    ReplaceHeadOrdered(m, y);
  }

  /** The three facts of `Upsert` when the head stays and the rest was upserted. */
  lemma TailFacts(m: StatsMap, rest: StatsMap, k: Key)
    requires m != [] && KeyOf(m[0]) != k && !KeyLess(k, KeyOf(m[0]))
    requires KeySet(rest) == KeySet(m[1..]) + {k}
    requires Ordered(m[1..]) ==> Ordered(rest)
    ensures KeySet([m[0]] + rest) == KeySet(m) + {k}
    ensures Ordered(m) ==> Ordered([m[0]] + rest)
    ensures ByLine(m) && ByLine(rest) ==> ByLine([m[0]] + rest)
  {
    assert KeySet([m[0]] + rest) == KeySet(m) + {k} by {
      KeySetCons(m[0], rest);
      KeySetCons(m[0], m[1..]);
      assert m == [m[0]] + m[1..];
    }
    assert Ordered(m) ==> Ordered([m[0]] + rest) by {
      if Ordered(m) {
        TailOfOrdered(m);
        UpsertTailOrdered(m, rest, k);
      }
    }
    assert ByLine(m) && ByLine(rest) ==> ByLine([m[0]] + rest) by {
      var r := [m[0]] + rest;
      assert forall i | 1 <= i < |r| :: r[i] == rest[i - 1];
    }
  }

  lemma TailOfOrdered(m: StatsMap)
    requires m != [] && Ordered(m)
    ensures Ordered(m[1..])
  {
    forall i, j | 0 <= i < j < |m[1..]|
      ensures KeyLess(KeyOf(m[1..][i]), KeyOf(m[1..][j]))
    {
      assert m[1..][i] == m[i + 1] && m[1..][j] == m[j + 1];
    }
  }

  lemma KeySetCons(x: Entry, m: StatsMap)
    ensures KeySet([x] + m) == {KeyOf(x)} + KeySet(m)
    ensures KeySet([x] + m[..0] + m) == KeySet([x] + m)
  {
    assert [x] + m[..0] + m == [x] + m;
  }

  lemma ReplaceHeadOrdered(m: StatsMap, y: Entry)
    requires m != [] && KeyOf(y) == KeyOf(m[0])
    ensures m == [m[0]] + m[1..]
    ensures Ordered(m) ==> Ordered([y] + m[1..])
    ensures ByLine(m) && y.address == y.lineAddress ==> ByLine([y] + m[1..])
  {
    var r := [y] + m[1..];
    assert forall i | 1 <= i < |r| :: r[i] == m[i];
  }

  lemma InsertHeadOrdered(y: Entry, m: StatsMap)
    requires m != [] && KeyLess(KeyOf(y), KeyOf(m[0]))
    ensures Ordered(m) ==> Ordered([y] + m)
  {
    if Ordered(m) {
      forall e | e in m
        ensures KeyLess(KeyOf(y), KeyOf(e))
      {
        var i :| 0 <= i < |m| && m[i] == e;
        if i > 0 {
          assert KeyLess(KeyOf(m[0]), KeyOf(m[i]));
        }
      }
      ConsOrdered(y, m);
    }
  }

  /** The entry kept in front is below every key of the upserted rest. */
  lemma UpsertTailOrdered(m: StatsMap, rest: StatsMap, k: Key)
    requires m != [] && KeyOf(m[0]) != k && !KeyLess(k, KeyOf(m[0]))
    requires KeySet(rest) == KeySet(m[1..]) + {k}
    requires Ordered(m[1..]) ==> Ordered(rest)
    ensures Ordered(m) ==> Ordered([m[0]] + rest)
  {
    if Ordered(m) {
      forall e | e in rest
        ensures KeyLess(KeyOf(m[0]), KeyOf(e))
      {
        assert KeyOf(e) in KeySet(rest);
        if KeyOf(e) != k {
          var x :| x in m[1..] && KeyOf(x) == KeyOf(e);
          var i :| 0 <= i < |m[1..]| && m[1..][i] == x;
          assert m[1..][i] == m[i + 1];
        }
      }
      ConsOrdered(m[0], rest);
    }
  }

  lemma ConsOrdered(x: Entry, rest: StatsMap)
    requires Ordered(rest) && forall e | e in rest :: KeyLess(KeyOf(x), KeyOf(e))
    ensures Ordered([x] + rest)
  {
    var r := [x] + rest;
    forall i, j | 0 <= i < j < |r|
      ensures KeyLess(KeyOf(r[i]), KeyOf(r[j]))
    {
      assert r[j] == rest[j - 1];
      if i > 0 {
        assert r[i] == rest[i - 1];
      }
    }
  }

  /** After an upsert, the entry under its key is the updated one and every other key keeps its entry. */
  lemma {:induction false} UpsertLookup(m: StatsMap, blank: Entry, u: Update, k: Key)
    requires Ordered(m)
    ensures Lookup(Upsert(m, blank, u), k) ==
      if k != KeyOf(blank) then Lookup(m, k)
      else Some(if Lookup(m, k).Some? then Apply(Lookup(m, k).value, u) else Apply(blank, u))
  {
    var kb := KeyOf(blank);
    if m != [] && KeyOf(m[0]) != kb {
      if KeyLess(kb, KeyOf(m[0])) {
        var r := [Apply(blank, u)] + m;
        assert r[1..] == m;
        forall i | 0 <= i < |m|
          ensures KeyOf(m[i]) != kb
        {
          if i > 0 {
            assert KeyLess(KeyOf(m[0]), KeyOf(m[i]));
          }
        }
      } else {
        assert Ordered(m[1..]);
        var rest := Upsert(m[1..], blank, u);
        assert ([m[0]] + rest)[1..] == rest;
        UpsertLookup(m[1..], blank, u, k);
      }
    } else if m != [] {
      var r := [Apply(m[0], u)] + m[1..];
      assert r[1..] == m[1..];
    }
  }

  // -----------------------------------------------------------------------
  // recordMemTrace and recordExecCycles

  /** The zero-count entry recordMemTrace creates for the first access to a (block, line) pair. */
  function AccessBlank(bb: int, t: Trace): (e: Entry)
    ensures KeyOf(e) == Key(bb, t.lineAddress) && e.address == e.lineAddress
    ensures e.counts == NoCounts && !e.isMetadata && e.execCycles == 0
    ensures e.isIfetch <==> t.accessType == Ifetch
  {
    Entry(bb, t.threadId, t.lineAddress, t.lineAddress, t.accessType == Ifetch,
          NoCounts, t.region, false, 0)
  }

  /** The entry recordExecCycles creates when line 0 of the block was never accessed. */
  function CyclesBlank(bb: int, thread: int): (e: Entry)
    ensures KeyOf(e) == Key(bb, 0) && e.address == e.lineAddress
    ensures e.counts == NoCounts && !e.isIfetch && e.region == Global
  {
    Entry(bb, thread, 0, 0, false, NoCounts, Global, false, 0)
  }

  /** What reaches the statistics map: an access of a resolved block, or the end of a block. */
  datatype StatsEvent =
    | Access(bb: int, trace: Trace)
    | BlockEnd(bb: int, thread: int, cycles: nat)

  /** recordMemTrace in aggregate mode, and recordExecCycles. */
  function Observe(m: StatsMap, ev: StatsEvent): (r: StatsMap)
    ensures ev.Access? && ev.bb == -1 ==> r == m
  {
    match ev
    case Access(bb, t) => if bb == -1 then m else Upsert(m, AccessBlank(bb, t), Hit(t.hitStatus))
    case BlockEnd(bb, thread, n) => Upsert(m, CyclesBlank(bb, thread), Cycles(n))
  }

  /** The key an event lands on; an access outside every block lands nowhere. */
  function EventKey(ev: StatsEvent): Option<Key>
  {
    match ev
    case Access(bb, t) => if bb == -1 then None else Some(Key(bb, t.lineAddress))
    case BlockEnd(bb, _, _) => Some(Key(bb, 0))
  }

  function BlankOf(ev: StatsEvent): Entry
  {
    match ev
    case Access(bb, t) => AccessBlank(bb, t)
    case BlockEnd(bb, thread, _) => CyclesBlank(bb, thread)
  }

  /** The map after a run of events from the empty map. */
  function Aggregate(evs: seq<StatsEvent>): (m: StatsMap)
    ensures Ordered(m) && ByLine(m)
  {
    if evs == [] then [] else Observe(Aggregate(evs[..|evs| - 1]), evs[|evs| - 1])
  }

  // -----------------------------------------------------------------------
  // What the map holds after a run

  /** The first event that lands on `k`: the one that created its entry. */
  function Creator(evs: seq<StatsEvent>, k: Key): (r: Option<StatsEvent>)
    ensures r.Some? <==> exists i | 0 <= i < |evs| :: EventKey(evs[i]) == Some(k)
    ensures r.Some? ==> exists i | 0 <= i < |evs| ::
      evs[i] == r.value && EventKey(evs[i]) == Some(k)
      && forall j | 0 <= j < i :: EventKey(evs[j]) != Some(k)
  {
    if evs == [] then None
    else
      var front := evs[..|evs| - 1];
      var c := Creator(front, k);
      assert forall i | 0 <= i < |front| :: front[i] == evs[i];
      if c.Some? then c
      else if EventKey(evs[|evs| - 1]) == Some(k) then Some(evs[|evs| - 1])
      else None
  }

  /** How many accesses with status `h` landed on `k`. */
  function HitCount(evs: seq<StatsEvent>, k: Key, h: HitStatus): nat
  {
    if evs == [] then 0
    else
      var e := evs[|evs| - 1];
      HitCount(evs[..|evs| - 1], k, h)
        + (if e.Access? && EventKey(e) == Some(k) && e.trace.hitStatus == h then 1 else 0)
  }

  /** How many accesses of any status landed on `k`. */
  function AccessCount(evs: seq<StatsEvent>, k: Key): nat
  {
    if evs == [] then 0
    else
      var e := evs[|evs| - 1];
      AccessCount(evs[..|evs| - 1], k) + (if e.Access? && EventKey(e) == Some(k) then 1 else 0)
  }

  /** The cycles of the last block end that landed on `k`, if any. */
  function LastCycles(evs: seq<StatsEvent>, k: Key): Option<nat>
  {
    if evs == [] then None
    else
      var e := evs[|evs| - 1];
      if e.BlockEnd? && EventKey(e) == Some(k) then Some(e.cycles) else LastCycles(evs[..|evs| - 1], k)
  }

  function CountsOf(evs: seq<StatsEvent>, k: Key): MemStats.Counters
  {
    MemStats.Counters(HitCount(evs, k, LocalL1), HitCount(evs, k, RemoteL1),
                      HitCount(evs, k, L2Hit), HitCount(evs, k, Memory))
  }

  /** The entry a run leaves under `k`, described without the map. */
  function Expected(evs: seq<StatsEvent>, k: Key): Option<Entry>
  {
    var c := Creator(evs, k);
    if c.None? then None
    else
      var last := LastCycles(evs, k);
      Some(BlankOf(c.value).(
        counts := CountsOf(evs, k),
        isMetadata := last.Some?,
        execCycles := if last.Some? then last.value else 0))
  }

  function UpdateOf(ev: StatsEvent): Update
  {
    match ev
    case Access(_, t) => Hit(t.hitStatus)
    case BlockEnd(_, _, n) => Cycles(n)
  }

  /** Observe is an upsert of the event's blank entry under the event's key. */
  lemma ObserveIsUpsert(m: StatsMap, ev: StatsEvent)
    ensures EventKey(ev).None? ==> Observe(m, ev) == m
    ensures EventKey(ev).Some? ==>
      KeyOf(BlankOf(ev)) == EventKey(ev).value && Observe(m, ev) == Upsert(m, BlankOf(ev), UpdateOf(ev))
  {
  }

  lemma CountsStep(evs: seq<StatsEvent>, k: Key)
    requires evs != []
    ensures var e := evs[|evs| - 1];
      CountsOf(evs, k) == if e.Access? && EventKey(e) == Some(k)
        then Record(CountsOf(evs[..|evs| - 1], k), e.trace.hitStatus)
        else CountsOf(evs[..|evs| - 1], k)
  {
  }

  lemma CreatorStep(evs: seq<StatsEvent>, k: Key)
    requires evs != []
    ensures var front := evs[..|evs| - 1];
      var e := evs[|evs| - 1];
      && (Creator(front, k).Some? ==> Creator(evs, k) == Creator(front, k))
      && (Creator(front, k).None? ==> Creator(evs, k) == if EventKey(e) == Some(k) then Some(e) else None)
  {
  }

  lemma {:induction false} NothingBefore(evs: seq<StatsEvent>, k: Key)
    requires Creator(evs, k).None?
    ensures CountsOf(evs, k) == NoCounts
    ensures LastCycles(evs, k).None?
  {
    assert forall i | 0 <= i < |evs| :: EventKey(evs[i]) != Some(k);
    HitCountNone(evs, k);
  }

  /** One more event changes the described entry exactly as Observe changes the stored one. */
  lemma ExpectedStep(evs: seq<StatsEvent>, k: Key)
    requires evs != []
    ensures var front := evs[..|evs| - 1];
      var e := evs[|evs| - 1];
      && (EventKey(e) != Some(k) ==> Expected(evs, k) == Expected(front, k))
      && (EventKey(e) == Some(k) ==> Expected(evs, k) == Some(Apply(
            if Expected(front, k).Some? then Expected(front, k).value else BlankOf(e), UpdateOf(e))))
  {
    var front := evs[..|evs| - 1];
    var e := evs[|evs| - 1];
    CountsStep(evs, k);
    CreatorStep(evs, k);
    if Creator(front, k).None? {
      NothingBefore(front, k);
    }
  }

  lemma {:induction false} HitCountNone(evs: seq<StatsEvent>, k: Key)
    requires forall i | 0 <= i < |evs| :: EventKey(evs[i]) != Some(k)
    ensures forall h :: HitCount(evs, k, h) == 0
    ensures LastCycles(evs, k).None?
  {
    if evs != [] {
      var front := evs[..|evs| - 1];
      assert forall i | 0 <= i < |front| :: front[i] == evs[i];
      HitCountNone(front, k);
    }
  }

  /**
   * After any run, the entry under `k` exists exactly when some event
   * landed on `k`. Its identity fields come from the first such event.
   * Its counters count the accesses of each status that landed on `k`.
   * It is metadata exactly when a block end landed on `k`, holding the
   * last such block end's cycles.
   */
  lemma {:induction false} AggregateEntry(evs: seq<StatsEvent>, k: Key)
    ensures Lookup(Aggregate(evs), k) == Expected(evs, k)
  {
    if evs != [] {
      var front := evs[..|evs| - 1];
      var e := evs[|evs| - 1];
      AggregateEntry(front, k);
      ExpectedStep(evs, k);
      ObserveIsUpsert(Aggregate(front), e);
      if EventKey(e).Some? {
        UpsertLookup(Aggregate(front), BlankOf(e), UpdateOf(e), k);
      }
    }
  }

  lemma {:induction false} CountsTotal(evs: seq<StatsEvent>, k: Key)
    ensures CountsOf(evs, k).Total() == AccessCount(evs, k)
  {
    if evs != [] {
      CountsTotal(evs[..|evs| - 1], k);
    }
  }

  /** An entry's counters add up to the number of accesses to its (block, line) pair. */
  lemma EntryCountsAccesses(evs: seq<StatsEvent>, k: Key)
    requires Lookup(Aggregate(evs), k).Some?
    ensures Lookup(Aggregate(evs), k).value.counts.Total() == AccessCount(evs, k)
    ensures forall h :: CounterOf(Lookup(Aggregate(evs), k).value.counts, h) == HitCount(evs, k, h)
  {
    var c := CountsOf(evs, k);
    AggregateEntry(evs, k);
    ExpectedCounts(evs, k);
    CountsTotal(evs, k);
    forall h
      ensures CounterOf(c, h) == HitCount(evs, k, h)
    {
      CountsOfCounter(evs, k, h);
    }
  }

  lemma ExpectedCounts(evs: seq<StatsEvent>, k: Key)
    requires Expected(evs, k).Some?
    ensures Expected(evs, k).value.counts == CountsOf(evs, k)
  {
  }

  lemma CountsOfCounter(evs: seq<StatsEvent>, k: Key, h: HitStatus)
    ensures CounterOf(CountsOf(evs, k), h) == HitCount(evs, k, h)
  {
    match h
    case LocalL1 =>
    case RemoteL1 =>
    case L2Hit =>
    case Memory =>
  }

  // -----------------------------------------------------------------------
  // closeStreams

  /** The fields of one AddrAccessStats message the probe writes. */
  function ToMessage(e: Entry): (msg: MemStats.TraceMsg)
    requires e.bbId >= 0
    ensures msg.bbId == e.bbId && msg.lineAddress == e.lineAddress && msg.counts == e.counts
    ensures msg.isMetadata == e.isMetadata && msg.execCycles == e.execCycles
    ensures msg.region == CastRegion(e.region)
  {
    MemStats.TraceMsg(e.bbId, e.threadId, e.lineAddress, CastRegion(e.region), e.isIfetch,
                      e.counts, e.isMetadata, e.execCycles)
  }

  predicate NoNegativeBlock(m: StatsMap)
  {
    forall i | 0 <= i < |m| :: m[i].bbId >= 0
  }

  /**
   * closeStreams: one message per entry in key order. Block ids never
   * decrease along the trace, and no block gets two messages for the
   * same line.
   */
  function CloseStreams(m: StatsMap): (msgs: seq<MemStats.TraceMsg>)
    requires NoNegativeBlock(m)
    ensures |msgs| == |m| && forall i | 0 <= i < |m| :: msgs[i] == ToMessage(m[i])
    ensures Ordered(m) ==> forall i, j | 0 <= i < j < |msgs| :: msgs[i].bbId <= msgs[j].bbId
    ensures Ordered(m) && ByLine(m) ==> MemStats.NoDuplicateLines(msgs)
  {
    seq(|m|, i requires 0 <= i < |m| => ToMessage(m[i]))
  }

  // -----------------------------------------------------------------------
  // Block scopes

  /** Each thread's current block (-1 when none) and the blocks already ended. */
  datatype Scopes = Scopes(current: map<int, int>, done: set<int>)

  datatype ProbeError =
    | NoScope(thread: int)        // end_bb_scope on a thread that never started one
    | NotInBlock(thread: int)     // end_bb_scope while the thread's block is -1
    | AlreadyEnded(bb: int)       // end_bb_scope on a block that ended before
    | NoThread                    // traffic-generator mode with thread id -1

  /** The events the probe sees. */
  datatype ProbeEvent =
    | StartBb(bb: int, thread: int)
    | EndBb(thread: int, cycles: nat)
    | MemTrace(trace: Trace)

  /** start_bb_scope: the thread's block becomes `bb`. */
  function StartScope(s: Scopes, bb: int, thread: int): (r: Scopes)
    ensures thread in r.current && r.current[thread] == bb
    ensures forall t | t in s.current && t != thread :: t in r.current && r.current[t] == s.current[t]
    ensures r.current.Keys == s.current.Keys + {thread} && r.done == s.done
  {
    Scopes(s.current[thread := bb], s.done)
  }

  /**
   * end_bb_scope: the thread must be in a block that has not ended yet;
   * that block joins the ended set and the thread leaves it.
   */
  function EndScope(s: Scopes, thread: int): (r: Result<(Scopes, int), ProbeError>)
    ensures r.Ok? <==> thread in s.current && s.current[thread] != -1 && s.current[thread] !in s.done
    ensures r.Ok? ==>
      var (s', bb) := r.value;
      && bb == s.current[thread] && bb !in s.done && s'.done == s.done + {bb}
      && s'.current == s.current[thread := -1]
  {
    if thread !in s.current then Err(NoScope(thread))
    else
      var bb := s.current[thread];
      if bb == -1 then Err(NotInBlock(thread))
      else if bb in s.done then Err(AlreadyEnded(bb))
      else Ok((Scopes(s.current[thread := -1], s.done + {bb}), bb))
  }

  /** The block an access is charged to: the thread itself with the traffic generator, else the thread's block or -1. */
  function BlockOf(s: Scopes, trafficGen: bool, thread: int): (bb: int)
    ensures trafficGen ==> bb == thread
    ensures !trafficGen && thread !in s.current ==> bb == -1
  {
    if trafficGen then thread
    else if thread in s.current then s.current[thread] else -1
  }

  /** One probe event: the new scopes and what it sends to the statistics map. */
  function ProbeStep(s: Scopes, ev: ProbeEvent, trafficGen: bool): (r: Result<(Scopes, seq<StatsEvent>), ProbeError>)
  {
    match ev
    case StartBb(bb, thread) => Ok((StartScope(s, bb, thread), []))
    case EndBb(thread, n) =>
      var (s', bb) :- EndScope(s, thread);
      Ok((s', [BlockEnd(bb, thread, n)]))
    case MemTrace(t) =>
      if trafficGen && t.threadId == -1 then Err(NoThread)
      else Ok((s, [Access(BlockOf(s, trafficGen, t.threadId), t)]))
  }

  /** A whole run from no scopes: the scopes it ends in and every statistics event it sent, in order. */
  function Replay(evs: seq<ProbeEvent>, trafficGen: bool): (r: Result<(Scopes, seq<StatsEvent>), ProbeError>)
  {
    if evs == [] then Ok((Scopes(map[], {}), []))
    else
      var prev :- Replay(evs[..|evs| - 1], trafficGen);
      var next :- ProbeStep(prev.0, evs[|evs| - 1], trafficGen);
      Ok((next.0, prev.1 + next.1))
  }

  /** The blocks of the block-end events, in order. */
  function EndedBlocks(sevs: seq<StatsEvent>): seq<int>
  {
    if sevs == [] then []
    else
      var e := sevs[|sevs| - 1];
      EndedBlocks(sevs[..|sevs| - 1]) + (if e.BlockEnd? then [e.bb] else [])
  }

  lemma {:induction false} EndedBlocksAppend(a: seq<StatsEvent>, b: seq<StatsEvent>)
    ensures EndedBlocks(a + b) == EndedBlocks(a) + EndedBlocks(b)
    decreases |b|
  {
    if b != [] {
      assert (a + b)[..|a + b| - 1] == a + b[..|b| - 1];
      EndedBlocksAppend(a, b[..|b| - 1]);
    } else {
      assert a + b == a;
    }
  }

  /**
   * Over a whole run, every block ends at most once, and the ended set is
   * exactly the blocks of the block-end events sent to the map. Block -1
   * never ends.
   */
  lemma {:induction false} EachBlockEndsOnce(evs: seq<ProbeEvent>, trafficGen: bool)
    requires Replay(evs, trafficGen).Ok?
    ensures var (s, sevs) := Replay(evs, trafficGen).value;
      && Distinct(EndedBlocks(sevs))
      && s.done == (set x | x in EndedBlocks(sevs))
      && -1 !in s.done
  {
    if evs != [] {
      var front := evs[..|evs| - 1];
      var ev := evs[|evs| - 1];
      EachBlockEndsOnce(front, trafficGen);
      var prev := Replay(front, trafficGen).value;
      var next := ProbeStep(prev.0, ev, trafficGen).value;
      EndedBlocksAppend(prev.1, next.1);
      StepKeepsEnded(prev.0, ev, trafficGen, EndedBlocks(prev.1));
    }
  }

  /** One probe event ends at most the one block it names, and only a block not ended before. */
  lemma StepKeepsEnded(s: Scopes, ev: ProbeEvent, trafficGen: bool, before: seq<int>)
    requires ProbeStep(s, ev, trafficGen).Ok?
    requires Distinct(before) && s.done == (set x | x in before) && -1 !in s.done
    ensures var (s', out) := ProbeStep(s, ev, trafficGen).value;
      && Distinct(before + EndedBlocks(out))
      && s'.done == (set x | x in before + EndedBlocks(out))
      && -1 !in s'.done
  {
    var (s', out) := ProbeStep(s, ev, trafficGen).value;
    if ev.EndBb? {
      var bb := EndScope(s, ev.thread).value.1;
      assert out == [BlockEnd(bb, ev.thread, ev.cycles)];
      assert EndedBlocks(out) == EndedBlocks([]) + [bb];
      assert forall i | 0 <= i < |before| :: before[i] != bb;
      DistinctSnoc(before, bb);
      assert (set x | x in before + [bb]) == (set x | x in before) + {bb};
    } else {
      assert EndedBlocks(out) == [];
      assert before + [] == before;
    }
  }

  lemma DistinctSnoc(s: seq<int>, x: int)
    requires Distinct(s) && forall i | 0 <= i < |s| :: s[i] != x
    ensures Distinct(s + [x])
  {
  }

  /** A block that ended has its metadata entry in the statistics map. */
  lemma EndedBlockHasMetadata(evs: seq<ProbeEvent>, trafficGen: bool, bb: int)
    requires Replay(evs, trafficGen).Ok?
    requires bb in Replay(evs, trafficGen).value.0.done
    ensures var e := Lookup(Aggregate(Replay(evs, trafficGen).value.1), Key(bb, 0));
      e.Some? && e.value.isMetadata
  {
    var (s, sevs) := Replay(evs, trafficGen).value;
    EachBlockEndsOnce(evs, trafficGen);
    var i :| 0 <= i < |EndedBlocks(sevs)| && EndedBlocks(sevs)[i] == bb;
    EndedBlockEvent(sevs, i);
    AggregateEntry(sevs, Key(bb, 0));
    LastCyclesFound(sevs, Key(bb, 0));
  }

  lemma {:induction false} EndedBlockEvent(sevs: seq<StatsEvent>, i: nat)
    requires i < |EndedBlocks(sevs)|
    ensures exists j | 0 <= j < |sevs| :: sevs[j].BlockEnd? && sevs[j].bb == EndedBlocks(sevs)[i]
  {
    var front := sevs[..|sevs| - 1];
    var e := sevs[|sevs| - 1];
    if i < |EndedBlocks(front)| {
      EndedBlockEvent(front, i);
      var j :| 0 <= j < |front| && front[j].BlockEnd? && front[j].bb == EndedBlocks(front)[i];
      assert sevs[j] == front[j];
    } else {
      assert sevs[|sevs| - 1].BlockEnd? && sevs[|sevs| - 1].bb == EndedBlocks(sevs)[i];
    }
  }

  lemma {:induction false} LastCyclesFound(sevs: seq<StatsEvent>, k: Key)
    requires exists j | 0 <= j < |sevs| :: sevs[j].BlockEnd? && EventKey(sevs[j]) == Some(k)
    ensures LastCycles(sevs, k).Some? && Creator(sevs, k).Some?
  {
    var front := sevs[..|sevs| - 1];
    var e := sevs[|sevs| - 1];
    if !(e.BlockEnd? && EventKey(e) == Some(k)) {
      var j :| 0 <= j < |sevs| && sevs[j].BlockEnd? && EventKey(sevs[j]) == Some(k);
      assert front[j] == sevs[j];
      LastCyclesFound(front, k);
    }
  }

  // -----------------------------------------------------------------------
  // Which block ids reach closeStreams

  /** An update on an entry of a block numbered from 0 keeps every block id non-negative. */
  lemma UpsertNoNegativeBlock(m: StatsMap, blank: Entry, u: Update)
    requires NoNegativeBlock(m) && blank.bbId >= 0
    ensures NoNegativeBlock(Upsert(m, blank, u))
  {
    var r := Upsert(m, blank, u);
    forall i | 0 <= i < |r|
      ensures r[i].bbId >= 0
    {
      assert KeyOf(r[i]) in KeySet(r);
      if KeyOf(r[i]) in KeySet(m) {
        var e :| e in m && KeyOf(e) == KeyOf(r[i]);
      }
    }
  }

  /** Events that land only on blocks numbered from 0 aggregate into a map `CloseStreams` accepts. */
  lemma {:induction false} AggregateNoNegativeBlock(evs: seq<StatsEvent>)
    requires forall i | 0 <= i < |evs| :: EventKey(evs[i]).Some? ==> EventKey(evs[i]).value.bbId >= 0
    ensures NoNegativeBlock(Aggregate(evs))
  {
    if evs != [] {
      var front := evs[..|evs| - 1];
      var ev := evs[|evs| - 1];
      assert forall i | 0 <= i < |front| :: front[i] == evs[i];
      AggregateNoNegativeBlock(front);
      if EventKey(ev).Some? {
        UpsertNoNegativeBlock(Aggregate(front), BlankOf(ev), UpdateOf(ev));
        ObserveIsUpsert(Aggregate(front), ev);
      }
    }
  }

  /** Every started block id is non-negative and, with the traffic generator, so is every thread id but -1. */
  predicate BlocksNumberedFromZero(evs: seq<ProbeEvent>, trafficGen: bool)
  {
    forall i | 0 <= i < |evs| ::
      && (evs[i].StartBb? ==> evs[i].bb >= 0)
      && (trafficGen && evs[i].MemTrace? ==> evs[i].trace.threadId >= -1)
  }

  ghost predicate ScopesFromZero(s: Scopes)
  {
    forall t | t in s.current :: s.current[t] >= -1
  }

  /**
   * A run whose blocks are numbered from 0 only sends events that land on
   * blocks numbered from 0, so its map can be written out.
   */
  lemma {:induction false} ReplayNoNegativeBlock(evs: seq<ProbeEvent>, trafficGen: bool)
    requires BlocksNumberedFromZero(evs, trafficGen) && Replay(evs, trafficGen).Ok?
    ensures var (s, sevs) := Replay(evs, trafficGen).value;
      && ScopesFromZero(s)
      && (forall i | 0 <= i < |sevs| :: EventKey(sevs[i]).Some? ==> EventKey(sevs[i]).value.bbId >= 0)
      && NoNegativeBlock(Aggregate(sevs))
  {
    if evs != [] {
      var front := evs[..|evs| - 1];
      var ev := evs[|evs| - 1];
      assert forall i | 0 <= i < |front| :: front[i] == evs[i];
      ReplayNoNegativeBlock(front, trafficGen);
      var prev := Replay(front, trafficGen).value;
      var next := ProbeStep(prev.0, ev, trafficGen).value;
      var sevs := prev.1 + next.1;
      assert Replay(evs, trafficGen).value == (next.0, sevs);
      forall i | 0 <= i < |sevs| && EventKey(sevs[i]).Some?
        ensures EventKey(sevs[i]).value.bbId >= 0
      {
        if i >= |prev.1| {
          assert sevs[i] == next.1[i - |prev.1|];
        }
      }
      AggregateNoNegativeBlock(sevs);
    }
  }
}

=== FILE: mem_stats.dfy ===
/**
 * Per-block memory statistics as the analyzer reads them back from the
 * probe's trace (omptr/analyzer/analyzer.cc:179-222, records of
 * analyzer.hh:38-52).
 *
 * The trace is a sequence of messages grouped by basic block, blocks in
 * ascending order starting at 0. Each block contributes one message per
 * cache line it touched, and one metadata message carrying its execution
 * cycles. The result is one address map per block, keyed by line address,
 * plus the execution cycles of each block in trace order. Decoding the
 * protobuf stream is not modelled: the input is the decoded messages.
 */
module MemStats {
  import opened Common

  datatype DataRegion = Global | Stack | Heap

  /** The four hit/miss counters every record carries. */
  datatype Counters = Counters(localL1: nat, remoteL1: nat, l2: nat, mem: nat)
  {
    function Total(): nat { localL1 + remoteL1 + l2 + mem }
  }

  datatype AccessRecord = AccessRecord(
    bbId: nat,
    threadId: int,
    address: nat,
    lineAddress: nat,
    isIfetch: bool,
    counts: Counters,
    region: DataRegion,
    isShared: bool)

  datatype TraceMsg = TraceMsg(
    bbId: nat,
    threadId: int,
    lineAddress: nat,
    region: DataRegion,
    isIfetch: bool,
    counts: Counters,
    isMetadata: bool,
    execCycles: nat)

  /** A `std::map` from line address to record, as its entries in ascending key order. */
  type AddrMap = seq<AccessRecord>

  predicate KeysIncreasing(m: AddrMap)
  {
    forall i, j | 0 <= i < j < |m| :: m[i].lineAddress < m[j].lineAddress
  }

  function Keys(m: AddrMap): set<nat>
  {
    set k | 0 <= k < |m| :: m[k].lineAddress
  }

  /** The position of the entry for `line`, if there is one. */
  function Find(m: AddrMap, line: nat): (r: Option<nat>)
    ensures r.Some? ==> r.value < |m| && m[r.value].lineAddress == line
    ensures r.None? <==> line !in Keys(m)
  {
    if m == [] then None
    else if m[0].lineAddress == line then Some(0)
    else
      var rest := Find(m[1..], line);
      KeysCons(m[0], m[1..]);
      assert [m[0]] + m[1..] == m;
      if rest.None? then None else Some(rest.value + 1)
  }

  lemma KeysCons(x: AccessRecord, m: AddrMap)
    ensures Keys([x] + m) == {x.lineAddress} + Keys(m)
  {
    var xm := [x] + m;
    forall a | a in Keys(m)
      ensures a in Keys(xm)
    {
      var k :| 0 <= k < |m| && m[k].lineAddress == a;
      assert xm[k + 1] == m[k];
    }
    forall a | a in Keys(xm)
      ensures a in {x.lineAddress} + Keys(m)
    {
      var k :| 0 <= k < |xm| && xm[k].lineAddress == a;
      if k > 0 {
        assert xm[k] == m[k - 1];
      }
    }
    assert xm[0] == x;
  }

  /** Adds an entry for a key not yet present, keeping keys in ascending order. */
  function InsertRecord(m: AddrMap, rec: AccessRecord): (r: AddrMap)
    requires KeysIncreasing(m) && rec.lineAddress !in Keys(m)
    ensures KeysIncreasing(r)
    ensures multiset(r) == multiset(m) + multiset{rec}
    ensures Keys(r) == Keys(m) + {rec.lineAddress}
  {
    if m == [] then [rec]
    else if rec.lineAddress < m[0].lineAddress then
      assert forall k | 0 <= k < |m| :: m[0].lineAddress <= m[k].lineAddress;
      KeysCons(rec, m);
      [rec] + m
    else
      var rest := InsertRecord(m[1..], rec);
      InsertBehind(m, rec, rest);
      [m[0]] + rest
  }

  /** Putting the first entry back in front of the insertion into the rest keeps the order. */
  lemma InsertBehind(m: AddrMap, rec: AccessRecord, rest: AddrMap)
    requires m != [] && KeysIncreasing(m) && rec.lineAddress !in Keys(m)
    requires m[0].lineAddress <= rec.lineAddress
    requires KeysIncreasing(rest)
    requires multiset(rest) == multiset(m[1..]) + multiset{rec}
    requires Keys(rest) == Keys(m[1..]) + {rec.lineAddress}
    ensures KeysIncreasing([m[0]] + rest)
    ensures multiset([m[0]] + rest) == multiset(m) + multiset{rec}
    ensures Keys([m[0]] + rest) == Keys(m) + {rec.lineAddress}
  {
    KeysCons(m[0], m[1..]);
    KeysCons(m[0], rest);
    assert [m[0]] + m[1..] == m;
    assert m[0].lineAddress != rec.lineAddress;
    var r := [m[0]] + rest;
    forall i, j | 0 <= i < j < |r|
      ensures r[i].lineAddress < r[j].lineAddress
    {
      if i == 0 {
        assert r[j] == rest[j - 1];
        assert rest[j - 1].lineAddress in Keys(rest);
        if rest[j - 1].lineAddress != rec.lineAddress {
          var k :| 0 <= k < |m[1..]| && m[1..][k].lineAddress == rest[j - 1].lineAddress;
          assert m[1..][k] == m[k + 1];
        }
      } else {
        assert r[i] == rest[i - 1] && r[j] == rest[j - 1];
      }
    }
  }

  /** The record a non-metadata message becomes; sharing is decided later. */
  function ToRecord(msg: TraceMsg): (r: AccessRecord)
    ensures r.bbId == msg.bbId && r.lineAddress == msg.lineAddress && r.address == msg.lineAddress
    ensures r.counts == msg.counts && r.threadId == msg.threadId && !r.isShared
  {
    AccessRecord(msg.bbId, msg.threadId, msg.lineAddress, msg.lineAddress, msg.isIfetch,
                 msg.counts, msg.region, false)
  }

  datatype Stats = Stats(maps: seq<AddrMap>, cycles: seq<nat>)

  datatype MemError =
    | OutOfOrder(bbId: nat)                 // a block id that is neither the current one nor the next
    | Duplicate(bbId: nat, lineAddress: nat) // a second message for the same block and line
    | LengthMismatch                        // blocks and metadata messages differ in number

  // -----------------------------------------------------------------------
  // What a well-formed trace is

  /** Block ids start at 0 and each message stays on its predecessor's block or moves to the next. */
  predicate BlocksInOrder(msgs: seq<TraceMsg>)
  {
    forall k | 0 <= k < |msgs| ::
      if k == 0 then msgs[k].bbId == 0
      else msgs[k].bbId == msgs[k - 1].bbId || msgs[k].bbId == msgs[k - 1].bbId + 1
  }

  /** No block has two line messages for the same line. */
  predicate NoDuplicateLines(msgs: seq<TraceMsg>)
  {
    forall i, j | 0 <= i < j < |msgs| ::
      (!msgs[i].isMetadata && !msgs[j].isMetadata && msgs[i].bbId == msgs[j].bbId)
        ==> msgs[i].lineAddress != msgs[j].lineAddress
  }

  function NumBlocks(msgs: seq<TraceMsg>): nat
  {
    if msgs == [] then 0 else msgs[|msgs| - 1].bbId + 1
  }

  /** Execution cycles of the metadata messages, in trace order. */
  function MetaCycles(msgs: seq<TraceMsg>): seq<nat>
  {
    if msgs == [] then []
    else
      var m := msgs[|msgs| - 1];
      MetaCycles(msgs[..|msgs| - 1]) + (if m.isMetadata then [m.execCycles] else [])
  }

  // -----------------------------------------------------------------------
  // Ingestion, one message at a time

  ghost predicate StatsOk(st: Stats)
  {
    forall b | 0 <= b < |st.maps| :: KeysIncreasing(st.maps[b])
  }

  /** One iteration of the read loop of analyzer.cc:185-217. */
  function IngestStep(st: Stats, msg: TraceMsg): (r: Result<Stats, MemError>)
    requires StatsOk(st)
    ensures r.Ok? ==> StatsOk(r.value)
  {
    var maps := if msg.bbId == |st.maps| then st.maps + [[]] else st.maps;
    if msg.bbId != |maps| - 1 then Err(OutOfOrder(msg.bbId))
    else if msg.isMetadata then Ok(Stats(maps, st.cycles + [msg.execCycles]))
    else if Find(maps[msg.bbId], msg.lineAddress).Some? then Err(Duplicate(msg.bbId, msg.lineAddress))
    else
      var m' := InsertRecord(maps[msg.bbId], ToRecord(msg));
      Ok(Stats(maps[msg.bbId := m'], st.cycles))
  }

  /**
   * What reading `msgs` into `st` means: one map per block seen, the
   * metadata cycles in order, every line message present as a record in
   * its block's map, and every record coming from such a message.
   */
  ghost predicate Accepted(msgs: seq<TraceMsg>, st: Stats)
  {
    && StatsOk(st)
    && |st.maps| == NumBlocks(msgs)
    && st.cycles == MetaCycles(msgs)
    && (forall j | 0 <= j < |msgs| :: msgs[j].bbId < |st.maps|)
    && RecordsPresent(msgs, st.maps)
    && RecordsFromMessages(msgs, st.maps)
  }

  /** Every line message is a record in its block's map. */
  ghost predicate RecordsPresent(msgs: seq<TraceMsg>, maps: seq<AddrMap>)
  {
    forall j | 0 <= j < |msgs| && !msgs[j].isMetadata ::
      msgs[j].bbId < |maps| && ToRecord(msgs[j]) in maps[msgs[j].bbId]
  }

  /** Every record of every map comes from a line message of its block. */
  ghost predicate RecordsFromMessages(msgs: seq<TraceMsg>, maps: seq<AddrMap>)
  {
    forall b, k | 0 <= b < |maps| && 0 <= k < |maps[b]| :: FromMessage(msgs, b, maps[b][k])
  }

  /** `x` is the record of some line message of block `b`. */
  ghost predicate FromMessage(msgs: seq<TraceMsg>, b: nat, x: AccessRecord)
  {
    exists j | 0 <= j < |msgs| :: !msgs[j].isMetadata && msgs[j].bbId == b && x == ToRecord(msgs[j])
  }

  /**
   * Reading a trace prefix: it is accepted exactly when its blocks are in
   * order and no block repeats a line, and then the result means what
   * `Accepted` says.
   */
  function IngestPrefix(msgs: seq<TraceMsg>): (r: Result<Stats, MemError>)
    ensures r.Ok? <==> BlocksInOrder(msgs) && NoDuplicateLines(msgs)
    ensures r.Err? ==> r.error.OutOfOrder? || r.error.Duplicate?
    ensures r.Ok? ==> Accepted(msgs, r.value)
  {
    if msgs == [] then Ok(Stats([], []))
    else
      var prefix := msgs[..|msgs| - 1];
      var m := msgs[|msgs| - 1];
      assert msgs == prefix + [m];
      var prev := IngestPrefix(prefix);
      if prev.Err? then
        PrefixConditions(msgs);
        prev
      else
        StepOrder(prefix, prev.value, m);
        StepDuplicate(prefix, prev.value, m);
        var r := IngestStep(prev.value, m);
        if r.Ok? then
          StepContent(prefix, prev.value, m);
          r
        else
          r
  }

  lemma PrefixConditions(msgs: seq<TraceMsg>)
    requires msgs != []
    ensures var p := msgs[..|msgs| - 1];
      BlocksInOrder(msgs) && NoDuplicateLines(msgs) ==> BlocksInOrder(p) && NoDuplicateLines(p)
  {
    var p := msgs[..|msgs| - 1];
    assert forall k | 0 <= k < |p| :: p[k] == msgs[k];
  }

  /** The next message keeps the blocks in order exactly when it names the current block or the next one. */
  lemma StepOrder(prefix: seq<TraceMsg>, st: Stats, m: TraceMsg)
    requires BlocksInOrder(prefix) && Accepted(prefix, st)
    ensures BlocksInOrder(prefix + [m]) <==>
      m.bbId == |st.maps| || (st.maps != [] && m.bbId == |st.maps| - 1)
  {
    var msgs := prefix + [m];
    var n := |prefix|;
    assert forall k | 0 <= k < n :: msgs[k] == prefix[k];
    assert msgs[n] == m;
    if n > 0 {
      assert |st.maps| == prefix[n - 1].bbId + 1 == msgs[n - 1].bbId + 1;
      assert BlocksInOrder(msgs) <==> (m.bbId == msgs[n - 1].bbId || m.bbId == msgs[n - 1].bbId + 1);
    } else {
      assert BlocksInOrder(msgs) <==> m.bbId == 0;
    }
  }

  /** In a block already open, the next line message repeats a line exactly when its map has that key. */
  lemma StepDuplicate(prefix: seq<TraceMsg>, st: Stats, m: TraceMsg)
    requires NoDuplicateLines(prefix) && Accepted(prefix, st)
    ensures !m.isMetadata && m.bbId < |st.maps| ==>
      (NoDuplicateLines(prefix + [m]) <==> m.lineAddress !in Keys(st.maps[m.bbId]))
    ensures m.isMetadata || m.bbId >= |st.maps| ==> NoDuplicateLines(prefix + [m])
  {
    var msgs := prefix + [m];
    var n := |prefix|;
    assert forall k | 0 <= k < n :: msgs[k] == prefix[k];
    var b := m.bbId;
    if !m.isMetadata && b < |st.maps| {
      if m.lineAddress in Keys(st.maps[b]) {
        var i :| 0 <= i < |st.maps[b]| && st.maps[b][i].lineAddress == m.lineAddress;
        var j :| 0 <= j < n && !prefix[j].isMetadata && prefix[j].bbId == b && st.maps[b][i] == ToRecord(prefix[j]);
        assert msgs[j].lineAddress == msgs[n].lineAddress;
      } else {
        forall i | 0 <= i < n && !prefix[i].isMetadata && prefix[i].bbId == b
          ensures prefix[i].lineAddress != m.lineAddress
        {
          var k :| 0 <= k < |st.maps[b]| && st.maps[b][k] == ToRecord(prefix[i]);
        }
      }
    }
  }

  /** An accepted message extends the meaning of the state to the longer prefix. */
  lemma StepContent(prefix: seq<TraceMsg>, st: Stats, m: TraceMsg)
    requires Accepted(prefix, st)
    requires BlocksInOrder(prefix + [m])
    requires IngestStep(st, m).Ok?
    ensures Accepted(prefix + [m], IngestStep(st, m).value)
  {
    var msgs := prefix + [m];
    var n := |prefix|;
    assert forall k | 0 <= k < n :: msgs[k] == prefix[k];
    assert msgs[..n] == prefix && msgs[n] == m;
    var st' := IngestStep(st, m).value;
    assert st'.cycles == MetaCycles(msgs);
    assert |st'.maps| == NumBlocks(msgs);
    StepRecordsPresent(prefix, st, m);
    StepRecordsFromMessages(prefix, st, m);
  }

  lemma StepRecordsPresent(prefix: seq<TraceMsg>, st: Stats, m: TraceMsg)
    requires Accepted(prefix, st)
    requires IngestStep(st, m).Ok?
    ensures RecordsPresent(prefix + [m], IngestStep(st, m).value.maps)
  {
    var msgs := prefix + [m];
    var n := |prefix|;
    var maps := if m.bbId == |st.maps| then st.maps + [[]] else st.maps;
    var maps' := IngestStep(st, m).value.maps;
    forall j | 0 <= j < |msgs| && !msgs[j].isMetadata
      ensures msgs[j].bbId < |maps'| && ToRecord(msgs[j]) in maps'[msgs[j].bbId]
    {
      var b := msgs[j].bbId;
      if j < n {
        assert msgs[j] == prefix[j];
        assert b < |st.maps| && maps[b] == st.maps[b];
        assert ToRecord(prefix[j]) in maps[b];
        if !m.isMetadata && b == m.bbId {
          var ins := InsertRecord(maps[b], ToRecord(m));
          assert maps'[b] == ins;
          assert ToRecord(prefix[j]) in multiset(maps[b]);
          assert ToRecord(prefix[j]) in multiset(ins);
        } else {
          assert maps'[b] == maps[b];
        }
      } else {
        assert msgs[j] == m;
        var ins := InsertRecord(maps[b], ToRecord(m));
        assert maps'[b] == ins;
        assert ToRecord(m) in multiset(ins);
      }
    }
  }

  lemma StepRecordsFromMessages(prefix: seq<TraceMsg>, st: Stats, m: TraceMsg)
    requires Accepted(prefix, st)
    requires IngestStep(st, m).Ok?
    ensures RecordsFromMessages(prefix + [m], IngestStep(st, m).value.maps)
  {
    var maps' := IngestStep(st, m).value.maps;
    forall b, k | 0 <= b < |maps'| && 0 <= k < |maps'[b]|
      ensures FromMessage(prefix + [m], b, maps'[b][k])
    {
      StepRecordFromMessage(prefix, st, m, b, maps'[b][k]);
    }
  }

  lemma StepRecordFromMessage(prefix: seq<TraceMsg>, st: Stats, m: TraceMsg, b: nat, x: AccessRecord)
    requires Accepted(prefix, st)
    requires IngestStep(st, m).Ok?
    requires b < |IngestStep(st, m).value.maps| && x in IngestStep(st, m).value.maps[b]
    ensures FromMessage(prefix + [m], b, x)
  {
    var msgs := prefix + [m];
    if !m.isMetadata && b == m.bbId && x == ToRecord(m) {
      assert msgs[|prefix|] == m;
    } else {
      var k := StepOldRecord(st, m, b, x);
      assert FromMessage(prefix, b, x) by {
        assert RecordsFromMessages(prefix, st.maps);
        assert FromMessage(prefix, b, st.maps[b][k]);
      }
      var j :| 0 <= j < |prefix| && !prefix[j].isMetadata && prefix[j].bbId == b && x == ToRecord(prefix[j]);
      assert msgs[j] == prefix[j];
    }
  }

  /** A record after a step that is not the step's own record was already in the same map. */
  lemma StepOldRecord(st: Stats, m: TraceMsg, b: nat, x: AccessRecord) returns (k: nat)
    requires StatsOk(st) && IngestStep(st, m).Ok?
    requires b < |IngestStep(st, m).value.maps| && x in IngestStep(st, m).value.maps[b]
    requires m.isMetadata || b != m.bbId || x != ToRecord(m)
    ensures b < |st.maps| && k < |st.maps[b]| && st.maps[b][k] == x
  {
    var maps := if m.bbId == |st.maps| then st.maps + [[]] else st.maps;
    var maps' := IngestStep(st, m).value.maps;
    assert x in maps[b] by {
      if !m.isMetadata && b == m.bbId {
        var ins := InsertRecord(maps[b], ToRecord(m));
        assert maps'[b] == ins;
        assert x in multiset(ins);
        assert x in multiset(maps[b]) + multiset{ToRecord(m)};
      } else {
        assert maps'[b] == maps[b];
      }
    }
    k :| 0 <= k < |maps[b]| && maps[b][k] == x;
    assert b < |st.maps| && maps[b] == st.maps[b];
  }

  /**
   * The whole read: the prefix loop, then the final check that there were
   * as many metadata messages as blocks (analyzer.cc:219).
   */
  function Ingest(msgs: seq<TraceMsg>): (r: Result<Stats, MemError>)
    ensures r.Ok? <==> BlocksInOrder(msgs) && NoDuplicateLines(msgs) && |MetaCycles(msgs)| == NumBlocks(msgs)
    ensures r.Ok? ==> Accepted(msgs, r.value) && |r.value.maps| == |r.value.cycles|
    ensures r.Err? && !r.error.LengthMismatch? ==> IngestPrefix(msgs).Err?
  {
    var st :- IngestPrefix(msgs);
    if |st.maps| != |st.cycles| then Err(LengthMismatch) else Ok(st)
  }
}

=== FILE: omptr.dfy ===
/**
 * The instrumentation runtime that numbers basic blocks and tasks while an
 * OpenMP program runs (omptr/omptr.h:1-149).
 *
 * Two fixed-size tables hold the state: one record per basic block and one
 * list of spawned children per task. Two counters hand out ids, and each is
 * incremented before its value is used. `omptr_task` ends the current block.
 * It opens a first block for a new child task and a continuation block for
 * the current task. `omptr_task_wait` ends the current block and opens one
 * that waits for every child spawned since the last wait. The atomic
 * counter updates are modelled as plain sequential steps.
 */
module Omptr {
  import opened Common
  const MaxNumBb: nat := 10000
  const MaxNumTask: nat := 10000
  const MaxTaskChildren: nat := 10000

  /** One block record; the source's `numTasksWaitingFor` is the length of `waitFor`. */
  datatype Block = Block(taskId: int, nodeId: int, taskCreated: int, waitFor: seq<int>)

  /** What `omptr_init` writes into every block: task 0, node 0, no spawn, no waits. */
  const Fresh := Block(0, 0, -1, [])

  datatype Tracer = Tracer(bbs: seq<Block>, children: seq<seq<int>>, taskCounter: nat, bbCounter: nat)

  datatype TraceError =
    | TooManyTasks              // a task id reaches MAX_NUM_TASK (omptr.h:84-87)
    | TooManyBlocks             // a block id reaches MAX_NUM_BB (omptr.h:101-104, 133-136)
    | TooManyChildren           // a task's child list overflows (omptr.h:113-117)
    | WriteOutOfBounds(index: nat) // a block written past the end of the table

  datatype Spawned = Spawned(st: Tracer, childBb: nat, contBb: nat)

  /**
   * The tables are full size; every block up to the counter belongs to a
   * task already handed out; every block past it is untouched; and no task
   * has more children than tasks exist.
   */
  ghost predicate Valid(st: Tracer)
  {
    && |st.bbs| == MaxNumBb && |st.children| == MaxNumTask
    && st.bbCounter < MaxNumBb && st.taskCounter < MaxNumTask
    && (forall i | 0 <= i <= st.bbCounter :: 0 <= st.bbs[i].taskId <= st.taskCounter)
    && (forall i | st.bbCounter < i < MaxNumBb :: st.bbs[i] == Fresh)
    && (forall t | 0 <= t < MaxNumTask :: |st.children[t]| <= st.taskCounter)
  }

  /** omptr_init: both counters 0, every block fresh, every child list empty; the first block is 0. */
  function Init(): (st: Tracer)
    ensures Valid(st) && st.taskCounter == 0 && st.bbCounter == 0
    ensures forall i | 0 <= i < MaxNumBb :: st.bbs[i] == Fresh
    ensures forall t | 0 <= t < MaxNumTask :: st.children[t] == []
  {
    Tracer(seq(MaxNumBb, i => Fresh), seq(MaxNumTask, t => []), 0, 0)
  }

  /**
   * omptr_task as written: the child task's first block is written before
   * the block bound is checked, so a call made when the block counter
   * is MAX_NUM_BB - 1 writes one record past the table.
   */
  function TaskAsWritten(st: Tracer, bbId: nat): (r: Result<Spawned, TraceError>)
    requires Valid(st) && bbId <= st.bbCounter
  {
    var bb := st.bbs[bbId];
    var t := bb.taskId;
    var newTask := st.taskCounter + 1;
    if newTask >= MaxNumTask then Err(TooManyTasks)
    else
      var child := st.bbCounter + 1;
      if child >= MaxNumBb then Err(WriteOutOfBounds(child))
      else
        var bbs1 := st.bbs[child := st.bbs[child].(taskId := newTask)];
        var cont := st.bbCounter + 2;
        if cont >= MaxNumBb then Err(TooManyBlocks)
        else Spawn(st, bbId, bbs1)
  }

  /** The writes after both block ids are known to fit. */
  function Spawn(st: Tracer, bbId: nat, bbs1: seq<Block>): (r: Result<Spawned, TraceError>)
    requires Valid(st) && bbId <= st.bbCounter && st.bbCounter + 2 < MaxNumBb
    requires st.taskCounter + 1 < MaxNumTask && |bbs1| == MaxNumBb
  {
    var bb := st.bbs[bbId];
    var t := bb.taskId;
    var newTask := st.taskCounter + 1;
    var cont := st.bbCounter + 2;
    var bbs2 := bbs1[cont := bbs1[cont].(taskId := t, nodeId := bb.nodeId + 1)];
    var bbs3 := bbs2[bbId := bbs2[bbId].(taskCreated := newTask)];
    var kids := st.children[t] + [newTask];
    if |kids| > MaxTaskChildren then Err(TooManyChildren)
    else Ok(Spawned(Tracer(bbs3, st.children[t := kids], newTask, cont), st.bbCounter + 1, cont))
  }

  /**
   * omptr_task with both block ids checked before anything is written. The
   * new ids exceed every id handed out before. The child's first block
   * starts the new task at node 0. The continuation block is the next node
   * of the current task. The current block records the spawn, and the
   * current task's child list gains the new task. Nothing else changes.
   */
  function Task(st: Tracer, bbId: nat): (r: Result<Spawned, TraceError>)
    requires Valid(st) && bbId <= st.bbCounter
    ensures r.Ok? <==> st.taskCounter + 1 < MaxNumTask && st.bbCounter + 2 < MaxNumBb
    ensures r.Err? ==> r.error == TooManyTasks || r.error == TooManyBlocks
    ensures r.Ok? ==>
      var s := r.value.st;
      var t := st.bbs[bbId].taskId;
      && Valid(s)
      && s.taskCounter == st.taskCounter + 1 && s.bbCounter == st.bbCounter + 2
      && r.value.childBb == st.bbCounter + 1 && r.value.contBb == st.bbCounter + 2
      && (forall i | 0 <= i <= st.bbCounter :: st.bbs[i].taskId < s.taskCounter)
      && s.bbs[r.value.childBb] == Block(s.taskCounter, 0, -1, [])
      && s.bbs[r.value.contBb] == Block(t, st.bbs[bbId].nodeId + 1, -1, [])
      && s.bbs[bbId] == st.bbs[bbId].(taskCreated := s.taskCounter)
      && (forall i | 0 <= i <= st.bbCounter && i != bbId :: s.bbs[i] == st.bbs[i])
      && s.children[t] == st.children[t] + [s.taskCounter]
      && (forall u | 0 <= u < MaxNumTask && u != t :: s.children[u] == st.children[u])
  {
    if st.taskCounter + 1 >= MaxNumTask then Err(TooManyTasks)
    else if st.bbCounter + 2 >= MaxNumBb then Err(TooManyBlocks)
    else
      var child := st.bbCounter + 1;
      Spawn(st, bbId, st.bbs[child := st.bbs[child].(taskId := st.taskCounter + 1)])
  }

  /** Whenever the block table has room for both new blocks, the code as written does what `Task` does. */
  lemma TaskAsWrittenAgrees(st: Tracer, bbId: nat)
    requires Valid(st) && bbId <= st.bbCounter && st.bbCounter + 2 < MaxNumBb
    ensures TaskAsWritten(st, bbId) == Task(st, bbId)
  {
  }

  /**
   * omptr_task_wait: one new block, the next node of the current task,
   * waiting for exactly the children spawned since the last wait, in
   * order; the task's child list is emptied and nothing else changes.
   */
  function TaskWait(st: Tracer, bbId: nat): (r: Result<(Tracer, nat), TraceError>)
    requires Valid(st) && bbId <= st.bbCounter
    ensures r.Ok? <==> st.bbCounter + 1 < MaxNumBb
    ensures r.Err? ==> r.error == TooManyBlocks
    ensures r.Ok? ==>
      var (s, nb) := r.value;
      var t := st.bbs[bbId].taskId;
      && Valid(s)
      && s.taskCounter == st.taskCounter && s.bbCounter == st.bbCounter + 1 && nb == s.bbCounter
      && s.bbs[nb] == Block(t, st.bbs[bbId].nodeId + 1, -1, st.children[t])
      && (forall i | 0 <= i <= st.bbCounter :: s.bbs[i] == st.bbs[i])
      && s.children[t] == []
      && (forall u | 0 <= u < MaxNumTask && u != t :: s.children[u] == st.children[u])
  {
    var bb := st.bbs[bbId];
    var t := bb.taskId;
    var nb := st.bbCounter + 1;
    if nb >= MaxNumBb then Err(TooManyBlocks)
    else
      var nbb := st.bbs[nb].(taskId := t, nodeId := bb.nodeId + 1, waitFor := st.children[t]);
      Ok((Tracer(st.bbs[nb := nbb], st.children[t := []], st.taskCounter, nb), nb))
  }

  // -----------------------------------------------------------------------
  // Finding: the child block written past the table

  /** `n` task waits in a row from the first block: block ids 0 .. n, all in task 0. */
  function Waits(n: nat): (st: Tracer)
    requires n < MaxNumBb
    ensures Valid(st) && st.bbCounter == n && st.taskCounter == 0
  {
    if n == 0 then Init()
    else
      var prev := Waits(n - 1);
      var r := TaskWait(prev, n - 1);
      r.value.0
  }

  /**
   * A task that waits 9,999 times and then spawns a task makes the code as
   * written write block record 10,000 of a 10,000-record table; the checked
   * version stops with the block bound instead.
   */
  lemma AsWrittenOverrunsBlockTable()
    ensures TaskAsWritten(Waits(MaxNumBb - 1), MaxNumBb - 1) == Err(WriteOutOfBounds(MaxNumBb))
    ensures Task(Waits(MaxNumBb - 1), MaxNumBb - 1) == Err(TooManyBlocks)
  {
  }

  // -----------------------------------------------------------------------
  // Node numbering

  /** How many of the first `n` blocks belong to task `t`. */
  function CountTask(bbs: seq<Block>, t: int, n: nat): nat
    requires n <= |bbs|
  {
    if n == 0 then 0 else CountTask(bbs, t, n - 1) + (if bbs[n - 1].taskId == t then 1 else 0)
  }

  /** Within each task, blocks are numbered 0, 1, 2, ... in the order their ids were handed out. */
  ghost predicate NodesNumbered(st: Tracer)
    requires Valid(st)
  {
    forall i | 0 <= i <= st.bbCounter :: st.bbs[i].nodeId == CountTask(st.bbs, st.bbs[i].taskId, i)
  }

  /** No block of the same task was opened after `bbId`: it is its task's current block. */
  ghost predicate IsLatest(st: Tracer, bbId: nat)
    requires Valid(st) && bbId <= st.bbCounter
  {
    forall j | bbId < j <= st.bbCounter :: st.bbs[j].taskId != st.bbs[bbId].taskId
  }

  lemma {:induction false} CountTaskFrame(a: seq<Block>, b: seq<Block>, t: int, n: nat)
    requires n <= |a| && n <= |b| && forall j | 0 <= j < n :: a[j].taskId == b[j].taskId
    ensures CountTask(a, t, n) == CountTask(b, t, n)
  {
    if n > 0 {
      CountTaskFrame(a, b, t, n - 1);
    }
  }

  lemma {:induction false} CountTaskGap(bbs: seq<Block>, t: int, lo: nat, hi: nat)
    requires lo <= hi <= |bbs| && forall j | lo <= j < hi :: bbs[j].taskId != t
    ensures CountTask(bbs, t, hi) == CountTask(bbs, t, lo)
    decreases hi
  {
    if hi > lo {
      CountTaskGap(bbs, t, lo, hi - 1);
    }
  }

  lemma InitNumbered()
    ensures NodesNumbered(Init()) && IsLatest(Init(), 0)
  {
  }

  /** Blocks that keep their task and node id keep their numbering when later blocks are added. */
  lemma OldBlocksNumbered(st: Tracer, s: Tracer)
    requires Valid(st) && Valid(s) && NodesNumbered(st) && st.bbCounter <= s.bbCounter
    requires forall j | 0 <= j <= st.bbCounter ::
      s.bbs[j].taskId == st.bbs[j].taskId && s.bbs[j].nodeId == st.bbs[j].nodeId
    ensures forall i | 0 <= i <= st.bbCounter :: s.bbs[i].nodeId == CountTask(s.bbs, s.bbs[i].taskId, i)
  {
    forall i | 0 <= i <= st.bbCounter
      ensures s.bbs[i].nodeId == CountTask(s.bbs, s.bbs[i].taskId, i)
    {
      CountTaskFrame(s.bbs, st.bbs, s.bbs[i].taskId, i);
    }
  }

  /** The block opened after the current block `bbId` of task `t` is numbered one past it. */
  lemma NextNodeNumbered(st: Tracer, s: Tracer, bbId: nat)
    requires Valid(st) && Valid(s) && bbId <= st.bbCounter < s.bbCounter
    requires NodesNumbered(st) && IsLatest(st, bbId)
    requires forall j | 0 <= j <= st.bbCounter :: s.bbs[j].taskId == st.bbs[j].taskId
    requires forall j | st.bbCounter < j < s.bbCounter :: s.bbs[j].taskId != st.bbs[bbId].taskId
    ensures CountTask(s.bbs, st.bbs[bbId].taskId, s.bbCounter) == st.bbs[bbId].nodeId + 1
  {
    var t := st.bbs[bbId].taskId;
    var c := st.bbCounter + 1;
    CountTaskGap(s.bbs, t, c, s.bbCounter);
    CountTaskFrame(s.bbs, st.bbs, t, c);
    CountTaskGap(st.bbs, t, bbId + 1, c);
  }

  /**
   * Spawning from a task's current block keeps the numbering, and both new
   * blocks are current for their tasks.
   */
  lemma TaskKeepsNumbering(st: Tracer, bbId: nat)
    requires Valid(st) && bbId <= st.bbCounter && NodesNumbered(st) && IsLatest(st, bbId)
    requires Task(st, bbId).Ok?
    ensures var r := Task(st, bbId).value;
      NodesNumbered(r.st) && IsLatest(r.st, r.childBb) && IsLatest(r.st, r.contBb)
  {
    var r := Task(st, bbId).value;
    var s := r.st;
    var c := st.bbCounter + 1;
    forall i | 0 <= i <= s.bbCounter
      ensures s.bbs[i].nodeId == CountTask(s.bbs, s.bbs[i].taskId, i)
    {
      if i < c {
        OldBlocksNumbered(st, s);
      } else if i == c {
        assert CountTask(s.bbs, s.taskCounter, c) == 0 by {
          CountTaskFrame(s.bbs, st.bbs, s.taskCounter, c);
          CountTaskGap(st.bbs, s.taskCounter, 0, c);
        }
      } else {
        NextNodeNumbered(st, s, bbId);
      }
    }
  }

  /** Waiting from a task's current block keeps the numbering, and the new block is current. */
  lemma WaitKeepsNumbering(st: Tracer, bbId: nat)
    requires Valid(st) && bbId <= st.bbCounter && NodesNumbered(st) && IsLatest(st, bbId)
    requires TaskWait(st, bbId).Ok?
    ensures var (s, nb) := TaskWait(st, bbId).value;
      NodesNumbered(s) && IsLatest(s, nb)
  {
    var (s, nb) := TaskWait(st, bbId).value;
    OldBlocksNumbered(st, s);
    NextNodeNumbered(st, s, bbId);
  }
}

=== FILE: omptr_json.dfy ===
/**
 * The block file omptr writes at exit (omptr/omptr.h:151-189), and a reader
 * for exactly that layout which yields the records the analyzer decodes
 * (omptr/analyzer/analyzer.cc:6-13).
 *
 * The file is a JSON array. Each block is one object with six fields, one
 * per line, in a fixed order. Objects are separated by ",\n" and the array
 * ends with "]\n". Integers are written in decimal with a leading '-' when
 * negative. The reader accepts only this layout, not JSON in general.
 * Reading the file back yields the blocks that were printed, each with its
 * position as its id.
 */
module OmptrJson {
  import opened Common
  import opened Omptr
  import DagParser

  // -----------------------------------------------------------------------
  // Integers

  predicate IsDigit(c: char) { '0' <= c <= '9' }

  function DigitChar(d: nat): (c: char)
    requires d < 10
    ensures IsDigit(c) && c as int - '0' as int == d
  {
    ('0' as int + d) as char
  }

  /** The decimal digits of `n`, most significant first, as `%d` prints them. */
  function Digits(n: nat): (s: string)
    ensures |s| >= 1 && forall i | 0 <= i < |s| :: IsDigit(s[i])
  {
    (if n < 10 then [] else Digits(n / 10)) + [DigitChar(n % 10)]
  }

  function PrintInt(x: int): (s: string)
    ensures |s| >= 1 && !IsDigit(s[0]) ==> s[0] == '-'
  {
    if x < 0 then "-" + Digits(-x) else Digits(x)
  }

  function DigitValue(c: char): (d: nat)
    requires IsDigit(c)
    ensures d < 10
  {
    c as int - '0' as int
  }

  /** The value of a run of decimal digits. */
  function DigitsValue(d: string): nat
    requires forall i | 0 <= i < |d| :: IsDigit(d[i])
  {
    if d == [] then 0 else DigitsValue(d[..|d| - 1]) * 10 + DigitValue(d[|d| - 1])
  }

  /** The length of the run of digits `s` starts with. */
  function DigitRun(s: string): (n: nat)
    ensures n <= |s| && forall i | 0 <= i < n :: IsDigit(s[i])
    ensures n < |s| ==> !IsDigit(s[n])
  {
    if s == [] || !IsDigit(s[0]) then 0 else 1 + DigitRun(s[1..])
  }

  datatype ParseError = Expected(text: string) | ExpectedNumber | NegativeId | TrailingText

  /** A literal: the rest of the text after it. */
  function Literal(lit: string, s: string): (r: Result<string, ParseError>)
    ensures r.Ok? <==> lit <= s
    ensures r.Ok? ==> s == lit + r.value
  {
    if lit <= s then Ok(s[|lit|..]) else Err(Expected(lit))
  }

  /** A nonempty run of digits, read as far as it goes. */
  function ParseNat(s: string): (r: Result<(nat, string), ParseError>)
    ensures r.Ok? ==> |r.value.1| < |s|
  {
    var n := DigitRun(s);
    if n == 0 then Err(ExpectedNumber) else Ok((DigitsValue(s[..n]), s[n..]))
  }

  /** An optional '-' and a nonempty run of digits. */
  function ParseInt(s: string): (r: Result<(int, string), ParseError>)
    ensures r.Ok? ==> |r.value.1| < |s|
  {
    if |s| > 0 && s[0] == '-' then
      var p :- ParseNat(s[1..]);
      var v := -(p.0 as int);
      Ok((v, p.1))
    else ParseNat(s)
  }

  /** A text that cannot continue a number: empty, or not starting with a digit. */
  predicate EndsNumber(s: string) { s == [] || !IsDigit(s[0]) }

  lemma {:induction false} DigitsValueOf(n: nat)
    ensures DigitsValue(Digits(n)) == n
  {
    var d := Digits(n);
    var front := if n < 10 then [] else Digits(n / 10);
    assert d[..|d| - 1] == front;
    if n >= 10 {
      DigitsValueOf(n / 10);
    }
  }

  lemma {:induction false} DigitRunOf(d: string, rest: string)
    requires forall i | 0 <= i < |d| :: IsDigit(d[i])
    requires EndsNumber(rest)
    ensures DigitRun(d + rest) == |d|
  {
    if d != [] {
      assert (d + rest)[1..] == d[1..] + rest;
      DigitRunOf(d[1..], rest);
    } else {
      assert d + rest == rest;
    }
  }

  lemma ParseNatPrinted(n: nat, rest: string)
    requires EndsNumber(rest)
    ensures ParseNat(Digits(n) + rest) == Ok((n, rest))
  {
    var d := Digits(n);
    DigitRunOf(d, rest);
    assert (d + rest)[..|d|] == d;
    assert (d + rest)[|d|..] == rest;
    DigitsValueOf(n);
  }

  /** Reading a printed integer gives it back and stops where the number ends. */
  lemma ParseIntPrinted(x: int, rest: string)
    requires EndsNumber(rest)
    ensures ParseInt(PrintInt(x) + rest) == Ok((x, rest))
  {
    if x < 0 {
      assert PrintInt(x) + rest == "-" + (Digits(-x) + rest);
      ParseNegativePrinted(-x, rest);
    } else {
      assert PrintInt(x) + rest == Digits(x) + rest;
      ParseNonNegativePrinted(x, rest);
    }
  }

  lemma ParseNegativePrinted(n: nat, rest: string)
    requires EndsNumber(rest)
    ensures ParseInt("-" + (Digits(n) + rest)) == Ok((-(n as int), rest))
  {
    var s := "-" + (Digits(n) + rest);
    assert s[1..] == Digits(n) + rest;
    assert ParseNat(s[1..]) == Ok((n, rest)) by {
      ParseNatPrinted(n, rest);
    }
  }

  lemma ParseNonNegativePrinted(n: nat, rest: string)
    requires EndsNumber(rest)
    ensures ParseInt(Digits(n) + rest) == Ok((n, rest))
  {
    var s := Digits(n) + rest;
    assert s[0] != '-' by {
      assert s[0] == Digits(n)[0];
    }
    assert ParseNat(s) == Ok((n, rest)) by {
      ParseNatPrinted(n, rest);
    }
  }

  /** Concatenation regrouped to the right. */
  lemma Regroup(a: string, b: string, c: string)
    ensures a + b + c == a + (b + c)
  {
  }

  // -----------------------------------------------------------------------
  // The list of awaited tasks

  /** The list body: the integers separated by ", ". */
  function PrintItems(xs: seq<int>): string
  {
    if xs == [] then ""
    else if |xs| == 1 then PrintInt(xs[0])
    else PrintInt(xs[0]) + ", " + PrintItems(xs[1..])
  }

  /** One or more integers separated by ", ", then the closing ']'. */
  function ParseItems(s: string): (r: Result<(seq<int>, string), ParseError>)
    ensures r.Ok? ==> |r.value.1| < |s|
    decreases |s|
  {
    var p :- ParseInt(s);
    var rest := p.1;
    if ", " <= rest then
      var q :- ParseItems(rest[2..]);
      Ok(([p.0] + q.0, q.1))
    else if "]" <= rest then Ok(([p.0], rest[1..]))
    else Err(Expected("]"))
  }

  /** A list body and its closing ']'; the body may be empty. */
  function ParseList(s: string): (r: Result<(seq<int>, string), ParseError>)
  {
    if "]" <= s then Ok(([], s[1..])) else ParseItems(s)
  }

  lemma ParseItemsLast(s: string, x: int, rest: string)
    requires ParseInt(s) == Ok((x, "]" + rest))
    ensures ParseItems(s) == Ok(([x], rest))
  {
    assert ("]" + rest)[0] == ']';
    assert ("]" + rest)[1..] == rest;
  }

  lemma ParseItemsNext(s: string, x: int, tail: string, ys: seq<int>, rest: string)
    requires ParseInt(s) == Ok((x, ", " + tail))
    requires ParseItems(tail) == Ok((ys, rest))
    ensures ParseItems(s) == Ok(([x] + ys, rest))
  {
    assert (", " + tail)[2..] == tail;
  }

  lemma PrintItemsShape(xs: seq<int>, rest: string)
    requires xs != []
    ensures |xs| == 1 ==> PrintItems(xs) + "]" + rest == PrintInt(xs[0]) + ("]" + rest)
    ensures |xs| > 1 ==> PrintItems(xs) + "]" + rest == PrintInt(xs[0]) + (", " + (PrintItems(xs[1..]) + "]" + rest))
  {
    if |xs| == 1 {
      Regroup(PrintInt(xs[0]), "]", rest);
    } else {
      Regroup(PrintInt(xs[0]) + ", ", PrintItems(xs[1..]), "]" + rest);
      Regroup(PrintInt(xs[0]), ", ", PrintItems(xs[1..]) + "]" + rest);
      Regroup(PrintItems(xs[1..]), "]", rest);
    }
  }

  lemma {:induction false} ParseItemsPrinted(xs: seq<int>, rest: string)
    requires xs != []
    ensures ParseItems(PrintItems(xs) + "]" + rest) == Ok((xs, rest))
    decreases |xs|
  {
    var s := PrintItems(xs) + "]" + rest;
    PrintItemsShape(xs, rest);
    if |xs| == 1 {
      ParseIntPrinted(xs[0], "]" + rest);
      ParseItemsLast(s, xs[0], rest);
      assert [xs[0]] == xs;
    } else {
      var tail := PrintItems(xs[1..]) + "]" + rest;
      ParseIntPrinted(xs[0], ", " + tail);
      ParseItemsPrinted(xs[1..], rest);
      ParseItemsNext(s, xs[0], tail, xs[1..], rest);
      assert [xs[0]] + xs[1..] == xs;
    }
  }

  lemma ParseListPrinted(xs: seq<int>, rest: string)
    ensures ParseList(PrintItems(xs) + "]" + rest) == Ok((xs, rest))
  {
    if xs == [] {
      assert PrintItems(xs) + "]" + rest == "]" + rest;
      assert ("]" + rest)[1..] == rest;
    } else {
      ParseItemsPrinted(xs, rest);
      var s := PrintInt(xs[0]);
      assert (PrintItems(xs) + "]" + rest)[0] == s[0];
    }
  }

  // -----------------------------------------------------------------------
  // One block

  const FieldId := "{\n  \"ID\": "
  const FieldTask := ",\n  \"taskID\": "
  const FieldNode := ",\n  \"nodeID\": "
  const FieldCreated := ",\n  \"taskCreated\": "
  const FieldCount := ",\n  \"numTasksWaitingFor\": "
  const FieldWaits := ",\n  \"waitFor\": ["
  const BlockEnd := "\n}\n"

  /** printBasicBlockJSON: block `b` under the id `id`. */
  function PrintBlock(b: Block, id: nat): string
  {
    FieldId + PrintInt(id)
    + FieldTask + PrintInt(b.taskId)
    + FieldNode + PrintInt(b.nodeId)
    + FieldCreated + PrintInt(b.taskCreated)
    + FieldCount + PrintInt(|b.waitFor|)
    + FieldWaits + PrintItems(b.waitFor) + "]" + BlockEnd
  }

  /** A field label followed by an integer. */
  function Field(lit: string, s: string): (r: Result<(int, string), ParseError>)
    ensures r.Ok? ==> |r.value.1| < |s|
  {
    var s1 :- Literal(lit, s);
    ParseInt(s1)
  }

  lemma FieldPrinted(lit: string, x: int, rest: string)
    requires EndsNumber(rest)
    ensures Field(lit, lit + PrintInt(x) + rest) == Ok((x, rest))
  {
    assert lit + PrintInt(x) + rest == lit + (PrintInt(x) + rest);
    assert (lit + (PrintInt(x) + rest))[|lit|..] == PrintInt(x) + rest;
    ParseIntPrinted(x, rest);
  }

  /** One object in the printed layout, decoded the way from_json fills a record. */
  function ParseBlock(s: string): (r: Result<(DagParser.BasicBlock, string), ParseError>)
    ensures r.Ok? ==> |r.value.1| < |s|
  {
    var id :- Field(FieldId, s);
    var task :- Field(FieldTask, id.1);
    var node :- Field(FieldNode, task.1);
    var created :- Field(FieldCreated, node.1);
    var count :- Field(FieldCount, created.1);
    var s1 :- Literal(FieldWaits, count.1);
    var waits :- ParseList(s1);
    var s2 :- Literal(BlockEnd, waits.1);
    if id.0 < 0 then Err(NegativeId)
    else Ok((DagParser.BasicBlock(id.0, task.0, node.0, created.0, count.0, waits.0), s2))
  }

  /** The record the analyzer holds for block `b` printed under `id`. */
  function RecordOf(b: Block, id: nat): (r: DagParser.BasicBlock)
    ensures r.id == id && r.taskId == b.taskId && r.nodeId == b.nodeId
    ensures r.taskCreated == b.taskCreated && r.waitFor == b.waitFor
    ensures r.numTasksWaitingFor == |r.waitFor|
  {
    DagParser.BasicBlock(id, b.taskId, b.nodeId, b.taskCreated, |b.waitFor|, b.waitFor)
  }

  /** Fourteen pieces and a tail, regrouped around the suffixes the reader leaves after each field. */
  lemma Chain(i1: string, i2: string, a1: string, a2: string, b1: string, b2: string, c1: string, c2: string,
              d1: string, d2: string, e1: string, e2: string, e3: string, e4: string, rest: string,
              t2: string, t3: string, t4: string, t5: string, t6: string, t7: string)
    requires t7 == e4 + rest
    requires t6 == e1 + (e2 + e3 + t7)
    requires t5 == d1 + d2 + t6
    requires t4 == c1 + c2 + t5
    requires t3 == b1 + b2 + t4
    requires t2 == a1 + a2 + t3
    ensures i1 + i2 + a1 + a2 + b1 + b2 + c1 + c2 + d1 + d2 + e1 + e2 + e3 + e4 + rest == i1 + i2 + t2
  {
  }

  /** The printed block as a chain: each label, then its number, then everything after it. */
  lemma PrintBlockShape(b: Block, id: nat, rest: string, t2: string, t3: string, t4: string, t5: string, t6: string, t7: string)
    requires t7 == BlockEnd + rest
    requires t6 == FieldWaits + (PrintItems(b.waitFor) + "]" + t7)
    requires t5 == FieldCount + PrintInt(|b.waitFor|) + t6
    requires t4 == FieldCreated + PrintInt(b.taskCreated) + t5
    requires t3 == FieldNode + PrintInt(b.nodeId) + t4
    requires t2 == FieldTask + PrintInt(b.taskId) + t3
    ensures PrintBlock(b, id) + rest == FieldId + PrintInt(id) + t2
  {
    Chain(FieldId, PrintInt(id), FieldTask, PrintInt(b.taskId), FieldNode, PrintInt(b.nodeId),
      FieldCreated, PrintInt(b.taskCreated), FieldCount, PrintInt(|b.waitFor|),
      FieldWaits, PrintItems(b.waitFor), "]", BlockEnd, rest, t2, t3, t4, t5, t6, t7);
  }

  /** ParseBlock unfolded once, given the outcome of every step. */
  lemma ParseBlockSteps(s: string, r: DagParser.BasicBlock, t2: string, t3: string, t4: string, t5: string, t6: string, t7: string, rest: string)
    requires Field(FieldId, s) == Ok((r.id as int, t2))
    requires Field(FieldTask, t2) == Ok((r.taskId, t3))
    requires Field(FieldNode, t3) == Ok((r.nodeId, t4))
    requires Field(FieldCreated, t4) == Ok((r.taskCreated, t5))
    requires Field(FieldCount, t5) == Ok((r.numTasksWaitingFor, t6))
    requires Literal(FieldWaits, t6).Ok?
    requires ParseList(Literal(FieldWaits, t6).value) == Ok((r.waitFor, t7))
    requires Literal(BlockEnd, t7) == Ok(rest)
    ensures ParseBlock(s) == Ok((r, rest))
  {
  }

  lemma ParseBlockPrinted(b: Block, id: nat, rest: string)
    ensures ParseBlock(PrintBlock(b, id) + rest) == Ok((RecordOf(b, id), rest))
  {
    var t7 := BlockEnd + rest;
    var t6 := FieldWaits + (PrintItems(b.waitFor) + "]" + t7);
    var t5 := FieldCount + PrintInt(|b.waitFor|) + t6;
    var t4 := FieldCreated + PrintInt(b.taskCreated) + t5;
    var t3 := FieldNode + PrintInt(b.nodeId) + t4;
    var t2 := FieldTask + PrintInt(b.taskId) + t3;
    PrintBlockShape(b, id, rest, t2, t3, t4, t5, t6, t7);
    FieldPrinted(FieldId, id, t2);
    FieldPrinted(FieldTask, b.taskId, t3);
    FieldPrinted(FieldNode, b.nodeId, t4);
    FieldPrinted(FieldCreated, b.taskCreated, t5);
    FieldPrinted(FieldCount, |b.waitFor|, t6);
    assert Literal(FieldWaits, t6) == Ok(PrintItems(b.waitFor) + "]" + t7);
    ParseListPrinted(b.waitFor, t7);
    assert Literal(BlockEnd, t7) == Ok(rest);
    ParseBlockSteps(PrintBlock(b, id) + rest, RecordOf(b, id), t2, t3, t4, t5, t6, t7, rest);
  }

  // -----------------------------------------------------------------------
  // The whole file

  const Separator := ",\n"
  const ArrayStart := "[\n"
  const ArrayEnd := "]\n"

  /** Blocks `i` .. |bbs|-1, each under its position, separated by ",\n". */
  function PrintFrom(bbs: seq<Block>, i: nat): string
    requires i < |bbs|
    decreases |bbs| - i
  {
    if i + 1 < |bbs| then PrintBlock(bbs[i], i) + Separator + PrintFrom(bbs, i + 1)
    else PrintBlock(bbs[i], i)
  }

  /** omptr_print over the blocks handed out so far. */
  function PrintBlocks(bbs: seq<Block>): string
  {
    if bbs == [] then ArrayStart + ArrayEnd else ArrayStart + PrintFrom(bbs, 0) + ArrayEnd
  }

  /** What omptr_print writes for a tracer: blocks 0 .. the block counter. */
  function Print(st: Tracer): string
    requires Valid(st)
  {
    PrintBlocks(st.bbs[..st.bbCounter + 1])
  }

  /** Objects separated by ",\n" up to the closing "]\n", which must end the text. */
  function ParseObjects(s: string): (r: Result<seq<DagParser.BasicBlock>, ParseError>)
    decreases |s|
  {
    var p :- ParseBlock(s);
    if Separator <= p.1 then
      var more :- ParseObjects(p.1[|Separator|..]);
      Ok([p.0] + more)
    else if p.1 == ArrayEnd then Ok([p.0])
    else if ArrayEnd <= p.1 then Err(TrailingText)
    else Err(Expected(ArrayEnd))
  }

  /** Reads a block file in the layout omptr_print writes. */
  function Decode(s: string): (r: Result<seq<DagParser.BasicBlock>, ParseError>)
  {
    var body :- Literal(ArrayStart, s);
    if body == ArrayEnd then Ok([]) else ParseObjects(body)
  }

  /** The records of blocks `i` .. |bbs|-1 as the analyzer holds them. */
  function RecordsFrom(bbs: seq<Block>, i: nat): (rs: seq<DagParser.BasicBlock>)
    requires i <= |bbs|
    ensures |rs| == |bbs| - i
    ensures forall k | 0 <= k < |rs| :: rs[k] == RecordOf(bbs[i + k], i + k)
  {
    seq(|bbs| - i, k requires 0 <= k < |bbs| - i => RecordOf(bbs[i + k], i + k))
  }

  lemma PrintFromShape(bbs: seq<Block>, i: nat)
    requires i < |bbs|
    ensures i + 1 < |bbs| ==> PrintFrom(bbs, i) + ArrayEnd == PrintBlock(bbs[i], i) + (Separator + (PrintFrom(bbs, i + 1) + ArrayEnd))
    ensures i + 1 == |bbs| ==> PrintFrom(bbs, i) + ArrayEnd == PrintBlock(bbs[i], i) + ArrayEnd
  {
    if i + 1 < |bbs| {
      Regroup(PrintBlock(bbs[i], i) + Separator, PrintFrom(bbs, i + 1), ArrayEnd);
      Regroup(PrintBlock(bbs[i], i), Separator, PrintFrom(bbs, i + 1) + ArrayEnd);
    }
  }

  lemma RecordsFromCons(bbs: seq<Block>, i: nat)
    requires i < |bbs|
    ensures RecordsFrom(bbs, i) == [RecordOf(bbs[i], i)] + RecordsFrom(bbs, i + 1)
  {
  }

  lemma ParseObjectsLast(s: string, r: DagParser.BasicBlock)
    requires ParseBlock(s) == Ok((r, ArrayEnd))
    ensures ParseObjects(s) == Ok([r])
  {
    assert ArrayEnd[0] != Separator[0];
  }

  lemma ParseObjectsNext(s: string, r: DagParser.BasicBlock, tail: string, more: seq<DagParser.BasicBlock>)
    requires ParseBlock(s) == Ok((r, Separator + tail))
    requires ParseObjects(tail) == Ok(more)
    ensures ParseObjects(s) == Ok([r] + more)
  {
    assert (Separator + tail)[|Separator|..] == tail;
  }

  lemma {:induction false} ParseObjectsPrinted(bbs: seq<Block>, i: nat)
    requires i < |bbs|
    ensures ParseObjects(PrintFrom(bbs, i) + ArrayEnd) == Ok(RecordsFrom(bbs, i))
    decreases |bbs| - i
  {
    var s := PrintFrom(bbs, i) + ArrayEnd;
    PrintFromShape(bbs, i);
    RecordsFromCons(bbs, i);
    if i + 1 < |bbs| {
      var tail := PrintFrom(bbs, i + 1) + ArrayEnd;
      ParseBlockPrinted(bbs[i], i, Separator + tail);
      ParseObjectsPrinted(bbs, i + 1);
      var p := PrintBlock(bbs[i], i) + (Separator + tail);
      assert s == p;
      assert ParseBlock(p) == Ok((RecordOf(bbs[i], i), Separator + tail));
      assert ParseObjects(tail) == Ok(RecordsFrom(bbs, i + 1));
      ParseObjectsNext(p, RecordOf(bbs[i], i), tail, RecordsFrom(bbs, i + 1));
      assert ParseObjects(p) == Ok(RecordsFrom(bbs, i));
    } else {
      ParseBlockPrinted(bbs[i], i, ArrayEnd);
      assert s == PrintBlock(bbs[i], i) + ArrayEnd;
      ParseObjectsLast(s, RecordOf(bbs[i], i));
      assert ParseObjects(s) == Ok([RecordOf(bbs[i], i)]);
      assert RecordsFrom(bbs, i + 1) == [];
      assert RecordsFrom(bbs, i) == [RecordOf(bbs[i], i)];
    }
  }

  /** Reading the printed blocks back gives every block, in order, with its position as its id. */
  lemma DecodePrintBlocks(bbs: seq<Block>)
    ensures Decode(PrintBlocks(bbs)) == Ok(RecordsFrom(bbs, 0))
  {
    if bbs != [] {
      var body := PrintFrom(bbs, 0) + ArrayEnd;
      Regroup(ArrayStart, PrintFrom(bbs, 0), ArrayEnd);
      assert (ArrayStart + body)[|ArrayStart|..] == body;
      assert body[0] == '{';
      ParseObjectsPrinted(bbs, 0);
    }
  }

  /**
   * The file omptr writes reads back as one record per block handed out,
   * with ids 0 .. the block counter, and the first record is the main
   * task's first block.
   */
  lemma DecodePrint(st: Tracer)
    requires Valid(st)
    ensures Decode(Print(st)) == Ok(RecordsFrom(st.bbs[..st.bbCounter + 1], 0))
    ensures |Decode(Print(st)).value| == st.bbCounter + 1
  {
    DecodePrintBlocks(st.bbs[..st.bbCounter + 1]);
  }
}

=== FILE: par_rp.dfy ===
/**
 * The partitioned replacement policy's bookkeeping for one cache set
 * (src/mem/cache/replacement_policies/par_rp.cc:23-384, par_rp.hh:24-113).
 *
 * Each partition has a fixed number of entries. An entry either points at
 * a cache way or is vacant (-1). The owner table records, per partition and
 * way, whether the partition holds that way. Several partitions may hold
 * the same way. The wrapped replacement policy (LRU, say) that ranks a
 * partition's entries is outside this model: its victim choice is a
 * parameter. Its per-entry state is not represented.
 */
module ParRp {
  import opened Common

  const Vacant: int := -1

  /** A policy instance: the entries of each partition and the set's associativity. */
  datatype Par = Par(parConfig: seq<nat>, numWay: nat)

  datatype ParError =
    | SizeMismatch       // the partition sizes do not add up to the ways (par_rp.cc:34-39)
    | PartitionFull      // touch on a new way with no vacant entry counted (par_rp.cc:181)
    | NoVacantEntry      // no entry found to fill (par_rp.cc:195, 238)
    | Unlinked           // an owned way with no entry pointing at it (par_rp.cc:147, 169)
    | AlreadyOwned       // reset on a way some partition holds (par_rp.cc:220)
    | StaleEntry         // reset on a way the partition still points at (par_rp.cc:222)
    | NotOwned           // invalidate on a way the partition does not hold (par_rp.cc:132)
    | StillOwned         // partition-less invalidate on a held way (par_rp.cc:55)
    | StillLinked        // partition-less invalidate on a way an entry points at (par_rp.cc:59)
    | Overfull           // more entries in use than the partition has (par_rp.cc:325)
    | NoCandidates       // victim selection from no candidates (par_rp.cc:82, 252)
    | AllOwned           // no unowned candidate to evict (par_rp.cc:114)
    | PartitionNotFull   // partition victim selection on a partition with room (par_rp.cc:282)

  /** The constructor's check: the partition sizes must add up to the number of ways. */
  function MakePar(parConfig: seq<nat>, numWay: nat): (r: Result<Par, ParError>)
    ensures r.Ok? <==> Sum(parConfig) == numWay
    ensures r.Ok? ==> r.value.parConfig == parConfig && r.value.numWay == numWay
  {
    if Sum(parConfig) != numWay then Err(SizeMismatch) else Ok(Par(parConfig, numWay))
  }

  // -----------------------------------------------------------------------
  // One set's tables

  /** `par[p][e]` is the way entry `e` of partition `p` points at; `owner[p][w]` says whether `p` holds `w`. */
  datatype Tables = Tables(par: seq<seq<int>>, owner: seq<seq<bool>>)

  /** How many entries of a row are in use. */
  function Count(row: seq<int>): nat
  {
    if row == [] then 0 else Count(row[..|row| - 1]) + (if row[|row| - 1] != Vacant then 1 else 0)
  }

  /**
   * One partition's row is consistent with its owner row: the right
   * sizes, entries vacant or naming a way, no way named twice, and the
   * partition holds exactly the ways its entries name.
   */
  ghost predicate RowLinked(row: seq<int>, own: seq<bool>, size: nat, numWay: nat)
  {
    && |row| == size && |own| == numWay
    && (forall e | 0 <= e < |row| :: row[e] == Vacant || 0 <= row[e] < numWay)
    && (forall e1, e2 | 0 <= e1 < e2 < |row| :: row[e1] != Vacant ==> row[e1] != row[e2])
    && (forall w | 0 <= w < numWay :: own[w] <==> w in row)
  }

  /** The table-link invariant, partition by partition. */
  ghost predicate Valid(pol: Par, t: Tables)
  {
    && |t.par| == |pol.parConfig| && |t.owner| == |pol.parConfig|
    && forall p | 0 <= p < |pol.parConfig| :: RowLinked(t.par[p], t.owner[p], pol.parConfig[p], pol.numWay)
  }

  /** The tables instantiateEntry creates at way 0: every entry vacant, nothing held. */
  function FreshTables(pol: Par): (t: Tables)
    ensures Valid(pol, t)
    ensures forall p | 0 <= p < |pol.parConfig| :: Count(t.par[p]) == 0
  {
    var t := Tables(
      seq(|pol.parConfig|, p requires 0 <= p < |pol.parConfig| => seq(pol.parConfig[p], e => Vacant)),
      seq(|pol.parConfig|, p => seq(pol.numWay, w => false)));
    forall p | 0 <= p < |pol.parConfig|
      ensures Count(t.par[p]) == 0
    {
      CountAllVacant(t.par[p]);
    }
    t
  }

  lemma {:induction false} CountAllVacant(row: seq<int>)
    requires forall e | 0 <= e < |row| :: row[e] == Vacant
    ensures Count(row) == 0
  {
    if row != [] {
      CountAllVacant(row[..|row| - 1]);
    }
  }

  /** The first position holding `x`. */
  function FirstIndex(s: seq<int>, x: int): (r: Option<nat>)
    ensures r.Some? <==> x in s
    ensures r.Some? ==> r.value < |s| && s[r.value] == x && forall j | 0 <= j < r.value :: s[j] != x
  {
    if s == [] then None
    else if s[0] == x then Some(0)
    else
      var r := FirstIndex(s[1..], x);
      assert forall j | 1 <= j < |s| :: s[j] == s[1..][j - 1];
      if r.None? then None else Some(r.value + 1)
  }

  /** get_replacement_data: the entry of partition `p` that points at way `w`, if any. */
  function GetReplacementData(t: Tables, p: nat, w: nat): (r: Option<nat>)
    requires p < |t.par|
    ensures r.Some? <==> w in t.par[p]
    ensures r.Some? ==> r.value < |t.par[p]| && t.par[p][r.value] == w
  {
    FirstIndex(t.par[p], w)
  }

  /** get_owners: the partitions holding way `w`, in ascending order. */
  function GetOwners(t: Tables, w: nat): (r: seq<nat>)
    requires forall p | 0 <= p < |t.owner| :: w < |t.owner[p]|
    ensures forall p: nat :: p in r <==> p < |t.owner| && t.owner[p][w]
    ensures forall i, j | 0 <= i < j < |r| :: r[i] < r[j]
  {
    OwnersBelow(t, w, |t.owner|)
  }

  function OwnersBelow(t: Tables, w: nat, n: nat): (r: seq<nat>)
    requires n <= |t.owner| && forall p | 0 <= p < |t.owner| :: w < |t.owner[p]|
    ensures forall p: nat :: p in r <==> p < n && t.owner[p][w]
    ensures forall i, j | 0 <= i < j < |r| :: r[i] < r[j] < n
  {
    if n == 0 then []
    else
      var r := OwnersBelow(t, w, n - 1);
      assert forall i | 0 <= i < |r| :: r[i] in r;
      if t.owner[n - 1][w] then r + [n - 1] else r
  }

  // -----------------------------------------------------------------------
  // Row-level steps

  lemma {:induction false} CountUpdate(row: seq<int>, e: nat, v: int)
    requires e < |row|
    ensures Count(row[e := v]) + (if row[e] != Vacant then 1 else 0) == Count(row) + (if v != Vacant then 1 else 0)
  {
    var n := |row| - 1;
    if e < n {
      assert row[e := v][..n] == row[..n][e := v];
      CountUpdate(row[..n], e, v);
    } else {
      assert row[e := v][..n] == row[..n];
    }
  }

  lemma {:induction false} CountAtMostSize(row: seq<int>)
    ensures Count(row) <= |row|
    ensures Count(row) < |row| ==> Vacant in row
  {
    if row != [] {
      var n := |row| - 1;
      CountAtMostSize(row[..n]);
      if Count(row) < |row| && row[n] != Vacant {
        assert Vacant in row[..n];
      }
    }
  }

  /** Filling the first vacant entry with a way not yet named keeps the row linked, with the way now held. */
  lemma FillLinked(row: seq<int>, own: seq<bool>, size: nat, numWay: nat, w: nat, e: nat)
    requires RowLinked(row, own, size, numWay) && w < numWay && !own[w]
    requires e < |row| && row[e] == Vacant
    ensures RowLinked(row[e := w], own[w := true], size, numWay)
  {
    var row' := row[e := w];
    var own' := own[w := true];
    forall x | 0 <= x < numWay
      ensures own'[x] <==> x in row'
    {
      if x == w {
        assert row'[e] == w;
      } else {
        assert forall i | 0 <= i < |row| :: row'[i] == x <==> row[i] == x;
      }
    }
  }

  /** Vacating the one entry that names a held way keeps the row linked, with the way released. */
  lemma VacateLinked(row: seq<int>, own: seq<bool>, size: nat, numWay: nat, w: nat, e: nat)
    requires RowLinked(row, own, size, numWay) && w < numWay
    requires e < |row| && row[e] == w
    ensures RowLinked(row[e := Vacant], own[w := false], size, numWay)
  {
    var row' := row[e := Vacant];
    var own' := own[w := false];
    forall x | 0 <= x < numWay
      ensures own'[x] <==> x in row'
    {
      if x == w {
        assert forall i | 0 <= i < |row'| :: row'[i] != w;
      } else {
        assert forall i | 0 <= i < |row| :: row'[i] == x <==> row[i] == x;
      }
    }
  }

  /** Replacing partition `p`'s rows keeps the other partitions as they were. */
  function SetRow(t: Tables, p: nat, row: seq<int>, own: seq<bool>): (t': Tables)
    requires p < |t.par| && |t.par| == |t.owner|
    ensures |t'.par| == |t.par| && |t'.owner| == |t.owner|
    ensures t'.par[p] == row && t'.owner[p] == own
    ensures forall q | 0 <= q < |t.par| && q != p :: t'.par[q] == t.par[q] && t'.owner[q] == t.owner[q]
  {
    Tables(t.par[p := row], t.owner[p := own])
  }

  /**
   * `t'` is `t` with one write to partition `p`: its first entry equal to
   * `x` now holds `y`, and its owner bit for way `w` is `held`. Every other
   * entry, owner bit and partition is as it was.
   */
  predicate RowWritten(t: Tables, t': Tables, p: nat, x: int, y: int, w: nat, held: bool)
    requires p < |t.par| && p < |t.owner| && x in t.par[p] && w < |t.owner[p]|
  {
    && |t'.par| == |t.par| && |t'.owner| == |t.owner|
    && t'.par[p] == t.par[p][FirstIndex(t.par[p], x).value := y]
    && t'.owner[p] == t.owner[p][w := held]
    && (forall q | 0 <= q < |t.par| && q != p :: t'.par[q] == t.par[q])
    && (forall q | 0 <= q < |t.owner| && q != p :: t'.owner[q] == t.owner[q])
  }

  // -----------------------------------------------------------------------
  // The operations

  /**
   * touch with a partition: a way the partition holds leaves the tables
   * as they are. Any other way needs an entry to spare. The partition
   * then holds the way, and its first vacant entry points at it.
   */
  function Touch(pol: Par, t: Tables, p: nat, w: nat): (r: Result<Tables, ParError>)
    requires Valid(pol, t) && p < |pol.parConfig| && w < pol.numWay
    ensures r.Ok? ==> Valid(pol, r.value)
    ensures r.Err? ==> r.error == PartitionFull
    ensures r.Ok? <==> t.owner[p][w] || Count(t.par[p]) < pol.parConfig[p]
    ensures t.owner[p][w] ==> r == Ok(t)
    ensures r.Ok? && !t.owner[p][w] ==>
      && r.value.owner[p][w]
      && Count(r.value.par[p]) == Count(t.par[p]) + 1
      && forall q | 0 <= q < |pol.parConfig| && q != p ::
           r.value.par[q] == t.par[q] && r.value.owner[q] == t.owner[q]
    ensures r.Ok? && !t.owner[p][w] ==> Vacant in t.par[p] && RowWritten(t, r.value, p, Vacant, w, w, true)
  {
    if t.owner[p][w] then
      if GetReplacementData(t, p, w).None? then Err(Unlinked) else Ok(t)
    else if Count(t.par[p]) >= pol.parConfig[p] then Err(PartitionFull)
    else
      CountAtMostSize(t.par[p]);
      Fill(pol, t, p, w)
  }

  /** Hold way `w` in partition `p` through its first vacant entry; the shared tail of touch and reset. */
  function Fill(pol: Par, t: Tables, p: nat, w: nat): (r: Result<Tables, ParError>)
    requires Valid(pol, t) && p < |pol.parConfig| && w < pol.numWay && !t.owner[p][w]
    ensures r.Ok? <==> Vacant in t.par[p]
    ensures r.Err? ==> r.error == NoVacantEntry
    ensures r.Ok? ==>
      && Valid(pol, r.value) && r.value.owner[p][w]
      && Count(r.value.par[p]) == Count(t.par[p]) + 1
      && forall q | 0 <= q < |pol.parConfig| && q != p ::
           r.value.par[q] == t.par[q] && r.value.owner[q] == t.owner[q]
    ensures r.Ok? ==> RowWritten(t, r.value, p, Vacant, w, w, true)
  {
    var e := FirstIndex(t.par[p], Vacant);
    if e.None? then Err(NoVacantEntry)
    else
      var row := t.par[p][e.value := w];
      var own := t.owner[p][w := true];
      FillLinked(t.par[p], t.owner[p], pol.parConfig[p], pol.numWay, w, e.value);
      CountUpdate(t.par[p], e.value, w);
      Ok(SetRow(t, p, row, own))
  }

  /**
   * reset with a partition: no partition may hold the way and the
   * partition's entries may not name it. The partition then holds the way
   * through its first vacant entry.
   */
  function Reset(pol: Par, t: Tables, p: nat, w: nat): (r: Result<Tables, ParError>)
    requires Valid(pol, t) && p < |pol.parConfig| && w < pol.numWay
    ensures r.Ok? <==> GetOwners(t, w) == [] && Vacant in t.par[p]
    ensures r.Err? ==> r.error == AlreadyOwned || r.error == NoVacantEntry
    ensures r.Ok? ==>
      && Valid(pol, r.value) && (forall q: nat :: q in GetOwners(r.value, w) <==> q == p)
      && Count(r.value.par[p]) == Count(t.par[p]) + 1
    ensures r.Ok? ==> RowWritten(t, r.value, p, Vacant, w, w, true)
  {
    if GetOwners(t, w) != [] then Err(AlreadyOwned)
    else if w in t.par[p] then Err(StaleEntry)
    else
      var r := Fill(pol, t, p, w);
      if r.Ok? then
        OnlyOwner(pol, t, r.value, p, w);
        r
      else r
  }

  lemma OnlyOwner(pol: Par, t: Tables, t': Tables, p: nat, w: nat)
    requires Valid(pol, t) && Valid(pol, t') && p < |pol.parConfig| && w < pol.numWay
    requires GetOwners(t, w) == [] && t'.owner[p][w]
    requires forall q | 0 <= q < |pol.parConfig| && q != p :: t'.owner[q] == t.owner[q]
    ensures forall q: nat :: q in GetOwners(t', w) <==> q == p
  {
    forall q: nat | q < |pol.parConfig| && q != p
      ensures !t'.owner[q][w]
    {
      assert q !in GetOwners(t, w);
    }
  }

  /**
   * invalidate with a partition: the partition must hold the way; it stops
   * holding it and the entry that named it becomes vacant.
   */
  function Invalidate(pol: Par, t: Tables, p: nat, w: nat): (r: Result<Tables, ParError>)
    requires Valid(pol, t) && p < |pol.parConfig| && w < pol.numWay
    ensures r.Ok? <==> t.owner[p][w]
    ensures r.Err? ==> r.error == NotOwned
    ensures r.Ok? ==>
      && Valid(pol, r.value) && !r.value.owner[p][w] && w !in r.value.par[p]
      && Count(r.value.par[p]) + 1 == Count(t.par[p])
      && forall q | 0 <= q < |pol.parConfig| && q != p ::
           r.value.par[q] == t.par[q] && r.value.owner[q] == t.owner[q]
    ensures r.Ok? ==> w in t.par[p] && RowWritten(t, r.value, p, w, Vacant, w, false)
  {
    if !t.owner[p][w] then Err(NotOwned)
    else
      var e := FirstIndex(t.par[p], w);
      if e.None? then Err(Unlinked)
      else
        VacateLinked(t.par[p], t.owner[p], pol.parConfig[p], pol.numWay, w, e.value);
        CountUpdate(t.par[p], e.value, Vacant);
        Ok(SetRow(t, p, t.par[p][e.value := Vacant], t.owner[p][w := false]))
  }

  /** invalidate without a partition: only checks that nothing holds or names the way. */
  function InvalidateUnowned(pol: Par, t: Tables, w: nat): (r: Result<(), ParError>)
    requires Valid(pol, t) && w < pol.numWay
    ensures r.Ok? <==> GetOwners(t, w) == []
    ensures r.Err? ==> r.error == StillOwned
  {
    if GetOwners(t, w) != [] then Err(StillOwned)
    else if exists p | 0 <= p < |t.par| :: w in t.par[p] then
      assert false;
      Err(StillLinked)
    else Ok(())
  }

  /** parAvail: whether the partition has an entry to spare; the in-use count never exceeds the partition. */
  function ParAvail(pol: Par, t: Tables, p: nat): (r: Result<bool, ParError>)
    requires Valid(pol, t) && p < |pol.parConfig|
    ensures r.Ok?
    ensures r.value <==> Vacant in t.par[p]
  {
    CountAtMostSize(t.par[p]);
    CountFullNoVacancy(t.par[p]);
    var count := Count(t.par[p]);
    if count > pol.parConfig[p] then Err(Overfull) else Ok(count < pol.parConfig[p])
  }

  lemma {:induction false} CountFullNoVacancy(row: seq<int>)
    ensures Count(row) == |row| ==> Vacant !in row
  {
    if row != [] && Count(row) == |row| {
      var n := |row| - 1;
      CountAtMostSize(row[..n]);
      CountFullNoVacancy(row[..n]);
      assert row == row[..n] + [row[n]];
    }
  }

  /** parHit: whether the partition holds the way, which is whether one of its entries names it. */
  function ParHit(pol: Par, t: Tables, p: nat, w: nat): (r: bool)
    requires Valid(pol, t) && p < |pol.parConfig| && w < pol.numWay
    ensures r <==> w in t.par[p]
  {
    t.owner[p][w]
  }

  /**
   * getVictim without a partition: the first candidate way that no
   * partition holds. It is an error when there is none.
   */
  function GetVictim(pol: Par, t: Tables, cands: seq<nat>): (r: Result<nat, ParError>)
    requires Valid(pol, t) && forall i | 0 <= i < |cands| :: cands[i] < pol.numWay
    ensures r.Ok? <==> exists i | 0 <= i < |cands| :: GetOwners(t, cands[i]) == []
    ensures r.Ok? ==> (r.value < |cands| && GetOwners(t, cands[r.value]) == []
      && forall j | 0 <= j < r.value :: GetOwners(t, cands[j]) != [])
  {
    if |cands| == 0 then Err(NoCandidates) else FirstUnowned(pol, t, cands, 0)
  }

  function FirstUnowned(pol: Par, t: Tables, cands: seq<nat>, i: nat): (r: Result<nat, ParError>)
    requires Valid(pol, t) && forall k | 0 <= k < |cands| :: cands[k] < pol.numWay
    requires i <= |cands| && forall j | 0 <= j < i :: GetOwners(t, cands[j]) != []
    ensures r.Ok? <==> exists k | 0 <= k < |cands| :: GetOwners(t, cands[k]) == []
    ensures r.Ok? ==> (r.value < |cands| && GetOwners(t, cands[r.value]) == []
      && forall j | 0 <= j < r.value :: GetOwners(t, cands[j]) != [])
    decreases |cands| - i
  {
    if i == |cands| then Err(AllOwned)
    else if GetOwners(t, cands[i]) == [] then Ok(i)
    else FirstUnowned(pol, t, cands, i + 1)
  }

  /** The ways of the non-null candidates that partition `p` holds, in candidate order. */
  function HeldCandidates(t: Tables, p: nat, cands: seq<Option<nat>>): (r: seq<nat>)
    requires p < |t.owner|
    requires forall i | 0 <= i < |cands| :: cands[i].Some? ==> cands[i].value < |t.owner[p]|
    ensures forall w :: w in r <==> (exists i | 0 <= i < |cands| :: cands[i] == Some(w)) && w < |t.owner[p]| && t.owner[p][w]
  {
    if cands == [] then []
    else
      var front := cands[..|cands| - 1];
      var c := cands[|cands| - 1];
      var r := HeldCandidates(t, p, front);
      assert forall i | 0 <= i < |front| :: front[i] == cands[i];
      if c.Some? && t.owner[p][c.value] then r + [c.value] else r
  }

  /**
   * getVictim with a partition: the partition must hold exactly as many
   * candidate ways as it has entries. The wrapped policy picks one of
   * them (`pick`, its position among the held candidates), and the
   * result is the first candidate with that way.
   */
  function GetVictimIn(pol: Par, t: Tables, cands: seq<Option<nat>>, p: nat, pick: nat): (r: Result<nat, ParError>)
    requires Valid(pol, t) && p < |pol.parConfig| && pick < pol.parConfig[p]
    requires forall i | 0 <= i < |cands| :: cands[i].Some? ==> cands[i].value < pol.numWay
    ensures r.Ok? <==> |cands| != 0 && |HeldCandidates(t, p, cands)| == pol.parConfig[p]
    ensures r.Ok? ==>
      && r.value < |cands| && cands[r.value].Some?
      && cands[r.value].value == HeldCandidates(t, p, cands)[pick]
      && t.owner[p][cands[r.value].value]
      && forall j | 0 <= j < r.value :: cands[j] != cands[r.value]
  {
    if |cands| == 0 then Err(NoCandidates)
    else
      var held := HeldCandidates(t, p, cands);
      if |held| != pol.parConfig[p] then Err(PartitionNotFull)
      else
        var victim := held[pick];
        assert victim in held;
        var i := FirstWithWay(cands, victim);
        Ok(i)
  }

  function FirstWithWay(cands: seq<Option<nat>>, w: nat): (i: nat)
    requires exists k | 0 <= k < |cands| :: cands[k] == Some(w)
    ensures i < |cands| && cands[i] == Some(w) && forall j | 0 <= j < i :: cands[j] != Some(w)
  {
    if cands[0] == Some(w) then 0
    else
      var k :| 0 <= k < |cands| && cands[k] == Some(w);
      assert cands[1..][k - 1] == Some(w);
      1 + FirstWithWay(cands[1..], w)
  }

  // -----------------------------------------------------------------------
  // instantiateEntry

  /** The instance counter and how many table pairs have been created so far. */
  datatype Instancer = Instancer(count: nat, tables: nat)

  /** The replacement data of one cache entry: which set's tables it shares, and its way. */
  datatype ReplData = ReplData(table: nat, way: nat)

  /**
   * instantiateEntry: the way is the counter modulo the associativity; the
   * first way of a set starts a new pair of tables, and the other ways
   * share the latest pair.
   */
  function InstantiateEntry(pol: Par, st: Instancer): (r: (Instancer, ReplData))
    requires pol.numWay > 0
    requires st.count % pol.numWay != 0 ==> st.tables > 0
    ensures r.0.count == st.count + 1 && r.1.way == st.count % pol.numWay
    ensures r.0.tables > 0
  {
    var way := st.count % pol.numWay;
    var tables := if way == 0 then st.tables + 1 else st.tables;
    (Instancer(st.count + 1, tables), ReplData(tables - 1, way))
  }

  /** Instantiating `n` entries from a fresh policy. */
  function Instances(pol: Par, n: nat): (r: (Instancer, seq<ReplData>))
    requires pol.numWay > 0
    ensures r.0.count == n && |r.1| == n
    ensures n > 0 ==> r.0.tables == (n - 1) / pol.numWay + 1
    ensures n == 0 ==> r.0.tables == 0
  {
    if n == 0 then (Instancer(0, 0), [])
    else
      var prev := Instances(pol, n - 1);
      DivStep(n - 1, pol.numWay);
      var next := InstantiateEntry(pol, prev.0);
      (next.0, prev.1 + [next.1])
  }

  lemma DivStep(m: nat, w: nat)
    requires w > 0
    ensures m % w == 0 ==> (m == 0 || (m - 1) / w + 1 == m / w)
    ensures m % w != 0 ==> m > 0 && (m - 1) / w == m / w
  {
    if m > 0 {
      if m % w == 0 {
        DivUnique(m - 1, w, m / w - 1, w - 1);
      } else {
        DivUnique(m - 1, w, m / w, m % w - 1);
      }
    }
  }

  /**
   * Entry `i` gets way `i mod numWay` and the tables of set `i / numWay`:
   * the entries of one set, instantiated one after the other, share a
   * pair of tables, and different sets never do.
   */
  lemma {:induction false} InstancesShareBySet(pol: Par, n: nat, i: nat)
    requires pol.numWay > 0 && i < n
    ensures Instances(pol, n).1[i] == ReplData(i / pol.numWay, i % pol.numWay)
  {
    var prev := Instances(pol, n - 1);
    if i < n - 1 {
      InstancesShareBySet(pol, n - 1, i);
    } else {
      DivStep(i, pol.numWay);
    }
  }
}

=== FILE: perfect_switch.dfy ===
/**
 * Arbitration rules of the simple network's switch
 * (src/mem/ruby/network/simple/PerfectSwitch.cc:66-599).
 *
 * Message buffers are abstracted. An input port is its buffer's id,
 * routing priority and ready time. A queue is a sequence of messages, each
 * with its ready time and the output links the router chose for it. The
 * slots free in each output link's buffer are a sequence of counts. The
 * bus arbiters see ready flags or (request ID, enqueue time) pairs.
 */
module PerfectSwitch {
  import opened Common

  // -----------------------------------------------------------------------
  // Priority groups (updatePriorityGroups)

  datatype InBuffer = InBuffer(id: nat, priority: int)

  ghost predicate SortedByPriority(bs: seq<InBuffer>)
  {
    forall i, j | 0 <= i < j < |bs| :: bs[i].priority <= bs[j].priority
  }

  /**
   * Adding a buffer to a vnet's list keeps the list sorted by routing
   * priority. std::sort leaves the order of equal priorities unspecified;
   * the model puts the new buffer after those of equal priority.
   */
  function InsertByPriority(bs: seq<InBuffer>, b: InBuffer): (r: seq<InBuffer>)
    requires SortedByPriority(bs)
    ensures SortedByPriority(r)
    ensures multiset(r) == multiset(bs) + multiset{b}
  {
    if bs == [] then [b]
    else
      var last := bs[|bs| - 1];
      var front := bs[..|bs| - 1];
      if last.priority <= b.priority then bs + [b]
      else
        var r := InsertByPriority(front, b);
        InsertBeforeLast(bs, b, r);
        r + [last]
  }

  lemma InsertBeforeLast(bs: seq<InBuffer>, b: InBuffer, r: seq<InBuffer>)
    requires SortedByPriority(bs) && bs != [] && b.priority < bs[|bs| - 1].priority
    requires SortedByPriority(r) && multiset(r) == multiset(bs[..|bs| - 1]) + multiset{b}
    ensures SortedByPriority(r + [bs[|bs| - 1]])
    ensures multiset(r + [bs[|bs| - 1]]) == multiset(bs) + multiset{b}
  {
    var front := bs[..|bs| - 1];
    var last := bs[|bs| - 1];
    assert bs == front + [last];
    forall i | 0 <= i < |r|
      ensures r[i].priority <= last.priority
    {
      assert r[i] in multiset(r);
      if r[i] != b {
        assert r[i] in multiset(front);
        var k :| 0 <= k < |front| && front[k] == r[i];
        assert bs[k] == r[i];
      }
    }
  }

  /**
   * The grouping loop as written: `cur_prio` is fixed at the first
   * buffer's priority, so every buffer whose priority differs from it
   * starts a group of its own.
   */
  function Groups(bs: seq<InBuffer>, cur: int): (gs: seq<seq<InBuffer>>)
    ensures |gs| > 0
  {
    if bs == [] then [[]]
    else
      var gs := Groups(bs[..|bs| - 1], cur);
      var b := bs[|bs| - 1];
      if b.priority != cur then gs + [[b]]
      else gs[..|gs| - 1] + [gs[|gs| - 1] + [b]]
  }

  /** Concatenating the groups gives back the list, in order. */
  lemma {:induction false} GroupsFlatten(bs: seq<InBuffer>, cur: int)
    ensures Flatten(Groups(bs, cur)) == bs
  {
    if bs == [] {
      var empty: seq<seq<InBuffer>> := [[]];
      assert Flatten(empty) == Flatten(empty[..0]) + [];
    } else {
      var front := bs[..|bs| - 1];
      var b := bs[|bs| - 1];
      var gs := Groups(front, cur);
      GroupsFlatten(front, cur);
      if b.priority != cur {
        FlattenSnoc(gs, [b]);
      } else {
        var init := gs[..|gs| - 1];
        var g := gs[|gs| - 1];
        assert gs == init + [g];
        FlattenSnoc(init, g);
        FlattenSnoc(init, g + [b]);
      }
      assert front + [b] == bs;
    }
  }

  /**
   * For a list sorted by priority, group 0 holds exactly the buffers of
   * the minimum priority, and every other buffer sits alone in its group,
   * even when several share a priority.
   */
  lemma {:induction false} GroupsShape(bs: seq<InBuffer>, cur: int, k: nat)
    requires SortedByPriority(bs) && k <= |bs|
    requires forall i | 0 <= i < k :: bs[i].priority == cur
    requires forall i | k <= i < |bs| :: bs[i].priority != cur
    ensures Groups(bs, cur)[0] == bs[..k]
    ensures |Groups(bs, cur)| == 1 + (|bs| - k)
    ensures forall i | 1 <= i < |Groups(bs, cur)| :: Groups(bs, cur)[i] == [bs[k + i - 1]]
  {
    if bs != [] {
      var front := bs[..|bs| - 1];
      var b := bs[|bs| - 1];
      assert SortedByPriority(front) by {
        assert forall i | 0 <= i < |front| :: front[i] == bs[i];
      }
      if |bs| > k {
        GroupsShape(front, cur, k);
        GroupsShapeLater(bs, cur, k);
      } else {
        GroupsShape(front, cur, k - 1);
        GroupsShapeLast(bs, cur, k);
      }
    }
  }

  /** The step of `GroupsShape` when the last buffer is past the first group. */
  lemma GroupsShapeLater(bs: seq<InBuffer>, cur: int, k: nat)
    requires k < |bs| && bs[|bs| - 1].priority != cur
    requires var gs := Groups(bs[..|bs| - 1], cur);
      && gs[0] == bs[..|bs| - 1][..k] && |gs| == 1 + (|bs| - 1 - k)
      && forall i | 1 <= i < |gs| :: gs[i] == [bs[..|bs| - 1][k + i - 1]]
    ensures Groups(bs, cur)[0] == bs[..k]
    ensures |Groups(bs, cur)| == 1 + (|bs| - k)
    ensures forall i | 1 <= i < |Groups(bs, cur)| :: Groups(bs, cur)[i] == [bs[k + i - 1]]
  {
    var front := bs[..|bs| - 1];
    var gs := Groups(front, cur);
    var b := bs[|bs| - 1];
    assert Groups(bs, cur) == gs + [[b]];
    assert front[..k] == bs[..k];
    forall i | 1 <= i < |gs| + 1
      ensures (gs + [[b]])[i] == [bs[k + i - 1]]
    {
      if i < |gs| {
        assert front[k + i - 1] == bs[k + i - 1];
      }
    }
  }

  /** The step of `GroupsShape` when the last buffer closes the first group. */
  lemma GroupsShapeLast(bs: seq<InBuffer>, cur: int, k: nat)
    requires 0 < k == |bs| && bs[|bs| - 1].priority == cur
    requires var gs := Groups(bs[..|bs| - 1], cur);
      gs[0] == bs[..|bs| - 1][..k - 1] && |gs| == 1
    ensures Groups(bs, cur)[0] == bs[..k]
    ensures |Groups(bs, cur)| == 1
  {
    var front := bs[..|bs| - 1];
    var gs := Groups(front, cur);
    var b := bs[|bs| - 1];
    assert Groups(bs, cur) == [gs[0] + [b]];
    assert front[..k - 1] + [b] == bs[..k];
  }

  /** The length of the leading run of buffers whose priority is `x`. */
  function RunOf(bs: seq<InBuffer>, x: int): (k: nat)
    ensures k <= |bs|
    ensures forall i | 0 <= i < k :: bs[i].priority == x
    ensures k < |bs| ==> bs[k].priority != x
  {
    if bs == [] || bs[0].priority != x then 0
    else
      var k := RunOf(bs[1..], x);
      assert forall i | 1 <= i <= k :: bs[i] == bs[1..][i - 1];
      1 + k
  }

  /** In a sorted list, nothing after the leading run of the first priority has that priority. */
  lemma RunOfSorted(bs: seq<InBuffer>)
    requires SortedByPriority(bs) && bs != []
    ensures forall i | RunOf(bs, bs[0].priority) <= i < |bs| :: bs[i].priority != bs[0].priority
  {
    var k := RunOf(bs, bs[0].priority);
    forall i | k <= i < |bs|
      ensures bs[i].priority != bs[0].priority
    {
      assert bs[0].priority <= bs[k].priority <= bs[i].priority;
    }
  }

  /**
   * The grouping of a non-empty list: the leading run of the first
   * priority forms group 0, and each later buffer forms a group of its own.
   */
  ghost predicate RunGrouped(l: seq<InBuffer>, gs: seq<seq<InBuffer>>)
    requires l != []
  {
    var k := RunOf(l, l[0].priority);
    && |gs| == 1 + (|l| - k)
    && gs[0] == l[..k]
    && forall i | 1 <= i < |gs| :: gs[i] == [l[k + i - 1]]
  }

  /** The groups of a sorted list, as the grouping loop builds them. */
  function Regroup(list: seq<InBuffer>): (gs: seq<seq<InBuffer>>)
    requires SortedByPriority(list) && list != []
    ensures Flatten(gs) == list
    ensures RunGrouped(list, gs)
  {
    GroupsFlatten(list, list[0].priority);
    RunOfSorted(list);
    GroupsShape(list, list[0].priority, RunOf(list, list[0].priority));
    Groups(list, list[0].priority)
  }

  /** The per-vnet lists and groups of one switch. */
  datatype PrioTables = PrioTables(inPrio: seq<seq<InBuffer>>, groups: seq<seq<seq<InBuffer>>>)

  ghost predicate PrioValid(t: PrioTables)
  {
    |t.inPrio| == |t.groups| && forall v | 0 <= v < |t.inPrio| :: SortedByPriority(t.inPrio[v])
  }

  /**
   * updatePriorityGroups: the vnet's tables are grown to cover it, the
   * buffer joins its sorted list, and the list is regrouped; other vnets
   * keep their lists and groups.
   */
  function UpdatePriorityGroups(t: PrioTables, vnet: nat, b: InBuffer): (r: PrioTables)
    requires PrioValid(t)
    ensures PrioValid(r) && |r.inPrio| == if vnet < |t.inPrio| then |t.inPrio| else vnet + 1
    ensures multiset(r.inPrio[vnet]) == (if vnet < |t.inPrio| then multiset(t.inPrio[vnet]) else multiset{}) + multiset{b}
    ensures Flatten(r.groups[vnet]) == r.inPrio[vnet]
    ensures r.inPrio[vnet] != [] && RunGrouped(r.inPrio[vnet], r.groups[vnet])
    ensures forall v | 0 <= v < |t.inPrio| && v != vnet :: r.inPrio[v] == t.inPrio[v] && r.groups[v] == t.groups[v]
  {
    var grown := Grow(t, vnet);
    var list := InsertByPriority(grown.inPrio[vnet], b);
    var r := PrioTables(grown.inPrio[vnet := list], grown.groups[vnet := Regroup(list)]);
    ReplaceKeepsValid(grown, vnet, list, Regroup(list));
    r
  }

  /** Replacing one vnet's list by a sorted one keeps the tables valid. */
  lemma ReplaceKeepsValid(t: PrioTables, vnet: nat, list: seq<InBuffer>, gs: seq<seq<InBuffer>>)
    requires PrioValid(t) && vnet < |t.inPrio| && SortedByPriority(list)
    ensures PrioValid(PrioTables(t.inPrio[vnet := list], t.groups[vnet := gs]))
  {
    var l' := t.inPrio[vnet := list];
    forall v | 0 <= v < |l'|
      ensures SortedByPriority(l'[v])
    {
      if v != vnet {
        assert l'[v] == t.inPrio[v];
      }
    }
  }

  /** The `while` that appends empty lists until the vnet has one. */
  function Grow(t: PrioTables, vnet: nat): (r: PrioTables)
    requires PrioValid(t)
    ensures PrioValid(r) && |r.inPrio| == if vnet < |t.inPrio| then |t.inPrio| else vnet + 1
    ensures forall v | 0 <= v < |t.inPrio| :: r.inPrio[v] == t.inPrio[v] && r.groups[v] == t.groups[v]
    ensures forall v | |t.inPrio| <= v < |r.inPrio| :: r.inPrio[v] == [] && r.groups[v] == []
    decreases vnet + 1 - |t.inPrio|
  {
    if vnet < |t.inPrio| then t else Grow(PrioTables(t.inPrio + [[]], t.groups + [[]]), vnet)
  }

  // -----------------------------------------------------------------------
  // Port order within a group (operateVnet)

  /** Ticks are 64-bit; an empty buffer reports the largest tick as its ready time. */
  const MaxTick: nat := 0xFFFF_FFFF_FFFF_FFFF

  /**
   * The port with the strictly smallest ready time below MaxTick, the
   * first of equals winning; port 0 when no buffer is ready before MaxTick.
   */
  function StartPort(times: seq<nat>): (r: nat)
    ensures |times| > 0 ==> r < |times|
    ensures (exists i | 0 <= i < |times| :: times[i] < MaxTick) ==>
      && times[r] < MaxTick
      && (forall j | 0 <= j < |times| :: times[r] <= times[j])
      && (forall j | 0 <= j < r :: times[r] < times[j])
    ensures (forall i | 0 <= i < |times| :: times[i] >= MaxTick) ==> r == 0
  {
    ScanLowest(times, |times|)
  }

  function ScanLowest(times: seq<nat>, n: nat): (r: nat)
    requires n <= |times|
    ensures n > 0 ==> r < n
    ensures (exists i | 0 <= i < n :: times[i] < MaxTick) ==>
      && times[r] < MaxTick
      && (forall j | 0 <= j < n :: times[r] <= times[j])
      && (forall j | 0 <= j < r :: times[r] < times[j])
    ensures (forall i | 0 <= i < n :: times[i] >= MaxTick) ==> r == 0
  {
    if n == 0 then 0
    else
      var r := ScanLowest(times, n - 1);
      var lowest := if exists i | 0 <= i < n - 1 :: times[i] < MaxTick then times[r] else MaxTick;
      if times[n - 1] < lowest then n - 1 else r
  }

  /** The visiting order of a group: port `(i + start) mod n` at step `i`. */
  function Rotate<T>(g: seq<T>, start: nat): (r: seq<T>)
    requires start < |g|
    ensures |r| == |g|
  {
    seq(|g|, i requires 0 <= i < |g| => g[(i + start) % |g|])
  }

  lemma ModBelowTwice(x: nat, n: nat)
    requires 0 < n && x < 2 * n
    ensures x % n == if x < n then x else x - n
  {
    if x < n {
      DivUnique(x, n, 0, x);
    } else {
      DivUnique(x, n, 1, x - n);
    }
  }

  /** Rotating by `start` is the suffix from `start` followed by the prefix before it. */
  lemma RotateSplice<T>(g: seq<T>, start: nat)
    requires start < |g|
    ensures Rotate(g, start) == g[start..] + g[..start]
  {
    var r := Rotate(g, start);
    var s := g[start..] + g[..start];
    forall i | 0 <= i < |g|
      ensures r[i] == s[i]
    {
      ModBelowTwice(i + start, |g|);
    }
  }

  lemma RotateHead<T>(g: seq<T>, start: nat)
    requires start < |g|
    ensures Rotate(g, start)[0] == g[start]
  {
    ModBelowTwice(start, |g|);
  }

  /** Every port of a group is visited exactly once. */
  lemma RotateVisitsEachOnce<T>(g: seq<T>, start: nat)
    requires start < |g|
    ensures multiset(Rotate(g, start)) == multiset(g)
  {
    RotateSplice(g, start);
    assert g == g[..start] + g[start..];
  }

  datatype Port = Port(buffer: nat, readyTime: nat)

  function ReadyTimes(g: seq<Port>): (r: seq<nat>)
    ensures |r| == |g| && forall i | 0 <= i < |g| :: r[i] == g[i].readyTime
  {
    seq(|g|, i requires 0 <= i < |g| => g[i].readyTime)
  }

  function Buffers(g: seq<Port>): (r: seq<nat>)
    ensures |r| == |g| && forall i | 0 <= i < |g| :: r[i] == g[i].buffer
  {
    seq(|g|, i requires 0 <= i < |g| => g[i].buffer)
  }

  /** One group's visits: rotated so that the port with the oldest message comes first. */
  function GroupVisits(g: seq<Port>): (r: seq<nat>)
    ensures |r| == |g| && multiset(r) == multiset(Buffers(g))
    ensures |g| > 0 ==> r[0] == g[StartPort(ReadyTimes(g))].buffer
    ensures |g| > 0 ==> var start := StartPort(ReadyTimes(g));
      r == Buffers(g)[start..] + Buffers(g)[..start]
  {
    if g == [] then []
    else
      var start := StartPort(ReadyTimes(g));
      RotateVisitsEachOnce(Buffers(g), start);
      RotateHead(Buffers(g), start);
      RotateSplice(Buffers(g), start);
      Rotate(Buffers(g), start)
  }

  /**
   * `r` lists each group's visits in turn: group `k`'s visits sit where
   * that group's ports sit in the flattened list.
   */
  ghost predicate InGroupOrder(groups: seq<seq<Port>>, r: seq<nat>)
  {
    && |r| == |Flatten(groups)|
    && forall k | 0 <= k < |groups| ::
      && FlatOffset(groups, k) + |groups[k]| <= |r|
      && r[FlatOffset(groups, k)..FlatOffset(groups, k) + |groups[k]|] == GroupVisits(groups[k])
  }

  /** Each group's visits, group by group. */
  function VisitsOf(groups: seq<seq<Port>>): (vs: seq<seq<nat>>)
    ensures |vs| == |groups| && forall k | 0 <= k < |groups| :: vs[k] == GroupVisits(groups[k])
  {
    seq(|groups|, k requires 0 <= k < |groups| => GroupVisits(groups[k]))
  }

  lemma VisitsOfPrefix(groups: seq<seq<Port>>, n: nat)
    requires n <= |groups|
    ensures VisitsOf(groups)[..n] == VisitsOf(groups[..n])
  {
    var a, b := VisitsOf(groups)[..n], VisitsOf(groups[..n]);
    forall k | 0 <= k < n
      ensures a[k] == b[k]
    {
      assert groups[..n][k] == groups[k];
    }
  }

  lemma FlatVisitsInGroupOrder(groups: seq<seq<Port>>)
    ensures InGroupOrder(groups, Flatten(VisitsOf(groups)))
  {
    var vs := VisitsOf(groups);
    FlattenSlices(groups, vs);
    forall k | 0 <= k < |groups|
      ensures FlatOffset(groups, k) + |groups[k]| <= |Flatten(vs)|
      ensures Flatten(vs)[FlatOffset(groups, k)..FlatOffset(groups, k) + |groups[k]|] == GroupVisits(groups[k])
    {
      assert SliceAt(groups, vs, k);
    }
  }

  /**
   * operateVnet: nothing when no message is pending on the vnet; otherwise
   * the groups in order, each in its rotated order.
   */
  function VnetVisits(pending: int, groups: seq<seq<Port>>): (r: seq<nat>)
    ensures pending == 0 ==> r == []
    ensures pending != 0 ==> multiset(r) == multiset(Buffers(Flatten(groups)))
    ensures pending != 0 ==> InGroupOrder(groups, r)
  {
    if pending == 0 then [] else AllGroupVisits(groups)
  }

  function AllGroupVisits(groups: seq<seq<Port>>): (r: seq<nat>)
    ensures multiset(r) == multiset(Buffers(Flatten(groups)))
    ensures r == Flatten(VisitsOf(groups))
    ensures InGroupOrder(groups, r)
  {
    if groups == [] then []
    else
      var init := groups[..|groups| - 1];
      var g := groups[|groups| - 1];
      assert Buffers(Flatten(groups)) == Buffers(Flatten(init)) + Buffers(g);
      VisitsOfPrefix(groups, |groups| - 1);
      assert Flatten(VisitsOf(groups)) == Flatten(VisitsOf(groups)[..|groups| - 1]) + VisitsOf(groups)[|groups| - 1];
      FlatVisitsInGroupOrder(groups);
      AllGroupVisits(init) + GroupVisits(g)
  }

  // -----------------------------------------------------------------------
  // The resource gate (operateMessageBuffer)

  /** A queued message: when it becomes ready and the output links the router picked for it. */
  datatype Msg = Msg(readyAt: nat, links: seq<nat>)

  ghost predicate LinksKnown(q: seq<Msg>, free: seq<int>)
  {
    forall i, k | 0 <= i < |q| && 0 <= k < |q[i].links| :: q[i].links[k] < |free|
  }

  predicate IsReady(q: seq<Msg>, now: nat)
  {
    |q| > 0 && q[0].readyAt <= now
  }

  /** Every output link of the message has a free slot. */
  predicate Enough(free: seq<int>, links: seq<nat>)
    requires forall k | 0 <= k < |links| :: links[k] < |free|
  {
    forall k | 0 <= k < |links| :: free[links[k]] >= 1
  }

  /** How many times a link is named. */
  function Uses(links: seq<nat>, l: nat): nat
  {
    if links == [] then 0 else Uses(links[..|links| - 1], l) + (if links[|links| - 1] == l then 1 else 0)
  }

  /** Enqueuing on each link takes one slot per naming. */
  function Consume(free: seq<int>, links: seq<nat>): (r: seq<int>)
    requires forall k | 0 <= k < |links| :: links[k] < |free|
    ensures |r| == |free| && forall l | 0 <= l < |free| :: r[l] == free[l] - Uses(links, l)
  {
    if links == [] then free
    else
      var r := Consume(free, links[..|links| - 1]);
      var l := links[|links| - 1];
      r[l := r[l] - 1]
  }

  /** How many link slots a run of messages takes on one link. */
  function UsesAll(q: seq<Msg>, l: nat): nat
  {
    if q == [] then 0 else UsesAll(q[..|q| - 1], l) + Uses(q[|q| - 1].links, l)
  }

  /**
   * Message `i` was ready by `now` and, once the messages before it took
   * their slots, still found a free slot on every one of its links.
   */
  ghost predicate PassedGate(q: seq<Msg>, free: seq<int>, now: nat, i: nat)
    requires LinksKnown(q, free) && i < |q|
  {
    && q[i].readyAt <= now
    && forall k | 0 <= k < |q[i].links| :: free[q[i].links[k]] - UsesAll(q[..i], q[i].links[k]) >= 1
  }

  datatype Drained = Drained(queue: seq<Msg>, free: seq<int>, pending: int, sent: nat)

  /** The reference drain: dequeue while the head is ready and all its links have room. */
  function Drain(q: seq<Msg>, free: seq<int>, pending: int, now: nat): (r: Drained)
    requires LinksKnown(q, free)
    ensures r.sent <= |q| && r.queue == q[r.sent..]
    ensures r.pending == pending - r.sent && |r.free| == |free|
    ensures forall i | 0 <= i < r.sent :: PassedGate(q, free, now, i)
    decreases |q|
  {
    if !IsReady(q, now) || !Enough(free, q[0].links) then Drained(q, free, pending, 0)
    else
      var r := Drain(q[1..], Consume(free, q[0].links), pending - 1, now);
      GateShift(q, free, now, r.sent);
      Drained(r.queue, r.free, r.pending, r.sent + 1)
  }

  /**
   * If the messages after the head each passed the gate once the head took
   * its slots, then, counted from the original free slots, the head and
   * those messages each passed it.
   */
  lemma GateShift(q: seq<Msg>, free: seq<int>, now: nat, n: nat)
    requires LinksKnown(q, free) && IsReady(q, now) && Enough(free, q[0].links) && n < |q|
    requires LinksKnown(q[1..], Consume(free, q[0].links))
    requires forall i | 0 <= i < n :: PassedGate(q[1..], Consume(free, q[0].links), now, i)
    ensures forall i | 0 <= i < n + 1 :: PassedGate(q, free, now, i)
  {
    var q', free' := q[1..], Consume(free, q[0].links);
    forall i | 0 <= i < n + 1
      ensures PassedGate(q, free, now, i)
    {
      if i == 0 {
        assert q[..0] == [];
      } else {
        assert q[i] == q'[i - 1] && PassedGate(q', free', now, i - 1);
        assert q[..i] == [q[0]] + q'[..i - 1];
        forall k | 0 <= k < |q[i].links|
          ensures free[q[i].links[k]] - UsesAll(q[..i], q[i].links[k]) >= 1
        {
          UsesAllCons(q[0], q'[..i - 1], q[i].links[k]);
        }
      }
    }
  }

  lemma {:induction false} UsesAllCons(m: Msg, q: seq<Msg>, l: nat)
    ensures UsesAll([m] + q, l) == Uses(m.links, l) + UsesAll(q, l)
    decreases |q|
  {
    if q != [] {
      var front := q[..|q| - 1];
      assert ([m] + q)[..|q|] == [m] + front;
      UsesAllCons(m, front, l);
    }
  }

  lemma ConsumeKeepsLinks(q: seq<Msg>, free: seq<int>, links: seq<nat>)
    requires LinksKnown(q, free) && forall k | 0 <= k < |links| :: links[k] < |free|
    ensures LinksKnown(q, Consume(free, links))
  {
  }

  /** A drain stops at a head that is not ready or whose links are not all free. */
  lemma {:induction false} DrainStops(q: seq<Msg>, free: seq<int>, pending: int, now: nat)
    requires LinksKnown(q, free)
    ensures var r := Drain(q, free, pending, now);
      && LinksKnown(r.queue, r.free)
      && (IsReady(r.queue, now) ==> !Enough(r.free, r.queue[0].links))
    decreases |q|
  {
    if IsReady(q, now) && Enough(free, q[0].links) {
      ConsumeKeepsLinks(q[1..], free, q[0].links);
      DrainStops(q[1..], Consume(free, q[0].links), pending - 1, now);
    }
  }

  /** Every dequeued message took one slot on each of its links. */
  lemma {:induction false} DrainUsesSlots(q: seq<Msg>, free: seq<int>, pending: int, now: nat, l: nat)
    requires LinksKnown(q, free) && l < |free|
    ensures Drain(q, free, pending, now).free[l] == free[l] - UsesAll(q[..Drain(q, free, pending, now).sent], l)
    decreases |q|
  {
    if !IsReady(q, now) || !Enough(free, q[0].links) {
      assert Drain(q, free, pending, now) == Drained(q, free, pending, 0);
      assert q[..0] == [];
    } else {
      var free' := Consume(free, q[0].links);
      ConsumeKeepsLinks(q[1..], free, q[0].links);
      var r := Drain(q[1..], free', pending - 1, now);
      var d := Drain(q, free, pending, now);
      assert d == Drained(r.queue, r.free, r.pending, r.sent + 1);
      assert r.free[l] == free'[l] - UsesAll(q[1..][..r.sent], l) by {
        DrainUsesSlots(q[1..], free', pending - 1, now, l);
      }
      assert UsesAll(q[..r.sent + 1], l) == Uses(q[0].links, l) + UsesAll(q[1..][..r.sent], l) by {
        assert q[..r.sent + 1] == [q[0]] + q[1..][..r.sent];
        UsesAllCons(q[0], q[1..][..r.sent], l);
      }
      assert free'[l] == free[l] - Uses(q[0].links, l);
      assert d.free[l] == free[l] - UsesAll(q[..d.sent], l);
    }
  }

  function Shift(r: Drained, k: nat): Drained
  {
    Drained(r.queue, r.free, r.pending, r.sent + k)
  }

  /** The gate's scan over the head's output links (PerfectSwitch.cc:226-247). */
  method HasRoom(free: seq<int>, links: seq<nat>) returns (enough: bool)
    requires forall k | 0 <= k < |links| :: links[k] < |free|
    ensures enough <==> Enough(free, links)
  {
    enough := true;
    var i := 0;
    while i < |links|
      invariant 0 <= i <= |links|
      invariant enough <==> forall k | 0 <= k < i :: free[links[k]] >= 1
    {
      if free[links[i]] < 1 {
        enough := false;
      }
      i := i + 1;
    }
  }

  /** operateMessageBuffer: the loop that dequeues while the gate lets messages through. */
  method OperateMessageBuffer(q: seq<Msg>, free: seq<int>, pending: int, now: nat)
    returns (queue: seq<Msg>, free': seq<int>, pending': int, sent: nat)
    requires LinksKnown(q, free)
    ensures Drained(queue, free', pending', sent) == Drain(q, free, pending, now)
    ensures forall i | 0 <= i < sent :: PassedGate(q, free, now, i)
    ensures LinksKnown(queue, free') && (IsReady(queue, now) ==> !Enough(free', queue[0].links))
  {
    queue, free', pending', sent := q, free, pending, 0;
    while IsReady(queue, now)
      invariant LinksKnown(queue, free')
      invariant Drain(q, free, pending, now) == Shift(Drain(queue, free', pending', now), sent)
      decreases |queue|
    {
      var links := queue[0].links;
      var enough := HasRoom(free', links);
      if !enough {
        DrainHalts(queue, free', pending', now);
        break;
      }
      ConsumeKeepsLinks(queue[1..], free', links);
      DrainStep(queue, free', pending', now, sent);
      free' := Consume(free', links);
      queue := queue[1..];
      pending' := pending' - 1;
      sent := sent + 1;
    }
    if !IsReady(queue, now) {
      DrainHalts(queue, free', pending', now);
    }
    DrainFinished(q, free, pending, now, Drained(queue, free', pending', sent));
  }

  /** Once the remaining queue drains nothing, the loop's state is the whole drain. */
  lemma DrainFinished(q: seq<Msg>, free: seq<int>, pending: int, now: nat, d: Drained)
    requires LinksKnown(q, free) && LinksKnown(d.queue, d.free)
    requires Drain(q, free, pending, now) == Shift(Drain(d.queue, d.free, d.pending, now), d.sent)
    requires Drain(d.queue, d.free, d.pending, now) == Drained(d.queue, d.free, d.pending, 0)
    ensures d == Drain(q, free, pending, now)
    ensures forall i | 0 <= i < d.sent :: PassedGate(q, free, now, i)
    ensures IsReady(d.queue, now) ==> !Enough(d.free, d.queue[0].links)
  {
    DrainStops(q, free, pending, now);
  }

  lemma DrainHalts(q: seq<Msg>, free: seq<int>, pending: int, now: nat)
    requires LinksKnown(q, free)
    requires !IsReady(q, now) || !Enough(free, q[0].links)
    ensures Drain(q, free, pending, now) == Drained(q, free, pending, 0)
  {
  }

  lemma DrainStep(q: seq<Msg>, free: seq<int>, pending: int, now: nat, sent: nat)
    requires LinksKnown(q, free) && IsReady(q, now) && Enough(free, q[0].links)
    requires LinksKnown(q[1..], Consume(free, q[0].links))
    ensures Shift(Drain(q, free, pending, now), sent)
      == Shift(Drain(q[1..], Consume(free, q[0].links), pending - 1, now), sent + 1)
  {
  }

  /**
   * The sanity checks around a send: no message went out, or the granted
   * response could not be brought to the front of its queue.
   */
  datatype SwitchError = NothingSent | NotRotated(cause: RotateError)

  /**
   * operateMessageBufferOnce: the same gate, but exactly one message; it
   * is an error when none could be sent.
   */
  function SendOnce(q: seq<Msg>, free: seq<int>, pending: int, now: nat): (r: Result<Drained, SwitchError>)
    requires LinksKnown(q, free)
    ensures r.Ok? <==> Drain(q, free, pending, now).sent > 0
    ensures r.Ok? ==> (r.value.sent == 1 && r.value.queue == q[1..] && r.value.pending == pending - 1
      && |r.value.free| == |free| && forall l | 0 <= l < |free| :: r.value.free[l] == free[l] - Uses(q[0].links, l))
  {
    if IsReady(q, now) && Enough(free, q[0].links) then
      Ok(Drained(q[1..], Consume(free, q[0].links), pending - 1, 1))
    else Err(NothingSent)
  }

  // -----------------------------------------------------------------------
  // Vnet order (wakeup)

  const PrioritySwitchLimit: nat := 128

  /**
   * wakeup: vnets are visited from the highest down, except on the wakeup
   * where the counter passes the limit: the order is then ascending and
   * the counter restarts at 0.
   */
  method Wakeup(counter: nat, numVnets: nat) returns (counter': nat, order: seq<int>)
    ensures counter + 1 > PrioritySwitchLimit ==>
      counter' == 0 && |order| == numVnets && forall i | 0 <= i < numVnets :: order[i] == i
    ensures counter + 1 <= PrioritySwitchLimit ==>
      counter' == counter + 1 && |order| == numVnets && forall i | 0 <= i < numVnets :: order[i] == numVnets - 1 - i
  {
    counter' := counter + 1;
    var highest: int := numVnets - 1;
    var lowest: int := 0;
    var decrementer: int := 1;
    if counter' > PrioritySwitchLimit {
      counter' := 0;
      highest := 0;
      lowest := numVnets - 1;
      decrementer := -1;
    }
    order := [];
    var vnet := highest;
    while vnet * decrementer >= decrementer * lowest
      invariant decrementer == 1 || decrementer == -1
      invariant decrementer == 1 ==> (counter + 1 <= PrioritySwitchLimit && lowest == 0 && -1 <= vnet <= numVnets - 1
        && |order| == numVnets - 1 - vnet && forall i | 0 <= i < |order| :: order[i] == numVnets - 1 - i)
      invariant decrementer == -1 ==> (counter + 1 > PrioritySwitchLimit && lowest == numVnets - 1 && 0 <= vnet <= numVnets
        && |order| == vnet && forall i | 0 <= i < |order| :: order[i] == i)
      decreases if decrementer == 1 then vnet + 1 else numVnets - vnet
    {
      order := order + [vnet];
      vnet := vnet - decrementer;
    }
  }

  lemma OrderVisitsEachOnce(order: seq<int>, numVnets: nat)
    requires |order| == numVnets
    requires (forall i | 0 <= i < numVnets :: order[i] == i) || (forall i | 0 <= i < numVnets :: order[i] == numVnets - 1 - i)
    ensures forall v | 0 <= v < numVnets :: v in order
    ensures forall i, j | 0 <= i < j < |order| :: order[i] != order[j]
  {
    var ascending := forall i | 0 <= i < numVnets :: order[i] == i;
    forall v | 0 <= v < numVnets
      ensures v in order
    {
      var k := if ascending then v else numVnets - 1 - v;
      assert order[k] == v;
    }
  }

  datatype Arbiter = TdmRequestBus | OaResponseBus | PlainVnet

  /** With a snooping bus, switch 0 arbitrates vnet 0 by TDM and vnet 2 by oldest request. */
  function ArbiterOf(switchId: nat, vnet: nat): (r: Arbiter)
    ensures r == TdmRequestBus <==> switchId == 0 && vnet == 0
    ensures r == OaResponseBus <==> switchId == 0 && vnet == 2
  {
    if vnet == 0 && switchId == 0 then TdmRequestBus
    else if vnet == 2 && switchId == 0 then OaResponseBus
    else PlainVnet
  }

  // -----------------------------------------------------------------------
  // Slots

  /** isStartOfSlot: the cycle begins a slot of the given width. */
  function IsStartOfSlot(cycle: nat, width: nat): (r: bool)
    requires width > 0
    ensures r <==> (cycle / width) * width == cycle
  {
    cycle % width == 0
  }

  /** getNextSlotStartCycle: the start of the slot after the current one. */
  function NextSlotStartCycle(cycle: nat, width: nat): (r: nat)
    requires width > 0
    ensures cycle < r <= cycle + width
  {
    (cycle / width + 1) * width
  }

  /** The next slot start is the least slot start strictly after the cycle. */
  lemma {:induction false} NextSlotStartIsLeast(cycle: nat, width: nat)
    requires width > 0
    ensures IsStartOfSlot(NextSlotStartCycle(cycle, width), width)
    ensures forall m: nat | cycle < m < NextSlotStartCycle(cycle, width) :: !IsStartOfSlot(m, width)
  {
    var q := cycle / width;
    DivUnique((q + 1) * width, width, q + 1, 0);
    forall m: nat | cycle < m < NextSlotStartCycle(cycle, width)
      ensures !IsStartOfSlot(m, width)
    {
      DivUnique(m, width, q, m - q * width);
    }
  }

  // -----------------------------------------------------------------------
  // TDM request bus (operateTDMRequestBus)

  datatype TdmBus = TdmBus(owner: nat, nextFree: nat)

  /** The port `k` round-robin steps after the owner. */
  function Step(owner: nat, k: nat, n: nat): (p: nat)
    requires n > 0
    ensures p < n
  {
    (owner + k) % n
  }

  /** The round-robin scan from the owner: the first ready port within `n` steps. */
  function FirstReadyFrom(ready: seq<bool>, owner: nat, i: nat): (r: Option<nat>)
    requires owner < |ready| && i <= |ready|
    ensures r.Some? ==> r.value < |ready| && ready[r.value]
    decreases |ready| - i
  {
    if i == |ready| then None
    else
      var j := Step(owner, i, |ready|);
      if ready[j] then Some(j) else FirstReadyFrom(ready, owner, i + 1)
  }

  /** How many round-robin steps from the owner to a port. */
  function Distance(owner: nat, p: nat, n: nat): (d: nat)
    requires owner < n && p < n
    ensures d < n && Step(owner, d, n) == p
  {
    ModBelowTwice(if p >= owner then p else p + n, n);
    if p >= owner then p - owner else p + n - owner
  }

  lemma DistanceOfStep(owner: nat, k: nat, n: nat)
    requires owner < n && k < n
    ensures Distance(owner, Step(owner, k, n), n) == k
  {
    ModBelowTwice(owner + k, n);
  }

  /** The scan finds the ready port nearest the owner in round-robin order. */
  lemma {:induction false} FirstReadyIsNearest(ready: seq<bool>, owner: nat, i: nat)
    requires owner < |ready| && i <= |ready|
    requires forall p | 0 <= p < |ready| && Distance(owner, p, |ready|) < i :: !ready[p]
    ensures FirstReadyFrom(ready, owner, i).Some? <==> exists p | 0 <= p < |ready| :: ready[p]
    ensures FirstReadyFrom(ready, owner, i).Some? ==>
      forall p | 0 <= p < |ready| && ready[p] ::
        Distance(owner, FirstReadyFrom(ready, owner, i).value, |ready|) <= Distance(owner, p, |ready|)
    decreases |ready| - i
  {
    var n := |ready|;
    if i < n {
      var j := Step(owner, i, n);
      DistanceOfStep(owner, i, n);
      if !ready[j] {
        forall p | 0 <= p < n && Distance(owner, p, n) < i + 1
          ensures !ready[p]
        {
          if Distance(owner, p, n) == i {
            assert p == j;
          }
        }
        FirstReadyIsNearest(ready, owner, i + 1);
      }
    }
  }

  datatype TdmStep = TdmStep(bus: TdmBus, sender: Option<nat>)

  /**
   * One TDM arbitration on the request bus. Nothing happens while the bus
   * is busy or when no port is ready. Otherwise the next slot start is
   * booked. At a slot start the first ready port in round-robin order from
   * the owner sends, and ownership passes to the port after it.
   */
  function OperateTdm(bus: TdmBus, ready: seq<bool>, cycle: nat, width: nat): (r: TdmStep)
    requires width > 0 && (|ready| > 0 ==> bus.owner < |ready|)
    ensures r.sender.Some? ==>
      && bus.nextFree <= cycle && IsStartOfSlot(cycle, width)
      && r.sender.value < |ready| && ready[r.sender.value]
      && r.bus.owner == (r.sender.value + 1) % |ready|
      && forall p | 0 <= p < |ready| && ready[p] ::
           Distance(bus.owner, r.sender.value, |ready|) <= Distance(bus.owner, p, |ready|)
    ensures r.sender.None? ==> r.bus.owner == bus.owner
    ensures r.sender.None? && bus.nextFree <= cycle && IsStartOfSlot(cycle, width) ==>
      forall p | 0 <= p < |ready| :: !ready[p]
    ensures (bus.nextFree > cycle || forall p | 0 <= p < |ready| :: !ready[p]) ==> r == TdmStep(bus, None)
    ensures bus.nextFree <= cycle && (exists p | 0 <= p < |ready| :: ready[p]) ==>
      r.bus.nextFree == NextSlotStartCycle(cycle, width)
    ensures r.bus.owner < |ready| || |ready| == 0
  {
    if bus.nextFree > cycle || |ready| == 0 then TdmStep(bus, None)
    else
      FirstReadyIsNearest(ready, bus.owner, 0);
      var found := FirstReadyFrom(ready, bus.owner, 0);
      if found.None? then TdmStep(bus, None)
      else
        var next := NextSlotStartCycle(cycle, width);
        if IsStartOfSlot(cycle, width) then
          TdmStep(TdmBus((found.value + 1) % |ready|, next), found)
        else TdmStep(TdmBus(bus.owner, next), None)
  }

  // -----------------------------------------------------------------------
  // Oldest-request response bus (operateOARespBus)

  datatype Resp = Resp(reqId: nat, enqueueTime: nat)

  ghost predicate ReadyWith(q: seq<Resp>, now: nat, id: nat)
  {
    exists k | 0 <= k < |q| :: q[k].enqueueTime <= now && q[k].reqId == id
  }

  ghost predicate AnyReady(q: seq<Resp>, now: nat)
  {
    exists k | 0 <= k < |q| :: q[k].enqueueTime <= now
  }

  /** The smallest request ID among a queue's ready responses. */
  function MinReady(q: seq<Resp>, now: nat): (r: Option<nat>)
    ensures r.Some? <==> AnyReady(q, now)
    ensures r.Some? ==> (ReadyWith(q, now, r.value)
      && forall k | 0 <= k < |q| && q[k].enqueueTime <= now :: r.value <= q[k].reqId)
  {
    if q == [] then None
    else
      var front := q[..|q| - 1];
      var m := q[|q| - 1];
      var r := MinReady(front, now);
      assert forall k | 0 <= k < |front| :: front[k] == q[k];
      if m.enqueueTime > now then r
      else if r.None? || m.reqId < r.value then Some(m.reqId)
      else r
  }

  /**
   * The scan over all ports: the lowest ready request ID, and the first
   * port holding a ready response with it (a later port takes over only
   * with a strictly lower ID).
   */
  function SelectOldest(ports: seq<seq<Resp>>, now: nat): (r: Option<(nat, nat)>)
    ensures r.Some? <==> exists p | 0 <= p < |ports| :: AnyReady(ports[p], now)
    ensures r.Some? ==> Oldest(ports, now, r.value.0, r.value.1)
  {
    if ports == [] then None
    else
      var n := |ports| - 1;
      var r := SelectOldest(ports[..n], now);
      var m := MinReady(ports[n], now);
      OldestStep(ports, now, r, m);
      if m.None? then r
      else if r.None? || m.value < r.value.1 then Some((n, m.value))
      else r
  }

  /**
   * Port `port` has a ready response with ID `id`, no ready response
   * anywhere has a lower ID, and no earlier port has a ready one with `id`.
   */
  ghost predicate Oldest(ports: seq<seq<Resp>>, now: nat, port: nat, id: nat)
  {
    && port < |ports| && ReadyWith(ports[port], now, id)
    && (forall p, k | 0 <= p < |ports| && 0 <= k < |ports[p]| && ports[p][k].enqueueTime <= now ::
          id <= ports[p][k].reqId)
    && forall p | 0 <= p < port :: !ReadyWith(ports[p], now, id)
  }

  /** The step of `SelectOldest` when the last port is scanned. */
  lemma OldestStep(ports: seq<seq<Resp>>, now: nat, r: Option<(nat, nat)>, m: Option<nat>)
    requires ports != [] && m == MinReady(ports[|ports| - 1], now)
    requires var front := ports[..|ports| - 1];
      && (r.Some? <==> exists p | 0 <= p < |front| :: AnyReady(front[p], now))
      && (r.Some? ==> Oldest(front, now, r.value.0, r.value.1))
    ensures var n := |ports| - 1;
      var s := if m.None? then r else if r.None? || m.value < r.value.1 then Some((n, m.value)) else r;
      && (s.Some? <==> exists p | 0 <= p < |ports| :: AnyReady(ports[p], now))
      && (s.Some? ==> Oldest(ports, now, s.value.0, s.value.1))
  {
    var n := |ports| - 1;
    var front := ports[..n];
    assert forall p | 0 <= p < n :: front[p] == ports[p];
    if m.Some? && (r.None? || m.value < r.value.1) {
      assert forall p | 0 <= p < n :: !ReadyWith(ports[p], now, m.value);
    }
  }

  datatype OaStep = OaStep(nextFree: nat, grant: Option<(nat, nat)>)

  /**
   * One oldest-request arbitration on the response bus: when the bus is
   * free and some response is ready, the selected (port, request ID) is
   * granted and the bus stays busy for one response slot.
   */
  function OperateOa(nextFree: nat, ports: seq<seq<Resp>>, cycle: nat, now: nat, width: nat): (r: OaStep)
    ensures nextFree > cycle ==> r == OaStep(nextFree, None)
    ensures nextFree <= cycle ==> r.grant == SelectOldest(ports, now)
    ensures r.grant.Some? ==> r.nextFree == cycle + width
    ensures r.grant.None? ==> r.nextFree == nextFree
  {
    if nextFree > cycle then OaStep(nextFree, None)
    else
      var sel := SelectOldest(ports, now);
      if sel.None? then OaStep(nextFree, None) else OaStep(cycle + width, sel)
  }

  datatype RotateError = SkippedNotReady | NotFound

  /**
   * The loop before the send: heads with another request ID are delayed
   * to the back of the queue until the granted one is at the front. A
   * skipped head must be ready; the loop gives up after |q| + 1 looks.
   */
  function BringToFront(q: seq<Resp>, id: nat, now: nat, looks: nat): (r: Result<seq<Resp>, RotateError>)
    ensures r.Ok? ==> |r.value| > 0 && r.value[0].reqId == id && multiset(r.value) == multiset(q)
    decreases looks
  {
    if looks == 0 || q == [] then Err(NotFound)
    else if q[0].reqId == id then Ok(q)
    else if q[0].enqueueTime > now then Err(SkippedNotReady)
    else
      var r := BringToFront(q[1..] + [q[0]], id, now, looks - 1);
      assert q == [q[0]] + q[1..];
      r
  }

  /** When the granted ID is in the queue behind ready heads, the loop finds it. */
  lemma {:induction false} BringToFrontFinds(q: seq<Resp>, id: nat, now: nat, k: nat)
    requires k < |q| && q[k].reqId == id
    requires forall j | 0 <= j < k :: q[j].reqId != id && q[j].enqueueTime <= now
    ensures BringToFront(q, id, now, |q| + 1) == Ok(q[k..] + q[..k])
  {
    BringToFrontSteps(q, id, now, k, |q| + 1);
  }

  lemma {:induction false} BringToFrontSteps(q: seq<Resp>, id: nat, now: nat, k: nat, looks: nat)
    requires k < |q| && q[k].reqId == id && k < looks
    requires forall j | 0 <= j < k :: q[j].reqId != id && q[j].enqueueTime <= now
    ensures BringToFront(q, id, now, looks) == Ok(Rotation(q, k))
    decreases k
  {
    if k == 0 {
      assert Rotation(q, 0) == q by {
        assert q[0..] == q && q[..0] == [];
      }
      BringToFrontHit(q, id, now, looks);
    } else {
      var q' := q[1..] + [q[0]];
      RotateKeepsSkipped(q, k, id, now);
      calc {
        BringToFront(q, id, now, looks);
        { BringToFrontSkip(q, id, now, looks); }
        BringToFront(q', id, now, looks - 1);
        { BringToFrontSteps(q', id, now, k - 1, looks - 1); }
        Ok(Rotation(q', k - 1));
        { RotateOnce(q, q', k); }
        Ok(Rotation(q, k));
      }
    }
  }

  /** A head with the granted ID ends the loop. */
  lemma BringToFrontHit(q: seq<Resp>, id: nat, now: nat, looks: nat)
    requires looks > 0 && q != [] && q[0].reqId == id
    ensures BringToFront(q, id, now, looks) == Ok(q)
  {
  }

  /** A ready head with another ID goes to the back, using up one look. */
  lemma BringToFrontSkip(q: seq<Resp>, id: nat, now: nat, looks: nat)
    requires looks > 0 && q != [] && q[0].reqId != id && q[0].enqueueTime <= now
    ensures BringToFront(q, id, now, looks) == BringToFront(q[1..] + [q[0]], id, now, looks - 1)
  {
  }

  /** The queue with its first `k` entries moved to the back. */
  function Rotation(q: seq<Resp>, k: nat): seq<Resp>
    requires k <= |q|
  {
    q[k..] + q[..k]
  }

  /** After one rotation the granted entry is one place nearer the front, behind the same ready heads. */
  lemma RotateKeepsSkipped(q: seq<Resp>, k: nat, id: nat, now: nat)
    requires 0 < k < |q| && q[k].reqId == id
    requires forall j | 0 <= j < k :: q[j].reqId != id && q[j].enqueueTime <= now
    ensures var q' := q[1..] + [q[0]];
      && |q'| == |q| && q'[k - 1].reqId == id
      && forall j | 0 <= j < k - 1 :: q'[j].reqId != id && q'[j].enqueueTime <= now
  {
    var q' := q[1..] + [q[0]];
    assert forall j | 0 <= j < k - 1 :: q'[j] == q[j + 1];
    assert q'[k - 1] == q[k];
  }

  lemma RotateOnce(q: seq<Resp>, q': seq<Resp>, k: nat)
    requires 0 < k < |q| && q' == q[1..] + [q[0]]
    ensures Rotation(q', k - 1) == Rotation(q, k)
  {
    assert q'[k - 1..] == q[k..] + [q[0]];
    assert q'[..k - 1] == q[1..k];
    assert q[..k] == [q[0]] + q[1..k];
  }

  // -----------------------------------------------------------------------
  // Arbitration followed by the send

  /** Which ports' queues have a ready head. */
  function ReadyPorts(queues: seq<seq<Msg>>, now: nat): (r: seq<bool>)
    ensures |r| == |queues| && forall p | 0 <= p < |queues| :: r[p] == IsReady(queues[p], now)
  {
    seq(|queues|, p requires 0 <= p < |queues| => IsReady(queues[p], now))
  }

  ghost predicate AllLinksKnown(queues: seq<seq<Msg>>, free: seq<int>)
  {
    forall p | 0 <= p < |queues| :: LinksKnown(queues[p], free)
  }

  datatype TdmOutcome = TdmOutcome(step: TdmStep, queues: seq<seq<Msg>>, free: seq<int>, pending: int)

  /**
   * operateTDMRequestBus with its send: the port the arbitration picks
   * moves its head message out with `SendOnce`. A picked port whose head
   * finds some output link full fails the sanity check after that send.
   */
  function OperateTdmSend(bus: TdmBus, queues: seq<seq<Msg>>, free: seq<int>, pending: int, cycle: nat, now: nat, width: nat)
    : (r: Result<TdmOutcome, SwitchError>)
    requires width > 0 && (|queues| > 0 ==> bus.owner < |queues|) && AllLinksKnown(queues, free)
    ensures var s := OperateTdm(bus, ReadyPorts(queues, now), cycle, width);
      && (r.Err? <==> s.sender.Some? && !Enough(free, queues[s.sender.value][0].links))
      && (r.Err? ==> r.error == NothingSent)
      && (r.Ok? ==> r.value.step == s)
      && (r.Ok? && s.sender.None? ==> r.value.queues == queues && r.value.free == free && r.value.pending == pending)
    ensures r.Ok? && r.value.step.sender.Some? ==>
      var p := r.value.step.sender.value;
      && p < |queues| && IsReady(queues[p], now)
      && r.value.queues == queues[p := queues[p][1..]]
      && r.value.pending == pending - 1 && |r.value.free| == |free|
      && forall l | 0 <= l < |free| :: r.value.free[l] == free[l] - Uses(queues[p][0].links, l)
  {
    var s := OperateTdm(bus, ReadyPorts(queues, now), cycle, width);
    if s.sender.None? then Ok(TdmOutcome(s, queues, free, pending))
    else
      var p := s.sender.value;
      var sent := SendOnce(queues[p], free, pending, now);
      if sent.Err? then Err(sent.error)
      else Ok(TdmOutcome(s, queues[p := sent.value.queue], sent.value.free, sent.value.pending))
  }

  datatype RespSent = RespSent(sent: Resp, rest: seq<Resp>, free: seq<int>, pending: int)

  /**
   * The send on the granted port: rotate the queue until the granted
   * response is at the front, then move that head out with `SendOnce`
   * along `links`, the output links the router picks for it.
   */
  function SendGranted(q: seq<Resp>, id: nat, links: seq<nat>, free: seq<int>, pending: int, now: nat)
    : (r: Result<RespSent, SwitchError>)
    requires forall k | 0 <= k < |links| :: links[k] < |free|
    ensures var rot := BringToFront(q, id, now, |q| + 1);
      && (rot.Err? ==> r == Err(NotRotated(rot.error)))
      && (rot.Ok? ==> (r.Err? <==> rot.value[0].enqueueTime > now || !Enough(free, links)))
      && (rot.Ok? && r.Ok? ==> r.value.sent == rot.value[0] && r.value.rest == rot.value[1..])
    ensures r.Ok? ==>
      && r.value.sent.reqId == id && r.value.sent.enqueueTime <= now
      && multiset(r.value.rest) + multiset{r.value.sent} == multiset(q)
      && r.value.pending == pending - 1 && |r.value.free| == |free|
      && forall l | 0 <= l < |free| :: r.value.free[l] == free[l] - Uses(links, l)
  {
    var rot := BringToFront(q, id, now, |q| + 1);
    if rot.Err? then Err(NotRotated(rot.error))
    else
      var q' := rot.value;
      assert q' == [q'[0]] + q'[1..];
      var sent := SendOnce([Msg(q'[0].enqueueTime, links)], free, pending, now);
      if sent.Err? then Err(sent.error)
      else Ok(RespSent(q'[0], q'[1..], sent.value.free, sent.value.pending))
  }

  datatype OaOutcome = OaOutcome(step: OaStep, ports: seq<seq<Resp>>, free: seq<int>, pending: int)

  /**
   * operateOARespBus with its send: the granted port runs `SendGranted`,
   * with `links` the route of the granted response.
   * A failed rotation or a send that moves nothing breaks one of the
   * source's sanity checks.
   */
  function OperateOaSend(nextFree: nat, ports: seq<seq<Resp>>, links: seq<nat>, free: seq<int>, pending: int, cycle: nat, now: nat,
                         width: nat)
    : (r: Result<OaOutcome, SwitchError>)
    requires forall k | 0 <= k < |links| :: links[k] < |free|
    ensures var s := OperateOa(nextFree, ports, cycle, now, width);
      && (s.grant.None? ==> r == Ok(OaOutcome(s, ports, free, pending)))
      && (r.Ok? ==> r.value.step == s)
    ensures var s := OperateOa(nextFree, ports, cycle, now, width);
      s.grant.Some? ==>
        var (p, id) := s.grant.value;
        && p < |ports|
        && var g := SendGranted(ports[p], id, links, free, pending, now);
        && (g.Err? ==> r == Err(g.error))
        && (g.Ok? ==> (r.Ok? && r.value.ports == ports[p := g.value.rest]
              && r.value.free == g.value.free && r.value.pending == g.value.pending))
  {
    var s := OperateOa(nextFree, ports, cycle, now, width);
    if s.grant.None? then Ok(OaOutcome(s, ports, free, pending))
    else
      var (p, id) := s.grant.value;
      var g := SendGranted(ports[p], id, links, free, pending, now);
      if g.Err? then Err(g.error)
      else Ok(OaOutcome(s, ports[p := g.value.rest], g.value.free, g.value.pending))
  }
}

=== FILE: reachability.dfy ===
/**
 * The "connection map" of omptr/analyzer/analyzer.cc:15-102: for every
 * vertex u, the set of vertices v != u reachable from u. A row of the map is
 * modelled as the set of columns holding `true`.
 *
 * Three versions are given:
 *  - `Step`/`Run`: the explicit-stack traversal as written, which can stop
 *    making progress on some acyclic graphs (see `AsWrittenDiverges`);
 *  - `ConnectedComponents`: the intended bottom-up recurrence, evaluated
 *    along a reverse topological order, proved to produce the descendant sets;
 *  - `ConnectedComponentsSlow`: one search per vertex.
 */
module Reachability {
  import opened Common
  import opened Graphs

  type ComponentsMap = seq<set<Vertex>>

  /** The union over the listed targets `t` of `{t}` and row `t` of the map. */
  function RowUnion(ts: seq<Vertex>, cmap: ComponentsMap): (r: set<Vertex>)
    requires forall k | 0 <= k < |ts| :: ts[k] < |cmap|
    ensures forall k | 0 <= k < |ts| :: ts[k] in r && cmap[ts[k]] <= r
    ensures forall v | v in r :: exists k | 0 <= k < |ts| :: v == ts[k] || v in cmap[ts[k]]
  {
    if ts == [] then {}
    else
      var rest := RowUnion(ts[1..], cmap);
      assert forall k | 1 <= k < |ts| :: ts[k] == ts[1..][k - 1];
      ({ts[0]} + cmap[ts[0]]) + rest
  }

  // -----------------------------------------------------------------------
  // The traversal as written (analyzer.cc:26-85)

  datatype CcState = CcState(stack: seq<Vertex>, discovered: set<Vertex>, done: set<Vertex>, cmap: ComponentsMap)

  ghost predicate WellFormed(g: Graph, st: CcState)
  {
    && g.Valid()
    && |st.cmap| == g.Size()
    && (forall k | 0 <= k < |st.stack| :: st.stack[k] < g.Size())
  }

  /**
   * The bookkeeping the traversal relies on: each vertex is on the stack at
   * most once, everything on the stack is discovered and not yet finished,
   * and only discovered vertices are finished.
   */
  ghost predicate StackInv(st: CcState)
  {
    && (forall i, j | 0 <= i < j < |st.stack| :: st.stack[i] != st.stack[j])
    && (forall k | 0 <= k < |st.stack| :: st.stack[k] in st.discovered && st.stack[k] !in st.done)
    && st.done <= st.discovered
  }

  /** The state after pushing the root: only the root is on the stack and discovered. */
  function Init(g: Graph, root: Vertex): (st: CcState)
    requires g.Valid() && root < g.Size()
    ensures WellFormed(g, st) && st.stack == [root] && st.discovered == {root}
    ensures st.done == {} && forall v | 0 <= v < g.Size() :: st.cmap[v] == {}
    ensures StackInv(st)
  {
    CcState([root], {root}, {}, seq(g.Size(), _ => {}))
  }

  /** Pushes, in order, every listed target not yet discovered, and marks it discovered. */
  function PushNew(ts: seq<Vertex>, stack: seq<Vertex>, disc: set<Vertex>): (r: (seq<Vertex>, set<Vertex>))
    ensures stack <= r.0 && r.1 == disc + (set k | 0 <= k < |ts| :: ts[k])
    ensures forall k | |stack| <= k < |r.0| :: r.0[k] in ts && r.0[k] !in disc && r.0[k] in r.1
    ensures forall i, j | |stack| <= i < j < |r.0| :: r.0[i] != r.0[j]
    ensures (forall k | 0 <= k < |ts| :: ts[k] in disc) ==> r.0 == stack
  {
    if ts == [] then (stack, disc)
    else
      assert forall k | 1 <= k < |ts| :: ts[k] == ts[1..][k - 1];
      if ts[0] in disc then PushNew(ts[1..], stack, disc)
      else PushNew(ts[1..], stack + [ts[0]], disc + {ts[0]})
  }

  /**
   * One iteration of the outer loop: push the undiscovered targets of the
   * top vertex; if every target was already finished (judged before the
   * pushes), fold the targets' rows into the top vertex's row, mark it
   * finished and pop. A vertex is finished only once all its targets are,
   * each newly pushed vertex was undiscovered and is pushed once, and the
   * bookkeeping of `StackInv` is kept.
   */
  function Step(g: Graph, st: CcState): (r: CcState)
    requires WellFormed(g, st) && st.stack != []
    ensures WellFormed(g, r)
    ensures st.discovered <= r.discovered && st.done <= r.done
    ensures r.done <= st.done + {st.stack[|st.stack| - 1]}
    ensures st.stack <= r.stack || st.stack[|st.stack| - 1] in r.done
    ensures r.cmap != st.cmap ==> st.stack[|st.stack| - 1] in r.done
    ensures var top := st.stack[|st.stack| - 1]; var ts := g.succ[top];
      top !in st.done ==> ((forall k | 0 <= k < |ts| :: ts[k] in st.done) <==> top in r.done)
    ensures forall k | |st.stack| <= k < |r.stack| :: r.stack[k] !in st.discovered && r.stack[k] in r.discovered
    ensures forall i, j | |st.stack| <= i < j < |r.stack| :: r.stack[i] != r.stack[j]
    ensures StackInv(st) ==> StackInv(r)
  {
    var cur := st.stack[|st.stack| - 1];
    var ts := g.succ[cur];
    var (stack', disc') := PushNew(ts, st.stack, st.discovered);
    if forall k | 0 <= k < |ts| :: ts[k] in st.done then
      CcState(stack'[..|stack'| - 1], disc', st.done + {cur},
              st.cmap[cur := st.cmap[cur] + RowUnion(ts, st.cmap)])
    else
      CcState(stack', disc', st.done, st.cmap)
  }

  /** Runs the outer loop for at most `fuel` iterations; `None` when the stack is still not empty. */
  function Run(g: Graph, st: CcState, fuel: nat): (r: Option<CcState>)
    requires WellFormed(g, st)
    ensures r.Some? ==> r.value.stack == [] && WellFormed(g, r.value)
    ensures r.Some? ==> st.done <= r.value.done
    decreases fuel
  {
    if st.stack == [] then Some(st)
    else if fuel == 0 then None
    else Run(g, Step(g, st), fuel - 1)
  }

  /**
   * The traversal stops making progress as soon as the top vertex has every
   * target discovered and one of them unfinished: that target sits lower on
   * the stack and is never reached again.
   */
  lemma StuckWhenTargetPending(g: Graph, st: CcState)
    requires WellFormed(g, st) && st.stack != []
    requires var ts := g.succ[st.stack[|st.stack| - 1]];
      && (forall k | 0 <= k < |ts| :: ts[k] in st.discovered)
      && (exists k | 0 <= k < |ts| :: ts[k] !in st.done)
    ensures Step(g, st) == st
  {
    var ts := g.succ[st.stack[|st.stack| - 1]];
    assert st.discovered + (set k | 0 <= k < |ts| :: ts[k]) == st.discovered;
  }

  lemma {:induction false} StuckForever(g: Graph, st: CcState, fuel: nat)
    requires WellFormed(g, st) && st.stack != [] && Step(g, st) == st
    ensures Run(g, st, fuel) == None
    decreases fuel
  {
    if fuel > 0 {
      StuckForever(g, st, fuel - 1);
    }
  }

  /** The acyclic graph 0 -> 1, 0 -> 2, 2 -> 1, with vertex 0's out-edges in that order. */
  function Diamond(): (g: Graph)
    ensures g.Valid() && g.Size() == 3 && g.succ == [[1, 2], [], [1]]
    ensures Acyclic(g)
  {
    var g := Graph([[1, 2], [], [1]]);
    DiamondOrder(g);
    RevTopoAcyclic(g, [1, 2, 0]);
    g
  }

  /** Vertex 1 has no targets, 2 only reaches 1, and 0 comes last. */
  lemma DiamondOrder(g: Graph)
    requires g.succ == [[1, 2], [], [1]]
    ensures IsReverseTopoOrder(g, [1, 2, 0])
  {
    var o := [1, 2, 0];
    assert g.succ[0] == [1, 2] && g.succ[1] == [] && g.succ[2] == [1];
    forall i, j | 0 <= i <= j < |o|
      ensures !g.Edge(o[i], o[j])
    {
      if i == 0 {
        assert o[i] == 1;
      } else if i == 1 {
        assert o[i] == 2 && (o[j] == 2 || o[j] == 0);
      } else {
        assert o[i] == 0 && o[j] == 0;
      }
    }
    forall v | 0 <= v < g.Size()
      ensures v in o
    {
      assert v == 0 || v == 1 || v == 2;
      assert o[0] == 1 && o[1] == 2 && o[2] == 0;
    }
  }

  lemma DiamondFirstStep()
    ensures Step(Diamond(), Init(Diamond(), 0)) == DiamondStuckState()
  {
    var g := Diamond();
    assert g.succ[0] == [1, 2];
    assert [1, 2][1..] == [2] && [2][1..] == [];
    assert [0, 1] + [2] == [0, 1, 2] && {0, 1} + {2} == {0, 1, 2};
    assert [0] + [1] == [0, 1] && {0} + {1} == {0, 1};
    assert PushNew([], [0, 1, 2], {0, 1, 2}) == ([0, 1, 2], {0, 1, 2});
    assert PushNew([2], [0, 1], {0, 1}) == ([0, 1, 2], {0, 1, 2});
    assert PushNew([1, 2], [0], {0}) == ([0, 1, 2], {0, 1, 2});
  }

  /** The state after the first iteration from root 0 is a fixed point of `Step`. */
  lemma DiamondStuck()
    ensures WellFormed(Diamond(), DiamondStuckState())
    ensures Step(Diamond(), DiamondStuckState()) == DiamondStuckState()
  {
    var g := Diamond();
    var st1 := DiamondStuckState();
    assert g.succ[2][0] == 1 && 1 !in st1.done;
    StuckWhenTargetPending(g, st1);
  }

  function DiamondStuckState(): CcState
  {
    CcState([0, 1, 2], {0, 1, 2}, {}, seq(3, _ => {}))
  }

  /**
   * On `Diamond` the as-written traversal from root 0 never empties its
   * stack: after the first iteration the stack is [0, 1, 2], vertex 2's only
   * target 1 is discovered but unfinished, and the state repeats forever.
   */
  lemma AsWrittenDiverges(fuel: nat)
    ensures Acyclic(Diamond())
    ensures Run(Diamond(), Init(Diamond(), 0), fuel) == None
  {
    var g := Diamond();
    var st0 := Init(g, 0);
    DiamondFirstStep();
    DiamondStuck();
    if fuel > 0 {
      assert Run(g, st0, fuel) == Run(g, DiamondStuckState(), fuel - 1);
      StuckForever(g, DiamondStuckState(), fuel - 1);
    } else {
      assert st0.stack != [];
    }
  }

  // -----------------------------------------------------------------------
  // The intended bottom-up recurrence

  /**
   * Evaluates C(u) = union over targets t of u of ({t} + C(t)) along a
   * reverse topological order, so every target's row is final before it is
   * read. Each row is then exactly the set of descendants.
   */
  method ConnectedComponents(g: Graph, order: seq<Vertex>) returns (cmap: ComponentsMap)
    requires g.Valid() && IsReverseTopoOrder(g, order)
    ensures |cmap| == g.Size()
    ensures forall v | 0 <= v < g.Size() :: cmap[v] == Desc(g, v)
  {
    cmap := seq(g.Size(), _ => {});
    var i := 0;
    while i < |order|
      invariant 0 <= i <= |order| && |cmap| == g.Size()
      invariant forall j | 0 <= j < i :: cmap[order[j]] == Desc(g, order[j])
    {
      var u := order[i];
      FoldStep(g, order, i, cmap);
      cmap := cmap[u := RowUnion(g.succ[u], cmap)];
      i := i + 1;
    }
    forall v | 0 <= v < g.Size()
      ensures cmap[v] == Desc(g, v)
    {
      var j := IndexOf(order, v);
    }
  }

  /** Setting the next vertex's row from its targets' final rows extends the finished prefix. */
  lemma FoldStep(g: Graph, order: seq<Vertex>, i: nat, cmap: ComponentsMap)
    requires g.Valid() && IsReverseTopoOrder(g, order) && i < |order| && |cmap| == g.Size()
    requires forall j | 0 <= j < i :: cmap[order[j]] == Desc(g, order[j])
    ensures forall k | 0 <= k < |g.succ[order[i]]| :: g.succ[order[i]][k] < |cmap|
    ensures var cmap' := cmap[order[i] := RowUnion(g.succ[order[i]], cmap)];
      forall j | 0 <= j < i + 1 :: cmap'[order[j]] == Desc(g, order[j])
  {
    var u := order[i];
    NewRowFinal(g, order, i, cmap);
    var cmap' := cmap[u := RowUnion(g.succ[u], cmap)];
    forall j | 0 <= j < i + 1
      ensures cmap'[order[j]] == Desc(g, order[j])
    {
      if j < i {
        assert order[j] != u;
        assert cmap'[order[j]] == cmap[order[j]];
      }
    }
  }

  /** The row computed for the next vertex is already its set of descendants. */
  lemma NewRowFinal(g: Graph, order: seq<Vertex>, i: nat, cmap: ComponentsMap)
    requires g.Valid() && IsReverseTopoOrder(g, order) && i < |order| && |cmap| == g.Size()
    requires forall j | 0 <= j < i :: cmap[order[j]] == Desc(g, order[j])
    ensures forall k | 0 <= k < |g.succ[order[i]]| :: g.succ[order[i]][k] < |cmap|
    ensures RowUnion(g.succ[order[i]], cmap) == Desc(g, order[i])
  {
    TargetsFinal(g, order, i, cmap);
    RowUnionIsSuccDesc(g, g.succ[order[i]], cmap);
    DescUnfold(g, order[i]);
  }

  lemma TargetsFinal(g: Graph, order: seq<Vertex>, i: nat, cmap: ComponentsMap)
    requires g.Valid() && IsReverseTopoOrder(g, order) && i < |order| && |cmap| == g.Size()
    requires forall j | 0 <= j < i :: cmap[order[j]] == Desc(g, order[j])
    ensures forall k | 0 <= k < |g.succ[order[i]]| ::
      g.succ[order[i]][k] < |cmap| && cmap[g.succ[order[i]][k]] == Desc(g, g.succ[order[i]][k])
  {
    forall k | 0 <= k < |g.succ[order[i]]|
      ensures cmap[g.succ[order[i]][k]] == Desc(g, g.succ[order[i]][k])
    {
      var t := g.succ[order[i]][k];
      SuccEarlierInOrder(g, order, i, t);
      var j :| 0 <= j < i && order[..i][j] == t;
      assert order[j] == t;
    }
  }

  lemma {:induction false} RowUnionIsSuccDesc(g: Graph, ts: seq<Vertex>, cmap: ComponentsMap)
    requires forall k | 0 <= k < |ts| :: ts[k] < |cmap| && cmap[ts[k]] == Desc(g, ts[k])
    ensures RowUnion(ts, cmap) == SuccDesc(g, ts)
    decreases |ts|
  {
    if ts != [] {
      assert forall k | 0 <= k < |ts[1..]| :: ts[1..][k] == ts[k + 1];
      RowUnionIsSuccDesc(g, ts[1..], cmap);
    }
  }

  /**
   * The consistency checks of analyzer.cc:232-241: every vertex other than
   * the root is reachable from the root, and the exit is reachable from
   * every vertex other than itself.
   */
  predicate RootAndExitConnected(cmap: ComponentsMap, root: Vertex, exit: Vertex)
    requires root < |cmap| && exit < |cmap|
  {
    forall u | 0 <= u < |cmap| :: (u != root ==> u in cmap[root]) && (u != exit ==> exit in cmap[u])
  }

  lemma RootAndExitConnectedMeaning(g: Graph, cmap: ComponentsMap, root: Vertex, exit: Vertex)
    requires |cmap| == g.Size() && root < g.Size() && exit < g.Size()
    requires forall v | 0 <= v < g.Size() :: cmap[v] == Desc(g, v)
    ensures RootAndExitConnected(cmap, root, exit) <==>
      forall u | 0 <= u < g.Size() :: (u != root ==> Reaches(g, root, u)) && (u != exit ==> Reaches(g, u, exit))
  {
    forall u | 0 <= u < g.Size()
      ensures (u in cmap[root] <==> Reaches(g, root, u)) && (exit in cmap[u] <==> Reaches(g, u, exit))
    {
      assert cmap[root] == Desc(g, root) && cmap[u] == Desc(g, u);
    }
  }

  // -----------------------------------------------------------------------
  // The slow version: one search per vertex (analyzer.cc:88-102)

  /** Every vertex reachable from `u` by a non-empty path, by a worklist search. */
  method Descendants(g: Graph, u: Vertex) returns (seen: set<Vertex>)
    requires g.Valid() && u < g.Size()
    ensures seen == Desc(g, u)
  {
    var all := set v | v in Range(g.Size());
    seen := {};
    var work: seq<Vertex> := [];
    var j := 0;
    var succ := g.succ[u];
    while j < |succ|
      invariant 0 <= j <= |succ|
      invariant seen <= Desc(g, u) && seen <= all
      invariant forall k | 0 <= k < j :: succ[k] in seen
      invariant forall v | v in seen :: v in work
      invariant forall k | 0 <= k < |work| :: work[k] in seen
    {
      var t := succ[j];
      EdgeReaches(g, u, t);
      assert Range(g.Size())[t] == t;
      if t !in seen {
        seen := seen + {t};
        work := work + [t];
      }
      j := j + 1;
    }
    // every seen vertex not on the worklist has all of its targets seen
    while work != []
      invariant seen <= Desc(g, u) && seen <= all
      invariant forall k | 0 <= k < |succ| :: succ[k] in seen
      invariant forall k | 0 <= k < |work| :: work[k] in seen
      invariant forall x, k | x in seen && x !in work && 0 <= k < |g.succ[x]| :: g.succ[x][k] in seen
      decreases all - seen, |work|
    {
      var x := work[|work| - 1];
      work := work[..|work| - 1];
      seen, work := VisitTargets(g, u, x, all, seen, work);
    }
    forall v | v in Desc(g, u)
      ensures v in seen
    {
      var t := ReachesFirstStep(g, u, v);
      if t != v {
        ClosedContainsReached(g, seen, t, v);
      }
    }
  }

  /** One worklist step of the search: every target of `x` is marked seen, new ones are queued. */
  method VisitTargets(g: Graph, u: Vertex, x: Vertex, ghost all: set<Vertex>, seen0: set<Vertex>, work0: seq<Vertex>)
    returns (seen: set<Vertex>, work: seq<Vertex>)
    requires g.Valid() && u < g.Size() && x < g.Size()
    requires all == set v | v in Range(g.Size())
    requires x in seen0 && seen0 <= Desc(g, u) && seen0 <= all
    ensures seen0 <= seen <= Desc(g, u) && seen <= all
    ensures work0 <= work && (seen == seen0 ==> work == work0)
    ensures forall v | v in seen && v !in seen0 :: v in work
    ensures forall i | |work0| <= i < |work| :: work[i] in seen
    ensures forall i | 0 <= i < |g.succ[x]| :: g.succ[x][i] in seen
  {
    seen, work := seen0, work0;
    var ts := g.succ[x];
    var k := 0;
    while k < |ts|
      invariant 0 <= k <= |ts|
      invariant seen0 <= seen <= Desc(g, u) && seen <= all
      invariant work0 <= work && (seen == seen0 ==> work == work0)
      invariant forall v | v in seen && v !in seen0 :: v in work
      invariant forall i | |work0| <= i < |work| :: work[i] in seen
      invariant forall i | 0 <= i < k :: ts[i] in seen
    {
      var t := ts[k];
      EdgeReaches(g, x, t);
      ReachesTrans(g, u, x, t);
      assert Range(g.Size())[t] == t;
      if t !in seen {
        seen := seen + {t};
        work := work + [t];
      }
      k := k + 1;
    }
  }

  /**
   * Row u lists every vertex the search from u discovers other than u
   * itself; the search stops once u finishes, so nothing outside u's
   * reach is recorded. A back edge met by any of the searches aborts the
   * run (the `assert(false)` of the recorder's back-edge hook), so there
   * is a map exactly when the graph is acyclic.
   */
  method ConnectedComponentsSlow(g: Graph) returns (r: Option<ComponentsMap>)
    requires g.Valid()
    ensures r.None? <==> !Acyclic(g)
    ensures r.Some? ==> |r.value| == g.Size()
    ensures r.Some? ==> forall u | 0 <= u < g.Size() :: r.value[u] == Desc(g, u) - {u}
  {
    var cmap := [];
    var u := 0;
    while u < g.Size()
      invariant 0 <= u <= g.Size() && |cmap| == u
      invariant forall w | 0 <= w < u :: cmap[w] == Desc(g, w) - {w}
      invariant forall w | 0 <= w < u :: w !in Desc(g, w)
    {
      var row := Descendants(g, u);
      var back := MeetsBackEdge(g, u, row);
      if back {
        return None;
      }
      cmap := cmap + [row - {u}];
      u := u + 1;
    }
    forall w | 0 <= w < g.Size()
      ensures !Reaches(g, w, w)
    {
      assert w !in Desc(g, w);
    }
    return Some(cmap);
  }

  /**
   * The search from `u` meets a back edge exactly when it reaches a vertex
   * (possibly `u` itself) that lies on a cycle.
   */
  method MeetsBackEdge(g: Graph, u: Vertex, row: set<Vertex>) returns (b: bool)
    requires g.Valid() && u < g.Size() && row == Desc(g, u)
    ensures b <==> exists v | v == u || v in row :: v in Desc(g, v)
  {
    var v := 0;
    while v < g.Size()
      invariant v <= g.Size()
      invariant forall w | 0 <= w < v && (w == u || w in row) :: w !in Desc(g, w)
    {
      if v == u || v in row {
        var d := Descendants(g, v);
        if v in d {
          return true;
        }
      }
      v := v + 1;
    }
    return false;
  }

  /** On an acyclic graph the slow version agrees with the bottom-up one. */
  lemma SlowAgreesOnDag(g: Graph, cmap: ComponentsMap)
    requires Acyclic(g) && |cmap| == g.Size()
    requires forall u | 0 <= u < g.Size() :: cmap[u] == Desc(g, u) - {u}
    ensures forall u | 0 <= u < g.Size() :: cmap[u] == Desc(g, u)
  {
    forall u | 0 <= u < g.Size()
      ensures u !in Desc(g, u)
    {
    }
  }
}

=== FILE: report.dfy ===
/**
 * The access breakdown the analyzer reports (omptr/analyzer/analyzer.cc:449-533).
 *
 * Every record's accesses are counted into one of six buckets. An
 * instruction fetch counts as shared or private instructions. A data
 * access on the stack counts as shared or private stack. Every other data
 * access, global or heap, counts as shared or private heap. Printing the
 * percentages and writing the CSV row are not modelled.
 */
module Report {
  import opened Common
  import opened MemStats
  import opened CostModel

  /** The six counters, in the column order of the CSV row (analyzer.cc:516). */
  datatype Bucket = PrivateInst | PrivateStack | PrivateHeap | SharedInst | SharedStack | SharedHeap
  {
    predicate Shared() { SharedInst? || SharedStack? || SharedHeap? }
    predicate Inst() { PrivateInst? || SharedInst? }
    predicate StackData() { PrivateStack? || SharedStack? }
  }

  /** The bucket a record's accesses count into. */
  function BucketOf(r: AccessRecord): (k: Bucket)
    ensures k.Shared() <==> r.isShared
    ensures k.Inst() <==> r.isIfetch
    ensures k.StackData() <==> !r.isIfetch && r.region == Stack
  {
    if r.isIfetch then
      (if r.isShared then SharedInst else PrivateInst)
    else if r.region == Stack then
      (if r.isShared then SharedStack else PrivateStack)
    else
      (if r.isShared then SharedHeap else PrivateHeap)
  }

  datatype Statistics = Statistics(
    privateInst: nat, privateStack: nat, privateHeap: nat,
    sharedInst: nat, sharedStack: nat, sharedHeap: nat)
  {
    function Get(k: Bucket): nat
    {
      match k
      case PrivateInst => privateInst
      case PrivateStack => privateStack
      case PrivateHeap => privateHeap
      case SharedInst => sharedInst
      case SharedStack => sharedStack
      case SharedHeap => sharedHeap
    }

    function Add(k: Bucket, n: nat): (s: Statistics)
      ensures s.Get(k) == Get(k) + n
      ensures forall k' | k' != k :: s.Get(k') == Get(k')
    {
      match k
      case PrivateInst => this.(privateInst := privateInst + n)
      case PrivateStack => this.(privateStack := privateStack + n)
      case PrivateHeap => this.(privateHeap := privateHeap + n)
      case SharedInst => this.(sharedInst := sharedInst + n)
      case SharedStack => this.(sharedStack := sharedStack + n)
      case SharedHeap => this.(sharedHeap := sharedHeap + n)
    }

    function SharedData(): nat { sharedStack + sharedHeap }
    function PrivateData(): nat { privateStack + privateHeap }

    /** The total the percentages are taken of (analyzer.cc:489-491). */
    function Total(): nat { SharedData() + PrivateData() + sharedInst + privateInst }
  }

  /** The accesses of the records that fall into bucket `k`. */
  function CountIn(rs: seq<AccessRecord>, k: Bucket): nat
  {
    if rs == [] then 0
    else (if BucketOf(rs[0]) == k then rs[0].counts.Total() else 0) + CountIn(rs[1..], k)
  }

  lemma {:induction false} CountInAppend(a: seq<AccessRecord>, b: seq<AccessRecord>, k: Bucket)
    ensures CountIn(a + b, k) == CountIn(a, k) + CountIn(b, k)
    decreases |a|
  {
    if a != [] {
      assert (a + b)[1..] == a[1..] + b;
      CountInAppend(a[1..], b, k);
    } else {
      assert a + b == b;
    }
  }

  function SumBuckets(rs: seq<AccessRecord>): nat
  {
    CountIn(rs, PrivateInst) + CountIn(rs, PrivateStack) + CountIn(rs, PrivateHeap)
      + CountIn(rs, SharedInst) + CountIn(rs, SharedStack) + CountIn(rs, SharedHeap)
  }

  /** The six buckets split the accesses: together they count each access exactly once. */
  lemma {:induction false} BucketsPartition(rs: seq<AccessRecord>)
    ensures SumBuckets(rs) == Accesses(rs)
    decreases |rs|
  {
    if rs != [] {
      BucketsPartition(rs[1..]);
    }
  }

  /** With no record marked shared, the shared buckets stay empty. */
  lemma {:induction false} UnsharedBucketsEmpty(rs: seq<AccessRecord>, k: Bucket)
    requires forall i | 0 <= i < |rs| :: !rs[i].isShared
    requires k.Shared()
    ensures CountIn(rs, k) == 0
    decreases |rs|
  {
    if rs != [] {
      assert forall i | 0 <= i < |rs[1..]| :: rs[1..][i] == rs[i + 1];
      UnsharedBucketsEmpty(rs[1..], k);
    }
  }

  /**
   * The counting loops of collect_statistics: each counter holds the
   * accesses of the records in its bucket, and the six together hold every
   * access of every block.
   */
  method CollectStatistics(maps: seq<AddrMap>) returns (st: Statistics)
    ensures forall k: Bucket :: st.Get(k) == CountIn(Flatten(maps), k)
    ensures st.Total() == Accesses(Flatten(maps))
  {
    st := Statistics(0, 0, 0, 0, 0, 0);
    var b := 0;
    while b < |maps|
      invariant 0 <= b <= |maps|
      invariant forall k: Bucket :: st.Get(k) == CountIn(Flatten(maps[..b]), k)
    {
      var m := maps[b];
      var i := 0;
      assert Flatten(maps[..b]) + m[..i] == Flatten(maps[..b]);
      while i < |m|
        invariant 0 <= i <= |m|
        invariant forall k: Bucket :: st.Get(k) == CountIn(Flatten(maps[..b]) + m[..i], k)
      {
        var r := m[i];
        forall k: Bucket
          ensures CountIn(Flatten(maps[..b]) + m[..i + 1], k)
                  == CountIn(Flatten(maps[..b]) + m[..i], k) + (if BucketOf(r) == k then r.counts.Total() else 0)
        {
          assert Flatten(maps[..b]) + m[..i + 1] == (Flatten(maps[..b]) + m[..i]) + [r];
          CountInAppend(Flatten(maps[..b]) + m[..i], [r], k);
        }
        st := st.Add(BucketOf(r), r.counts.Total());
        i := i + 1;
      }
      assert maps[..b + 1][..b] == maps[..b];
      assert m[..i] == m;
      b := b + 1;
    }
    assert maps[..b] == maps;
    BucketsPartition(Flatten(maps));
  }
}

=== FILE: schedule.dfy ===
/**
 * Critical path, volume and Graham's bound per configuration
 * (omptr/analyzer/analyzer.cc:414-447).
 *
 * Vertices are visited in the finish order of a depth-first topological
 * sort (every vertex after its successors). Each vertex starts at an
 * initial value and is relaxed over its out-edges in insertion order:
 * lp[v] := max(lp[v], w[v] + lp[t]). The code starts every vertex at 0,
 * which leaves the weight of the last vertex of every path out of the
 * critical path (`AsWrittenDropsLastVertex`); starting every vertex at its
 * own weight gives the heaviest path (`CriticalPathIsHeaviestPath`).
 */
module Schedule {
  import opened Common
  import opened Graphs
  import TopoSort
  import opened CostModel

  function Max(a: nat, b: nat): nat { if a >= b then a else b }

  /** The largest `lp[t]` over the listed targets, 0 for none. */
  function MaxOver(lp: seq<nat>, ts: seq<Vertex>): (m: nat)
    requires forall k | 0 <= k < |ts| :: ts[k] < |lp|
    ensures forall k | 0 <= k < |ts| :: lp[ts[k]] <= m
    ensures ts != [] ==> exists k | 0 <= k < |ts| :: lp[ts[k]] == m
    ensures ts == [] ==> m == 0
  {
    if ts == [] then 0 else Max(MaxOver(lp, ts[..|ts| - 1]), lp[ts[|ts| - 1]])
  }

  lemma {:induction false} MaxOverFrame(lp: seq<nat>, lp': seq<nat>, ts: seq<Vertex>)
    requires |lp| == |lp'| && forall k | 0 <= k < |ts| :: ts[k] < |lp| && lp[ts[k]] == lp'[ts[k]]
    ensures MaxOver(lp, ts) == MaxOver(lp', ts)
    decreases |ts|
  {
    if ts != [] {
      MaxOverFrame(lp, lp', ts[..|ts| - 1]);
    }
  }

  /** The value the relaxation loop leaves at v, given the final values of its targets. */
  function Relax(g: Graph, w: seq<nat>, init: seq<nat>, lp: seq<nat>, v: Vertex): nat
    requires g.Valid() && |w| == |init| == |lp| == g.Size() && v < g.Size()
  {
    if g.succ[v] == [] then init[v] else Max(init[v], w[v] + MaxOver(lp, g.succ[v]))
  }

  /** `lp` is a fixed point of the relaxation at every vertex. */
  ghost predicate Bellman(g: Graph, w: seq<nat>, init: seq<nat>, lp: seq<nat>)
    requires g.Valid() && |w| == |init| == g.Size()
  {
    |lp| == g.Size() && forall v | 0 <= v < g.Size() :: lp[v] == Relax(g, w, init, lp, v)
  }

  /** The relaxation loop of one vertex over its out-edges in order (analyzer.cc:425-428). */
  method RelaxVertex(g: Graph, w: seq<nat>, init: seq<nat>, lp0: seq<nat>, v: Vertex) returns (lp: seq<nat>)
    requires g.Valid() && |w| == |init| == |lp0| == g.Size() && v < g.Size()
    requires lp0[v] == init[v] && v !in g.succ[v]
    ensures |lp| == g.Size() && lp[v] == Relax(g, w, init, lp0, v)
    ensures forall u | 0 <= u < g.Size() && u != v :: lp[u] == lp0[u]
  {
    lp := lp0;
    var ts := g.succ[v];
    var k := 0;
    while k < |ts|
      invariant 0 <= k <= |ts| && |lp| == g.Size()
      invariant forall u | 0 <= u < g.Size() && u != v :: lp[u] == lp0[u]
      invariant lp[v] == if k == 0 then init[v] else Max(init[v], w[v] + MaxOver(lp0, ts[..k]))
    {
      var t := ts[k];
      assert t != v;
      assert ts[..k + 1][..k] == ts[..k];
      lp := lp[v := Max(lp[v], w[v] + lp[t])];
      k := k + 1;
    }
    assert ts[..k] == ts;
  }

  /** Relaxing the `i`-th vertex of the order leaves every earlier vertex relaxed. */
  lemma EarlierStayRelaxed(g: Graph, order: seq<Vertex>, w: seq<nat>, init: seq<nat>, lp: seq<nat>, lp': seq<nat>, i: nat)
    requires g.Valid() && IsReverseTopoOrder(g, order) && |w| == |init| == g.Size()
    requires i < |order| && |lp| == |lp'| == g.Size()
    requires forall u | 0 <= u < g.Size() && u != order[i] :: lp'[u] == lp[u]
    requires forall j | 0 <= j < i :: lp[order[j]] == Relax(g, w, init, lp, order[j])
    ensures forall j | 0 <= j < i :: lp'[order[j]] == Relax(g, w, init, lp', order[j])
  {
    var v := order[i];
    forall j | 0 <= j < i
      ensures lp'[order[j]] == Relax(g, w, init, lp', order[j])
    {
      var u := order[j];
      forall k | 0 <= k < |g.succ[u]|
        ensures g.succ[u][k] != v
      {
        SuccEarlierInOrder(g, order, j, g.succ[u][k]);
        assert order[..j] <= order[..i];
      }
      MaxOverFrame(lp, lp', g.succ[u]);
      assert u != v;
    }
  }

  /**
   * The longest-path pass of compute_WCRTs for one weight column: every
   * vertex relaxed in `order`, starting from `init`.
   */
  method LongestPaths(g: Graph, order: seq<Vertex>, w: seq<nat>, init: seq<nat>) returns (lp: seq<nat>)
    requires g.Valid() && IsReverseTopoOrder(g, order) && |w| == |init| == g.Size()
    ensures Bellman(g, w, init, lp)
  {
    lp := init;
    var i := 0;
    while i < |order|
      invariant 0 <= i <= |order| && RelaxedPrefix(g, order, w, init, lp, i)
    {
      lp := RelaxNext(g, order, w, init, lp, i);
      i := i + 1;
    }
    PrefixIsBellman(g, order, w, init, lp);
  }

  /** The first `i` vertices of the order are relaxed and every other vertex still holds its start value. */
  ghost predicate RelaxedPrefix(g: Graph, order: seq<Vertex>, w: seq<nat>, init: seq<nat>, lp: seq<nat>, i: nat)
    requires g.Valid() && |w| == |init| == g.Size() && i <= |order|
  {
    && |lp| == g.Size()
    && (forall j | 0 <= j < i :: order[j] < g.Size() && lp[order[j]] == Relax(g, w, init, lp, order[j]))
    && (forall u | 0 <= u < g.Size() && u !in order[..i] :: lp[u] == init[u])
  }

  /** One step of the pass: relax the `i`-th vertex of the order. */
  method RelaxNext(g: Graph, order: seq<Vertex>, w: seq<nat>, init: seq<nat>, lp: seq<nat>, i: nat) returns (lp': seq<nat>)
    requires g.Valid() && IsReverseTopoOrder(g, order) && |w| == |init| == g.Size()
    requires i < |order| && RelaxedPrefix(g, order, w, init, lp, i)
    ensures RelaxedPrefix(g, order, w, init, lp', i + 1)
  {
    var v := order[i];
    assert v !in order[..i];
    assert v !in g.succ[v] by {
      if v in g.succ[v] {
        SuccEarlierInOrder(g, order, i, v);
      }
    }
    lp' := RelaxVertex(g, w, init, lp, v);
    assert forall j | 0 <= j < i + 1 :: lp'[order[j]] == Relax(g, w, init, lp', order[j]) by {
      EarlierStayRelaxed(g, order, w, init, lp, lp', i);
      MaxOverFrame(lp, lp', g.succ[v]);
    }
    assert forall u | 0 <= u < g.Size() && u !in order[..i + 1] :: lp'[u] == init[u] by {
      assert order[..i + 1] == order[..i] + [v];
    }
  }

  lemma PrefixIsBellman(g: Graph, order: seq<Vertex>, w: seq<nat>, init: seq<nat>, lp: seq<nat>)
    requires g.Valid() && IsReverseTopoOrder(g, order) && |w| == |init| == g.Size()
    requires RelaxedPrefix(g, order, w, init, lp, |order|)
    ensures Bellman(g, w, init, lp)
  {
    forall v | 0 <= v < g.Size()
      ensures lp[v] == Relax(g, w, init, lp, v)
    {
      var j := IndexOf(order, v);
    }
  }

  // -----------------------------------------------------------------------
  // What the pass computes

  lemma SumAtCons(w: seq<nat>, x: nat, rest: seq<nat>)
    requires x < |w| && forall k | 0 <= k < |rest| :: rest[k] < |w|
    ensures SumAt(w, [x] + rest) == w[x] + SumAt(w, rest)
  {
    SumAtAppend(w, [x], rest);
    assert [x][..0] == [];
  }

  /** With every vertex starting at its own weight, no path from a vertex weighs more than its value. */
  lemma {:induction false} PathWithinCriticalPath(g: Graph, w: seq<nat>, lp: seq<nat>, p: seq<Vertex>)
    requires g.Valid() && |w| == g.Size() && Bellman(g, w, w, lp) && IsPath(g, p)
    ensures SumAt(w, p) <= lp[p[0]]
    decreases |p|
  {
    var v := p[0];
    var p' := p[1..];
    assert [v] + p' == p;
    SumAtCons(w, v, p');
    if |p| > 1 {
      assert IsPath(g, p') by {
        assert forall k | 0 <= k < |p'| :: p'[k] == p[k + 1];
      }
      PathWithinCriticalPath(g, w, lp, p');
      assert g.Edge(p[0], p[1]);
      var k :| 0 <= k < |g.succ[v]| && g.succ[v][k] == p[1];
      assert lp[p[1]] <= MaxOver(lp, g.succ[v]);
    }
  }

  /** A successor of `v` holding the largest value, earlier than `v` in the order. */
  lemma HeaviestSucc(g: Graph, order: seq<Vertex>, lp: seq<nat>, v: Vertex) returns (t: Vertex)
    requires g.Valid() && IsReverseTopoOrder(g, order) && |lp| == g.Size()
    requires v < g.Size() && g.succ[v] != []
    ensures g.Edge(v, t) && t < g.Size() && lp[t] == MaxOver(lp, g.succ[v])
    ensures t in order && v in order && IndexOf(order, t) < IndexOf(order, v)
  {
    var m := MaxOver(lp, g.succ[v]);
    var k :| 0 <= k < |g.succ[v]| && lp[g.succ[v][k]] == m;
    t := g.succ[v][k];
    var i := IndexOf(order, v);
    SuccEarlierInOrder(g, order, i, t);
    var j :| 0 <= j < i && order[j] == t;
    assert IndexOf(order, t) == j;
  }

  /** A vertex followed by a path leaving one of its successors is a path. */
  lemma ConsPath(g: Graph, v: Vertex, p': seq<Vertex>) returns (p: seq<Vertex>)
    requires IsPath(g, p') && v < g.Size() && g.Edge(v, p'[0])
    ensures p == [v] + p' && IsPath(g, p) && p[0] == v
  {
    p := [v] + p';
    assert forall q | 1 <= q < |p| :: p[q] == p'[q - 1];
  }

  /** Every vertex's value is reached by some path from it whose weight is at least that value. */
  lemma {:induction false} HeaviestPathFrom(g: Graph, order: seq<Vertex>, w: seq<nat>, init: seq<nat>, lp: seq<nat>, v: Vertex)
    returns (p: seq<Vertex>)
    requires g.Valid() && IsReverseTopoOrder(g, order) && |w| == |init| == g.Size()
    requires Bellman(g, w, init, lp) && v < g.Size()
    requires forall u | 0 <= u < g.Size() :: init[u] <= w[u]
    ensures IsPath(g, p) && p[0] == v
    ensures lp[v] <= SumAt(w, p)
    ensures init == w ==> lp[v] == SumAt(w, p)
    decreases IndexOf(order, v)
  {
    if g.succ[v] == [] || lp[v] == init[v] {
      p := [v];
      assert SumAt(w, p) == SumAt(w, []) + w[v];
    } else {
      var t := HeaviestSucc(g, order, lp, v);
      var p' := HeaviestPathFrom(g, order, w, init, lp, t);
      p := ConsPath(g, v, p');
      SumAtCons(w, v, p');
    }
  }

  /**
   * With every vertex starting at its own weight, a vertex's value is the
   * weight of the heaviest path leaving it: no path is heavier and one
   * path weighs exactly that.
   */
  lemma CriticalPathIsHeaviestPath(g: Graph, order: seq<Vertex>, w: seq<nat>, lp: seq<nat>, v: Vertex)
    requires g.Valid() && IsReverseTopoOrder(g, order) && |w| == g.Size()
    requires Bellman(g, w, w, lp) && v < g.Size()
    ensures forall p | IsPath(g, p) && p[0] == v :: SumAt(w, p) <= lp[v]
    ensures exists p :: IsPath(g, p) && p[0] == v && SumAt(w, p) == lp[v]
  {
    forall p | IsPath(g, p) && p[0] == v
      ensures SumAt(w, p) <= lp[v]
    {
      PathWithinCriticalPath(g, w, lp, p);
    }
    var p := HeaviestPathFrom(g, order, w, w, lp, v);
  }

  /** No vertex's value exceeds the total weight, whenever vertices start at most at their weight. */
  lemma CriticalPathWithinVolume(g: Graph, order: seq<Vertex>, w: seq<nat>, init: seq<nat>, lp: seq<nat>, v: Vertex)
    requires g.Valid() && IsReverseTopoOrder(g, order) && |w| == |init| == g.Size()
    requires Bellman(g, w, init, lp) && v < g.Size()
    requires forall u | 0 <= u < g.Size() :: init[u] <= w[u]
    ensures lp[v] <= Sum(w)
  {
    var p := HeaviestPathFrom(g, order, w, init, lp, v);
    RevTopoAcyclic(g, order);
    PathDistinct(g, p);
    SumAtDistinctLe(w, p);
  }

  // -----------------------------------------------------------------------
  // Starting every vertex at 0, as compute_WCRTs does

  function Zeros(n: nat): (z: seq<nat>)
    ensures |z| == n && forall i | 0 <= i < n :: z[i] == 0
  {
    seq(n, i => 0)
  }

  /** Starting at 0, no path from a vertex weighs more than its value once its last vertex is left out. */
  lemma {:induction false} PathWithinAsWritten(g: Graph, w: seq<nat>, lp: seq<nat>, p: seq<Vertex>)
    requires g.Valid() && |w| == g.Size() && Bellman(g, w, Zeros(g.Size()), lp) && IsPath(g, p)
    ensures SumAt(w, p[..|p| - 1]) <= lp[p[0]]
    decreases |p|
  {
    var v := p[0];
    if |p| > 1 {
      var p' := p[1..];
      assert IsPath(g, p') by {
        assert forall k | 0 <= k < |p'| :: p'[k] == p[k + 1];
      }
      PathWithinAsWritten(g, w, lp, p');
      assert p[..|p| - 1] == [v] + p'[..|p'| - 1];
      SumAtCons(w, v, p'[..|p'| - 1]);
      assert g.Edge(p[0], p[1]);
      var k :| 0 <= k < |g.succ[v]| && g.succ[v][k] == p[1];
      assert lp[p[1]] <= MaxOver(lp, g.succ[v]);
    } else {
      assert p[..|p| - 1] == [];
    }
  }

  /** Starting at 0, every vertex's value is the weight of some path from it without its last vertex. */
  lemma {:induction false} AsWrittenPathFrom(g: Graph, order: seq<Vertex>, w: seq<nat>, lp: seq<nat>, v: Vertex)
    returns (p: seq<Vertex>)
    requires g.Valid() && IsReverseTopoOrder(g, order) && |w| == g.Size()
    requires Bellman(g, w, Zeros(g.Size()), lp) && v < g.Size()
    ensures IsPath(g, p) && p[0] == v && SumAt(w, p[..|p| - 1]) == lp[v]
    decreases IndexOf(order, v)
  {
    if g.succ[v] == [] || lp[v] == 0 {
      p := [v];
      assert p[..0] == [];
    } else {
      var t := HeaviestSucc(g, order, lp, v);
      var p' := AsWrittenPathFrom(g, order, w, lp, t);
      p := ConsPath(g, v, p');
      assert p[..|p| - 1] == [v] + p'[..|p'| - 1];
      SumAtCons(w, v, p'[..|p'| - 1]);
    }
  }

  /** The weight of a path, or of all of it but its last vertex. */
  function PathWeight(w: seq<nat>, p: seq<Vertex>, dropLast: bool): nat
    requires p != [] && forall k | 0 <= k < |p| :: p[k] < |w|
  {
    if dropLast then SumAt(w, p[..|p| - 1]) else SumAt(w, p)
  }

  /** `c` is the largest `PathWeight` of a path starting at `v`. */
  ghost predicate HeaviestPathWeight(g: Graph, w: seq<nat>, v: Vertex, c: nat, dropLast: bool)
    requires |w| == g.Size()
  {
    && (forall p | IsPath(g, p) && p[0] == v :: PathWeight(w, p, dropLast) <= c)
    && (exists p :: IsPath(g, p) && p[0] == v && PathWeight(w, p, dropLast) == c)
  }

  /** The values the relaxation starts from: 0 as in the code, or the vertex's own weight. */
  function StartValues(w: seq<nat>, dropLast: bool): (init: seq<nat>)
    ensures |init| == |w| && forall u | 0 <= u < |w| :: init[u] <= w[u]
  {
    if dropLast then Zeros(|w|) else w
  }

  /**
   * What the pass computes at each vertex: the heaviest path leaving it,
   * without its last vertex when started at 0 and with it when started at
   * the weights.
   */
  lemma CriticalPathMeaning(g: Graph, order: seq<Vertex>, w: seq<nat>, lp: seq<nat>, v: Vertex, dropLast: bool)
    requires g.Valid() && IsReverseTopoOrder(g, order) && |w| == g.Size()
    requires Bellman(g, w, StartValues(w, dropLast), lp) && v < g.Size()
    ensures HeaviestPathWeight(g, w, v, lp[v], dropLast)
  {
    if dropLast {
      forall p | IsPath(g, p) && p[0] == v
        ensures PathWeight(w, p, dropLast) <= lp[v]
      {
        PathWithinAsWritten(g, w, lp, p);
      }
      var p := AsWrittenPathFrom(g, order, w, lp, v);
      assert PathWeight(w, p, dropLast) == lp[v];
    } else {
      CriticalPathIsHeaviestPath(g, order, w, lp, v);
      var p :| IsPath(g, p) && p[0] == v && SumAt(w, p) == lp[v];
      assert PathWeight(w, p, dropLast) == lp[v];
    }
  }

  // -----------------------------------------------------------------------
  // The chain 0 -> 1 -> 2 with weights 10, 5, 10

  function Chain(): (g: Graph)
    ensures g.Valid() && g.Size() == 3
  {
    Graph([[1], [2], []])
  }

  /** Starting at 0, the chain's critical path is 15 although its only full path weighs 25. */
  lemma AsWrittenDropsLastVertex(lp: seq<nat>)
    requires Bellman(Chain(), [10, 5, 10], [0, 0, 0], lp)
    ensures lp[0] == 15
    ensures IsPath(Chain(), [0, 1, 2]) && SumAt([10, 5, 10], [0, 1, 2]) == 25
  {
    var g, w, z := Chain(), [10, 5, 10], [0, 0, 0];
    assert lp[2] == Relax(g, w, z, lp, 2) == 0;
    assert MaxOver(lp, [2]) == lp[2];
    assert lp[1] == Relax(g, w, z, lp, 1) == 5;
    assert MaxOver(lp, [1]) == lp[1];
    assert lp[0] == Relax(g, w, z, lp, 0);
    assert g.Edge(0, 1) && g.Edge(1, 2);
    assert [0, 1, 2][..2] == [0, 1] && [0, 1][..1] == [0] && [0][..0] == [];
  }

  /** Starting every vertex at its weight, the chain's critical path is its full weight. */
  lemma InclusiveChainIsFull(lp: seq<nat>)
    requires Bellman(Chain(), [10, 5, 10], [10, 5, 10], lp)
    ensures lp[0] == 25
  {
    var g, w := Chain(), [10, 5, 10];
    assert lp[2] == Relax(g, w, w, lp, 2) == 10;
    assert MaxOver(lp, [2]) == lp[2];
    assert lp[1] == Relax(g, w, w, lp, 1) == 15;
    assert MaxOver(lp, [1]) == lp[1];
    assert lp[0] == Relax(g, w, w, lp, 0);
  }

  // -----------------------------------------------------------------------
  // Graham's bound

  lemma MulCancelLt(a: nat, b: nat, c: nat)
    requires c >= 1 && a * c < b * c
    ensures a < b
  {
  }

  lemma DivBelow(x: nat, c: nat, k: nat)
    requires c >= 1 && x < (k + 1) * c
    ensures x / c <= k
  {
    var q := x / c;
    assert q * c <= x;
    MulCancelLt(q, k + 1, c);
  }

  lemma DivAtMost(x: nat, c: nat)
    requires c >= 1
    ensures x / c <= x
  {
    assert x * 1 <= x * c;
    DivBelow(x, c, x);
  }

  /**
   * The response-time bound of a DAG on `cores` identical cores: the
   * critical path plus the rest of the volume shared among the cores,
   * truncated to an integer (analyzer.cc:442-444). It lies between the
   * critical path and the volume, and is never below the perfect share of
   * the volume.
   */
  function GrahamBound(cp: nat, vol: nat, cores: nat): (r: nat)
    requires cores >= 1 && cp <= vol
    ensures cp <= r <= vol
    ensures cores == 1 ==> r == vol
    ensures vol / cores <= r
  {
    var q := (vol - cp) / cores;
    DivAtMost(vol - cp, cores);
    ShareBelowBound(cp, vol, cores);
    cp + q
  }

  lemma ShareBelowBound(cp: nat, vol: nat, cores: nat)
    requires cores >= 1 && cp <= vol
    ensures vol / cores <= cp + (vol - cp) / cores
  {
    var d := vol - cp;
    var q := d / cores;
    assert d < (q + 1) * cores by {
      DivRem(d, cores);
    }
    assert vol < (cp + q + 1) * cores by {
      MulAtLeast(cp, cores);
      MulDistrib(cp, q + 1, cores);
    }
    DivBelow(vol, cores, cp + q);
  }

  lemma DivRem(x: nat, c: nat)
    requires c >= 1
    ensures x < (x / c + 1) * c
  {
    var q := x / c;
    assert x == q * c + x % c;
    assert (q + 1) * c == q * c + c;
  }

  lemma MulAtLeast(a: nat, c: nat)
    requires c >= 1
    ensures a <= a * c
  {
    assert a * c == a + a * (c - 1);
  }

  lemma MulDistrib(a: nat, b: nat, c: nat)
    ensures (a + b) * c == a * c + b * c
  {
  }

  lemma DivAntitone(x: nat, c1: nat, c2: nat)
    requires 1 <= c1 <= c2
    ensures x / c2 <= x / c1
  {
    var q := x / c2;
    assert q * c1 <= q * c2;
    assert q * c2 <= x;
    var q1 := x / c1;
    DivBelow(x, c1, q1);
    assert x < (q1 + 1) * c1;
    MulCancelLt(q, q1 + 1, c1);
  }

  /** More cores never raise the bound. */
  lemma GrahamBoundAntitone(cp: nat, vol: nat, c1: nat, c2: nat)
    requires 1 <= c1 <= c2 && cp <= vol
    ensures GrahamBound(cp, vol, c2) <= GrahamBound(cp, vol, c1)
  {
    DivAntitone(vol - cp, c1, c2);
  }

  // -----------------------------------------------------------------------
  // compute_WCRTs

  /** One configuration's weight of every block. */
  function Column(weights: seq<seq<nat>>, i: nat): (w: seq<nat>)
    requires i < NumConfigs && forall b | 0 <= b < |weights| :: |weights[b]| == NumConfigs
    ensures |w| == |weights| && forall b | 0 <= b < |weights| :: w[b] == weights[b][i]
  {
    seq(|weights|, b requires 0 <= b < |weights| => weights[b][i])
  }

  /** A positive heaviest path rules out a heaviest path of weight 0. */
  lemma HeaviestPositive(g: Graph, w: seq<nat>, v: Vertex, c: nat, dropLast: bool)
    requires |w| == g.Size() && HeaviestPathWeight(g, w, v, c, dropLast) && c > 0
    ensures !HeaviestPathWeight(g, w, v, 0, dropLast)
  {
    var p :| IsPath(g, p) && p[0] == v && PathWeight(w, p, dropLast) == c;
  }

  datatype WcrtError = Cyclic | ZeroCriticalPath(config: nat) | NoCores

  datatype Bounds = Bounds(wcrts: seq<nat>, criticalPaths: seq<nat>, volumes: seq<nat>)

  /** One longest-path pass, read at the root block 0. */
  method CriticalPathOf(g: Graph, order: seq<Vertex>, w: seq<nat>, dropLast: bool) returns (cp: nat)
    requires g.Valid() && g.Size() > 0 && IsReverseTopoOrder(g, order) && |w| == g.Size()
    ensures HeaviestPathWeight(g, w, 0, cp, dropLast) && cp <= Sum(w)
  {
    var lp := LongestPaths(g, order, w, StartValues(w, dropLast));
    CriticalPathMeaning(g, order, w, lp, 0, dropLast);
    CriticalPathWithinVolume(g, order, w, StartValues(w, dropLast), lp, 0);
    cp := lp[0];
  }

  /**
   * The first loop of compute_WCRTs: one longest-path pass per
   * configuration, stopping at the first configuration whose critical path
   * is 0 (the assertion of analyzer.cc:430).
   */
  method CriticalPaths(g: Graph, order: seq<Vertex>, weights: seq<seq<nat>>, dropLast: bool) returns (r: Result<seq<nat>, nat>)
    requires g.Valid() && g.Size() > 0 && IsReverseTopoOrder(g, order) && |weights| == g.Size()
    requires forall b | 0 <= b < |weights| :: |weights[b]| == NumConfigs
    ensures r.Ok? <==> forall i | 0 <= i < NumConfigs :: !HeaviestPathWeight(g, Column(weights, i), 0, 0, dropLast)
    ensures r.Err? ==>
      && r.error < NumConfigs
      && HeaviestPathWeight(g, Column(weights, r.error), 0, 0, dropLast)
      && forall j | 0 <= j < r.error :: !HeaviestPathWeight(g, Column(weights, j), 0, 0, dropLast)
    ensures r.Ok? ==> |r.value| == NumConfigs && forall i | 0 <= i < NumConfigs ::
      HeaviestPathWeight(g, Column(weights, i), 0, r.value[i], dropLast) && r.value[i] <= Sum(Column(weights, i))
  {
    var cps: seq<nat> := [];
    var i := 0;
    while i < NumConfigs
      invariant 0 <= i <= NumConfigs && |cps| == i
      invariant forall j | 0 <= j < i ::
        && HeaviestPathWeight(g, Column(weights, j), 0, cps[j], dropLast) && cps[j] > 0
        && cps[j] <= Sum(Column(weights, j))
    {
      var cp := CriticalPathOf(g, order, Column(weights, i), dropLast);
      if cp == 0 {
        forall j | 0 <= j < i
          ensures !HeaviestPathWeight(g, Column(weights, j), 0, 0, dropLast)
        {
          HeaviestPositive(g, Column(weights, j), 0, cps[j], dropLast);
        }
        return Err(i);
      }
      cps := cps + [cp];
      i := i + 1;
    }
    forall j | 0 <= j < NumConfigs
      ensures !HeaviestPathWeight(g, Column(weights, j), 0, 0, dropLast)
    {
      HeaviestPositive(g, Column(weights, j), 0, cps[j], dropLast);
    }
    return Ok(cps);
  }

  /**
   * compute_WCRTs: per configuration, the critical path read at the root
   * block 0, the total weight and Graham's bound on `numCores` cores. With
   * `dropLast` every vertex starts at 0, as in the code, and the critical
   * path leaves out the weight of a path's last vertex; without it every
   * vertex starts at its own weight and the critical path is the heaviest
   * path.
   */
  method ComputeWcrts(g: Graph, weights: seq<seq<nat>>, numCores: int, dropLast: bool) returns (r: Result<Bounds, WcrtError>)
    requires g.Valid() && g.Size() > 0 && |weights| == g.Size()
    requires forall b | 0 <= b < |weights| :: |weights[b]| == NumConfigs
    ensures r == Err(Cyclic) <==> !Acyclic(g)
    ensures r.Ok? <==> Acyclic(g) && numCores >= 1
                       && forall i | 0 <= i < NumConfigs :: !HeaviestPathWeight(g, Column(weights, i), 0, 0, dropLast)
    ensures r.Err? && r.error.ZeroCriticalPath? ==>
      && Acyclic(g) && r.error.config < NumConfigs
      && HeaviestPathWeight(g, Column(weights, r.error.config), 0, 0, dropLast)
      && forall j | 0 <= j < r.error.config :: !HeaviestPathWeight(g, Column(weights, j), 0, 0, dropLast)
    ensures r.Ok? ==>
      && |r.value.wcrts| == |r.value.criticalPaths| == |r.value.volumes| == NumConfigs
      && forall i | 0 <= i < NumConfigs ::
        && HeaviestPathWeight(g, Column(weights, i), 0, r.value.criticalPaths[i], dropLast)
        && r.value.volumes[i] == Sum(Column(weights, i))
        && r.value.criticalPaths[i] <= r.value.volumes[i]
        && r.value.wcrts[i] == GrahamBound(r.value.criticalPaths[i], r.value.volumes[i], numCores)
  {
    var order := TopoSort.TopologicalSort(g);
    if order.None? {
      return Err(Cyclic);
    }
    var cps := CriticalPaths(g, order.value, weights, dropLast);
    if cps.Err? {
      return Err(ZeroCriticalPath(cps.error));
    }
    var cp := cps.value;
    var vols := seq(NumConfigs, k requires 0 <= k < NumConfigs => Sum(Column(weights, k)));
    if numCores < 1 {
      return Err(NoCores);
    }
    var wcrts := seq(NumConfigs, k requires 0 <= k < NumConfigs => GrahamBound(cp[k], vols[k], numCores));
    r := Ok(Bounds(wcrts, cp, vols));
  }
}

=== FILE: set_sequencer.dfy ===
/**
 * The per-address sequencer of pending request IDs
 * (src/mem/ruby/structures/SetSequencer.hh:15-65).
 *
 * Each address maps to an ordered set of the request IDs still pending on
 * it. The ordered set is a strictly increasing sequence, so its first
 * element is the oldest request. An address with nothing pending has no
 * entry.
 */
module SetSequencer {
  import opened Common

  /** A strictly increasing sequence: an ordered set with its elements listed. */
  ghost predicate Increasing(xs: seq<nat>)
  {
    forall i, j | 0 <= i < j < |xs| :: xs[i] < xs[j]
  }

  type Sequencer = map<nat, seq<nat>>

  /** Every stored set is ordered and non-empty. */
  ghost predicate Valid(sq: Sequencer)
  {
    forall a | a in sq :: Increasing(sq[a]) && sq[a] != []
  }

  /** The request IDs pending on an address. */
  ghost function Pending(sq: Sequencer, a: nat): set<nat>
  {
    if a in sq then set x | x in sq[a] else {}
  }

  /** Insert into an ordered set. */
  function Insert(xs: seq<nat>, id: nat): (r: seq<nat>)
    requires Increasing(xs)
    ensures Increasing(r)
    ensures forall x :: x in r <==> x in xs || x == id
  {
    if xs == [] then [id]
    else if id < xs[0] then [id] + xs
    else if id == xs[0] then xs
    else
      var rest := Insert(xs[1..], id);
      assert forall x | x in xs[1..] :: xs[0] < x;
      assert forall i | 0 <= i < |rest| :: rest[i] in rest;
      [xs[0]] + rest
  }

  /** Erase from an ordered set. */
  function Erase(xs: seq<nat>, id: nat): (r: seq<nat>)
    requires Increasing(xs)
    ensures Increasing(r)
    ensures forall x :: x in r <==> x in xs && x != id
  {
    if xs == [] then []
    else if xs[0] == id then
      assert forall x | x in xs[1..] :: xs[0] < x;
      xs[1..]
    else
      var rest := Erase(xs[1..], id);
      assert forall x | x in xs[1..] :: xs[0] < x;
      assert forall i | 0 <= i < |rest| :: rest[i] in rest;
      [xs[0]] + rest
  }

  /** The empty sequencer the constructor builds. */
  function Empty(): (sq: Sequencer)
    ensures Valid(sq) && forall a: nat :: Pending(sq, a) == {}
  {
    map[]
  }

  /** add_pending_request: the ID joins the address's set, which is created if needed. */
  function AddPendingRequest(sq: Sequencer, a: nat, id: nat): (r: Sequencer)
    requires Valid(sq)
    ensures Valid(r)
    ensures Pending(r, a) == Pending(sq, a) + {id}
    ensures r.Keys == sq.Keys + {a}
    ensures forall b | b != a :: b in r <==> b in sq
    ensures forall b | b in sq && b != a :: r[b] == sq[b]
  {
    if a in sq then sq[a := Insert(sq[a], id)] else sq[a := [id]]
  }

  /** get_oldest_req: the smallest pending ID, or 0 when nothing is pending. */
  function GetOldestReq(sq: Sequencer, a: nat): (r: nat)
    requires Valid(sq)
    ensures Pending(sq, a) == {} ==> r == 0
    ensures Pending(sq, a) != {} ==> r in Pending(sq, a) && forall x | x in Pending(sq, a) :: r <= x
  {
    PendingNonEmpty(sq, a);
    if a in sq then
      var xs := sq[a];
      assert forall x | x in xs :: xs[0] <= x;
      xs[0]
    else 0
  }

  /** can_retire: nothing is pending on the address, or the ID is its oldest. */
  function CanRetire(sq: Sequencer, a: nat, id: nat): (r: bool)
    requires Valid(sq)
    ensures r <==> Pending(sq, a) == {} || (id in Pending(sq, a) && forall x | x in Pending(sq, a) :: id <= x)
  {
    PendingNonEmpty(sq, a);
    if a in sq then
      var xs := sq[a];
      assert forall x | x in xs :: xs[0] <= x;
      xs[0] == id
    else true
  }

  /** An address has an entry exactly when something is pending on it. */
  lemma PendingNonEmpty(sq: Sequencer, a: nat)
    requires Valid(sq)
    ensures a in sq <==> Pending(sq, a) != {}
    ensures a in sq ==> sq[a][0] in Pending(sq, a)
  {
    if a in sq {
      assert sq[a][0] in Pending(sq, a);
    }
  }

  datatype SequencerError = CannotRetire | NothingPending

  /**
   * finish_request: the ID must be allowed to retire and the address must
   * have pending requests. The ID leaves the set, and an emptied set is
   * erased.
   */
  function FinishRequest(sq: Sequencer, a: nat, id: nat): (r: Result<Sequencer, SequencerError>)
    requires Valid(sq)
    ensures r.Ok? <==> a in sq && CanRetire(sq, a, id)
    ensures r.Err? ==> r.error == (if CanRetire(sq, a, id) then NothingPending else CannotRetire)
    ensures r.Ok? ==>
      && Valid(r.value)
      && Pending(r.value, a) == Pending(sq, a) - {id}
      && (a in r.value <==> Pending(r.value, a) != {})
      && forall b | b != a :: (b in r.value <==> b in sq) && (b in sq ==> r.value[b] == sq[b])
  {
    if !CanRetire(sq, a, id) then Err(CannotRetire)
    else if a !in sq then Err(NothingPending)
    else
      var rest := Erase(sq[a], id);
      if rest == [] then Ok(sq - {a})
      else
        assert rest[0] in Pending(sq[a := rest], a);
        Ok(sq[a := rest])
  }

  /** Adding an ID that is already pending changes nothing. */
  lemma AddIdempotent(sq: Sequencer, a: nat, id: nat)
    requires Valid(sq) && id in Pending(sq, a)
    ensures AddPendingRequest(sq, a, id) == sq
  {
    InsertPresent(sq[a], id);
  }

  lemma {:induction false} InsertPresent(xs: seq<nat>, id: nat)
    requires Increasing(xs) && id in xs
    ensures Insert(xs, id) == xs
  {
    if xs[0] != id {
      assert id in xs[1..];
      InsertPresent(xs[1..], id);
    }
  }

  /**
   * Requests retire oldest first: once the oldest pending ID is finished,
   * every ID still pending is younger than it, so it can never be retired
   * again before them.
   */
  lemma RetireInOrder(sq: Sequencer, a: nat, id: nat)
    requires Valid(sq) && a in sq && CanRetire(sq, a, id)
    ensures id == GetOldestReq(sq, a)
    ensures FinishRequest(sq, a, id).Ok?
    ensures forall x | x in Pending(FinishRequest(sq, a, id).value, a) :: id < x
  {
  }

  /**
   * On an address with nothing pending, adding a request and then
   * finishing it leaves the sequencer as it was: add and finish are
   * inverse.
   */
  lemma {:induction false} AddThenFinish(sq: Sequencer, a: nat, id: nat)
    requires Valid(sq) && Pending(sq, a) == {}
    ensures FinishRequest(AddPendingRequest(sq, a, id), a, id) == Ok(sq)
  {
    PendingNonEmpty(sq, a);
    var added := AddPendingRequest(sq, a, id);
    assert added == sq[a := [id]];
    assert Erase([id], id) == [];
    assert added - {a} == sq;
  }

  /** Finishing the oldest request and re-adding it restores the sequencer. */
  lemma {:induction false} FinishThenAdd(sq: Sequencer, a: nat, id: nat)
    requires Valid(sq) && a in sq && CanRetire(sq, a, id)
    ensures AddPendingRequest(FinishRequest(sq, a, id).value, a, id) == sq
  {
    var xs := sq[a];
    PendingNonEmpty(sq, a);
    assert xs[0] == id;
    EraseHead(xs);
    var rest := xs[1..];
    var finished := FinishRequest(sq, a, id).value;
    if rest == [] {
      assert finished == sq - {a};
      assert xs == [id];
      assert finished[a := [id]] == sq;
    } else {
      assert finished == sq[a := rest];
      InsertHead(xs);
      assert finished[a := Insert(rest, id)] == sq;
    }
  }

  lemma EraseHead(xs: seq<nat>)
    requires Increasing(xs) && xs != []
    ensures Erase(xs, xs[0]) == xs[1..]
  {
  }

  lemma InsertHead(xs: seq<nat>)
    requires Increasing(xs) && |xs| > 1
    ensures Insert(xs[1..], xs[0]) == xs
  {
    assert xs[1..][0] == xs[1];
    assert [xs[0]] + xs[1..] == xs;
  }
}

=== FILE: sharing.dfy ===
/**
 * Which accesses are shared (omptr/analyzer/analyzer.cc:224-334).
 *
 * Two blocks are parallel when neither reaches the other in the task graph.
 * An access of block u to a cache line is shared when some parallel block
 * has an access to the same line and either the access is an instruction
 * fetch or the parallel block ran on a different thread. Blocks are visited
 * in order; each access is first tried against a "guess" block (the last
 * parallel block that produced a hit) and then against every parallel block
 * in ascending order; a hit in that scan also marks the matching access of
 * the parallel block as shared.
 */
module Sharing {
  import opened Common
  import opened Graphs
  import opened Reachability
  import opened MemStats

  datatype ShareError =
    | SizeMismatch           // the graph and the statistics disagree on the number of blocks
    | NotConnected           // a block is unreachable from the root or cannot reach the exit
    | Inconsistent(bb: nat)  // a record of block `bb` names another block or another thread

  /** u and v are different blocks and neither's row of the connection map holds the other. */
  predicate Parallel(cmap: ComponentsMap, u: nat, v: nat)
    requires u < |cmap| && v < |cmap|
  {
    u != v && v !in cmap[u] && u !in cmap[v]
  }

  /** The blocks from `v` on that are parallel to `u`, in ascending order (analyzer.cc:256-261). */
  function ParallelFrom(cmap: ComponentsMap, u: nat, v: nat): (r: seq<nat>)
    requires u < |cmap| && v <= |cmap|
    ensures forall p: nat :: p in r <==> v <= p < |cmap| && Parallel(cmap, u, p)
    ensures forall i, j | 0 <= i < j < |r| :: r[i] < r[j]
    decreases |cmap| - v
  {
    if v == |cmap| then []
    else
      var rest := ParallelFrom(cmap, u, v + 1);
      assert forall j | 0 <= j < |rest| :: rest[j] in rest;
      if Parallel(cmap, u, v) then [v] + rest else rest
  }

  /** The thread that ran a block: the thread of its first record. */
  function Tid(m: AddrMap): int
    requires m != []
  {
    m[0].threadId
  }

  /**
   * Block p counts as sharing `line` with an access of thread `tid`: p has
   * records, it holds the line, and either the access is an instruction
   * fetch or p ran on another thread (analyzer.cc:279-307).
   */
  predicate Hit(maps: seq<AddrMap>, tid: int, isIfetch: bool, line: nat, p: nat)
    requires p < |maps|
  {
    maps[p] != [] && (isIfetch || tid != Tid(maps[p])) && line in Keys(maps[p])
  }

  /** The first listed block that hits, if any (analyzer.cc:292-320). */
  function Scan(maps: seq<AddrMap>, tid: int, isIfetch: bool, line: nat, ps: seq<nat>): (r: Option<nat>)
    requires forall p | p in ps :: p < |maps|
    ensures r.Some? ==> r.value in ps && Hit(maps, tid, isIfetch, line, r.value)
    ensures r.None? <==> forall p | p in ps :: !Hit(maps, tid, isIfetch, line, p)
  {
    if ps == [] then None
    else
      assert ps[0] in ps && forall p | p in ps[1..] :: p in ps;
      if Hit(maps, tid, isIfetch, line, ps[0]) then Some(ps[0])
    else Scan(maps, tid, isIfetch, line, ps[1..])
  }

  function SetShared(m: AddrMap, k: nat): (r: AddrMap)
    requires k < |m|
  {
    m[k := m[k].(isShared := true)]
  }

  // -----------------------------------------------------------------------
  // Everything but the sharing flags

  function Unflag(x: AccessRecord): AccessRecord
  {
    x.(isShared := false)
  }

  function Strip(m: AddrMap): (r: AddrMap)
    ensures |r| == |m| && forall j | 0 <= j < |m| :: r[j] == Unflag(m[j])
  {
    seq(|m|, j requires 0 <= j < |m| => Unflag(m[j]))
  }

  /** The maps with every sharing flag cleared: what classification must not change. */
  function Shape(maps: seq<AddrMap>): (r: seq<AddrMap>)
    ensures |r| == |maps| && forall v | 0 <= v < |maps| :: r[v] == Strip(maps[v])
  {
    seq(|maps|, v requires 0 <= v < |maps| => Strip(maps[v]))
  }

  /** Same shape, and every flag set in `a` is still set in `b`. */
  ghost predicate FlagsRise(a: seq<AddrMap>, b: seq<AddrMap>)
  {
    && Shape(a) == Shape(b)
    && SameLengths(a, b)
    && forall v, j | 0 <= v < |a| && 0 <= j < |a[v]| :: a[v][j].isShared ==> b[v][j].isShared
  }

  /** Every block has as many records in `a` as in `b`. */
  ghost predicate SameLengths(a: seq<AddrMap>, b: seq<AddrMap>)
  {
    |a| == |b| && forall v | 0 <= v < |a| :: |a[v]| == |b[v]|
  }

  lemma ShapeFacts(a: seq<AddrMap>, b: seq<AddrMap>)
    requires Shape(a) == Shape(b)
    ensures SameLengths(a, b)
    ensures forall v | 0 <= v < |a| :: Keys(a[v]) == Keys(b[v])
    ensures forall v, j | 0 <= v < |a| && 0 <= j < |a[v]| ::
      && a[v][j].lineAddress == b[v][j].lineAddress && a[v][j].isIfetch == b[v][j].isIfetch
      && a[v][j].threadId == b[v][j].threadId && a[v][j].bbId == b[v][j].bbId
  {
    assert |a| == |Shape(a)|;
    forall v | 0 <= v < |a|
      ensures |a[v]| == |b[v]| && Keys(a[v]) == Keys(b[v])
      ensures forall j | 0 <= j < |a[v]| ::
        && a[v][j].lineAddress == b[v][j].lineAddress && a[v][j].isIfetch == b[v][j].isIfetch
        && a[v][j].threadId == b[v][j].threadId && a[v][j].bbId == b[v][j].bbId
    {
      assert Shape(a)[v] == Strip(a[v]) && Shape(b)[v] == Strip(b[v]);
      assert |a[v]| == |Strip(a[v])|;
      forall j | 0 <= j < |a[v]|
        ensures Unflag(a[v][j]) == Unflag(b[v][j])
      {
        assert Strip(a[v])[j] == Unflag(a[v][j]);
      }
      forall x | x in Keys(a[v])
        ensures x in Keys(b[v])
      {
        var j :| 0 <= j < |a[v]| && a[v][j].lineAddress == x;
        assert Unflag(a[v][j]) == Unflag(b[v][j]);
      }
      forall x | x in Keys(b[v])
        ensures x in Keys(a[v])
      {
        var j :| 0 <= j < |b[v]| && b[v][j].lineAddress == x;
        assert Unflag(a[v][j]) == Unflag(b[v][j]);
      }
    }
  }

  /** Blocks with the same shape hit alike. */
  lemma ShapeHit(a: seq<AddrMap>, b: seq<AddrMap>, tid: int, isIfetch: bool, line: nat, p: nat)
    requires Shape(a) == Shape(b) && p < |a|
    ensures |b| == |a| && (Hit(a, tid, isIfetch, line, p) <==> Hit(b, tid, isIfetch, line, p))
  {
    ShapeFacts(a, b);
  }

  lemma SetSharedShape(maps: seq<AddrMap>, v: nat, k: nat)
    requires v < |maps| && k < |maps[v]|
    ensures Shape(maps[v := SetShared(maps[v], k)]) == Shape(maps)
  {
    var m := maps[v := SetShared(maps[v], k)];
    assert Strip(SetShared(maps[v], k)) == Strip(maps[v]);
    assert forall w | 0 <= w < |m| :: Shape(m)[w] == Shape(maps)[w];
  }

  /** Shape-equal maps hit alike, for every query. */
  lemma HitsAlike(a: seq<AddrMap>, b: seq<AddrMap>)
    requires Shape(a) == Shape(b)
    ensures |a| == |b|
    ensures forall tid, isIfetch, line, p | 0 <= p < |a| ::
      Hit(a, tid, isIfetch, line, p) <==> Hit(b, tid, isIfetch, line, p)
  {
    ShapeFacts(a, b);
  }

  // -----------------------------------------------------------------------
  // Classification as written

  /**
   * One access of block u (position k of its map) run by thread `tid`,
   * with the parallel blocks `ps` and the current guess `g`. Returns the
   * updated maps and the next guess (analyzer.cc:269-324).
   */
  function ClassifyAccess(maps: seq<AddrMap>, u: nat, tid: int, ps: seq<nat>, g: nat, k: nat): (r: (seq<AddrMap>, nat))
    requires u < |maps| && k < |maps[u]| && g in ps
    requires forall p | p in ps :: p < |maps| && p != u
    ensures r.1 in ps && FlagsRise(maps, r.0)
    ensures r.0[u][k].isShared <==>
      maps[u][k].isShared || exists p | p in ps :: Hit(maps, tid, maps[u][k].isIfetch, maps[u][k].lineAddress, p)
    ensures forall j | 0 <= j < |maps[u]| && j != k :: r.0[u][j] == maps[u][j]
    ensures forall v, j | 0 <= v < |maps| && v != u && 0 <= j < |maps[v]| && r.0[v][j].isShared && !maps[v][j].isShared ::
      && v in ps && maps[v][j].lineAddress == maps[u][k].lineAddress
      && Hit(maps, tid, maps[u][k].isIfetch, maps[u][k].lineAddress, v)
  {
    var e := maps[u][k];
    if e.isShared then (maps, g)
    else if Hit(maps, tid, e.isIfetch, e.lineAddress, g) then
      MarkFacts(maps, u, k);
      (maps[u := SetShared(maps[u], k)], g)
    else
      match Scan(maps, tid, e.isIfetch, e.lineAddress, ps)
      case None => (maps, g)
      case Some(p) =>
        var j := Find(maps[p], e.lineAddress).value;
        var marked := maps[p := SetShared(maps[p], j)];
        MarkFacts(maps, p, j);
        MarkFacts(marked, u, k);
        (marked[u := SetShared(marked[u], k)], p)
  }

  /** Setting one flag raises that flag and changes nothing else. */
  lemma MarkFacts(maps: seq<AddrMap>, v: nat, k: nat)
    requires v < |maps| && k < |maps[v]|
    ensures var m := maps[v := SetShared(maps[v], k)];
      && FlagsRise(maps, m) && m[v][k].isShared
      && forall w, j | 0 <= w < |maps| && 0 <= j < |maps[w]| && (w != v || j != k) :: m[w][j] == maps[w][j]
  {
    var m := maps[v := SetShared(maps[v], k)];
    SetSharedShape(maps, v, k);
    ShapeFacts(maps, m);
  }

  /** The accesses of block u from position k on (analyzer.cc:267-325). */
  function ClassifyFrom(maps: seq<AddrMap>, u: nat, tid: int, ps: seq<nat>, g: nat, k: nat): (r: seq<AddrMap>)
    requires u < |maps| && k <= |maps[u]| && g in ps
    requires forall p | p in ps :: p < |maps| && p != u
    ensures FlagsRise(maps, r)
    ensures forall j | 0 <= j < k :: r[u][j] == maps[u][j]
    ensures forall j | k <= j < |maps[u]| :: r[u][j].isShared <==>
      maps[u][j].isShared || exists p | p in ps :: Hit(maps, tid, maps[u][j].isIfetch, maps[u][j].lineAddress, p)
    ensures forall v, j | 0 <= v < |maps| && v != u && 0 <= j < |maps[v]| && r[v][j].isShared && !maps[v][j].isShared ::
      && v in ps
      && exists i | k <= i < |maps[u]| ::
           maps[u][i].lineAddress == maps[v][j].lineAddress && Hit(maps, tid, maps[u][i].isIfetch, maps[u][i].lineAddress, v)
    decreases |maps[u]| - k
  {
    if k == |maps[u]| then maps
    else
      var step := ClassifyAccess(maps, u, tid, ps, g, k);
      ShapeFacts(maps, step.0);
      HitsAlike(maps, step.0);
      ClassifyFrom(step.0, u, tid, ps, step.1, k + 1)
  }

  /** The source's per-record assertions (analyzer.cc:270-271): every record names block u and one thread. */
  predicate RecordsConsistent(m: AddrMap, u: nat)
  {
    forall j | 0 <= j < |m| :: m[j].bbId == u && m[j].threadId == m[0].threadId
  }

  /** The assertions run for block u only when it has records and some parallel block. */
  predicate Checked(maps: seq<AddrMap>, cmap: ComponentsMap, u: nat)
    requires |cmap| == |maps| && u < |maps|
  {
    maps[u] != [] && ParallelFrom(cmap, u, 0) != []
  }

  /** One block (analyzer.cc:249-327). */
  function ClassifyBlock(maps: seq<AddrMap>, cmap: ComponentsMap, u: nat): (r: Result<seq<AddrMap>, ShareError>)
    requires |cmap| == |maps| && u < |maps|
    ensures r.Ok? <==> !Checked(maps, cmap, u) || RecordsConsistent(maps[u], u)
    ensures r.Err? ==> r.error == Inconsistent(u)
    ensures r.Ok? ==> FlagsRise(maps, r.value)
  {
    var ps := ParallelFrom(cmap, u, 0);
    if maps[u] == [] || ps == [] then Ok(maps)
    else if !RecordsConsistent(maps[u], u) then Err(Inconsistent(u))
    else
      assert ps[0] in ps;
      Ok(ClassifyFrom(maps, u, Tid(maps[u]), ps, ps[0], 0))
  }

  /** Blocks u, u+1, ... in order; the first failed assertion stops the analysis. */
  function ClassifyAll(maps: seq<AddrMap>, cmap: ComponentsMap, u: nat): (r: Result<seq<AddrMap>, ShareError>)
    requires |cmap| == |maps| && u <= |maps|
    ensures r.Ok? <==> forall v | u <= v < |maps| :: !Checked(maps, cmap, v) || RecordsConsistent(maps[v], v)
    ensures r.Ok? ==> FlagsRise(maps, r.value)
    ensures r.Err? ==>
      && r.error.Inconsistent? && u <= r.error.bb < |maps|
      && Checked(maps, cmap, r.error.bb) && !RecordsConsistent(maps[r.error.bb], r.error.bb)
      && forall v | u <= v < r.error.bb :: !Checked(maps, cmap, v) || RecordsConsistent(maps[v], v)
    decreases |maps| - u
  {
    if u == |maps| then Ok(maps)
    else
      match ClassifyBlock(maps, cmap, u)
      case Err(e) => Err(e)
      case Ok(m1) =>
        ChecksAlike(maps, m1, cmap);
        var r := ClassifyAll(m1, cmap, u + 1);
        if r.Ok? then
          FlagsRiseTrans(maps, m1, r.value);
          r
        else r
  }

  /** Raising flags changes neither which blocks are checked nor whether they pass. */
  lemma ChecksAlike(a: seq<AddrMap>, b: seq<AddrMap>, cmap: ComponentsMap)
    requires |cmap| == |a| && Shape(a) == Shape(b)
    ensures |b| == |a|
    ensures forall v | 0 <= v < |a| :: Checked(a, cmap, v) <==> Checked(b, cmap, v)
    ensures forall v | 0 <= v < |a| :: RecordsConsistent(a[v], v) <==> RecordsConsistent(b[v], v)
  {
    ShapeFacts(a, b);
  }

  // -----------------------------------------------------------------------
  // What the flags mean

  /** Access j of block v should be shared: some parallel block hits its line. */
  predicate ShouldShare(maps: seq<AddrMap>, cmap: ComponentsMap, v: nat, j: nat)
    requires |cmap| == |maps| && v < |maps| && j < |maps[v]|
  {
    exists p | 0 <= p < |maps| ::
      Parallel(cmap, v, p) && Hit(maps, Tid(maps[v]), maps[v][j].isIfetch, maps[v][j].lineAddress, p)
  }

  /** Some parallel block touches the line of access j of block v at all. */
  predicate LineInParallel(maps: seq<AddrMap>, cmap: ComponentsMap, v: nat, j: nat)
    requires |cmap| == |maps| && v < |maps| && j < |maps[v]|
  {
    exists p | 0 <= p < |maps| :: Parallel(cmap, v, p) && maps[v][j].lineAddress in Keys(maps[p])
  }

  /** No line is fetched as an instruction in one record and as data in another. */
  predicate ConsistentIfetch(maps: seq<AddrMap>)
  {
    forall v, j, w, i | 0 <= v < |maps| && 0 <= j < |maps[v]| && 0 <= w < |maps| && 0 <= i < |maps[w]| ::
      maps[v][j].lineAddress == maps[w][i].lineAddress ==> maps[v][j].isIfetch == maps[w][i].isIfetch
  }

  predicate NoneShared(maps: seq<AddrMap>)
  {
    forall v, j | 0 <= v < |maps| && 0 <= j < |maps[v]| :: !maps[v][j].isShared
  }

  /**
   * What holds after blocks 0..u-1 of `maps0` are done: accesses of those
   * blocks that should be shared are; every flag raised sits on a line some
   * parallel block touches; and, when lines are used consistently, every
   * flag raised should be.
   */
  ghost predicate Progress(maps0: seq<AddrMap>, cmap: ComponentsMap, maps: seq<AddrMap>, u: nat)
    requires |cmap| == |maps0|
  {
    && FlagsRise(maps0, maps)
    && (forall v, j | 0 <= v < u && v < |maps0| && 0 <= j < |maps0[v]| ::
          ShouldShare(maps0, cmap, v, j) ==> maps[v][j].isShared)
    && (forall v, j | 0 <= v < |maps0| && 0 <= j < |maps0[v]| ::
          maps[v][j].isShared ==> maps0[v][j].isShared || LineInParallel(maps0, cmap, v, j))
    && (ConsistentIfetch(maps0) ==>
          forall v, j | 0 <= v < |maps0| && 0 <= j < |maps0[v]| ::
            maps[v][j].isShared ==> maps0[v][j].isShared || ShouldShare(maps0, cmap, v, j))
  }

  lemma FlagsRiseTrans(a: seq<AddrMap>, b: seq<AddrMap>, c: seq<AddrMap>)
    requires FlagsRise(a, b) && FlagsRise(b, c)
    ensures FlagsRise(a, c)
  {
  }

  /** Processing block u extends the progress to u + 1. */
  lemma BlockProgress(maps0: seq<AddrMap>, cmap: ComponentsMap, maps: seq<AddrMap>, u: nat)
    requires |cmap| == |maps0| && u < |maps0| && Progress(maps0, cmap, maps, u)
    requires ClassifyBlock(maps, cmap, u).Ok?
    ensures Progress(maps0, cmap, ClassifyBlock(maps, cmap, u).value, u + 1)
  {
    ShapeFacts(maps0, maps);
    var ps := ParallelFrom(cmap, u, 0);
    var r := ClassifyBlock(maps, cmap, u).value;
    if maps[u] == [] {
      assert r == maps;
    } else if ps == [] {
      assert r == maps;
      forall p: nat | p < |cmap|
        ensures !Parallel(cmap, u, p)
      {
        assert p !in ps;
      }
    } else {
      assert ps[0] in ps;
      var tid := Tid(maps[u]);
      assert tid == Tid(maps0[u]);
      assert r == ClassifyFrom(maps, u, tid, ps, ps[0], 0);
      FlagsRiseTrans(maps0, maps, r);
      HitsAlike(maps0, maps);
      BlockComplete(maps0, cmap, maps, u, ps, r);
      BlockSound(maps0, cmap, maps, u, ps, r);
      if ConsistentIfetch(maps0) {
        BlockExact(maps0, cmap, maps, u, ps, r);
      }
    }
  }

  lemma BlockComplete(maps0: seq<AddrMap>, cmap: ComponentsMap, maps: seq<AddrMap>, u: nat, ps: seq<nat>, r: seq<AddrMap>)
    requires |cmap| == |maps0| && u < |maps0| && Progress(maps0, cmap, maps, u)
    requires ps == ParallelFrom(cmap, u, 0) && ps != [] && maps[u] != []
    requires r == ClassifyFrom(maps, u, Tid(maps[u]), ps, ps[0], 0)
    ensures forall v, j | 0 <= v < u + 1 && v < |maps0| && 0 <= j < |maps0[v]| ::
      ShouldShare(maps0, cmap, v, j) ==> r[v][j].isShared
  {
    ShapeFacts(maps0, maps);
    HitsAlike(maps0, maps);
    forall j | 0 <= j < |maps0[u]| && ShouldShare(maps0, cmap, u, j)
      ensures r[u][j].isShared
    {
      var p :| 0 <= p < |maps0| && Parallel(cmap, u, p) && Hit(maps0, Tid(maps0[u]), maps0[u][j].isIfetch, maps0[u][j].lineAddress, p);
      assert p in ps;
      assert Hit(maps, Tid(maps[u]), maps[u][j].isIfetch, maps[u][j].lineAddress, p);
    }
  }

  lemma BlockSound(maps0: seq<AddrMap>, cmap: ComponentsMap, maps: seq<AddrMap>, u: nat, ps: seq<nat>, r: seq<AddrMap>)
    requires |cmap| == |maps0| && u < |maps0| && Progress(maps0, cmap, maps, u)
    requires ps == ParallelFrom(cmap, u, 0) && ps != [] && maps[u] != []
    requires r == ClassifyFrom(maps, u, Tid(maps[u]), ps, ps[0], 0)
    ensures forall v, j | 0 <= v < |maps0| && 0 <= j < |maps0[v]| ::
      r[v][j].isShared ==> maps0[v][j].isShared || LineInParallel(maps0, cmap, v, j)
  {
    ShapeFacts(maps0, maps);
    var tid := Tid(maps[u]);
    forall v, j | 0 <= v < |maps0| && 0 <= j < |maps0[v]| && r[v][j].isShared && !maps[v][j].isShared
      ensures LineInParallel(maps0, cmap, v, j)
    {
      if v == u {
        var p :| p in ps && Hit(maps, tid, maps[u][j].isIfetch, maps[u][j].lineAddress, p);
        assert Parallel(cmap, u, p);
      } else {
        assert v in ps;
        var i :| 0 <= i < |maps[u]| && maps[u][i].lineAddress == maps[v][j].lineAddress
          && Hit(maps, tid, maps[u][i].isIfetch, maps[u][i].lineAddress, v);
        assert Parallel(cmap, v, u);
        assert maps0[u][i].lineAddress in Keys(maps0[u]);
      }
    }
  }

  lemma BlockExact(maps0: seq<AddrMap>, cmap: ComponentsMap, maps: seq<AddrMap>, u: nat, ps: seq<nat>, r: seq<AddrMap>)
    requires |cmap| == |maps0| && u < |maps0| && Progress(maps0, cmap, maps, u)
    requires ps == ParallelFrom(cmap, u, 0) && ps != [] && maps[u] != []
    requires r == ClassifyFrom(maps, u, Tid(maps[u]), ps, ps[0], 0)
    requires ConsistentIfetch(maps0)
    ensures forall v, j | 0 <= v < |maps0| && 0 <= j < |maps0[v]| ::
      r[v][j].isShared ==> maps0[v][j].isShared || ShouldShare(maps0, cmap, v, j)
  {
    ShapeFacts(maps0, maps);
    HitsAlike(maps0, maps);
    var tid := Tid(maps[u]);
    forall v, j | 0 <= v < |maps0| && 0 <= j < |maps0[v]| && r[v][j].isShared && !maps[v][j].isShared
      ensures ShouldShare(maps0, cmap, v, j)
    {
      if v == u {
        var p :| p in ps && Hit(maps, tid, maps[u][j].isIfetch, maps[u][j].lineAddress, p);
        assert Parallel(cmap, u, p);
        assert Hit(maps0, Tid(maps0[u]), maps0[u][j].isIfetch, maps0[u][j].lineAddress, p);
      } else {
        assert v in ps;
        var i :| 0 <= i < |maps[u]| && maps[u][i].lineAddress == maps[v][j].lineAddress
          && Hit(maps, tid, maps[u][i].isIfetch, maps[u][i].lineAddress, v);
        assert Parallel(cmap, v, u);
        assert maps0[u][i].isIfetch == maps0[v][j].isIfetch;
        assert maps0[u][i].lineAddress in Keys(maps0[u]);
        assert Hit(maps0, Tid(maps0[v]), maps0[v][j].isIfetch, maps0[v][j].lineAddress, u);
      }
    }
  }

  lemma {:induction false} AllProgress(maps0: seq<AddrMap>, cmap: ComponentsMap, maps: seq<AddrMap>, u: nat)
    requires |cmap| == |maps0| && u <= |maps0| && Progress(maps0, cmap, maps, u)
    requires ClassifyAll(maps, cmap, u).Ok?
    ensures Progress(maps0, cmap, ClassifyAll(maps, cmap, u).value, |maps0|)
    decreases |maps0| - u
  {
    assert |maps| == |maps0| by {
      assert SameLengths(maps0, maps);
    }
    if u < |maps0| {
      var m1 := ClassifyBlock(maps, cmap, u).value;
      assert ClassifyAll(maps, cmap, u) == ClassifyAll(m1, cmap, u + 1);
      BlockProgress(maps0, cmap, maps, u);
      AllProgress(maps0, cmap, m1, u + 1);
    }
  }

  /** The flags the analysis leaves, as a function of the input. */
  lemma ProgressStart(maps: seq<AddrMap>, cmap: ComponentsMap)
    requires |cmap| == |maps|
    ensures Progress(maps, cmap, maps, 0)
  {
  }

  /** Every access some parallel block hits ends up shared. */
  lemma SharedComplete(maps: seq<AddrMap>, cmap: ComponentsMap)
    requires |cmap| == |maps| && ClassifyAll(maps, cmap, 0).Ok?
    ensures var out := ClassifyAll(maps, cmap, 0).value;
      && SameLengths(maps, out)
      && forall v, j | 0 <= v < |maps| && 0 <= j < |maps[v]| :: ShouldShare(maps, cmap, v, j) ==> out[v][j].isShared
  {
    ProgressStart(maps, cmap);
    AllProgress(maps, cmap, maps, 0);
  }

  /** A flag ends up set only if it was set or some parallel block touches the same line. */
  lemma SharedSound(maps: seq<AddrMap>, cmap: ComponentsMap)
    requires |cmap| == |maps| && ClassifyAll(maps, cmap, 0).Ok?
    ensures var out := ClassifyAll(maps, cmap, 0).value;
      && SameLengths(maps, out)
      && forall v, j | 0 <= v < |maps| && 0 <= j < |maps[v]| ::
           out[v][j].isShared ==> maps[v][j].isShared || LineInParallel(maps, cmap, v, j)
  {
    ProgressStart(maps, cmap);
    AllProgress(maps, cmap, maps, 0);
  }

  /**
   * When no flag is set yet and every line is used one way only, an access
   * ends up shared exactly when some parallel block hits it: the guess and
   * the marking of the parallel block's access change nothing in the result.
   */
  lemma SharedExact(maps: seq<AddrMap>, cmap: ComponentsMap)
    requires |cmap| == |maps| && ClassifyAll(maps, cmap, 0).Ok?
    requires NoneShared(maps) && ConsistentIfetch(maps)
    ensures var out := ClassifyAll(maps, cmap, 0).value;
      && Shape(out) == Shape(maps) && SameLengths(maps, out)
      && forall v, j | 0 <= v < |maps| && 0 <= j < |maps[v]| ::
           out[v][j].isShared <==> ShouldShare(maps, cmap, v, j)
  {
    ProgressStart(maps, cmap);
    AllProgress(maps, cmap, maps, 0);
  }

  // -----------------------------------------------------------------------
  // A second pass changes nothing

  /** Every access that should be shared already is. */
  ghost predicate Closed(maps: seq<AddrMap>, cmap: ComponentsMap)
    requires |cmap| == |maps|
  {
    forall v, j | 0 <= v < |maps| && 0 <= j < |maps[v]| :: ShouldShare(maps, cmap, v, j) ==> maps[v][j].isShared
  }

  lemma {:induction false} FromUnchangedWhenClosed(maps: seq<AddrMap>, cmap: ComponentsMap, u: nat, ps: seq<nat>, g: nat, k: nat)
    requires |cmap| == |maps| && u < |maps| && maps[u] != [] && k <= |maps[u]|
    requires ps == ParallelFrom(cmap, u, 0) && g in ps && Closed(maps, cmap)
    ensures ClassifyFrom(maps, u, Tid(maps[u]), ps, g, k) == maps
    decreases |maps[u]| - k
  {
    if k < |maps[u]| {
      var e := maps[u][k];
      if !e.isShared {
        forall p | p in ps
          ensures Hit(maps, Tid(maps[u]), e.isIfetch, e.lineAddress, p) ==> ShouldShare(maps, cmap, u, k)
        {
          assert Parallel(cmap, u, p);
        }
      }
      assert ClassifyAccess(maps, u, Tid(maps[u]), ps, g, k).0 == maps;
      FromUnchangedWhenClosed(maps, cmap, u, ps, ClassifyAccess(maps, u, Tid(maps[u]), ps, g, k).1, k + 1);
    }
  }

  lemma {:induction false} AllUnchangedWhenClosed(maps: seq<AddrMap>, cmap: ComponentsMap, u: nat)
    requires |cmap| == |maps| && u <= |maps| && Closed(maps, cmap)
    requires forall v | u <= v < |maps| :: !Checked(maps, cmap, v) || RecordsConsistent(maps[v], v)
    ensures ClassifyAll(maps, cmap, u) == Ok(maps)
    decreases |maps| - u
  {
    if u < |maps| {
      var ps := ParallelFrom(cmap, u, 0);
      if maps[u] != [] && ps != [] {
        assert ps[0] in ps;
        FromUnchangedWhenClosed(maps, cmap, u, ps, ps[0], 0);
      }
      assert ClassifyBlock(maps, cmap, u) == Ok(maps);
      AllUnchangedWhenClosed(maps, cmap, u + 1);
    }
  }

  /** Running the analysis on its own output returns that output unchanged. */
  lemma ClassifyIdempotent(maps: seq<AddrMap>, cmap: ComponentsMap)
    requires |cmap| == |maps| && ClassifyAll(maps, cmap, 0).Ok?
    ensures var out := ClassifyAll(maps, cmap, 0).value;
      |out| == |cmap| && ClassifyAll(out, cmap, 0) == Ok(out)
  {
    var out := ClassifyAll(maps, cmap, 0).value;
    SharedComplete(maps, cmap);
    ShapeFacts(maps, out);
    HitsAlike(maps, out);
    forall v, j | 0 <= v < |out| && 0 <= j < |out[v]| && ShouldShare(out, cmap, v, j)
      ensures out[v][j].isShared
    {
      var p :| 0 <= p < |out| && Parallel(cmap, v, p) && Hit(out, Tid(out[v]), out[v][j].isIfetch, out[v][j].lineAddress, p);
      assert Hit(maps, Tid(maps[v]), maps[v][j].isIfetch, maps[v][j].lineAddress, p);
      assert ShouldShare(maps, cmap, v, j);
    }
    forall v | 0 <= v < |out|
      ensures !Checked(out, cmap, v) || RecordsConsistent(out[v], v)
    {
      assert !Checked(maps, cmap, v) || RecordsConsistent(maps[v], v);
    }
    AllUnchangedWhenClosed(out, cmap, 0);
  }

  // -----------------------------------------------------------------------
  // The analysis on a task graph

  /** The connection map of a graph: row v holds the descendants of v. */
  ghost function DescMap(g: Graph): (cmap: ComponentsMap)
    ensures |cmap| == g.Size() && forall v | 0 <= v < g.Size() :: cmap[v] == Desc(g, v)
  {
    seq(g.Size(), v requires 0 <= v < g.Size() => Desc(g, v))
  }

  /** Over the connection map of a graph, parallel means: distinct and neither reaches the other. */
  lemma ParallelMeaning(g: Graph, u: Vertex, v: Vertex)
    requires u < g.Size() && v < g.Size()
    ensures Parallel(DescMap(g), u, v) <==> u != v && !Reaches(g, u, v) && !Reaches(g, v, u)
  {
    assert DescMap(g)[u] == Desc(g, u) && DescMap(g)[v] == Desc(g, v);
  }

  /**
   * analyze_shared_access (analyzer.cc:224-334): the statistics must hold
   * one map per vertex, every vertex must be reachable from the root and
   * reach the exit, and then the blocks are classified over the connection
   * map. The connection map is computed along `order`.
   */
  method AnalyzeSharedAccess(g: Graph, order: seq<Vertex>, maps: seq<AddrMap>, root: Vertex, exit: Vertex)
    returns (r: Result<seq<AddrMap>, ShareError>)
    requires g.Valid() && IsReverseTopoOrder(g, order) && root < g.Size() && exit < g.Size()
    ensures r == Err(SizeMismatch) <==> |maps| != g.Size()
    ensures r == Err(NotConnected) <==>
      && |maps| == g.Size()
      && !forall u | 0 <= u < g.Size() :: (u != root ==> Reaches(g, root, u)) && (u != exit ==> Reaches(g, u, exit))
    ensures r.Ok? || r.error.Inconsistent? ==> |maps| == g.Size() && r == ClassifyAll(maps, DescMap(g), 0)
  {
    if |maps| != g.Size() {
      return Err(SizeMismatch);
    }
    var cmap := ConnectedComponents(g, order);
    assert cmap == DescMap(g);
    RootAndExitConnectedMeaning(g, cmap, root, exit);
    if !RootAndExitConnected(cmap, root, exit) {
      return Err(NotConnected);
    }
    r := ClassifyAll(maps, cmap, 0);
  }

  /** Freshly read statistics carry no sharing flag and every record names its own block. */
  lemma IngestedUnshared(msgs: seq<TraceMsg>)
    requires Ingest(msgs).Ok?
    ensures var maps := Ingest(msgs).value.maps;
      && NoneShared(maps)
      && forall v, j | 0 <= v < |maps| && 0 <= j < |maps[v]| :: maps[v][j].bbId == v
  {
    var maps: seq<AddrMap> := Ingest(msgs).value.maps;
    forall v, j | 0 <= v < |maps| && 0 <= j < |maps[v]|
      ensures !maps[v][j].isShared && maps[v][j].bbId == v
    {
      assert FromMessage(msgs, v, maps[v][j]);
    }
  }
}

=== FILE: topo_sort.dfy ===
/**
 * Depth-first topological sort: the stand-in for `boost::topological_sort`,
 * which omptr/analyzer/analyzer.cc:167 uses to validate the parsed task graph.
 *
 * Vertices are started in ascending order, out-edges are examined in
 * insertion order, and a vertex is emitted when it finishes, so the result
 * lists sinks first and the first root last. Meeting an edge into a vertex
 * that is still on the search stack (a back edge) aborts the sort, as Boost
 * does by throwing `not_a_dag`.
 */
module TopoSort {
  import opened Common
  import opened Graphs

  /** Out-edges still to be examined across the frames of a search stack. */
  function Pending(g: Graph, vs: seq<Vertex>, nx: seq<nat>): nat
    requires |vs| == |nx|
  {
    if vs == [] then 0
    else
      var v, c := vs[|vs| - 1], nx[|nx| - 1];
      Pending(g, vs[..|vs| - 1], nx[..|nx| - 1])
        + (if v < |g.succ| && c < |g.succ[v]| then |g.succ[v]| - c else 0)
  }

  /**
   * The search stack: frame k holds vertex `vs[k]` and the index `nx[k]` of
   * its next out-edge to examine; each frame below the top is waiting for
   * the frame above it, the target of its latest examined out-edge.
   */
  ghost predicate FramesOk(g: Graph, vs: seq<Vertex>, nx: seq<nat>)
  {
    && |vs| == |nx|
    && (forall k | 0 <= k < |vs| :: vs[k] < |g.succ| && nx[k] <= |g.succ[vs[k]]|)
    && Distinct(vs)
    && (forall k | 0 <= k < |vs| - 1 :: 1 <= nx[k] && g.succ[vs[k]][nx[k] - 1] == vs[k + 1])
  }

  /** Frames are unfinished, and each examined out-edge leads to a finished vertex or to the frame above. */
  ghost predicate StackInv(g: Graph, vs: seq<Vertex>, nx: seq<nat>, done: set<Vertex>)
  {
    && FramesOk(g, vs, nx)
    && (forall k | 0 <= k < |vs| :: vs[k] !in done)
    && (forall k, c | 0 <= k < |vs| && 0 <= c < nx[k] ::
          g.succ[vs[k]][c] in done || (k + 1 < |vs| && c == nx[k] - 1))
  }

  /** The undiscovered vertices: neither finished nor on the stack. */
  ghost predicate WhiteInv(g: Graph, vs: seq<Vertex>, done: set<Vertex>, white: set<Vertex>)
  {
    forall v: Vertex :: v in white <==> v < |g.succ| && v !in done && v !in vs
  }

  /** The output lists the finished vertices once each, every one after all of its successors. */
  ghost predicate OrderInv(g: Graph, done: set<Vertex>, order: seq<Vertex>)
  {
    && Distinct(order)
    && (forall v: Vertex :: v in done <==> v in order)
    && (forall i | 0 <= i < |order| :: order[i] < |g.succ|)
    && (forall i, c | 0 <= i < |order| && 0 <= c < |g.succ[order[i]]| :: g.succ[order[i]][c] in order[..i])
  }

  ghost predicate SearchInv(g: Graph, vs: seq<Vertex>, nx: seq<nat>, done: set<Vertex>,
                            order: seq<Vertex>, white: set<Vertex>)
  {
    && g.Valid()
    && StackInv(g, vs, nx, done)
    && WhiteInv(g, vs, done, white)
    && OrderInv(g, done, order)
  }

  /**
   * Topological sort of `g`. It fails exactly when `g` has a cycle; on
   * success every vertex appears once, after all of its successors. The
   * order is the search's: it starts with the sink reached from vertex 0 by
   * first out-edges and ends with the last tree root.
   */
  method TopologicalSort(g: Graph) returns (r: Option<seq<Vertex>>)
    requires g.Valid()
    ensures r.Some? <==> Acyclic(g)
    ensures r.Some? ==> IsReverseTopoOrder(g, r.value)
    ensures r.Some? && g.Size() > 0 ==>
      FirstSink(g, 0, r.value[0]) && LastTreeRoot(g, r.value[|r.value| - 1])
  {
    var n := |g.succ|;
    var done: set<Vertex>, order: seq<Vertex>, white: set<Vertex> := {}, [], set v | v in Range(n);
    OuterStart(g, white);
    var s := 0;
    while s < n
      invariant OuterInv(g, s, done, order, white)
    {
      var ok;
      ok, done, order, white := StartAt(g, s, done, order, white);
      if !ok {
        return None;
      }
      s := s + 1;
    }
    OuterEnd(g, done, order, white);
    r := Some(order);
  }

  /**
   * One step of the outer loop: a vertex not yet finished starts a new
   * depth-first tree; a finished one is passed over.
   */
  method StartAt(g: Graph, s: Vertex, done0: set<Vertex>, order0: seq<Vertex>, white0: set<Vertex>)
    returns (ok: bool, done: set<Vertex>, order: seq<Vertex>, white: set<Vertex>)
    requires OuterInv(g, s, done0, order0, white0) && s < |g.succ|
    ensures ok ==> OuterInv(g, s + 1, done, order, white)
    ensures !ok ==> !Acyclic(g)
  {
    if s in done0 {
      SkipStarted(g, s, done0, order0, white0);
      return true, done0, order0, white0;
    }
    ok, done, order, white := Visit(g, s, done0, order0, white0);
    if ok {
      StartTree(g, s, done0, order0, white0, done, order, white);
    }
  }

  /**
   * The outer loop's invariant before starting at `s`: nothing is on the
   * stack, every vertex below `s` is finished, and the roots are tracked.
   */
  ghost predicate OuterInv(g: Graph, s: nat, done: set<Vertex>, order: seq<Vertex>, white: set<Vertex>)
  {
    && s <= |g.succ|
    && SearchInv(g, [], [], done, order, white)
    && (forall v | 0 <= v < s :: v in done)
    && RootsTracked(g, s, done, order)
  }

  lemma OuterStart(g: Graph, white: set<Vertex>)
    requires g.Valid() && white == set v | v in Range(|g.succ|)
    ensures OuterInv(g, 0, {}, [], white)
  {
    forall v: Vertex | v < |g.succ|
      ensures v in white
    {
      assert Range(|g.succ|)[v] == v;
    }
  }

  lemma OuterEnd(g: Graph, done: set<Vertex>, order: seq<Vertex>, white: set<Vertex>)
    requires OuterInv(g, |g.succ|, done, order, white)
    ensures IsReverseTopoOrder(g, order) && Acyclic(g)
    ensures g.Size() > 0 ==> FirstSink(g, 0, order[0]) && LastTreeRoot(g, order[|order| - 1])
  {
    FinishOrderIsRevTopo(g, order);
    RevTopoAcyclic(g, order);
  }

  /**
   * A first-edge descent: from `p[0]`, each step follows the vertex's first
   * out-edge. A search started at `p[0]` with nothing discovered walks
   * exactly this way, and the sink at its end is the first vertex it finishes.
   */
  ghost predicate FirstEdgeDescent(g: Graph, p: seq<Vertex>)
  {
    && |p| >= 1
    && (forall k | 0 <= k < |p| :: p[k] < |g.succ|)
    && (forall k | 0 <= k < |p| - 1 :: FirstEdge(g, p[k], p[k + 1]))
  }

  /** `v` is the first out-neighbour of `u`. */
  ghost predicate FirstEdge(g: Graph, u: Vertex, v: Vertex)
  {
    u < |g.succ| && g.succ[u] != [] && v == g.succ[u][0]
  }

  /** `v` is the sink reached from `s` by following first out-edges. */
  ghost predicate FirstSink(g: Graph, s: Vertex, v: Vertex)
  {
    exists p :: FirstEdgeDescent(g, p) && p[0] == s && p[|p| - 1] == v && g.succ[v] == []
  }

  /** The search starts a new tree at `v`: no smaller vertex reaches it. */
  ghost predicate TreeRoot(g: Graph, v: Vertex)
  {
    v < |g.succ| && forall w | 0 <= w < v :: !Reaches(g, w, v)
  }

  /** `v` is the last tree root, so the last vertex the search finishes. */
  ghost predicate LastTreeRoot(g: Graph, v: Vertex)
  {
    TreeRoot(g, v) && forall w | v < w < |g.succ| :: !TreeRoot(g, w)
  }

  /** `v` is the last tree root among the vertices below `s`. */
  ghost predicate LastRootBelow(g: Graph, s: nat, v: Vertex)
  {
    v < s && TreeRoot(g, v) && forall w | v < w < s :: !TreeRoot(g, w)
  }

  /**
   * What the outer loop knows before starting at `s`: every finished vertex
   * was started below `s` or reached from one, and the order so far begins
   * at the first-edge sink of vertex 0 and ends at the last tree root below `s`.
   */
  ghost predicate RootsTracked(g: Graph, s: nat, done: set<Vertex>, order: seq<Vertex>)
  {
    && (forall v | v in done :: StartedBelow(g, s, v))
    && (s == 0 ==> order == [])
    && (s > 0 ==> order != [] && FirstSink(g, 0, order[0]) && LastRootBelow(g, s, order[|order| - 1]))
  }

  /** `v` is one of the vertices below `s` or reachable from one. */
  ghost predicate StartedBelow(g: Graph, s: nat, v: Vertex)
  {
    exists w: Vertex | w < s :: SameOrReaches(g, w, v)
  }

  ghost predicate SameOrReaches(g: Graph, w: Vertex, v: Vertex)
  {
    v == w || Reaches(g, w, v)
  }

  /** The first-edge sink from a vertex is unique. */
  lemma FirstSinkUnique(g: Graph, s: Vertex, v: Vertex, w: Vertex)
    requires FirstSink(g, s, v) && FirstSink(g, s, w)
    ensures v == w
  {
    var p :| FirstEdgeDescent(g, p) && p[0] == s && p[|p| - 1] == v && g.succ[v] == [];
    var q :| FirstEdgeDescent(g, q) && q[0] == s && q[|q| - 1] == w && g.succ[w] == [];
    var k := 0;
    while k < |p| - 1 && k < |q| - 1
      invariant 0 <= k < |p| && k < |q| && p[k] == q[k]
    {
      assert FirstEdge(g, p[k], p[k + 1]) && FirstEdge(g, q[k], q[k + 1]);
      k := k + 1;
    }
    DescentStep(g, p, k);
    DescentStep(g, q, k);
  }

  /** Below its last vertex, a first-edge descent leaves by a first out-edge. */
  lemma DescentStep(g: Graph, p: seq<Vertex>, k: nat)
    requires FirstEdgeDescent(g, p) && k < |p|
    ensures k < |p| - 1 ==> g.succ[p[k]] != [] && p[k + 1] == g.succ[p[k]][0]
  {
    if k < |p| - 1 {
      assert FirstEdge(g, p[k], p[k + 1]);
    }
  }

  /** The last tree root is unique. */
  lemma LastTreeRootUnique(g: Graph, v: Vertex, w: Vertex)
    requires LastTreeRoot(g, v) && LastTreeRoot(g, w)
    ensures v == w
  {
  }

  /** A finished-order prefix is closed under successors. */
  lemma OrderClosed(g: Graph, done: set<Vertex>, order: seq<Vertex>)
    requires OrderInv(g, done, order)
    ensures SuccClosed(g, done)
  {
    forall x, k | x in done && 0 <= x < |g.succ| && 0 <= k < |g.succ[x]|
      ensures g.succ[x][k] in done
    {
      var i :| 0 <= i < |order| && order[i] == x;
      assert g.succ[order[i]][k] in order[..i];
    }
  }

  /** A vertex already finished when the outer loop reaches it starts no tree. */
  lemma SkipStarted(g: Graph, s: Vertex, done: set<Vertex>, order: seq<Vertex>, white: set<Vertex>)
    requires OuterInv(g, s, done, order, white) && s < |g.succ| && s in done
    ensures OuterInv(g, s + 1, done, order, white)
  {
    assert StartedBelow(g, s, s);
    var w: Vertex :| w < s && SameOrReaches(g, w, s);
    assert !TreeRoot(g, s);
    forall v | v in done
      ensures StartedBelow(g, s + 1, v)
    {
      assert StartedBelow(g, s, v);
      var w': Vertex :| w' < s && SameOrReaches(g, w', v);
    }
  }

  /**
   * A vertex not yet finished when the outer loop reaches it is reached from
   * no smaller vertex, so it is a tree root, and the visit started there ends
   * the order with it.
   */
  lemma StartTree(g: Graph, s: Vertex, done: set<Vertex>, order: seq<Vertex>, white: set<Vertex>,
                  done': set<Vertex>, order': seq<Vertex>, white': set<Vertex>)
    requires OuterInv(g, s, done, order, white) && s < |g.succ| && s !in done
    requires Visited(g, s, done, order, done', order', white')
    ensures OuterInv(g, s + 1, done', order', white')
  {
    OrderClosed(g, done, order);
    forall w | 0 <= w < s
      ensures !Reaches(g, w, s)
    {
      if Reaches(g, w, s) {
        ClosedContainsReached(g, done, w, s);
      }
    }
    forall v | v in done'
      ensures StartedBelow(g, s + 1, v)
    {
      if v in done {
        assert StartedBelow(g, s, v);
        var w': Vertex :| w' < s && SameOrReaches(g, w', v);
      } else {
        assert SameOrReaches(g, s, v);
      }
    }
    if s > 0 {
      assert order'[0] == order[0];
    }
  }

  /** What a visit from `s` that meets no back edge leaves behind. */
  ghost predicate Visited(g: Graph, s: Vertex, done0: set<Vertex>, order0: seq<Vertex>,
                          done: set<Vertex>, order: seq<Vertex>, white: set<Vertex>)
  {
    && SearchInv(g, [], [], done, order, white) && s in done && done0 <= done
    && order0 <= order && |order| > |order0| && order[|order| - 1] == s
    && (forall v | v in done && v !in done0 :: SameOrReaches(g, s, v))
    && (order0 == [] ==> FirstSink(g, s, order[0]))
  }

  /**
   * Depth-first visit from the undiscovered vertex `s`: finishes everything
   * reachable from `s` that is not finished yet, or reports a back edge.
   */
  method Visit(g: Graph, s: Vertex, done0: set<Vertex>, order0: seq<Vertex>, white0: set<Vertex>)
    returns (ok: bool, done: set<Vertex>, order: seq<Vertex>, white: set<Vertex>)
    requires SearchInv(g, [], [], done0, order0, white0)
    requires s < g.Size() && s !in done0
    ensures ok ==> Visited(g, s, done0, order0, done, order, white)
    ensures !ok ==> !Acyclic(g)
  {
    var st := VisitState([s], [0], done0, order0, white0 - {s});
    VisitStart(g, s, done0, order0, white0);
    while st.vs != []
      invariant StateInv(g, s, st, done0, order0)
      decreases st.white, Pending(g, st.vs, st.nx), |st.vs|
    {
      if BackEdgeNext(g, st) {
        BackEdgeFound(g, s, st, done0, order0);
        return false, st.done, st.order, st.white;
      }
      AdvanceKeeps(g, s, st, done0, order0);
      st := Advance(g, st);
    }
    VisitEnd(g, s, st, done0, order0);
    return true, st.done, st.order, st.white;
  }

  /** `VisitInv` of a visit state. */
  ghost predicate StateInv(g: Graph, s: Vertex, st: VisitState, done0: set<Vertex>, order0: seq<Vertex>)
  {
    VisitInv(g, s, st.vs, st.nx, st.done, st.order, st.white, done0, order0)
  }

  lemma VisitStart(g: Graph, s: Vertex, done0: set<Vertex>, order0: seq<Vertex>, white0: set<Vertex>)
    requires SearchInv(g, [], [], done0, order0, white0)
    requires s < g.Size() && s !in done0
    ensures StateInv(g, s, VisitState([s], [0], done0, order0, white0 - {s}), done0, order0)
  {
    assert FirstEdgeDescent(g, [s]);
  }

  lemma BackEdgeFound(g: Graph, s: Vertex, st: VisitState, done0: set<Vertex>, order0: seq<Vertex>)
    requires StateInv(g, s, st, done0, order0) && st.vs != [] && BackEdgeNext(g, st)
    ensures !Acyclic(g)
  {
    var top := |st.vs| - 1;
    BackEdgeCycle(g, st.vs, st.nx, g.succ[st.vs[top]][st.nx[top]]);
  }

  lemma VisitEnd(g: Graph, s: Vertex, st: VisitState, done0: set<Vertex>, order0: seq<Vertex>)
    requires StateInv(g, s, st, done0, order0) && st.vs == []
    ensures Visited(g, s, done0, order0, st.done, st.order, st.white)
  {
  }

  /** The state of a visit: the search stack, and the finished, emitted and undiscovered vertices. */
  datatype VisitState = VisitState(vs: seq<Vertex>, nx: seq<nat>, done: set<Vertex>, order: seq<Vertex>, white: set<Vertex>)

  /** The top frame's next out-edge leads back into the stack. */
  predicate BackEdgeNext(g: Graph, st: VisitState)
    requires |st.vs| == |st.nx| && st.vs != [] && st.vs[|st.vs| - 1] < |g.succ|
  {
    var top := |st.vs| - 1;
    st.nx[top] < |g.succ[st.vs[top]]| && g.succ[st.vs[top]][st.nx[top]] in st.vs
  }

  /**
   * One step of a visit without a back edge: descend into an undiscovered
   * target of the top frame, pass over a finished one, or finish the top
   * frame once its out-edges are exhausted.
   */
  function Advance(g: Graph, st: VisitState): VisitState
    requires |st.vs| == |st.nx| && st.vs != [] && st.vs[|st.vs| - 1] < |g.succ|
  {
    var top := |st.vs| - 1;
    var u, c := st.vs[top], st.nx[top];
    if c < |g.succ[u]| then
      var t := g.succ[u][c];
      if t !in st.done then VisitState(st.vs + [t], st.nx[top := c + 1] + [0], st.done, st.order, st.white - {t})
      else VisitState(st.vs, st.nx[top := c + 1], st.done, st.order, st.white)
    else VisitState(st.vs[..top], st.nx[..top], st.done + {u}, st.order + [u], st.white)
  }

  /** A step keeps the visit invariant and lowers (undiscovered, pending out-edges, stack height). */
  lemma AdvanceKeeps(g: Graph, s: Vertex, st: VisitState, done0: set<Vertex>, order0: seq<Vertex>)
    requires StateInv(g, s, st, done0, order0) && st.vs != []
    requires !BackEdgeNext(g, st)
    ensures var st' := Advance(g, st);
      && StateInv(g, s, st', done0, order0)
      && Lowered(g, st', st)
  {
    var top := |st.vs| - 1;
    var u, c := st.vs[top], st.nx[top];
    if c < |g.succ[u]| {
      if g.succ[u][c] !in st.done {
        AdvancePush(g, s, st, done0, order0);
      } else {
        AdvanceSkip(g, s, st, done0, order0);
      }
    } else {
      AdvancePop(g, s, st, done0, order0);
    }
  }

  /** The loop measure of a visit: undiscovered vertices, then pending out-edges, then stack height. */
  ghost predicate Lowered(g: Graph, st': VisitState, st: VisitState)
    requires |st'.vs| == |st'.nx| && |st.vs| == |st.nx|
  {
    || st'.white < st.white
    || (st'.white == st.white && Pending(g, st'.vs, st'.nx) < Pending(g, st.vs, st.nx))
    || (st'.white == st.white && Pending(g, st'.vs, st'.nx) == Pending(g, st.vs, st.nx) && |st'.vs| < |st.vs|)
  }

  lemma AdvancePush(g: Graph, s: Vertex, st: VisitState, done0: set<Vertex>, order0: seq<Vertex>)
    requires StateInv(g, s, st, done0, order0) && st.vs != []
    requires var top := |st.vs| - 1;
      && st.nx[top] < |g.succ[st.vs[top]]|
      && g.succ[st.vs[top]][st.nx[top]] !in st.vs
      && g.succ[st.vs[top]][st.nx[top]] !in st.done
    ensures var st' := Advance(g, st);
      StateInv(g, s, st', done0, order0) && |st'.vs| == |st'.nx| && st'.white < st.white
  {
    var top := |st.vs| - 1;
    var t := g.succ[st.vs[top]][st.nx[top]];
    var st' := Advance(g, st);
    assert st' == VisitState(st.vs + [t], st.nx[top := st.nx[top] + 1] + [0], st.done, st.order, st.white - {t});
    PushVisit(g, s, st.vs, st.nx, st.done, st.order, st.white, done0, order0, st'.vs, st'.nx, st'.white);
  }

  lemma AdvanceSkip(g: Graph, s: Vertex, st: VisitState, done0: set<Vertex>, order0: seq<Vertex>)
    requires StateInv(g, s, st, done0, order0) && st.vs != []
    requires var top := |st.vs| - 1;
      && st.nx[top] < |g.succ[st.vs[top]]|
      && g.succ[st.vs[top]][st.nx[top]] in st.done
    ensures var st' := Advance(g, st);
      && StateInv(g, s, st', done0, order0) && |st'.vs| == |st'.nx|
      && st'.white == st.white && Pending(g, st'.vs, st'.nx) < Pending(g, st.vs, st.nx)
  {
    var top := |st.vs| - 1;
    var st' := Advance(g, st);
    assert st' == VisitState(st.vs, st.nx[top := st.nx[top] + 1], st.done, st.order, st.white);
    SkipVisit(g, s, st.vs, st.nx, st.done, st.order, st.white, done0, order0, st'.nx);
  }

  lemma AdvancePop(g: Graph, s: Vertex, st: VisitState, done0: set<Vertex>, order0: seq<Vertex>)
    requires StateInv(g, s, st, done0, order0) && st.vs != []
    requires st.nx[|st.vs| - 1] >= |g.succ[st.vs[|st.vs| - 1]]|
    ensures var st' := Advance(g, st);
      && StateInv(g, s, st', done0, order0) && |st'.vs| == |st'.nx|
      && st'.white == st.white && Pending(g, st'.vs, st'.nx) == Pending(g, st.vs, st.nx) && |st'.vs| < |st.vs|
  {
    var top := |st.vs| - 1;
    var u := st.vs[top];
    var st' := Advance(g, st);
    assert st' == VisitState(st.vs[..top], st.nx[..top], st.done + {u}, st.order + [u], st.white);
    PopVisit(g, s, st.vs, st.nx, st.done, st.order, st.white, done0, order0, st'.vs, st'.nx, st'.done, st'.order);
  }

  /** The loop invariant of a visit from `s`. */
  ghost predicate VisitInv(g: Graph, s: Vertex, vs: seq<Vertex>, nx: seq<nat>, done: set<Vertex>,
                           order: seq<Vertex>, white: set<Vertex>, done0: set<Vertex>, order0: seq<Vertex>)
  {
    && SearchInv(g, vs, nx, done, order, white)
    && (vs != [] ==> vs[0] == s)
    && (vs == [] ==> s in done)
    && done0 <= done
    && Tracked(g, s, vs, nx, done, order, done0, order0)
  }

  lemma PushVisit(g: Graph, s: Vertex, vs: seq<Vertex>, nx: seq<nat>, done: set<Vertex>,
                  order: seq<Vertex>, white: set<Vertex>, done0: set<Vertex>, order0: seq<Vertex>,
                  vs': seq<Vertex>, nx': seq<nat>, white': set<Vertex>)
    requires VisitInv(g, s, vs, nx, done, order, white, done0, order0) && vs != []
    requires nx[|vs| - 1] < |g.succ[vs[|vs| - 1]]|
    requires g.succ[vs[|vs| - 1]][nx[|vs| - 1]] !in vs
    requires g.succ[vs[|vs| - 1]][nx[|vs| - 1]] !in done
    requires var top, t := |vs| - 1, g.succ[vs[|vs| - 1]][nx[|vs| - 1]];
      vs' == vs + [t] && nx' == nx[top := nx[top] + 1] + [0] && white' == white - {t}
    ensures white' < white
    ensures VisitInv(g, s, vs', nx', done, order, white', done0, order0)
  {
    PushKeeps(g, vs, nx, done, order, white);
    TrackPush(g, s, vs, nx, done, order, done0, order0);
  }

  lemma SkipVisit(g: Graph, s: Vertex, vs: seq<Vertex>, nx: seq<nat>, done: set<Vertex>,
                  order: seq<Vertex>, white: set<Vertex>, done0: set<Vertex>, order0: seq<Vertex>,
                  nx': seq<nat>)
    requires VisitInv(g, s, vs, nx, done, order, white, done0, order0) && vs != []
    requires nx[|vs| - 1] < |g.succ[vs[|vs| - 1]]|
    requires g.succ[vs[|vs| - 1]][nx[|vs| - 1]] in done
    requires nx' == nx[|vs| - 1 := nx[|vs| - 1] + 1]
    ensures VisitInv(g, s, vs, nx', done, order, white, done0, order0)
    ensures Pending(g, vs, nx') < Pending(g, vs, nx)
  {
    SkipKeeps(g, vs, nx, done, order, white);
    TrackSkip(g, s, vs, nx, done, order, done0, order0);
  }

  lemma PopVisit(g: Graph, s: Vertex, vs: seq<Vertex>, nx: seq<nat>, done: set<Vertex>,
                 order: seq<Vertex>, white: set<Vertex>, done0: set<Vertex>, order0: seq<Vertex>,
                 vs': seq<Vertex>, nx': seq<nat>, done': set<Vertex>, order': seq<Vertex>)
    requires VisitInv(g, s, vs, nx, done, order, white, done0, order0) && vs != []
    requires nx[|vs| - 1] >= |g.succ[vs[|vs| - 1]]|
    requires var top, u := |vs| - 1, vs[|vs| - 1];
      vs' == vs[..top] && nx' == nx[..top] && done' == done + {u} && order' == order + [u]
    ensures VisitInv(g, s, vs', nx', done', order', white, done0, order0)
    ensures Pending(g, vs', nx') == Pending(g, vs, nx) && |vs'| < |vs|
  {
    PopKeeps(g, vs, nx, done, order, white);
    TrackPop(g, s, vs, nx, done, order, done0, order0);
  }

  /** The stack of a search that has finished nothing yet: a first-edge descent, each frame past its first out-edge. */
  ghost predicate FirstFrames(g: Graph, vs: seq<Vertex>, nx: seq<nat>)
  {
    && |vs| == |nx| && FirstEdgeDescent(g, vs)
    && (forall k | 0 <= k < |vs| - 1 :: nx[k] == 1)
    && nx[|vs| - 1] == 0
  }

  /**
   * What a visit from `s` knows beyond the search invariant: the order only
   * grows and ends with `s` once the stack empties, every frame and every
   * newly finished vertex is `s` or reachable from it, and, when nothing was
   * finished before, the stack walks first out-edges until the first finish,
   * which is then the first-edge sink of `s`.
   */
  ghost predicate Tracked(g: Graph, s: Vertex, vs: seq<Vertex>, nx: seq<nat>, done: set<Vertex>,
                          order: seq<Vertex>, done0: set<Vertex>, order0: seq<Vertex>)
  {
    && order0 <= order
    && (vs == [] ==> |order| > |order0| && order[|order| - 1] == s)
    && (forall k | 0 <= k < |vs| :: vs[k] == s || Reaches(g, s, vs[k]))
    && (forall v | v in done && v !in done0 :: v == s || Reaches(g, s, v))
    && (order0 == [] && order == [] ==> FirstFrames(g, vs, nx))
    && (order0 == [] && order != [] ==> FirstSink(g, s, order[0]))
  }

  lemma TrackPush(g: Graph, s: Vertex, vs: seq<Vertex>, nx: seq<nat>, done: set<Vertex>,
                  order: seq<Vertex>, done0: set<Vertex>, order0: seq<Vertex>)
    requires StackInv(g, vs, nx, done) && g.Valid() && vs != [] && vs[0] == s
    requires OrderInv(g, done, order) && Tracked(g, s, vs, nx, done, order, done0, order0)
    requires nx[|vs| - 1] < |g.succ[vs[|vs| - 1]]|
    ensures var top := |vs| - 1;
      Tracked(g, s, vs + [g.succ[vs[top]][nx[top]]], nx[top := nx[top] + 1] + [0], done, order, done0, order0)
  {
    var top := |vs| - 1;
    var u, c := vs[top], nx[top];
    var t := g.succ[u][c];
    var vs', nx' := vs + [t], nx[top := c + 1] + [0];
    ReachStep(g, s, u, t);
    assert forall k | 0 <= k < |vs'| :: vs'[k] == s || Reaches(g, s, vs'[k]) by {
      forall k | 0 <= k < |vs'|
        ensures vs'[k] == s || Reaches(g, s, vs'[k])
      {
        if k < |vs| { assert vs'[k] == vs[k]; }
      }
    }
    if order0 == [] && order == [] {
      forall k | 0 <= k < |vs'| - 1
        ensures g.succ[vs'[k]] != [] && vs'[k + 1] == g.succ[vs'[k]][0]
      {
        if k < top {
          assert vs'[k] == vs[k] && vs'[k + 1] == vs[k + 1];
        }
      }
      assert FirstFrames(g, vs', nx');
    }
  }

  lemma TrackSkip(g: Graph, s: Vertex, vs: seq<Vertex>, nx: seq<nat>, done: set<Vertex>,
                  order: seq<Vertex>, done0: set<Vertex>, order0: seq<Vertex>)
    requires vs != [] && FramesOk(g, vs, nx) && OrderInv(g, done, order)
    requires Tracked(g, s, vs, nx, done, order, done0, order0)
    requires nx[|vs| - 1] < |g.succ[vs[|vs| - 1]]| && g.succ[vs[|vs| - 1]][nx[|vs| - 1]] in done
    ensures Tracked(g, s, vs, nx[|vs| - 1 := nx[|vs| - 1] + 1], done, order, done0, order0)
  {
  }

  lemma TrackPop(g: Graph, s: Vertex, vs: seq<Vertex>, nx: seq<nat>, done: set<Vertex>,
                 order: seq<Vertex>, done0: set<Vertex>, order0: seq<Vertex>)
    requires vs != [] && FramesOk(g, vs, nx) && vs[0] == s
    requires Tracked(g, s, vs, nx, done, order, done0, order0)
    requires nx[|vs| - 1] >= |g.succ[vs[|vs| - 1]]|
    ensures var top := |vs| - 1;
      Tracked(g, s, vs[..top], nx[..top], done + {vs[top]}, order + [vs[top]], done0, order0)
  {
    var top := |vs| - 1;
    var u := vs[top];
    if order0 == [] && order == [] {
      assert g.succ[u] == [];
      assert FirstSink(g, vs[0], u);
    }
    if order != [] {
      assert (order + [u])[0] == order[0];
    }
  }

  lemma ReachStep(g: Graph, s: Vertex, u: Vertex, t: Vertex)
    requires g.Valid() && g.Edge(u, t) && (u == s || Reaches(g, s, u))
    ensures Reaches(g, s, t)
  {
    EdgeReaches(g, u, t);
    if u != s {
      ReachesTrans(g, s, u, t);
    }
  }

  lemma BackEdgeCycle(g: Graph, vs: seq<Vertex>, nx: seq<nat>, t: Vertex)
    requires FramesOk(g, vs, nx)
    requires |vs| > 0 && t in vs && g.Edge(vs[|vs| - 1], t)
    ensures t < g.Size() && !Acyclic(g)
  {
    var m :| 0 <= m < |vs| && vs[m] == t;
    var p := vs[m..] + [t];
    forall k | 0 <= k < |p| - 1
      ensures g.Edge(p[k], p[k + 1])
    {
      if k < |vs| - m - 1 {
        assert p[k] == vs[m + k] && p[k + 1] == vs[m + k + 1];
        assert g.succ[vs[m + k]][nx[m + k] - 1] == vs[m + k + 1];
      } else {
        assert p[k] == vs[|vs| - 1] && p[k + 1] == t;
      }
    }
    assert IsPath(g, p);
    assert Reaches(g, t, t);
  }

  /** A finish order covering every vertex is a reverse topological order. */
  lemma FinishOrderIsRevTopo(g: Graph, order: seq<Vertex>)
    requires g.Valid() && Distinct(order)
    requires forall i | 0 <= i < |order| :: order[i] < |g.succ|
    requires forall v | 0 <= v < |g.succ| :: v in order
    requires forall i, c | 0 <= i < |order| && 0 <= c < |g.succ[order[i]]| :: g.succ[order[i]][c] in order[..i]
    ensures IsReverseTopoOrder(g, order)
  {
    DistinctCoverPermutation(order, |g.succ|);
  }

  /** Descending into an undiscovered successor of the top frame keeps the invariant. */
  lemma PushKeeps(g: Graph, vs: seq<Vertex>, nx: seq<nat>, done: set<Vertex>,
                  order: seq<Vertex>, white: set<Vertex>)
    requires SearchInv(g, vs, nx, done, order, white) && vs != []
    requires nx[|vs| - 1] < |g.succ[vs[|vs| - 1]]|
    requires g.succ[vs[|vs| - 1]][nx[|vs| - 1]] !in vs
    requires g.succ[vs[|vs| - 1]][nx[|vs| - 1]] !in done
    ensures var top, t := |vs| - 1, g.succ[vs[|vs| - 1]][nx[|vs| - 1]];
      && t in white
      && SearchInv(g, vs + [t], nx[top := nx[top] + 1] + [0], done, order, white - {t})
  {
    var top, u, c := |vs| - 1, vs[|vs| - 1], nx[|vs| - 1];
    var t := g.succ[u][c];
    var vs', nx' := vs + [t], nx[top := c + 1] + [0];
    forall k, c' | 0 <= k < |vs'| && 0 <= c' < nx'[k]
      ensures g.succ[vs'[k]][c'] in done || (k + 1 < |vs'| && c' == nx'[k] - 1)
    {
      if k < top {
        assert vs'[k] == vs[k] && nx'[k] == nx[k];
      }
    }
  }

  /** Passing over an out-edge into a finished vertex keeps the invariant and shrinks the pending work. */
  lemma SkipKeeps(g: Graph, vs: seq<Vertex>, nx: seq<nat>, done: set<Vertex>,
                  order: seq<Vertex>, white: set<Vertex>)
    requires SearchInv(g, vs, nx, done, order, white) && vs != []
    requires nx[|vs| - 1] < |g.succ[vs[|vs| - 1]]|
    requires g.succ[vs[|vs| - 1]][nx[|vs| - 1]] in done
    ensures var top := |vs| - 1;
      && SearchInv(g, vs, nx[top := nx[top] + 1], done, order, white)
      && Pending(g, vs, nx[top := nx[top] + 1]) < Pending(g, vs, nx)
  {
    SkipStack(g, vs, nx, done);
    var top, c := |vs| - 1, nx[|vs| - 1];
    var nx' := nx[top := c + 1];
    assert nx'[..top] == nx[..top];
  }

  lemma SkipStack(g: Graph, vs: seq<Vertex>, nx: seq<nat>, done: set<Vertex>)
    requires StackInv(g, vs, nx, done) && vs != []
    requires nx[|vs| - 1] < |g.succ[vs[|vs| - 1]]|
    requires g.succ[vs[|vs| - 1]][nx[|vs| - 1]] in done
    ensures StackInv(g, vs, nx[|vs| - 1 := nx[|vs| - 1] + 1], done)
  {
    var top, c := |vs| - 1, nx[|vs| - 1];
    var nx' := nx[top := c + 1];
    assert FramesOk(g, vs, nx');
    forall k, c' | 0 <= k < |vs| && 0 <= c' < nx'[k]
      ensures g.succ[vs[k]][c'] in done || (k + 1 < |vs| && c' == nx'[k] - 1)
    {
      if k < top {
        assert nx'[k] == nx[k];
      }
    }
  }

  /** Finishing the top frame, whose out-edges are all examined, keeps the invariant. */
  lemma PopKeeps(g: Graph, vs: seq<Vertex>, nx: seq<nat>, done: set<Vertex>,
                 order: seq<Vertex>, white: set<Vertex>)
    requires SearchInv(g, vs, nx, done, order, white) && vs != []
    requires nx[|vs| - 1] >= |g.succ[vs[|vs| - 1]]|
    ensures var top, u := |vs| - 1, vs[|vs| - 1];
      && SearchInv(g, vs[..top], nx[..top], done + {u}, order + [u], white)
      && Pending(g, vs[..top], nx[..top]) == Pending(g, vs, nx)
  {
    var top, u := |vs| - 1, vs[|vs| - 1];
    assert vs == vs[..top] + [u] && nx == nx[..top] + [nx[top]];
    PopStack(g, vs, nx, done);
    forall v: Vertex
      ensures v in white <==> v < |g.succ| && v !in done + {u} && v !in vs[..top]
    {
      if v != u {
        assert v in vs <==> v in vs[..top];
      }
    }
    PopOrder(g, done, order, u);
  }

  lemma PopStack(g: Graph, vs: seq<Vertex>, nx: seq<nat>, done: set<Vertex>)
    requires StackInv(g, vs, nx, done) && vs != []
    requires nx[|vs| - 1] >= |g.succ[vs[|vs| - 1]]|
    ensures StackInv(g, vs[..|vs| - 1], nx[..|vs| - 1], done + {vs[|vs| - 1]})
  {
    var top, u := |vs| - 1, vs[|vs| - 1];
    var vs', nx', done' := vs[..top], nx[..top], done + {u};
    assert FramesOk(g, vs', nx');
    forall k, c | 0 <= k < |vs'| && 0 <= c < nx'[k]
      ensures g.succ[vs'[k]][c] in done' || (k + 1 < |vs'| && c == nx'[k] - 1)
    {
      assert vs'[k] == vs[k] && nx'[k] == nx[k];
      if k + 1 == top && c == nx[k] - 1 {
        assert g.succ[vs[k]][c] == u;
      }
    }
  }

  lemma PopOrder(g: Graph, done: set<Vertex>, order: seq<Vertex>, u: Vertex)
    requires OrderInv(g, done, order)
    requires u < |g.succ| && u !in done
    requires forall c | 0 <= c < |g.succ[u]| :: g.succ[u][c] in done
    ensures OrderInv(g, done + {u}, order + [u])
  {
    var order' := order + [u];
    forall i, c | 0 <= i < |order'| && 0 <= c < |g.succ[order'[i]]|
      ensures g.succ[order'[i]][c] in order'[..i]
    {
      if i < |order| {
        assert order'[..i] == order[..i];
      } else {
        assert order'[..i] == order;
      }
    }
  }
}
